=== FILE: README.md ===
# PyramidShader core, modelled in Dafny

PyramidShader is a terrain renderer. It smooths a digital elevation model by
weighting the levels of a Laplacian pyramid. It then shades the generalized
terrain in several ways: hillshading, colour ramps, normal maps, illuminated
contours, plan oblique relief and bivariate colour look-up tables. It also
reads and writes vector lines as ESRI Shapefiles with dBASE attribute tables.

This project models that core as pure Dafny functions and methods over
immutable data:

- A raster is a sequence of rows of cells. A cell is a real value or `Void`,
  which stands for Java's NaN.
- Functions of the Java math library (`Math.sqrt`, `exp`, `pow`, `atan2`,
  `cos`, `sin`, `tan`) are parameters. Each comes with a predicate stating
  the few laws the proofs need.
- A Java exception is a `Failure` of the `Result` type in `Wrappers`.
- A Java `null` is `None` where a method may return one.
- Java's `(int)` cast truncates toward zero (`Numeric.Trunc`).
- `Math.round` adds one half and takes the floor (`Numeric.Round`).
- 32-bit wrap-around is written out where the code's `int` fields can
  overflow (`Bytes.Wrap32`).

The modules follow the program's classes:

| module | models |
|---|---|
| `Grids` | `Grid`: size and cell size, geographic extent, bilinear and bicubic interpolation, min/max, slope classes |
| `CellOperators` | the cell-wise mask, void, difference, division and difference-division operators, chunk by chunk |
| `Pyramids` | the level count and constant weight vectors of a Laplacian pyramid; how levels are built is not modelled |
| `TerrainModel` | `Model`: the level weights, the generalization switch, the predefined colour ramps and their selection by name, the destination image size, and the update of the generalized grid |
| `LocalGrids` | `LocalGridModel`: the three lazily computed grids (high pass, local standard deviation, filtered), when they are dropped or refreshed, and the detail weights |
| `StandardDeviation` | `GridStandardDeviationOperator`: window sums over the high-pass band and their normalisation |
| `Argb`, `Colorizer` | `ColorizerOperator`: ramp look-up, ARGB packing, the nine-case gradient stencil, aspect and the colour modes |
| `Shader` | `ShaderOperator`: the metric cell size, the surface normal and the Lambertian shade |
| `NormalMap` | `NormalMapOperator`: normals encoded as RGB bytes |
| `IlluminatedContours` | `IlluminatedContoursOperator`: the gray, black or transparent decision per pixel and the row range of a chunk |
| `PlanOblique` | `PlanObliqueOperator`: the upward column scan with void skipping and the occlusion blend |
| `Bivariate` | `BivariateColorPoint`, `BivariateColorRenderer` and `ColorLUT`: inverse-distance colour weighting, LUT cells and the LUT rebuild after every edit |
| `Features`, `Collections` | `Point`, `Geometry`, `LineString` and `GeometryCollection`, and bounding boxes |
| `Smoothing` | `LineString.smoothPointAttribute`: a moving average of one point attribute along a line, in the code's in-place order |
| `Shearing` | `PlanObliqueShearing` of lines |
| `Bytes` | big- and little-endian ints, and layout lemmas for concatenated byte fields |
| `ShapeExport`, `ShapeImport` | the Shapefile writer and the main-file and index-file reader |
| `ShapeRoundTrip`, `ShapeFileRoundTrip` | the record-level and file-level round trip from the writer to the reader |
| `Dbf` | `DBFExporter`: the dBASE III header, field descriptors and records |
| `Tables` | `Table`: column statistics, row look-up and column classes |
| `Paths` | extension replacement and sibling-file resolution of the importers |
| `Numeric`, `Wrappers` | shared arithmetic helpers, and the `Result` and `Option` types |

The Shapefile layout follows the ESRI Shapefile Technical Description
(July 1998), sections "Organization of the Main File" and "Organization of
the Index File". The dBASE layout follows the dBASE III file header.

Where the code departs from its evident intent, the model keeps both
versions. An `…AsWritten` member follows the code. The corrected member
carries the intended property. Most members built on top of it use the
corrected member, and "Left out" lists each of those with the case where it
departs from the code. Three follow the code instead:

- the aspect mode of `Colorizer.PixelAt` calls `Grids.Aspect` as written,
  and so fails at border cells as the code does;
- `Shearing.ShearPoint`, and every shearing member built on it, takes its
  elevation from `Grids.BilinearAsWritten`, border branches included;
- `LocalGrids.StdOf` runs `StandardDeviation.Chunk` with the
  `BorderAsWritten` window rule, because `Chunk` takes the border rule as a
  parameter.

See "Findings".

## Model

| member | source | states |
|---|---|---|
| Grids.North | src/edu/oregonstate/cartography/grid/Grid.java:509-511 | the north border lies (rows - 1) cell sizes above the south border |
| Grids.East | src/edu/oregonstate/cartography/grid/Grid.java:518-520 | the east border lies (cols - 1) cell sizes east of the west border |
| Grids.NewGrid | src/edu/oregonstate/cartography/grid/Grid.java:63-71 | the constructor succeeds exactly for at least 3 columns and 3 rows, giving a zero-filled grid of that size with cell size 1 at the origin |
| Grids.NewGridWithCellSize | src/edu/oregonstate/cartography/grid/Grid.java:80-92 | additionally rejects a cell size that is not positive; otherwise the grid has the requested cell size |
| Grids.Copy | src/edu/oregonstate/cartography/grid/Grid.java:44-55 | the copy has the template's size, cell size, position and every cell value |
| Grids.IdenticalInSizeIsEquivalence | src/edu/oregonstate/cartography/grid/Grid.java:316-324 | same size is reflexive, symmetric and transitive on grids, a copy matches its template, and a null grid matches nothing |
| Grids.Blend | src/edu/oregonstate/cartography/grid/Grid.java:194 | the bilinear blend is void when a corner is void and reproduces the top-left or bottom-left corner at the matching weights |
| Grids.Lerp | src/edu/oregonstate/cartography/grid/Grid.java:128-135 | the linear blend of two values is void when either is, and reproduces each end at weight 0 and 1 |
| Grids.BilinearAsWritten | src/edu/oregonstate/cartography/grid/Grid.java:146-195 | truncated indices outside the grid give NaN and the lower-right corner returns its own cell |
| Grids.Bilinear | src/edu/oregonstate/cartography/grid/Grid.java:146-195 | points outside the grid's bounds give NaN and the lower-right corner returns its own cell |
| Grids.BilinearAtNode | src/edu/oregonstate/cartography/grid/Grid.java:146-195 | the corrected interpolation returns every node's value, or NaN when a corner of that node's cell is NaN |
| Grids.LowerBorderCounterexample | src/edu/oregonstate/cartography/grid/Grid.java:173-177 | on the bottom row the code as written returns the value of column 2 at the node of column 1 |
| Grids.RightBorderCounterexample | src/edu/oregonstate/cartography/grid/Grid.java:128-135 | on the east column the code as written returns the south-east value at the north-east node |
| Grids.OutsideWestCounterexample | src/edu/oregonstate/cartography/grid/Grid.java:153-161 | half a cell west of the grid the code as written extrapolates instead of returning NaN |
| Grids.InterpCubic | src/edu/oregonstate/cartography/grid/Grid.java:249-251 | the cubic through four knots passes through the second knot at u = 0 and the third at u = 1 |
| Grids.Stencil | src/edu/oregonstate/cartography/grid/Grid.java:212-232 | the four indices around i1, mirrored to i2 at the start and to i1 at the end |
| Grids.Cubic2D | src/edu/oregonstate/cartography/grid/Grid.java:242-246 | the two-pass cubic of a 4 x 4 block is NaN when any of its cells is, and at (0, 0) it is the block's inner corner |
| Grids.BicubicAsWritten | src/edu/oregonstate/cartography/grid/Grid.java:205-247 | the code as written succeeds exactly when its column stencil indexes rows and its row stencil indexes columns in range |
| Grids.Bicubic | src/edu/oregonstate/cartography/grid/Grid.java:205-247 | the corrected interpolation succeeds exactly when both stencils lie inside the grid |
| Grids.BicubicAtNode | src/edu/oregonstate/cartography/grid/Grid.java:205-247 | the corrected interpolation returns the node's value at every node whose stencil fits, or NaN when its block holds a NaN |
| Grids.BicubicCounterexample | src/edu/oregonstate/cartography/grid/Grid.java:237-240 | on a grid of 3 rows and 5 columns the code as written reads past the last row where the corrected version returns the constant value |
| Grids.SlopeOf | src/edu/oregonstate/cartography/grid/Grid.java:371-373 | the Sobel slope is NaN exactly when a neighbour is NaN, is never negative, and squares to the sum of the squared gradients |
| Grids.SlopeInsideGrid | src/edu/oregonstate/cartography/grid/Grid.java:359-374 | the slope of an interior cell is never negative |
| Grids.SlopeWindow | src/edu/oregonstate/cartography/grid/Grid.java:389-392 | the neighbour indices step one cell away and are clamped into the grid |
| Grids.Slope | src/edu/oregonstate/cartography/grid/Grid.java:385-408 | the slope with clamped neighbours is never negative |
| Grids.SlopeAgreesInside | src/edu/oregonstate/cartography/grid/Grid.java:359-408 | away from the border getSlope and getSlopeInsideGrid agree |
| Grids.FlatGridHasZeroSlope | src/edu/oregonstate/cartography/grid/Grid.java:385-408 | a grid of one constant value has slope 0 everywhere, borders included |
| Grids.Aspect | src/edu/oregonstate/cartography/grid/Grid.java:326-332 | getAspect succeeds exactly for cells with all four direct neighbours in the grid, and is NaN exactly when one of them is NaN |
| Grids.ScanRow | src/edu/oregonstate/cartography/grid/Grid.java:266-273 | after one row the minimum and maximum bound every non-NaN value of it and are either a start value or such a value |
| Grids.ScanRows | src/edu/oregonstate/cartography/grid/Grid.java:265-274 | after the rows the minimum and maximum bound every non-NaN value and are either a start value or such a value |
| Grids.MinMax | src/edu/oregonstate/cartography/grid/Grid.java:260-276 | every non-NaN value lies in [min, max], each is a value of the grid or its start value, and an all-NaN grid yields the two start values |
| CellOperators.MaskCell | src/edu/oregonstate/cartography/grid/operators/GridMaskOperator.java:29-31 | a destination cell becomes void exactly when the source cell is void (or it already was); otherwise it keeps its value |
| CellOperators.VoidCell | src/edu/oregonstate/cartography/grid/operators/GridVoidOperator.java:30 | a cell equal to the void value v becomes NaN, every other cell is copied unchanged |
| CellOperators.DiffCell | src/edu/oregonstate/cartography/grid/operators/GridDiffOperator.java:33-34 | the difference is void when either operand is, and otherwise adds back to the first operand: d + b == a |
| CellOperators.DivCell | src/edu/oregonstate/cartography/grid/operators/GridDivOperator.java:53-54 | the quotient is void when an operand is void or the denominator grid2 + k is zero (Java's infinity test), and otherwise multiplies back: q * (b + k) == a |
| CellOperators.DiffDivCell | src/edu/oregonstate/cartography/grid/operators/GridDiffDivOperator.java:57-58 | (a - b) / (c + k) is void when an operand is void or c + k is zero, and otherwise q * (c + k) + b == a |
| CellOperators.MaskChunk | src/edu/oregonstate/cartography/grid/operators/GridMaskOperator.java:19-34 | rows [startRow, endRow) of every column get the mask rule; rows outside the chunk and the raster's shape are unchanged |
| CellOperators.VoidChunk | src/edu/oregonstate/cartography/grid/operators/GridVoidOperator.java:22-33 | rows [startRow, endRow) get the void-value rule from the source; other rows and the shape are unchanged |
| CellOperators.DiffChunk | src/edu/oregonstate/cartography/grid/operators/GridDiffOperator.java:21-37 | rows [startRow, endRow) of the destination are replaced by source minus destination, cell by cell; other rows unchanged |
| CellOperators.DivChunk | src/edu/oregonstate/cartography/grid/operators/GridDivOperator.java:41-57 | rows [startRow, endRow) hold grid1 / (grid2 + k) cell by cell; other rows unchanged |
| CellOperators.DiffDivChunk | src/edu/oregonstate/cartography/grid/operators/GridDiffDivOperator.java:43-61 | rows [startRow, endRow) hold (grid1 - grid2) / (grid3 + k) cell by cell; other rows unchanged |
| CellOperators.Div | src/edu/oregonstate/cartography/grid/operators/GridDivOperator.java:24-57 | a missing grid is an IllegalArgumentException and a smaller grid2 an index error; otherwise the result has grid1's shape and each cell is the checked quotient, equal to the whole-raster Quotient |
| CellOperators.DiffDiv | src/edu/oregonstate/cartography/grid/operators/GridDiffDivOperator.java:25-61 | a missing grid is an IllegalArgumentException and a smaller grid2 or grid3 an index error; otherwise each cell is (grid1 - grid2) / (grid3 + k) with grid1's shape |
| CellOperators.Difference | src/edu/oregonstate/cartography/grid/operators/GridDiffOperator.java:21-37 | the whole-raster difference fails exactly when b lacks a cell of a; otherwise every present cell adds back to a and voids propagate |
| CellOperators.Quotient | src/edu/oregonstate/cartography/grid/operators/GridDivOperator.java:41-57 | the whole-raster quotient fails exactly when b lacks a cell of a; otherwise voids and zero denominators give void and every present cell multiplies back to a |
| CellOperators.MaskAll | src/edu/oregonstate/cartography/grid/operators/GridMaskOperator.java:19-34 | masking a whole raster leaves a cell void iff the source or destination cell is void, and keeps every other destination value |
| CellOperators.MaskIdempotent | src/edu/oregonstate/cartography/grid/operators/GridMaskOperator.java:29-31 | masking twice with the same source gives the same raster as masking once |
| CellOperators.DivInvertsProduct | src/edu/oregonstate/cartography/grid/operators/GridDivOperator.java:53-54 | dividing a * (b + k) by b + k gives back a whenever the denominator is not zero |
| TerrainModel.SetGeneralizationDetails | src/edu/oregonstate/cartography/grid/Model.java:601-606 | values outside [-1, 1] throw IllegalArgumentException; any other value is stored and the level count is kept |
| TerrainModel.LevelWeight | src/edu/oregonstate/cartography/grid/Model.java:300-329 | the weight lies in [0, 1], is 1 at or above the generalized level count or without levels, and 0 below it when details is 1 |
| TerrainModel.SlopeNonNegative | src/edu/oregonstate/cartography/grid/Model.java:313-324 | for details in [-1, 1) the weight line has slope m >= 0 in both branches |
| TerrainModel.LineReachesOne | src/edu/oregonstate/cartography/grid/Model.java:313-325 | in both branches the weight line reaches exactly 1 at level = maxLevels |
| TerrainModel.LineNondecreasing | src/edu/oregonstate/cartography/grid/Model.java:325 | with such details the unclamped line never falls from one level to a higher one |
| TerrainModel.WeightMonotone | src/edu/oregonstate/cartography/grid/Model.java:300-329 | for any accepted details value coarser levels never weigh less than finer ones |
| TerrainModel.ZeroUpToCrossing | src/edu/oregonstate/cartography/grid/Model.java:313-319 | for details in (0, 1) every level up to details * maxLevels weighs 0 |
| TerrainModel.NotGeneralizingKeepsAllLevels | src/edu/oregonstate/cartography/grid/Model.java:320-324 | details -1 (not generalizing) gives m = 0, c = 1 and weight 1 on every level |
| TerrainModel.Weights | src/edu/oregonstate/cartography/grid/Model.java:343-346 | the weight vector has one entry per pyramid level, entry i being the weight of level i |
| TerrainModel.WeightsSorted | src/edu/oregonstate/cartography/grid/Model.java:343-346 | the weight vector lies in [0, 1] and is sorted, coarse levels weighing most |
| TerrainModel.UpdateGeneralizedGrid | src/edu/oregonstate/cartography/grid/Model.java:335-362 | without a pyramid nothing changes; not generalizing copies the grid; generalizing masks the weighted pyramid sum with the grid's voids and rescales it to the grid's range |
| TerrainModel.GeneralizedGridKeepsVoids | src/edu/oregonstate/cartography/grid/Model.java:341-359 | every void of the grid is void in the generalized grid, in both branches, and the shape is the grid's |
| TerrainModel.PredefinedRamps | src/edu/oregonstate/cartography/grid/Model.java:226-273 | the model offers six predefined ramps |
| TerrainModel.InitialRamp | src/edu/oregonstate/cartography/grid/Model.java:275 | a new model starts with the first predefined ramp, Black-White |
| TerrainModel.PredefinedRampsValid | src/edu/oregonstate/cartography/grid/Model.java:229-273 | each predefined ramp has as many colours as positions, valid channels and ascending positions |
| TerrainModel.PredefinedNamesDistinct | src/edu/oregonstate/cartography/grid/Model.java:233-273 | no two predefined ramps share a name, so selecting by name is unambiguous |
| TerrainModel.SelectColorRamp | src/edu/oregonstate/cartography/grid/Model.java:284-291 | an unknown name keeps the current ramp; otherwise the first ramp with that name is chosen |
| TerrainModel.SelectPredefined | src/edu/oregonstate/cartography/grid/Model.java:284-291 | selecting a predefined ramp by its name yields that ramp whatever was current |
| TerrainModel.SelectIdempotent | src/edu/oregonstate/cartography/grid/Model.java:284-291 | selecting the same name twice changes nothing the second time |
| TerrainModel.DestinationSize | src/edu/oregonstate/cartography/grid/Model.java:371-388 | the bivariate mode with an attribute grid sizes the image to that grid; otherwise no image without a generalized grid, and else the grid's size times the scale |
| TerrainModel.Image | src/edu/oregonstate/cartography/grid/Model.java:375-387 | creating an image with a dimension below 1 throws; otherwise the image has the requested size |
| TerrainModel.DestinationFitsGrid | src/edu/oregonstate/cartography/grid/Model.java:379-387 | at scale 1 the destination image has one pixel per cell of the generalized grid, so the colorizer can render into it |
| LocalGrids.Initial | src/edu/oregonstate/cartography/grid/LocalGridModel.java:22-59 | a new model has no grid, high-pass weight 1.5, three deviation levels and empty caches |
| LocalGrids.GaussStdDev | src/edu/oregonstate/cartography/grid/LocalGridModel.java:92-99 | for a weight in [0, 1) the Gaussian deviation weight * 1.2 + 0.3 lies in [0.3, 1.5), and is 0.3 for weight 0 |
| LocalGrids.GaussStdDevIncreasing | src/edu/oregonstate/cartography/grid/LocalGridModel.java:99 | a larger high-pass weight asks for a wider blur |
| LocalGrids.DetailWeights | src/edu/oregonstate/cartography/grid/LocalGridModel.java:108-115 | one weight per level in [0, 1]: 1 below floor(w), the constant 0 above, and w - floor(w) at floor(w) |
| LocalGrids.DetailWeightsSum | src/edu/oregonstate/cartography/grid/LocalGridModel.java:108-115 | the weights add up to the high-pass weight, or to the level count when it asks for more levels than the pyramid has |
| LocalGrids.WholeWeightIsBand | src/edu/oregonstate/cartography/grid/LocalGridModel.java:108-115 | a whole-number high-pass weight k selects the same band as the standard-deviation operator for k levels |
| LocalGrids.FilteredOf | src/edu/oregonstate/cartography/grid/LocalGridModel.java:149-150 | the filtered grid is highPass / (std + 1) rescaled to the original range, and fails exactly when the deviation grid does not cover the high-pass grid |
| LocalGrids.SetGrid | src/edu/oregonstate/cartography/grid/LocalGridModel.java:61-68 | setGrid stores the grid, its range and pyramid, keeps the settings and clears the high-pass, deviation and filtered caches |
| LocalGrids.UpdateHighPass | src/edu/oregonstate/cartography/grid/LocalGridModel.java:77-119 | without a grid nothing changes; otherwise only the high-pass cache changes, to original minus low-pass below weight 1 and to the weighted pyramid sum from 1 on |
| LocalGrids.UpdateStd | src/edu/oregonstate/cartography/grid/LocalGridModel.java:121-128 | without a grid nothing changes; otherwise only the deviation cache changes, to the as-written deviation operator's grid of the original's shape |
| LocalGrids.UpdateFiltered | src/edu/oregonstate/cartography/grid/LocalGridModel.java:136-151 | without a grid nothing changes; otherwise only missing caches are filled, and the filtered grid is computed from them |
| LocalGrids.GetFiltered | src/edu/oregonstate/cartography/grid/LocalGridModel.java:70-75 | a cached filtered grid is returned as is; otherwise it is computed first, and it exists once a grid is set |
| LocalGrids.SetHighPassWeight | src/edu/oregonstate/cartography/grid/LocalGridModel.java:163-168 | any value is stored unchecked, and with a grid the high-pass and filtered grids are recomputed for it |
| LocalGrids.SetStdLevels | src/edu/oregonstate/cartography/grid/LocalGridModel.java:181-186 | with assertions enabled a level count below 1 fails the assertion; otherwise (and always with assertions disabled) it is stored, and with a grid the deviation and filtered grids are recomputed |
| LocalGrids.InitialCoherent | src/edu/oregonstate/cartography/grid/LocalGridModel.java:58-59 | a new model's caches are coherent with its settings |
| LocalGrids.SetGridCoherent | src/edu/oregonstate/cartography/grid/LocalGridModel.java:61-68 | after setGrid the caches are coherent with the new grid |
| LocalGrids.UpdateHighPassCoherent | src/edu/oregonstate/cartography/grid/LocalGridModel.java:77-119 | updateHighPassGrid makes the high-pass cache current and keeps the deviation cache current |
| LocalGrids.UpdateStdCoherent | src/edu/oregonstate/cartography/grid/LocalGridModel.java:121-128 | updateStdGrid makes the deviation cache current and keeps the high-pass cache current |
| LocalGrids.UpdateFilteredCoherent | src/edu/oregonstate/cartography/grid/LocalGridModel.java:136-151 | updateFilteredGrid leaves every cache current |
| LocalGrids.SetHighPassWeightCoherent | src/edu/oregonstate/cartography/grid/LocalGridModel.java:163-168 | changing the high-pass weight keeps the caches coherent with the new weight |
| LocalGrids.SetStdLevelsCoherent | src/edu/oregonstate/cartography/grid/LocalGridModel.java:181-186 | changing the level count keeps the caches coherent with the new count |
| LocalGrids.GetFilteredIsFresh | src/edu/oregonstate/cartography/grid/LocalGridModel.java:70-75 | the cache is invisible: on a coherent model getFilteredGrid returns what a computation from scratch returns, and fails exactly when it fails |
| LocalGrids.ComputedIsFresh | src/edu/oregonstate/cartography/grid/LocalGridModel.java:136-151 | filling an empty filtered cache computes what a computation from scratch returns |
| LocalGrids.GetFilteredTwice | src/edu/oregonstate/cartography/grid/LocalGridModel.java:70-75 | a second getFilteredGrid finds the cache filled and changes nothing |
| StandardDeviation.FilterSize | src/edu/oregonstate/cartography/grid/operators/GridStandardDeviationOperator.java:31-33 | levels * 16 + 1 is odd for every level count and at least 1 for a non-negative one |
| StandardDeviation.HalfFilterSize | src/edu/oregonstate/cartography/grid/operators/GridStandardDeviationOperator.java:47-48 | Java's truncating filterSize / 2 is 8 * levels for a non-negative count, and the window 2h + 1 is filterSize |
| StandardDeviation.HighPassWeights | src/edu/oregonstate/cartography/grid/operators/GridStandardDeviationOperator.java:57-60 | one weight per pyramid level: 1 below `levels`, the constant 0 from there |
| StandardDeviation.HighPassWeightSum | src/edu/oregonstate/cartography/grid/operators/GridStandardDeviationOperator.java:57-60 | exactly min(levels, pyramid levels) levels, and no others, keep full weight |
| StandardDeviation.Term | src/edu/oregonstate/cartography/grid/operators/GridStandardDeviationOperator.java:102-111 | a cell adds its squared band value where the rule counts it and 0 elsewhere, never a negative amount, and NaN exactly for a NaN band value |
| StandardDeviation.WindowVoid | src/edu/oregonstate/cartography/grid/operators/GridStandardDeviationOperator.java:102-112 | a window sum is NaN exactly when one of its terms is NaN |
| StandardDeviation.SumAtLeastTerm | src/edu/oregonstate/cartography/grid/operators/GridStandardDeviationOperator.java:102-112 | a sum of numbers is a number no smaller than any of its terms |
| StandardDeviation.BandTermsAreNumbers | src/edu/oregonstate/cartography/grid/operators/GridStandardDeviationOperator.java:134-146 | without voids in the band every term of every rule is a number |
| StandardDeviation.Deviation | src/edu/oregonstate/cartography/grid/operators/GridStandardDeviationOperator.java:113-114 | the deviation is never negative and is NaN exactly when the window sum is |
| StandardDeviation.RootMean | src/edu/oregonstate/cartography/grid/operators/GridStandardDeviationOperator.java:113 | sqrt(sum / npts) is NaN for a NaN sum, never negative, 0 for a zero sum and positive for a positive one |
| StandardDeviation.NominalCells | src/edu/oregonstate/cartography/grid/operators/GridStandardDeviationOperator.java:97 | the divisor filterSize^2 is positive |
| StandardDeviation.Window | src/edu/oregonstate/cartography/grid/operators/GridStandardDeviationOperator.java:103-112 | a window sum is never negative |
| StandardDeviation.FlatBandHasZeroDeviation | src/edu/oregonstate/cartography/grid/operators/GridStandardDeviationOperator.java:97-149 | a flat high-pass band has deviation 0 everywhere, under the interior and the border rule alike |
| StandardDeviation.AsWrittenMissesSpike | src/edu/oregonstate/cartography/grid/operators/GridStandardDeviationOperator.java:134-146 | as written the border rule never counts row 0 or column 0, so the north-west corner's window sums to 0 although its own band value is 1 |
| StandardDeviation.SpikeWindow | src/edu/oregonstate/cartography/grid/operators/GridStandardDeviationOperator.java:134-146 | the corrected border rule counts the north-west corner's own value: its window sum is at least 1 |
| StandardDeviation.BorderSkipsFirstRowAndColumn | src/edu/oregonstate/cartography/grid/operators/GridStandardDeviationOperator.java:132-149 | at the north-west corner the rule as written reports deviation 0 where the corrected rule reports a positive deviation |
| StandardDeviation.Chunk | src/edu/oregonstate/cartography/grid/operators/GridStandardDeviationOperator.java:40-117 | a null source throws IllegalArgumentException and loops leaving the grid an index error; otherwise border cells get the clipped-window deviation under the given border rule (BorderAsWritten being the code's loops), interior cells the full-window deviation, and other cells keep their value |
| StandardDeviation.BorderAndInteriorDisjoint | src/edu/oregonstate/cartography/grid/operators/GridStandardDeviationOperator.java:66-101 | no cell is written by both the border and the interior loops |
| StandardDeviation.ChunkRowsCovered | src/edu/oregonstate/cartography/grid/operators/GridStandardDeviationOperator.java:66-101 | every cell of the chunk's rows is written, and rows outside the chunk are written only in the top and bottom bands |
| StandardDeviation.CornerIsBorder | src/edu/oregonstate/cartography/grid/operators/GridStandardDeviationOperator.java:66-71 | in a chunk covering the grid the north-west corner is a border cell for every positive level count |
| StandardDeviation.ChunkMissesSpike | src/edu/oregonstate/cartography/grid/operators/GridStandardDeviationOperator.java:134-146 | over a whole grid whose band is a spike at the north-west corner, the operator as written leaves deviation 0 in that corner, while the rule starting at row 0 and column 0 reports a positive deviation |
| Argb.Pack | src/edu/oregonstate/cartography/grid/operators/ColorizerOperator.java:175-178 | a pixel built from alpha, red, green and blue bytes with shifts and bitwise or reads back each byte unchanged |
| Argb.Opaque | src/edu/oregonstate/cartography/grid/operators/ColorizerOperator.java:404-405 | the gray pixel g with g shifted into all three colour bytes is opaque and carries g in each channel |
| Argb.PackInjective | src/edu/oregonstate/cartography/grid/operators/ColorizerOperator.java:175-178 | distinct channel tuples give distinct pixels, so the packed form loses nothing |
| Colorizer.RoutineOf | src/edu/oregonstate/cartography/grid/operators/ColorizerOperator.java:563-592 | every mode but the continuous one selects a routine; the local modes share the routines of their global counterparts |
| Colorizer.PredicatesMatchDispatch | src/edu/oregonstate/cartography/grid/operators/ColorizerOperator.java:47-69 | isShading holds exactly for the modes whose routine computes the shade stencil, isColored exactly for those not rendered in gray or as curvature, and every local mode is coloured |
| Colorizer.Normalize | src/edu/oregonstate/cartography/grid/operators/ColorizerOperator.java:163 | the normalised value (v - min) / (max - min) places v on the ramp, +Infinity above a degenerate range and void for a void value |
| Colorizer.NormalizeEndpoints | src/edu/oregonstate/cartography/grid/operators/ColorizerOperator.java:163 | the smallest and largest value of the range land on the ramp positions 0 and 1 |
| Colorizer.KnotBelow | src/edu/oregonstate/cartography/grid/operators/ColorizerOperator.java:169-205 | the downward knot loop stops at the largest knot at or below the value, or finds none |
| Colorizer.KnotBelowFindsInterval | src/edu/oregonstate/cartography/grid/operators/ColorizerOperator.java:169-205 | when the value lies between knots i and i + 1 the loop interpolates between exactly those two knots |
| Colorizer.Mix | src/edu/oregonstate/cartography/grid/operators/ColorizerOperator.java:200-202 | the weighted blend tl * lower + tu * upper of two knot channels lies between the two channels |
| Colorizer.Scale | src/edu/oregonstate/cartography/grid/operators/ColorizerOperator.java:175-178 | the (int) cast of mult times a channel, for mult in [0, 1], is a channel no brighter than the original |
| Colorizer.ScaledColor | src/edu/oregonstate/cartography/grid/operators/ColorizerOperator.java:175-178 | darkening a colour by a factor in [0, 1] keeps it a colour, and the factor 1 keeps it unchanged |
| Colorizer.KnotFraction | src/edu/oregonstate/cartography/grid/operators/ColorizerOperator.java:186 | tu, the distance from knot i as a fraction of the knot spacing, lies in [0, 1) and is 0 at the knot itself |
| Colorizer.Blended | src/edu/oregonstate/cartography/grid/operators/ColorizerOperator.java:186-203 | the colour between two knots, darkened by mult, is a valid colour |
| Colorizer.RampColor | src/edu/oregonstate/cartography/grid/operators/ColorizerOperator.java:160-213 | at or above the last knot the last colour, below the first knot the first colour, and between knots i and i + 1 their blend, each darkened by mult |
| Colorizer.LinearRgb | src/edu/oregonstate/cartography/grid/operators/ColorizerOperator.java:160-213 | getLinearRGB returns an opaque pixel carrying the ramp colour |
| Colorizer.RampPassesThroughKnots | src/edu/oregonstate/cartography/grid/operators/ColorizerOperator.java:160-213 | at the position of a knot the unshaded ramp yields exactly that knot's colour |
| Colorizer.NormalZ | src/edu/oregonstate/cartography/grid/operators/ColorizerOperator.java:276-284 | nz = 2 * cellSize / vertExaggeration, with a geographic cell size first converted to metres on a sphere of radius 6371000; an exaggeration of 0 makes nz infinite, or NaN when the cell size is 0 too |
| Colorizer.ShadeNormal | src/edu/oregonstate/cartography/grid/operators/ColorizerOperator.java:305-314 | the gray of a normal is clamped into [0, 255], and void (NaN) exactly for a zero-length normal or a non-finite nz |
| Colorizer.ZeroExaggerationShadesVoid | src/edu/oregonstate/cartography/grid/operators/ColorizerOperator.java:283-284 | with a vertical exaggeration of 0 every normal shades to NaN, so the gray modes write VOID_COLOR |
| Colorizer.Sub | src/edu/oregonstate/cartography/grid/operators/ColorizerOperator.java:316-386 | a stencil difference is void exactly when one of its cells is void |
| Colorizer.GradientAsWritten | src/edu/oregonstate/cartography/grid/operators/ColorizerOperator.java:316-386 | the stencil as written agrees with the central and one-sided differences everywhere except nx in the top-left corner |
| Colorizer.PlaneHasUniformGradient | src/edu/oregonstate/cartography/grid/operators/ColorizerOperator.java:316-386 | on a tilted plane every one of the nine border cases of the corrected stencil yields the same normal (-2a, 2b) |
| Colorizer.TopLeftSignFlipped | src/edu/oregonstate/cartography/grid/operators/ColorizerOperator.java:319-324 | in the top-left corner the stencil as written computes 2 * (e - c), the negation of the x component the other border cases compute |
| Colorizer.TopLeftCounterexample | src/edu/oregonstate/cartography/grid/operators/ColorizerOperator.java:319-324 | on a plane rising to the east the top-left pixel gets nx = +2 while its neighbour and the corrected stencil get -2 |
| Colorizer.Shade | src/edu/oregonstate/cartography/grid/operators/ColorizerOperator.java:316-386 | the shade of a cell is void when a cell the stencil reads is void, otherwise a gray in [0, 255] |
| Colorizer.AspectBorderCounterexample | src/edu/oregonstate/cartography/grid/operators/ColorizerOperator.java:516-533 | the aspect routine asks for the aspect of column 0, whose unclamped neighbour look-up throws |
| Colorizer.ClampedAspect | src/edu/oregonstate/cartography/grid/operators/ColorizerOperator.java:516-533 | the clamped aspect agrees with getAspect wherever getAspect reads only cells inside the grid |
| Colorizer.PixelAt | src/edu/oregonstate/cartography/grid/operators/ColorizerOperator.java:389-592 | the pixel a mode writes: only the aspect mode throws, and only at a border cell; the continuous mode writes nothing; the shading modes write VOID_COLOR exactly for a void shade; the hypsometric modes exactly for a void cell; slope exactly for a void slope; bivariate the renderer's pixel or VOID_COLOR without grids |
| Colorizer.PixelsOpaqueOrVoid | src/edu/oregonstate/cartography/grid/operators/ColorizerOperator.java:389-555 | every pixel written by a mode other than bivariate is VOID_COLOR or opaque |
| Colorizer.GrayShadingIsGray | src/edu/oregonstate/cartography/grid/operators/ColorizerOperator.java:400-405 | gray shading writes the truncated shade into all three channels of an opaque pixel |
| Colorizer.RampOrVoid | src/edu/oregonstate/cartography/grid/operators/ColorizerOperator.java:477-495 | a void value gives VOID_COLOR and any other value an opaque ramp colour |
| Colorizer.HypsometricShaded | src/edu/oregonstate/cartography/grid/operators/ColorizerOperator.java:411-433 | hypsometric shading writes VOID_COLOR exactly for a void shade, otherwise the opaque ramp colour of the elevation darkened by gray / 255 |
| Colorizer.HypsometricPlain | src/edu/oregonstate/cartography/grid/operators/ColorizerOperator.java:477-495 | hypsometric colouring writes VOID_COLOR exactly for a void cell |
| Colorizer.OperateChunk | src/edu/oregonstate/cartography/grid/operators/ColorizerOperator.java:563-592 | the rows of the chunk get their mode's pixel and every other row is left as it was; the aspect mode throws for a non-empty chunk and the continuous mode writes nothing |
| Shader.UnitDotBounds | src/edu/oregonstate/cartography/grid/operators/ShaderOperator.java:131-134 | the dot product of the unit normal and a unit light vector lies in [-1, 1], as the comment promises |
| Shader.Normalized | src/edu/oregonstate/cartography/grid/operators/ShaderOperator.java:90-94 | with a positive z the normalised vector is a unit vector pointing the same way as (x, y, z) |
| Shader.Gray | src/edu/oregonstate/cartography/grid/operators/ShaderOperator.java:136-137 | (dot + 1) / 2 * 255 maps [-1, 1] onto [0, 255], -1 to black and 1 to white |
| Shader.GrayIncreasing | src/edu/oregonstate/cartography/grid/operators/ShaderOperator.java:136-137 | a surface turned further towards the light is strictly brighter |
| Shader.Rise | src/edu/oregonstate/cartography/grid/operators/ShaderOperator.java:60-83 | a height difference scaled by s is void exactly when one of its cells is void |
| Shader.Horizontal | src/edu/oregonstate/cartography/grid/operators/ShaderOperator.java:49-87 | x is void exactly when the centre or an existing east or west neighbour is void, y likewise for the north and south neighbours |
| Shader.ShadeCell | src/edu/oregonstate/cartography/grid/operators/ShaderOperator.java:105-138 | a cell's gray is void exactly when a cell its stencil reads is void, and otherwise lies in [0, 255] for a unit light vector |
| Shader.NormalHeight | src/edu/oregonstate/cartography/grid/operators/ShaderOperator.java:88 | the normal's vertical component 2 * cellSize^2 is positive |
| Shader.LitGray | src/edu/oregonstate/cartography/grid/operators/ShaderOperator.java:86-137 | the gray of horizontal components is void exactly when one of them is, and lies in [0, 255] for a unit light vector |
| Shader.PlaneHasUniformNormal | src/edu/oregonstate/cartography/grid/operators/ShaderOperator.java:58-87 | the border reflection keeps the normal of a tilted plane: all nine border cases give (-2as, 2bs) |
| Shader.RiseAlongRow | src/edu/oregonstate/cartography/grid/operators/ShaderOperator.java:65-84 | on a plane the east rise is a*s and the west rise -a*s |
| Shader.RiseAlongColumn | src/edu/oregonstate/cartography/grid/operators/ShaderOperator.java:58-77 | on a plane the south rise is b*s and the north rise -b*s |
| Shader.PlaneShadedUniformly | src/edu/oregonstate/cartography/grid/operators/ShaderOperator.java:49-138 | a tilted plane gets one gray value everywhere, border cells included |
| Shader.ShadeCellFactors | src/edu/oregonstate/cartography/grid/operators/ShaderOperator.java:116-137 | a cell's gray depends on the grid only through its horizontal components, with the cell size converted from degrees to metres below 0.1 |
| Shader.DefaultSettings | src/edu/oregonstate/cartography/grid/operators/ShaderOperator.java:17-35 | a new operator has exaggeration 1, azimuth 315 and zenith 45 |
| Shader.ShadeChunk | src/edu/oregonstate/cartography/grid/operators/ShaderOperator.java:106-140 | every column of the rows [startRow, endRow) of dst receives its cell's gray, and the other rows are kept |
| NormalMap.Shift | src/edu/oregonstate/cartography/grid/operators/NormalMapOperator.java:121-129 | the byte lands in the channel it is shifted to, every other byte of the word is zero, and the alpha byte stays clear |
| NormalMap.Combine | src/edu/oregonstate/cartography/grid/operators/NormalMapOperator.java:158 | the combined pixel is opaque, and each channel byte is the or of the components assigned to that channel |
| NormalMap.CombineReadsBack | src/edu/oregonstate/cartography/grid/operators/NormalMapOperator.java:158 | with one channel per component, each component reads back unchanged from its own channel |
| NormalMap.Level | src/edu/oregonstate/cartography/grid/operators/NormalMapOperator.java:155-157 | Math.round((m + 1) / 2 * 255) maps -1, 0 and 1 to 0, 128 and 255 |
| NormalMap.LevelAroundMiddle | src/edu/oregonstate/cartography/grid/operators/NormalMapOperator.java:155-157 | a positive normalised component encodes at or above 128, its negation at or below 127 |
| NormalMap.Components | src/edu/oregonstate/cartography/grid/operators/NormalMapOperator.java:139-157 | a zero vector divides 0 by 0 and rounds to (0, 0, 0) bytes |
| NormalMap.InvertXOnlyNegatesX | src/edu/oregonstate/cartography/grid/operators/NormalMapOperator.java:145-157 | toggling invertX encodes x as -x and leaves the y and z bytes unchanged |
| NormalMap.NormalArgb | src/edu/oregonstate/cartography/grid/operators/NormalMapOperator.java:139-159 | every encoded normal is opaque |
| NormalMap.LevelSurfaceIsNeutral | src/edu/oregonstate/cartography/grid/operators/NormalMapOperator.java:139-159 | a level surface with the default channels encodes to the neutral 0xFF8080FF |
| NormalMap.Encode | src/edu/oregonstate/cartography/grid/operators/NormalMapOperator.java:139-158 | every encoded pixel is opaque; a NaN horizontal component or NaN nz gives opaque blue 0xFF0000FF, and an infinite nz encodes x and y as 128 and z as 0 |
| NormalMap.PixelAsWritten | src/edu/oregonstate/cartography/grid/operators/NormalMapOperator.java:172-243 | the nine-case stencil as written yields an opaque pixel |
| NormalMap.Pixel | src/edu/oregonstate/cartography/grid/operators/NormalMapOperator.java:172-243 | the corrected stencil yields an opaque pixel and agrees with the stencil as written everywhere except the top-left corner |
| NormalMap.ZeroExaggerationEncodesFlat | src/edu/oregonstate/cartography/grid/operators/NormalMapOperator.java:260-272 | with a vertical exaggeration of 0 and a positive cell size every cell with valid neighbours encodes x and y as 128 and z as 0, whatever the terrain |
| NormalMap.PlaneEncodesUniformly | src/edu/oregonstate/cartography/grid/operators/NormalMapOperator.java:172-243 | with the corrected stencil a tilted plane encodes to the same pixel at every cell, borders and corners included |
| NormalMap.TopLeftCounterexample | src/edu/oregonstate/cartography/grid/operators/NormalMapOperator.java:174-180 | on a plane rising to the east the stencil as written puts the top-left x byte on the other side of the middle from its neighbour's |
| NormalMap.PixelAsWrittenEncodes | src/edu/oregonstate/cartography/grid/operators/NormalMapOperator.java:260-272 | each pixel as written is the encoded stencil gradient with nz = 2 * cellSize / vertExaggeration |
| NormalMap.PlaneCorners | src/edu/oregonstate/cartography/grid/operators/NormalMapOperator.java:174-195 | on a plane the stencil as written gives +2a in the top-left corner and -2a beside it |
| NormalMap.XByteOfEncoded | src/edu/oregonstate/cartography/grid/operators/NormalMapOperator.java:139-158 | with one channel per component the x channel of an encoded normal holds its x level |
| NormalMap.OppositeXLevels | src/edu/oregonstate/cartography/grid/operators/NormalMapOperator.java:145-157 | opposite x components encode on opposite sides of the middle level |
| NormalMap.OperateChunk | src/edu/oregonstate/cartography/grid/operators/NormalMapOperator.java:254-275 | every pixel of the rows [startRow, endRow) receives its encoded normal and the other rows are untouched |
| NormalMap.Operate | src/edu/oregonstate/cartography/grid/operators/NormalMapOperator.java:109-113 | the whole image receives the encoded normals with the operator's own exaggeration, the argument being ignored; a null image is dereferenced |
| NormalMap.OperateGrids | src/edu/oregonstate/cartography/grid/operators/NormalMapOperator.java:96-99 | operate(Grid, Grid) always throws UnsupportedOperationException |
| IlluminatedContours.NewContours | src/edu/oregonstate/cartography/grid/operators/IlluminatedContoursOperator.java:73-100 | the constructor keeps every parameter and stores the contour interval as its absolute value |
| IlluminatedContours.SmallestAngleDiff | src/edu/oregonstate/cartography/grid/operators/IlluminatedContoursOperator.java:240-243 | the folded difference lies in [0, 180] and is the difference of the two angles or its negation, up to whole turns |
| IlluminatedContours.AngleDiffSymmetric | src/edu/oregonstate/cartography/grid/operators/IlluminatedContoursOperator.java:240-243 | the folded difference does not depend on the order of the two angles |
| IlluminatedContours.AngleDiffIsSmallest | src/edu/oregonstate/cartography/grid/operators/IlluminatedContoursOperator.java:240-243 | no whole number of turns brings the two angles closer than the folded difference |
| IlluminatedContours.ZDist | src/edu/oregonstate/cartography/grid/operators/IlluminatedContoursOperator.java:300-303 | the vertical distance lies in [0, interval / 2], is NaN exactly for a zero interval, and is the distance to some multiple of the interval |
| IlluminatedContours.ZDistIsNearest | src/edu/oregonstate/cartography/grid/operators/IlluminatedContoursOperator.java:300-303 | no contour level k * interval lies closer to the elevation than the folded distance |
| IlluminatedContours.BlendWeight | src/edu/oregonstate/cartography/grid/operators/IlluminatedContoursOperator.java:262 | the blend weight times the range gives back gridMax - elevation; on a flat range it is NaN exactly at gridMax and +Infinity exactly below it, as a division by +0 gives |
| IlluminatedContours.Blend | src/edu/oregonstate/cartography/grid/operators/IlluminatedContoursOperator.java:265 | the blended width is finite exactly for a finite weight, is the high width at w = 0 and the low width at w = 1, and is NaN for a NaN weight |
| IlluminatedContours.AngleWidth | src/edu/oregonstate/cartography/grid/operators/IlluminatedContoursOperator.java:267-290 | for a finite weight the modulated width is never infinite, and NaN exactly when an illuminated line with transition angle 0 points straight at the light; a NaN weight gives NaN |
| IlluminatedContours.LineWidth | src/edu/oregonstate/cartography/grid/operators/IlluminatedContoursOperator.java:259-297 | a finite width is at least minWidth * cellSize; off a flat range it is never infinite and NaN exactly when an illuminated line with transition angle 0 points straight at the light; on a flat range the elevation gridMax gives NaN |
| IlluminatedContours.ToneFor | src/edu/oregonstate/cartography/grid/operators/IlluminatedContoursOperator.java:306-316 | the shaded side and shadowed-only contours are black, the lit side gets the illuminated gray, and the gradient band gets the band tone |
| IlluminatedContours.BandTone | src/edu/oregonstate/cartography/grid/operators/IlluminatedContoursOperator.java:314-315 | the gray inside the gradient band lies in [0, 254] |
| IlluminatedContours.BandFraction | src/edu/oregonstate/cartography/grid/operators/IlluminatedContoursOperator.java:315 | the band fraction d / (2 * gradientAngle) lies strictly between 0 and 1 |
| IlluminatedContours.BandDarkensAwayFromLight | src/edu/oregonstate/cartography/grid/operators/IlluminatedContoursOperator.java:309-316 | inside the band the gray darkens as the aspect turns away from the light |
| IlluminatedContours.ComputeGray | src/edu/oregonstate/cartography/grid/operators/IlluminatedContoursOperator.java:254-319 | NaN inputs, slope 0 and the elevation gridMax on a flat range are transparent, shadowed-only contours are black or transparent, and a covered cell gets the tone of its side |
| IlluminatedContours.FlatRangeDrawsBelowMax | src/edu/oregonstate/cartography/grid/operators/IlluminatedContoursOperator.java:262-293 | on a flat range an elevation below gridMax gives shadowed contours with a falling width an infinite line width, so a cell with positive slope is drawn black |
| IlluminatedContours.GrayPixel | src/edu/oregonstate/cartography/grid/operators/IlluminatedContoursOperator.java:185 | the pixel of any int tone is opaque, and a tone in [0, 255] appears in all three channels |
| IlluminatedContours.DefaultIlluminatedColorIsWhite | src/edu/oregonstate/cartography/grid/Model.java:148 | the default illuminated colour 0x00FFFFFF draws opaque white pixels |
| IlluminatedContours.ContourPixel | src/edu/oregonstate/cartography/grid/operators/IlluminatedContoursOperator.java:178-188 | a written contour pixel is opaque, gray when the illuminated colour is a channel value, and a cell at gridMax on a flat range writes nothing |
| IlluminatedContours.PixelWrittenUnlessTransparent | src/edu/oregonstate/cartography/grid/operators/IlluminatedContoursOperator.java:178-188 | a pixel is written exactly where computeGray is not transparent, and never on a void elevation |
| IlluminatedContours.Degrees | src/edu/oregonstate/cartography/grid/operators/IlluminatedContoursOperator.java:181 | the aspect in degrees is NaN exactly when the aspect is NaN |
| IlluminatedContours.RowRange | src/edu/oregonstate/cartography/grid/operators/IlluminatedContoursOperator.java:131-140 | the corrected chunk visits exactly the rows of the chunk that have four neighbours in the grid |
| IlluminatedContours.LastInteriorRowSkipped | src/edu/oregonstate/cartography/grid/operators/IlluminatedContoursOperator.java:132-133 | the row above the bottom row has an aspect, yet the range as written stops before it while the corrected range visits it |
| IlluminatedContours.RenderRows | src/edu/oregonstate/cartography/grid/operators/IlluminatedContoursOperator.java:138-142 | inside the visited rows and columns 1 to cols - 2 each pixel is the contour pixel or kept; every other pixel is kept |
| IlluminatedContours.RenderRow | src/edu/oregonstate/cartography/grid/operators/IlluminatedContoursOperator.java:139-141 | one row: interior columns get their contour pixel where there is one, the border columns are kept |
| IlluminatedContours.RenderToImage | src/edu/oregonstate/cartography/grid/operators/IlluminatedContoursOperator.java:111-142 | a missing image throws IllegalArgumentException; otherwise the chunk's interior cells are rendered and every other pixel is kept |
| PlanOblique.ElevationScale | src/edu/oregonstate/cartography/grid/operators/PlanObliqueOperator.java:44-48 | the shearing factor is k, divided by the metres per degree (pi / 180 * 6371000) when the cell size is below 0.1 |
| PlanOblique.FrameOf | src/edu/oregonstate/cartography/grid/operators/PlanObliqueOperator.java:36-48 | the frame of a valid grid has a positive cell size |
| PlanOblique.TargetStep | src/edu/oregonstate/cartography/grid/operators/PlanObliqueOperator.java:81 | each row further north is one cell size further up |
| PlanOblique.SkipVoids | src/edu/oregonstate/cartography/grid/operators/PlanObliqueOperator.java:64-73 | walking north the scan stops at the first row holding a value, or at -1, and every row it passed is void |
| PlanOblique.Interpolate | src/edu/oregonstate/cartography/grid/operators/PlanObliqueOperator.java:106-109 | the interpolated elevation is void exactly when no vertex lies below yet, and otherwise lies between the two vertices' elevations |
| PlanOblique.Seek | src/edu/oregonstate/cartography/grid/operators/PlanObliqueOperator.java:88-123 | the search never lowers prevShearedY and never passes targetY: occluded vertices do not update it |
| PlanOblique.ScanRows | src/edu/oregonstate/cartography/grid/operators/PlanObliqueOperator.java:78-127 | the outer loop yields exactly one value for each remaining row |
| PlanOblique.ShearColumn | src/edu/oregonstate/cartography/grid/operators/PlanObliqueOperator.java:56-127 | the sheared column has the column's length, and the void run at its south end stays void |
| PlanOblique.ScanColumn | src/edu/oregonstate/cartography/grid/operators/PlanObliqueOperator.java:56-127 | the imperative scan of one column computes the sheared column |
| PlanOblique.ScanRowsLoop | src/edu/oregonstate/cartography/grid/operators/PlanObliqueOperator.java:78-127 | the outer loop assigns rows p0 down to 0 the values the scan gives them and leaves the other rows alone |
| PlanOblique.SeekLoop | src/edu/oregonstate/cartography/grid/operators/PlanObliqueOperator.java:88-123 | the inner loop with its two breaks computes the search result and the new scan state |
| PlanOblique.SkipVoidsLoop | src/edu/oregonstate/cartography/grid/operators/PlanObliqueOperator.java:92-95 | the pre-decrementing while loop stops at the next row holding a value, or at -1 |
| PlanOblique.SeekInRange | src/edu/oregonstate/cartography/grid/operators/PlanObliqueOperator.java:88-123 | the search only carries and returns elevations within the range of the column |
| PlanOblique.ShearStaysInRange | src/edu/oregonstate/cartography/grid/operators/PlanObliqueOperator.java:56-127 | shearing never leaves the range of the column's elevations: it only interpolates |
| PlanOblique.LowestVertexLiftsOff | src/edu/oregonstate/cartography/grid/operators/PlanObliqueOperator.java:74-111 | with a positive shear the southernmost value above the reference elevation has nothing below it to interpolate from and its row becomes void |
| PlanOblique.UnshearedSeek | src/edu/oregonstate/cartography/grid/operators/PlanObliqueOperator.java:88-123 | without shear each search returns the target row's own elevation, except at row 0 |
| PlanOblique.UnshearedColumn | src/edu/oregonstate/cartography/grid/operators/PlanObliqueOperator.java:56-127 | without shear a column without voids comes back unchanged except row 0, which becomes void |
| PlanOblique.VoidColumnStaysVoid | src/edu/oregonstate/cartography/grid/operators/PlanObliqueOperator.java:64-73 | a column without values stays void |
| PlanOblique.Column | src/edu/oregonstate/cartography/grid/operators/PlanObliqueOperator.java:68-90 | the column of a grid holds the column's value for each row |
| PlanOblique.Operate | src/edu/oregonstate/cartography/grid/operators/PlanObliqueOperator.java:30-130 | a null grid gives null; otherwise the result has the grid's size, cell size, south and west, and each column is the sheared source column |
| Bivariate.NewPoint | src/edu/oregonstate/cartography/gui/bivariate/BivariateColorPoint.java:12-32 | a new point has Java's zero colour and attributes and an undefined (NaN) location |
| Bivariate.SetColor | src/edu/oregonstate/cartography/gui/bivariate/BivariateColorPoint.java:69-79 | the getters return exactly the colour set; attributes and location stay |
| Bivariate.SetAttributes | src/edu/oregonstate/cartography/gui/bivariate/BivariateColorPoint.java:145-161 | the attribute setters store their arguments and change nothing else |
| Bivariate.SetLonLat | src/edu/oregonstate/cartography/gui/bivariate/BivariateColorPoint.java:169-172 | after setLonLat the location is defined exactly when both arguments are numbers |
| Bivariate.Distance | src/edu/oregonstate/cartography/gui/bivariate/BivariateColorRenderer.java:177-179 | the distance in the attribute plane is never negative and is 0 exactly at the point itself |
| Bivariate.GaussianWeight | src/edu/oregonstate/cartography/gui/bivariate/BivariateColorRenderer.java:156-159 | the Gaussian weight exp(-K d^2) is positive, and 1 at distance 0 |
| Bivariate.InverseDistanceWeight | src/edu/oregonstate/cartography/gui/bivariate/BivariateColorRenderer.java:161-163 | the inverse-distance weight is finite and positive away from the point; at the point it is infinite exactly for a positive exponent |
| Bivariate.WeightOf | src/edu/oregonstate/cartography/gui/bivariate/BivariateColorRenderer.java:181 | the weight is inverse-distance when useIDW is set and Gaussian otherwise, and a finite weight is never negative |
| Bivariate.Weights | src/edu/oregonstate/cartography/gui/bivariate/BivariateColorRenderer.java:173-187 | each control point gets the weight of its distance to the position |
| Bivariate.Mean | src/edu/oregonstate/cartography/gui/bivariate/BivariateColorRenderer.java:189-191 | the clamped quotient cast to int is a channel, and 0 for a zero total (NaN cast) |
| Bivariate.MeanPixel | src/edu/oregonstate/cartography/gui/bivariate/BivariateColorRenderer.java:189-194 | the pixel of the three weighted means is opaque |
| Bivariate.InterpolateAsWritten | src/edu/oregonstate/cartography/gui/bivariate/BivariateColorRenderer.java:165-195 | the interpolation as written is opaque, and black as soon as one weight is infinite |
| Bivariate.Interpolate | src/edu/oregonstate/cartography/gui/bivariate/BivariateColorRenderer.java:165-195 | the corrected interpolation is opaque and agrees with the code as written whenever every weight is finite |
| Bivariate.WeightedSumBetween | src/edu/oregonstate/cartography/gui/bivariate/BivariateColorRenderer.java:173-187 | with non-negative weights a weighted channel sum lies between the least and greatest channel times the total weight |
| Bivariate.MeanBetween | src/edu/oregonstate/cartography/gui/bivariate/BivariateColorRenderer.java:189-191 | a sum between lo and hi times a positive total has its clamped mean between lo and hi |
| Bivariate.EffectiveTotalPositive | src/edu/oregonstate/cartography/gui/bivariate/BivariateColorRenderer.java:173-187 | with at least one point, and a non-negative exponent under inverse-distance weights, the weights add up to a positive total |
| Bivariate.InterpolateWithinColours | src/edu/oregonstate/cartography/gui/bivariate/BivariateColorRenderer.java:165-195 | an interpolated channel never leaves the range of the control points' channels |
| Bivariate.UniformColour | src/edu/oregonstate/cartography/gui/bivariate/BivariateColorRenderer.java:165-195 | if every control point has the same colour every interpolated pixel has that colour |
| Bivariate.GaussianWeightsAreFinite | src/edu/oregonstate/cartography/gui/bivariate/BivariateColorRenderer.java:156-159 | Gaussian weights are never infinite, so with them the code as written is the corrected interpolation |
| Bivariate.UniformColourAsWritten | src/edu/oregonstate/cartography/gui/bivariate/BivariateColorRenderer.java:165-195 | with Gaussian weights the code as written returns the shared colour of uniform points |
| Bivariate.ControlPointKeepsColour | src/edu/oregonstate/cartography/gui/bivariate/BivariateColorRenderer.java:161-195 | with inverse-distance weights the corrected interpolation returns a lone control point's own colour at its position |
| Bivariate.ControlPointBlackAsWritten | src/edu/oregonstate/cartography/gui/bivariate/BivariateColorRenderer.java:161-195 | with inverse-distance weights and a positive exponent the code as written is black at every control point |
| Bivariate.BrownAloneAtOrigin | src/edu/oregonstate/cartography/gui/bivariate/BivariateColorRenderer.java:218-259 | the renderer's four default points start with brown (131, 116, 96) alone at the origin |
| Bivariate.DefaultCornerBlackAsWritten | src/edu/oregonstate/cartography/gui/bivariate/BivariateColorRenderer.java:38-46 | with inverse-distance weights and exponent 1.3 the code as written makes the table's first cell black |
| Bivariate.DefaultCornerBrown | src/edu/oregonstate/cartography/gui/bivariate/BivariateColorRenderer.java:38-46 | the corrected table holds brown in that cell |
| Bivariate.Sample | src/edu/oregonstate/cartography/gui/bivariate/BivariateColorRenderer.java:40-44 | every sampled table colour is opaque |
| Bivariate.Lut | src/edu/oregonstate/cartography/gui/bivariate/BivariateColorRenderer.java:38-46 | the rebuilt table has 256 rows of 256 cells |
| Bivariate.LutOpaque | src/edu/oregonstate/cartography/gui/bivariate/BivariateColorRenderer.java:38-46 | every table cell is opaque, so none reads as VOID_COLOR |
| Bivariate.Rebuilt | src/edu/oregonstate/cartography/gui/bivariate/BivariateColorRenderer.java:49-51 | colorPointsChanged leaves a current table and keeps the points and weighting |
| Bivariate.AddPoint | src/edu/oregonstate/cartography/gui/bivariate/BivariateColorRenderer.java:75-78 | addPoint appends the point and leaves a current table |
| Bivariate.FirstIndex | src/edu/oregonstate/cartography/gui/bivariate/BivariateColorRenderer.java:80-83 | the index found holds the point and no earlier entry does |
| Bivariate.RemoveFirst | src/edu/oregonstate/cartography/gui/bivariate/BivariateColorRenderer.java:81 | ArrayList.remove takes out the first occurrence only, keeping the others in order, and changes nothing for an absent point |
| Bivariate.RemovePoint | src/edu/oregonstate/cartography/gui/bivariate/BivariateColorRenderer.java:80-83 | removePoint takes out one occurrence of the point and leaves a current table |
| Bivariate.SetExponentP | src/edu/oregonstate/cartography/gui/bivariate/BivariateColorRenderer.java:63-66 | the exponent changes, useIDW and the points stay, and the table is current again |
| Bivariate.SetUseIdw | src/edu/oregonstate/cartography/gui/bivariate/BivariateColorRenderer.java:294-297 | the choice of weights changes, the exponent and the points stay, and the table is current again |
| Bivariate.Index | src/edu/oregonstate/cartography/gui/bivariate/BivariateColorRenderer.java:100-101 | (int) Math.round(a * 255) of a position in [0, 1] is a table index within half a step of a * 255 |
| Bivariate.Lookup | src/edu/oregonstate/cartography/gui/bivariate/BivariateColorRenderer.java:96-102 | a NaN position gives VOID_COLOR; otherwise a current table yields the sample nearest to the two positions, the second selecting the row |
| Bivariate.CachedSample | src/edu/oregonstate/cartography/gui/bivariate/BivariateColorRenderer.java:38-46 | a current table holds each cell's sample |
| Bivariate.LutColor | src/edu/oregonstate/cartography/gui/bivariate/BivariateColorRenderer.java:105-107 | getLUTColor succeeds exactly inside the table and returns the sample of the flipped row |
| Bivariate.NewRenderer | src/edu/oregonstate/cartography/gui/bivariate/BivariateColorRenderer.java:29-32 | a new renderer holds the four default points, the default weighting, a current table and no grids |
| Bivariate.SetAttribute1Grid | src/edu/oregonstate/cartography/gui/bivariate/BivariateColorRenderer.java:309-312 | a null grid throws when its range is computed; otherwise only the first grid changes |
| Bivariate.SetAttribute2Grid | src/edu/oregonstate/cartography/gui/bivariate/BivariateColorRenderer.java:324-327 | a null grid throws when its range is computed; otherwise only the second grid changes |
| Bivariate.Warning | src/edu/oregonstate/cartography/gui/bivariate/BivariateColorRenderer.java:348-358 | no warning exactly when both grids are set, and otherwise the message naming what is missing |
| Bivariate.Scaled | src/edu/oregonstate/cartography/gui/bivariate/BivariateColorRenderer.java:86-94 | a scaled attribute lies in [0, 1] and is NaN exactly for a NaN cell or a grid whose minimum equals its maximum |
| Bivariate.Fraction | src/edu/oregonstate/cartography/gui/bivariate/BivariateColorRenderer.java:88-89 | the position of v in [lo, hi] lies in [0, 1] and scales back to v - lo |
| Bivariate.RenderPixel | src/edu/oregonstate/cartography/gui/bivariate/BivariateColorRenderer.java:85-103 | renderPixel fails with a null grid or a cell outside a grid, and otherwise returns the lookup of the two scaled attributes |
| Bivariate.Hex | src/edu/oregonstate/cartography/gui/bivariate/BivariateColorRenderer.java:205 | Integer.toHexString gives at least one lower-case hexadecimal digit |
| Bivariate.HexDigit | src/edu/oregonstate/cartography/gui/bivariate/BivariateColorRenderer.java:205 | each digit is a hexadecimal digit whose value is the number it encodes |
| Bivariate.HexRoundTrip | src/edu/oregonstate/cartography/gui/bivariate/BivariateColorRenderer.java:205 | reading the hexadecimal digits back gives the number |
| Bivariate.Items | src/edu/oregonstate/cartography/gui/bivariate/BivariateColorRenderer.java:199-207 | each point contributes an entry exactly when its location is defined |
| Bivariate.ColorPointsString | src/edu/oregonstate/cartography/gui/bivariate/BivariateColorRenderer.java:197-215 | the string fails exactly when a located point has a colour outside [0, 255] (new Color throws) |
| Bivariate.BufferIsJoined | src/edu/oregonstate/cartography/gui/bivariate/BivariateColorRenderer.java:198-208 | the buffer is the located points' entries joined by ", " and followed by one ", ", or empty |
| Bivariate.ColorPointsStringJoinsEntries | src/edu/oregonstate/cartography/gui/bivariate/BivariateColorRenderer.java:209-214 | dropping the trailing two characters leaves the located points' entries separated by ", ", and nothing without located points |
| Bivariate.NewColorLut | src/edu/oregonstate/cartography/grid/ColorLUT.java:41-83 | a new ColorLUT holds its four points with the default weighting, and its table is current after the last addPoint |
| Bivariate.LutPosition | src/edu/oregonstate/cartography/grid/ColorLUT.java:95-96 | the table index of a NaN position is 0 and that of a position in [0, 1] is the nearest of the 256 samples |
| Bivariate.RenderShaded | src/edu/oregonstate/cartography/grid/ColorLUT.java:91-98 | with assertions enabled a NaN or out-of-range argument fails the assertion; with them disabled NaN reads row or column 0 and only a position rounding outside the table is an index error; an argument in [0, 1] gives the nearest cell of the table either way |
| Bivariate.ColorLutWarning | src/edu/oregonstate/cartography/grid/ColorLUT.java:229-232 | ColorLUT never warns |
| Features.GetAttribute | src/edu/oregonstate/cartography/simplefeatures/Geometry.java:19-21 | a name that was never set yields null |
| Features.SetAttribute | src/edu/oregonstate/cartography/simplefeatures/Geometry.java:15-17 | afterwards the name is present and yields the value; every other name keeps its presence and value, and at most one key is added |
| Features.NewPoint | src/edu/oregonstate/cartography/simplefeatures/Point.java:16-19 | a new point sits at the given coordinates with no attributes |
| Features.SetX | src/edu/oregonstate/cartography/simplefeatures/Point.java:31-33 | only x changes; y and the attributes stay |
| Features.SetY | src/edu/oregonstate/cartography/simplefeatures/Point.java:45-47 | only y changes; x and the attributes stay |
| Features.Union | src/edu/oregonstate/cartography/simplefeatures/LineString.java:133-136 | the union of two boxes contains every point of either, and its sides are the outermost sides of the two |
| Features.PointBox | src/edu/oregonstate/cartography/simplefeatures/Point.java:67-70 | a point's box contains the point and nothing else |
| Features.SegmentLength | src/edu/oregonstate/cartography/simplefeatures/LineString.java:51-53 | the segment length is never negative |
| Features.SegmentLengthSymmetric | src/edu/oregonstate/cartography/simplefeatures/LineString.java:51-53 | the length of a segment does not depend on its direction |
| Features.SegmentLengthZero | src/edu/oregonstate/cartography/simplefeatures/LineString.java:51-53 | a segment has zero length exactly when its ends are at the same location |
| Features.GetLength | src/edu/oregonstate/cartography/simplefeatures/LineString.java:42-57 | the loop returns the sum of the segment lengths, 0 below two points, never negative |
| Features.PathLengthPrepend | src/edu/oregonstate/cartography/simplefeatures/LineString.java:42-57 | prepending a point adds exactly the new first segment's length |
| Features.Invert | src/edu/oregonstate/cartography/simplefeatures/LineString.java:219-227 | swapping ends for i below half the count reverses the point order |
| Features.InvertTwice | src/edu/oregonstate/cartography/simplefeatures/LineString.java:219-227 | inverting twice restores the line |
| Features.LengthUnderInvert | src/edu/oregonstate/cartography/simplefeatures/LineString.java:42-57 | inverting a line keeps its length |
| Features.ReverseKeepsNoRepeats | src/edu/oregonstate/cartography/simplefeatures/LineString.java:219-227 | inverting keeps a line free of consecutive points at the same location |
| Features.IsClosed | src/edu/oregonstate/cartography/simplefeatures/LineString.java:61-65 | an empty line throws an index error; otherwise closed iff the first and last points share a location |
| Features.ClosedUnderInvert | src/edu/oregonstate/cartography/simplefeatures/LineString.java:61-65 | a line and its inversion are closed alike, and both throw when empty |
| Features.AddPointIfDifferentFromLast | src/edu/oregonstate/cartography/simplefeatures/LineString.java:72-82 | the point is appended exactly when the line is empty or its last point is elsewhere; either way the line ends at the point's location and gains no repeats |
| Features.NoRepeatsExtended | src/edu/oregonstate/cartography/simplefeatures/LineString.java:72-82 | appending a point apart from the last keeps the line free of repeats |
| Features.AppendPoints | src/edu/oregonstate/cartography/simplefeatures/LineString.java:239-242 | the original points stay as a prefix, at most all of l2 is added, the result ends where l2 ends, and no repeat is introduced |
| Features.Append | src/edu/oregonstate/cartography/simplefeatures/LineString.java:234-243 | a null or empty line appends nothing; otherwise the points are added one by one with the repeat check |
| Features.AppendPointsSplit | src/edu/oregonstate/cartography/simplefeatures/LineString.java:234-243 | appending two runs one after the other equals appending their concatenation |
| Features.AppendWithoutRepeats | src/edu/oregonstate/cartography/simplefeatures/LineString.java:234-243 | when no point repeats its predecessor, append is plain concatenation |
| Features.AddsApartPoint | src/edu/oregonstate/cartography/simplefeatures/LineString.java:72-82 | a point apart from the last one is always added |
| Features.ConcatenateLinesAsWritten | src/edu/oregonstate/cartography/simplefeatures/LineString.java:254-265 | a line without a first point throws a NullPointerException; otherwise l1 comes back inverted when it starts at the central point and l2 when it does not, and the joined line appends both |
| Features.ConcatenateModifiesFirstLine | src/edu/oregonstate/cartography/simplefeatures/LineString.java:254-257 | a first line that starts at the central point and does not end there is left inverted for the caller |
| Features.JoinLines | src/edu/oregonstate/cartography/simplefeatures/LineString.java:254-265 | the corrected join fails exactly as the original does and returns the same line, without touching its arguments |
| Features.NoRepeatsChained | src/edu/oregonstate/cartography/simplefeatures/LineString.java:234-243 | two repeat-free runs that meet at a shared point chain without repeats once the shared point is dropped |
| Features.AppendAtSharedPoint | src/edu/oregonstate/cartography/simplefeatures/LineString.java:234-243 | appending a line that starts where the line so far ends drops just the shared point |
| Features.AppendToEmpty | src/edu/oregonstate/cartography/simplefeatures/LineString.java:234-243 | appending a repeat-free line to an empty line copies it |
| Features.AppendSharedPoint | src/edu/oregonstate/cartography/simplefeatures/LineString.java:72-82 | a point at the location of the last point adds nothing |
| Features.JoinLinesMeetsAtCentre | src/edu/oregonstate/cartography/simplefeatures/LineString.java:254-265 | two repeat-free lines that each have an end at the central point join into |l1| + |l2| - 1 points passing through the central point at index |l1| - 1 |
| Features.Intermediate | src/edu/oregonstate/cartography/simplefeatures/LineString.java:163-164 | densify's j-th intermediate point lies j * maxSegmentLength along the segment |
| Features.AlongAtEnd | src/edu/oregonstate/cartography/simplefeatures/LineString.java:159-164 | the offset equal to the segment length reaches the segment's end point |
| Features.AlongAtDistinct | src/edu/oregonstate/cartography/simplefeatures/LineString.java:159-164 | on a segment of non-zero extent, different offsets give different locations |
| Features.FillAsWritten | src/edu/oregonstate/cartography/simplefeatures/LineString.java:157-167 | a segment no longer than the maximum gets no points; a longer one gets (int) (length / max) >= 1 points, the first of them at the segment's start |
| Features.InnerSteps | src/edu/oregonstate/cartography/simplefeatures/LineString.java:161 | the corrected count m of inner multiples of the maximum satisfies m * max < length <= (m + 1) * max |
| Features.Fill | src/edu/oregonstate/cartography/simplefeatures/LineString.java:157-167 | the corrected fill is empty for short segments, and otherwise has enough points that no piece exceeds the maximum |
| Features.FillOffsets | src/edu/oregonstate/cartography/simplefeatures/LineString.java:163-164 | the j-th corrected point lies (j + 1) * max along the segment |
| Features.FillSeparatesEnds | src/edu/oregonstate/cartography/simplefeatures/LineString.java:157-167 | between two different locations the corrected fill repeats neither end nor any of its own points consecutively |
| Features.OffsetsSeparateEnds | src/edu/oregonstate/cartography/simplefeatures/LineString.java:163-164 | points at offsets max, 2 max, ... below the length separate the segment's ends |
| Features.InnerStepsBelow | src/edu/oregonstate/cartography/simplefeatures/LineString.java:161 | the corrected fill never reaches the segment's end |
| Features.DensifyWith | src/edu/oregonstate/cartography/simplefeatures/LineString.java:140-173 | an empty line stays empty; otherwise the dense line starts and ends with the original end points and is no shorter |
| Features.DensifyLength | src/edu/oregonstate/cartography/simplefeatures/LineString.java:140-173 | the dense line ends at the position of the last original point |
| Features.DensifyKeepsOriginal | src/edu/oregonstate/cartography/simplefeatures/LineString.java:140-173 | every original point is kept, in order, at its computed position in the dense line |
| Features.PositionBelowLast | src/edu/oregonstate/cartography/simplefeatures/LineString.java:140-173 | original points sit at increasing positions |
| Features.DensifyUnfold | src/edu/oregonstate/cartography/simplefeatures/LineString.java:151-171 | densifying one more point appends that segment's fill and the point |
| Features.DensifyWithoutFill | src/edu/oregonstate/cartography/simplefeatures/LineString.java:151-171 | where no segment gets a fill, densify returns the line unchanged |
| Features.DensifyWithoutRepeats | src/edu/oregonstate/cartography/simplefeatures/LineString.java:140-173 | a fill that separates the ends of every segment leaves no point repeating its predecessor |
| Features.ChainSeparated | src/edu/oregonstate/cartography/simplefeatures/LineString.java:162-169 | a repeat-free run, a separating fill and the next point chain without repeats |
| Features.DensifyAsWritten | src/edu/oregonstate/cartography/simplefeatures/LineString.java:140-173 | as written, an empty line stays empty and otherwise the ends are kept and no point is dropped |
| Features.Densify | src/edu/oregonstate/cartography/simplefeatures/LineString.java:140-173 | the corrected densify keeps the ends and every point of the line |
| Features.DensifyAsWrittenRepeatsStart | src/edu/oregonstate/cartography/simplefeatures/LineString.java:162-165 | as written, a two-point line longer than the maximum comes back with its start point twice in a row |
| Features.DensifyKeepsNoRepeats | src/edu/oregonstate/cartography/simplefeatures/LineString.java:140-173 | the corrected densify keeps a repeat-free line repeat-free |
| Features.DensifyShortSegments | src/edu/oregonstate/cartography/simplefeatures/LineString.java:158 | a line whose segments are all short enough comes back unchanged from both versions |
| Collections.CoversWider | src/edu/oregonstate/cartography/simplefeatures/GeometryCollection.java:68-70 | a box that covers a geometry keeps covering it as the union grows it |
| Collections.Extent | src/edu/oregonstate/cartography/simplefeatures/LineString.java:120-138 | the box of a non-empty line contains every point, and each of its four sides passes through some point |
| Collections.LineBoundingBox | src/edu/oregonstate/cartography/simplefeatures/LineString.java:120-138 | a line without points has a null box; otherwise the loop of unions yields exactly the smallest box holding all points |
| Collections.GeometryBox | src/edu/oregonstate/cartography/simplefeatures/GeometryCollection.java:60-72 | a box is null exactly for an empty line or a collection without members, and otherwise covers every point of the geometry; a failure is a NullPointerException |
| Collections.MembersBox | src/edu/oregonstate/cartography/simplefeatures/GeometryCollection.java:65-70 | the grown box of the first n members covers each of them, and a failure is a NullPointerException |
| Collections.GeometryBoxFails | src/edu/oregonstate/cartography/simplefeatures/GeometryCollection.java:60-72 | asking for a box throws exactly when the geometry holds an empty part below some collection |
| Collections.MembersBoxFails | src/edu/oregonstate/cartography/simplefeatures/GeometryCollection.java:65-70 | the box of the first n members throws exactly when one of them has a null box or throws itself |
| Collections.GetGeometryN | src/edu/oregonstate/cartography/simplefeatures/GeometryCollection.java:27-29 | an index outside the member list is an index error; otherwise the member at that index is returned |
| Collections.AddGeometry | src/edu/oregonstate/cartography/simplefeatures/GeometryCollection.java:32-34 | the new geometry becomes the last member; earlier members and the attributes stay |
| Collections.ToArray | src/edu/oregonstate/cartography/simplefeatures/GeometryCollection.java:74-81 | the array holds the members in order, one entry per member |
| Smoothing.Values | src/edu/oregonstate/cartography/simplefeatures/LineString.java:195 | when every point holds the attribute, the list has one value per point, each the point's value |
| Smoothing.Lo | src/edu/oregonstate/cartography/simplefeatures/LineString.java:191-193 | the window starts h points before i, or at the first point |
| Smoothing.Hi | src/edu/oregonstate/cartography/simplefeatures/LineString.java:191-193 | the window ends h points after i, or at the last point, and always includes i |
| Smoothing.WindowTotal | src/edu/oregonstate/cartography/simplefeatures/LineString.java:189-198 | summing the window fails only with a NullPointerException |
| Smoothing.WindowTotalSum | src/edu/oregonstate/cartography/simplefeatures/LineString.java:189-198 | with every value present the window total is the sum of the window's values |
| Smoothing.WindowTotalFails | src/edu/oregonstate/cartography/simplefeatures/LineString.java:195 | a null value anywhere in the window makes the total throw a NullPointerException |
| Smoothing.WindowTotalConstant | src/edu/oregonstate/cartography/simplefeatures/LineString.java:189-198 | a window of equal values c totals c times the window size |
| Smoothing.SmoothAt | src/edu/oregonstate/cartography/simplefeatures/LineString.java:188-201 | one step only changes point i, keeps its location and gives it the target attribute; it fails only with a NullPointerException |
| Smoothing.SmoothFrom | src/edu/oregonstate/cartography/simplefeatures/LineString.java:188-201 | the remaining steps keep the earlier points, the number of points and every location |
| Smoothing.SmoothPointAttribute | src/edu/oregonstate/cartography/simplefeatures/LineString.java:175-202 | an IllegalArgumentException exactly for a filter size that is not a positive odd number; an empty line or a one-point filter changes nothing; otherwise the points keep their locations |
| Smoothing.SmoothFromSucceeds | src/edu/oregonstate/cartography/simplefeatures/LineString.java:188-201 | with every source value present all steps succeed |
| Smoothing.StepSucceeds | src/edu/oregonstate/cartography/simplefeatures/LineString.java:188-201 | a step on a line where every point has the source value succeeds and keeps the values present |
| Smoothing.SmoothFromFails | src/edu/oregonstate/cartography/simplefeatures/LineString.java:195 | a point not yet reached whose source value is null makes the remaining steps throw |
| Smoothing.StepKeepsLater | src/edu/oregonstate/cartography/simplefeatures/LineString.java:200 | a step leaves the points after i as they were |
| Smoothing.SmoothAtAverages | src/edu/oregonstate/cartography/simplefeatures/LineString.java:188-201 | a step with a distinct target keeps every source value and stores at i the mean of the window's original values |
| Smoothing.SmoothFromAverages | src/edu/oregonstate/cartography/simplefeatures/LineString.java:188-201 | with a distinct target every point receives the mean of the original values around it |
| Smoothing.StepAverages | src/edu/oregonstate/cartography/simplefeatures/LineString.java:188-201 | step i with a distinct target keeps the source values and extends the averaged prefix by point i |
| Smoothing.SmoothFromConstant | src/edu/oregonstate/cartography/simplefeatures/LineString.java:188-201 | smoothing a constant attribute onto itself leaves the line unchanged |
| Smoothing.StepConstant | src/edu/oregonstate/cartography/simplefeatures/LineString.java:199-200 | a step on a line of equal values stores the value the point already holds |
| Smoothing.MeanOfEqual | src/edu/oregonstate/cartography/simplefeatures/LineString.java:199 | the mean of n equal values c is c |
| Smoothing.SmoothFailsIffMissing | src/edu/oregonstate/cartography/simplefeatures/LineString.java:175-202 | after a valid filter size above one, the method throws exactly when some point lacks the source value |
| Smoothing.SmoothAverages | src/edu/oregonstate/cartography/simplefeatures/LineString.java:175-202 | with a filter size above one and a separate target, every point's target holds the mean of the source values in its window |
| Smoothing.SmoothConstant | src/edu/oregonstate/cartography/simplefeatures/LineString.java:175-202 | smoothing a constant attribute onto itself, with any valid filter size, changes nothing |
| Shearing.ShearFactor | src/edu/oregonstate/cartography/simplefeatures/PlanObliqueShearing.java:18-20 | the factor k is the reciprocal of the tangent of the inclination angle, converted from degrees, and infinite (None) exactly when that tangent is 0 |
| Shearing.ClampToGrid | src/edu/oregonstate/cartography/simplefeatures/PlanObliqueShearing.java:36-47 | a point is moved inside the grid bounds, and a point already inside stays where it is |
| Shearing.ShearPoint | src/edu/oregonstate/cartography/simplefeatures/PlanObliqueShearing.java:33-52 | a point is dropped exactly when getBilinearInterpol, border branches as written, is void at its clamped position; otherwise it keeps the clamped x, loses its attributes, and moves north by (z - refLevel) k |
| Shearing.ShearLine | src/edu/oregonstate/cartography/simplefeatures/PlanObliqueShearing.java:29-55 | the sheared line has at most the original points, all inside the grid's west-east range, and all of them when no elevation is void |
| Shearing.ShearLineAt | src/edu/oregonstate/cartography/simplefeatures/PlanObliqueShearing.java:29-55 | where no elevation is void, point i of the sheared line is the sheared point i |
| Shearing.ReferenceLevelFixed | src/edu/oregonstate/cartography/simplefeatures/PlanObliqueShearing.java:48-49 | a point inside the grid whose as-written interpolated elevation is the reference level does not move |
| Shearing.ShearDirection | src/edu/oregonstate/cartography/simplefeatures/PlanObliqueShearing.java:49 | with a positive factor, points above the reference level move north and points below move south |
| Shearing.InsideNeverVoid | src/edu/oregonstate/cartography/simplefeatures/PlanObliqueShearing.java:48-51 | on a grid without void cells the as-written interpolation is never void inside the bounds, so no point there is dropped |
| Shearing.BoundingLine | src/edu/oregonstate/cartography/simplefeatures/PlanObliqueShearing.java:64-84 | the bounding line has 2 cols + 2 points, ends where it starts, and repeats the upper-right corner |
| Shearing.BoundingLineInside | src/edu/oregonstate/cartography/simplefeatures/PlanObliqueShearing.java:64-84 | every point of the bounding line lies inside the grid, so shearing never clamps it |
| Shearing.ShearedBoundingLine | src/edu/oregonstate/cartography/simplefeatures/PlanObliqueShearing.java:98 | on a grid without voids the sheared bounding line keeps all its points and their x coordinates |
| Shearing.ShearMembers | src/edu/oregonstate/cartography/simplefeatures/PlanObliqueShearing.java:89-96 | a member that is not a line is a ClassCastException; otherwise the kept sheared lines are at most the members and each has more than one point |
| Shearing.ShearCollection | src/edu/oregonstate/cartography/simplefeatures/PlanObliqueShearing.java:86-100 | the member loop and the sheared bounding line at the grid minimum form the result, and a non-line member throws ClassCastException |
| Shearing.ShearMembersKeepsAll | src/edu/oregonstate/cartography/simplefeatures/PlanObliqueShearing.java:89-96 | when every sheared member keeps more than one point, member i of the result is member i sheared |
| Bytes.Wrap32 | src/edu/oregonstate/cartography/geometryexport/ShapeGeometryExporter.java:116 | Java int arithmetic: the result is a 32-bit int, equal to the exact value whenever that fits |
| Bytes.WrapCongruent | src/edu/oregonstate/cartography/geometryexport/ShapeGeometryExporter.java:244 | values that agree modulo 2^32 give the same Java int |
| Bytes.JavaDiv | src/edu/oregonstate/cartography/geometryexport/ShapeGeometryExporter.java:116 | Java int division truncates toward zero: the quotient of a negative dividend is the negated quotient of its magnitude |
| Bytes.IntBERoundTrip | src/edu/oregonstate/cartography/geometryimport/ShapeGeometryImporter.java:116 | an int written big-endian reads back unchanged |
| Bytes.IntLERoundTrip | src/edu/oregonstate/cartography/geometryimport/ShapeGeometryImporter.java:122-123 | an int written little-endian reads back unchanged |
| Bytes.ShortLE | src/edu/oregonstate/cartography/geometryexport/DBFExporter.java:60-63 | a little-endian short holds the low 16 bits of the value, and the value itself when it fits |
| Bytes.LowByte | src/edu/oregonstate/cartography/geometryexport/DBFExporter.java:48-50 | writing an int as one byte keeps its value modulo 256, and the value itself when it fits |
| Bytes.ReadIntBE | src/edu/oregonstate/cartography/geometryimport/ShapeGeometryImporter.java:166-167 | a big-endian int needs four bytes, else the end of the file is reached; it yields a Java int and moves four bytes on |
| Bytes.ReadDoubleLE | src/edu/oregonstate/cartography/geometryimport/ShapeGeometryImporter.java:213-214 | a double needs eight bytes, else the end of the file is reached; the reader moves eight bytes on |
| Bytes.Skip | src/edu/oregonstate/cartography/geometryimport/ShapeGeometryImporter.java:119 | skipping a non-positive count moves nowhere, and skipping stops at the end of the file |
| Bytes.IntBEAt | src/edu/oregonstate/cartography/geometryimport/ShapeGeometryImporter.java:116 | a big-endian int written at a position reads back there |
| Bytes.IntLEAt | src/edu/oregonstate/cartography/geometryimport/ShapeGeometryImporter.java:122-123 | a little-endian int written at a position reads back there |
| Bytes.DoubleAt | src/edu/oregonstate/cartography/geometryimport/ShapeGeometryImporter.java:213-214 | a double written at a position reads back there through a lawful codec |
| Bytes.PartAt | src/edu/oregonstate/cartography/geometryexport/ShapeGeometryExporter.java:146-171 | parts written one after the other each stand at their offset, and the file ends after the last |
| ShapeExport.SetShapeType | src/edu/oregonstate/cartography/geometryexport/ShapeGeometryExporter.java:263-271 | exactly the point, polyline and polygon types are accepted and stored; any other type is an IllegalArgumentException |
| ShapeExport.WrittenLines | src/edu/oregonstate/cartography/geometryexport/ShapeGeometryExporter.java:146-171 | only non-empty lines become records, found at any depth of nesting, and nothing at all is written unless the type is polyline or polygon |
| ShapeExport.PointsBytes | src/edu/oregonstate/cartography/geometryexport/ShapeGeometryExporter.java:203-207 | each point takes 16 bytes, x then y |
| ShapeExport.Content | src/edu/oregonstate/cartography/geometryexport/ShapeGeometryExporter.java:185-208 | a one-part record's content is 48 + 16 n bytes |
| ShapeExport.Record | src/edu/oregonstate/cartography/geometryexport/ShapeGeometryExporter.java:137-141 | a record with its 8-byte header is 56 + 16 n bytes |
| ShapeExport.RecordList | src/edu/oregonstate/cartography/geometryexport/ShapeGeometryExporter.java:146-171 | there is one record per written line, each 56 + 16 n bytes for its n points |
| ShapeExport.Header | src/edu/oregonstate/cartography/geometryexport/ShapeGeometryExporter.java:104-129 | the main-file and index headers are 100 bytes |
| ShapeExport.Unused | src/edu/oregonstate/cartography/geometryexport/ShapeGeometryExporter.java:112-115 | the five unused header ints take 20 bytes |
| ShapeExport.FileLength | src/edu/oregonstate/cartography/geometryexport/ShapeGeometryExporter.java:116 | the length field is a Java int, and for sizes that do not overflow it is the file length in 16-bit words, header included |
| ShapeExport.Ranges | src/edu/oregonstate/cartography/geometryexport/ShapeGeometryExporter.java:120-127 | the box and the four zero z and m values take 64 bytes |
| ShapeExport.IndexEntries | src/edu/oregonstate/cartography/geometryexport/ShapeGeometryExporter.java:240-247 | there are 8 bytes of index entries per record, one entry fewer than the offsets list |
| ShapeExport.Write | src/edu/oregonstate/cartography/geometryexport/ShapeGeometryExporter.java:70-94 | writing fails with a NullPointerException exactly when the collection has no box; otherwise the record count is the number of written lines |
| ShapeImport.KindOf | src/edu/oregonstate/cartography/geometryimport/ShapeGeometryImporter.java:176-203 | the Z and M variants of point, multipoint, polyline and polygon are read like the plain type; null shapes and multipatches are told apart |
| ShapeImport.ReadPoint | src/edu/oregonstate/cartography/geometryimport/ShapeGeometryImporter.java:209-219 | a point needs 16 bytes, else the end of the file is reached; it has no attributes and the reader moves 16 bytes on |
| ShapeImport.ReadPoints | src/edu/oregonstate/cartography/geometryimport/ShapeGeometryImporter.java:227-229 | n points are read when 16 n bytes remain; otherwise the end of the file is reached after the points that fit |
| ShapeImport.FirstPart | src/edu/oregonstate/cartography/geometryimport/ShapeGeometryImporter.java:256-272 | only the first part becomes a line: a missing part index is an index error, a part of fewer than two points an empty line, and otherwise the line is the point slice from the part's first index |
| ShapeImport.PolygonAsWritten | src/edu/oregonstate/cartography/geometryimport/ShapeGeometryImporter.java:303-320 | as written, the polygon's parts can fail only with an index error |
| ShapeImport.Polygon | src/edu/oregonstate/cartography/geometryimport/ShapeGeometryImporter.java:303-320 | the corrected polygon reading can fail only with an index error |
| ShapeImport.ReadArrays | src/edu/oregonstate/cartography/geometryimport/ShapeGeometryImporter.java:238-254 | the box is skipped and the counts, part indices and points read; the reader advances by exactly 40 + 4 parts + 16 points bytes, and failures are an end of file or a negative array size |
| ShapeImport.ArraysSize | src/edu/oregonstate/cartography/geometryimport/ShapeGeometryImporter.java:274 | the size a path record reports, in Java int arithmetic, equals the bytes its arrays took |
| ShapeImport.RecordHeader | src/edu/oregonstate/cartography/geometryimport/ShapeGeometryImporter.java:166-173 | the record number, a content length of at least one int, and the shape type take 12 bytes; a short file ends the read |
| ShapeImport.PointGeometries | src/edu/oregonstate/cartography/geometryimport/ShapeGeometryImporter.java:227-229 | every point read becomes its own point geometry, in order |
| ShapeImport.ReadMultipoint | src/edu/oregonstate/cartography/geometryimport/ShapeGeometryImporter.java:221-232 | the box is skipped and each point appended as it is read; the reader advances 36 bytes plus 16 per point, and the only failure is the end of the file |
| ShapeImport.ReadPolyline | src/edu/oregonstate/cartography/geometryimport/ShapeGeometryImporter.java:234-275 | a polyline body appends exactly one line and reports the bytes it consumed; an end of file or negative array size appends nothing |
| ShapeImport.ReadPolygon | src/edu/oregonstate/cartography/geometryimport/ShapeGeometryImporter.java:277-324 | a polygon body appends exactly one line once all parts are read, reports the bytes it consumed, and appends nothing when it fails |
| ShapeImport.ReportedSize | src/edu/oregonstate/cartography/geometryimport/ShapeGeometryImporter.java:274 | the reported record size is 12 plus the body's bytes, in Java int arithmetic |
| ShapeImport.ReadRecord | src/edu/oregonstate/cartography/geometryimport/ShapeGeometryImporter.java:162-207 | a record advances the reader by at least its 12 header bytes; a file with fewer than 12 bytes left ends the loop without a geometry; unsupported types throw an IOException |
| ShapeImport.ReadHeader | src/edu/oregonstate/cartography/geometryimport/ShapeGeometryImporter.java:116-125 | a header succeeds exactly when the big-endian file code is 9994 and at least 36 bytes exist, and leaves the reader at byte 100 or the end of the file |
| ShapeImport.IndexCount | src/edu/oregonstate/cartography/geometryimport/ShapeGeometryImporter.java:342-345 | the announced record count is (2 * length word - 100) / 8 in Java int arithmetic, read from byte 24 |
| ShapeImport.RecordCount | src/edu/oregonstate/cartography/geometryimport/ShapeGeometryImporter.java:332-357 | without an index file, or with one too short to read, the count is -1 |
| ShapeImport.ReadOffsets | src/edu/oregonstate/cartography/geometryimport/ShapeGeometryImporter.java:375-382 | n entries are read when 8 n bytes remain, one byte offset per entry |
| ShapeImport.ReadIndex | src/edu/oregonstate/cartography/geometryimport/ShapeGeometryImporter.java:359-396 | no index gives null; a negative count throws NegativeArraySizeException; otherwise the offsets array has one entry per announced record |
| ShapeImport.IndexedRecords | src/edu/oregonstate/cartography/geometryimport/ShapeGeometryImporter.java:137-149 | the loop fails with an index error once it runs past the offsets, and otherwise only with body errors or IOExceptions |
| ShapeImport.SequentialRecords | src/edu/oregonstate/cartography/geometryimport/ShapeGeometryImporter.java:137-149 | reading back to back, a file with fewer than 12 bytes left gives no more geometries |
| ShapeImport.ImportAsWritten | src/edu/oregonstate/cartography/geometryimport/ShapeGeometryImporter.java:104-156 | a bad header fails the import; without an index the loop throws a NullPointerException; an index of no records throws an index error |
| ShapeImport.Import | src/edu/oregonstate/cartography/geometryimport/ShapeGeometryImporter.java:104-156 | the corrected import never throws a NullPointerException, and an index of no records gives an empty collection |
| ShapeRoundTrip.Plain | src/edu/oregonstate/cartography/geometryimport/ShapeGeometryImporter.java:213-215 | the reader rebuilds each point with the same coordinates and no attributes |
| ShapeRoundTrip.PointsRead | src/edu/oregonstate/cartography/geometryimport/ShapeGeometryImporter.java:251-254 | points written as little-endian x, y doubles read back as the same points, 16 bytes each |
| ShapeRoundTrip.RecordFields | src/edu/oregonstate/cartography/geometryexport/ShapeGeometryExporter.java:137-141 | a written record holds its number, its content length in words (24 + 8 n) and its content, one after the other |
| ShapeRoundTrip.CodecWidth | src/edu/oregonstate/cartography/geometryexport/ShapeGeometryExporter.java:188-191 | a lawful double codec writes eight bytes per value |
| ShapeRoundTrip.ContentFields | src/edu/oregonstate/cartography/geometryexport/ShapeGeometryExporter.java:187-207 | the content holds the shape type, one part, the point count, the part index 0 and the points at the offsets the reader expects |
| ShapeRoundTrip.RecordLaidOut | src/edu/oregonstate/cartography/geometryexport/ShapeGeometryExporter.java:176-213 | a written record lays its fields out where the reader looks for them |
| ShapeRoundTrip.HeaderRead | src/edu/oregonstate/cartography/geometryimport/ShapeGeometryImporter.java:166-173 | a written record header reads back its shape type |
| ShapeRoundTrip.ArraysRead | src/edu/oregonstate/cartography/geometryimport/ShapeGeometryImporter.java:238-254 | a written body reads back one part at index 0 and the written points |
| ShapeRoundTrip.OneIntRead | src/edu/oregonstate/cartography/geometryimport/ShapeGeometryImporter.java:243-246 | a one-element index array reads back its element |
| ShapeRoundTrip.Ring | src/edu/oregonstate/cartography/geometryimport/ShapeGeometryImporter.java:303-314 | the corrected reader keeps all of a ring but its first point; as written it also loses the last point |
| ShapeRoundTrip.ReadBack | src/edu/oregonstate/cartography/geometryimport/ShapeGeometryImporter.java:256-322 | a record always reads back as one attribute-free line, and a polyline of two or more points as exactly its points |
| ShapeRoundTrip.PolylineBodyRead | src/edu/oregonstate/cartography/geometryimport/ShapeGeometryImporter.java:234-275 | a written polyline body reads back as the written line and reports its full 56 + 16 n bytes |
| ShapeRoundTrip.PolylineOfOnePart | src/edu/oregonstate/cartography/geometryimport/ShapeGeometryImporter.java:256-272 | a one-part polyline starting at index 0 reads as one line of all its points, or an empty line below two points |
| ShapeRoundTrip.WholePart | src/edu/oregonstate/cartography/geometryimport/ShapeGeometryImporter.java:261-271 | the first part starting at index 0 spans the whole point array |
| ShapeRoundTrip.PolygonBodyRead | src/edu/oregonstate/cartography/geometryimport/ShapeGeometryImporter.java:277-324 | a written polygon body reads back as its ring under the reading mode and reports its full 56 + 16 n bytes |
| ShapeRoundTrip.PolygonOfOnePart | src/edu/oregonstate/cartography/geometryimport/ShapeGeometryImporter.java:300-323 | a one-part polygon starting at index 0 reads as that part's ring |
| ShapeRoundTrip.SinglePart | src/edu/oregonstate/cartography/geometryimport/ShapeGeometryImporter.java:303-320 | merging a single part starting at index 0 gives its ring |
| ShapeRoundTrip.RecordRead | src/edu/oregonstate/cartography/geometryimport/ShapeGeometryImporter.java:162-207 | a written polyline or polygon record reads as one line and reports its length |
| ShapeRoundTrip.PolylineDispatch | src/edu/oregonstate/cartography/geometryimport/ShapeGeometryImporter.java:189-192 | a record whose header gives the polyline type has a polyline body |
| ShapeRoundTrip.PolygonDispatch | src/edu/oregonstate/cartography/geometryimport/ShapeGeometryImporter.java:194-197 | a record whose header gives the polygon type has a polygon body |
| ShapeRoundTrip.ReadBacks | src/edu/oregonstate/cartography/geometryimport/ShapeGeometryImporter.java:137-149 | one read-back line per written line, in order |
| ShapeRoundTrip.SequentialSteps | src/edu/oregonstate/cartography/geometryimport/ShapeGeometryImporter.java:137-149 | records that each read whole, back to back to the end of the file, give their geometries in order |
| ShapeRoundTrip.Starts | src/edu/oregonstate/cartography/geometryexport/ShapeGeometryExporter.java:160 | the recorded start of each record is its offset in the data, and the last entry the data's end |
| ShapeRoundTrip.RecordStep | src/edu/oregonstate/cartography/geometryexport/ShapeGeometryExporter.java:146-171 | where the written records make up the file, record j reads whole as line j |
| ShapeRoundTrip.ListedStep | src/edu/oregonstate/cartography/geometryimport/ShapeGeometryImporter.java:162-207 | record j of the written list reads whole as line j, from its start to its end |
| ShapeRoundTrip.RecordAtStep | src/edu/oregonstate/cartography/geometryimport/ShapeGeometryImporter.java:162-207 | a written record is one reading step to the byte right after it |
| ShapeRoundTrip.ListedRecordLaidOut | src/edu/oregonstate/cartography/geometryexport/ShapeGeometryExporter.java:176-213 | record j of the written list lays out line j |
| ShapeRoundTrip.RecordSteps | src/edu/oregonstate/cartography/geometryexport/ShapeGeometryExporter.java:146-171 | the written records from byte p on each read whole as their line and end at the end of the file |
| ShapeRoundTrip.SequentialRead | src/edu/oregonstate/cartography/geometryimport/ShapeGeometryImporter.java:137-149 | read back to back to the end of the file, the written records give back their lines |
| ShapeRoundTrip.SequentialStep | src/edu/oregonstate/cartography/geometryimport/ShapeGeometryImporter.java:137-149 | a record read whole is followed by the records read from where it ends |
| ShapeFileRoundTrip.HeaderFields | src/edu/oregonstate/cartography/geometryexport/ShapeGeometryExporter.java:104-129 | a written header is 100 bytes with the file code in its first four bytes and the length word at byte 24, and the data follows it |
| ShapeFileRoundTrip.HeaderReadBack | src/edu/oregonstate/cartography/geometryimport/ShapeGeometryImporter.java:116-125 | a written header passes the reader's file-code check and leaves it at byte 100, where the written data starts |
| ShapeFileRoundTrip.CountArithmetic | src/edu/oregonstate/cartography/geometryimport/ShapeGeometryImporter.java:343-344 | an index of m entries, written as a word count, gives back m through the reader's arithmetic |
| ShapeFileRoundTrip.IndexCountReadBack | src/edu/oregonstate/cartography/geometryimport/ShapeGeometryImporter.java:332-345 | an index written for m records announces m records |
| ShapeFileRoundTrip.OffsetWord | src/edu/oregonstate/cartography/geometryexport/ShapeGeometryExporter.java:245 | the offset word offset / 2 + 50 reads back as the record's byte offset in the main file |
| ShapeFileRoundTrip.Moved | src/edu/oregonstate/cartography/geometryimport/ShapeGeometryImporter.java:376 | the offsets the reader gets are the writer's starts moved past the 100-byte header |
| ShapeFileRoundTrip.EntriesRead | src/edu/oregonstate/cartography/geometryimport/ShapeGeometryImporter.java:375-382 | the entries writeSHXFile writes read back as the record starts moved past the header |
| ShapeFileRoundTrip.EntryRest | src/edu/oregonstate/cartography/geometryexport/ShapeGeometryExporter.java:241-247 | after the first entry come the entries of the later starts |
| ShapeFileRoundTrip.EntryStep | src/edu/oregonstate/cartography/geometryimport/ShapeGeometryImporter.java:375-382 | the first entry read in front of the later starts gives all the starts |
| ShapeFileRoundTrip.EntryAt | src/edu/oregonstate/cartography/geometryexport/ShapeGeometryExporter.java:241-247 | an entry is the offset word, then a length word, then the later entries |
| ShapeFileRoundTrip.EntryRead | src/edu/oregonstate/cartography/geometryimport/ShapeGeometryImporter.java:375-382 | an entry's two words, followed by the later entries, read as the starts from k on |
| ShapeFileRoundTrip.IndexedStep | src/edu/oregonstate/cartography/geometryimport/ShapeGeometryImporter.java:138-146 | one turn of the indexed loop at a record's start skips nothing, reads the record and moves to the next start |
| ShapeFileRoundTrip.IndexedLast | src/edu/oregonstate/cartography/geometryimport/ShapeGeometryImporter.java:143-145 | the last indexed record is read and the loop stops |
| ShapeFileRoundTrip.IndexedSteps | src/edu/oregonstate/cartography/geometryimport/ShapeGeometryImporter.java:137-149 | where each record reads whole from its start to the next, the indexed loop reads all of them from record k on |
| ShapeFileRoundTrip.WriteLayout | src/edu/oregonstate/cartography/geometryexport/ShapeGeometryExporter.java:70-94 | a successful write has a box and lays the header, records and index out as the reader expects |
| ShapeFileRoundTrip.FitsCountable | src/edu/oregonstate/cartography/geometryexport/ShapeGeometryExporter.java:196-197 | lines whose records fit a Java int can be counted by the writer |
| ShapeFileRoundTrip.RecordsIndexable | src/edu/oregonstate/cartography/geometryexport/ShapeGeometryExporter.java:160 | the records of path lines are 56 + 16 n bytes, so the index can point at each |
| ShapeFileRoundTrip.RecordOffsets | src/edu/oregonstate/cartography/geometryexport/ShapeGeometryExporter.java:160 | each record starts at an even offset within the data, which holds at least eight bytes per record |
| ShapeFileRoundTrip.StartsIndexable | src/edu/oregonstate/cartography/geometryexport/ShapeGeometryExporter.java:236-247 | a main file under 2^31 bytes has record starts the index words can express |
| ShapeFileRoundTrip.IndexReadBack | src/edu/oregonstate/cartography/geometryimport/ShapeGeometryImporter.java:359-396 | the index of a main file under 2^31 bytes reads back as the start of every record in the main file |
| ShapeFileRoundTrip.IndexRead | src/edu/oregonstate/cartography/geometryimport/ShapeGeometryImporter.java:359-396 | an index of m entries reads back as the starts moved past the header |
| ShapeFileRoundTrip.IndexOf | src/edu/oregonstate/cartography/geometryimport/ShapeGeometryImporter.java:370-384 | an index announcing m records whose entries read as the offsets gives back those offsets |
| ShapeFileRoundTrip.IndexLayout | src/edu/oregonstate/cartography/geometryexport/ShapeGeometryExporter.java:230-250 | the written index is a header for m entries followed by the entries for every record start |
| ShapeFileRoundTrip.MainReadBack | src/edu/oregonstate/cartography/geometryimport/ShapeGeometryImporter.java:116-149 | read record by record to its end, a written main file gives back its lines |
| ShapeFileRoundTrip.IndexedReadBack | src/edu/oregonstate/cartography/geometryimport/ShapeGeometryImporter.java:135-149 | read through its index, a written main file of at least one record gives back its lines |
| ShapeFileRoundTrip.IndexedFromSteps | src/edu/oregonstate/cartography/geometryimport/ShapeGeometryImporter.java:135-149 | records laid out from byte 100 to the end of a small file, each read whole, are read in order through their offsets |
| ShapeFileRoundTrip.SmallFileFits | src/edu/oregonstate/cartography/geometryexport/ShapeGeometryExporter.java:196-197 | in a main file under 2^31 bytes every record's size is a Java int |
| ShapeFileRoundTrip.ImportOfLaid | src/edu/oregonstate/cartography/geometryimport/ShapeGeometryImporter.java:104-156 | with or without their index, written files read back with the corrected import give the written lines in order |
| ShapeFileRoundTrip.ImportAsWrittenOfLaid | src/edu/oregonstate/cartography/geometryimport/ShapeGeometryImporter.java:104-156 | the import as written returns the lines under its polygon rule with an index, throws an index error for an index of no records, and a NullPointerException without one |
| ShapeFileRoundTrip.ImportReads | src/edu/oregonstate/cartography/geometryimport/ShapeGeometryImporter.java:104-156 | the corrected import's result, given what the header, index and record loops read |
| ShapeFileRoundTrip.ImportAsWrittenReads | src/edu/oregonstate/cartography/geometryimport/ShapeGeometryImporter.java:104-156 | the as-written import's result, given what the header, index and record loop read |
| ShapeFileRoundTrip.WriteThenImport | src/edu/oregonstate/cartography/geometryexport/ShapeGeometryExporter.java:70-250 | for a main file under 2^31 bytes, every non-empty line the writer emits comes back in order from the corrected import; the original import does too under its polygon rule but fails for an empty collection or a missing index |
| ShapeFileRoundTrip.Opened | src/edu/oregonstate/cartography/geometryimport/ShapeGeometryImporter.java:116-149 | opening written files, the header reads back, the records fit, and read to the end the records give back the lines |
| ShapeFileRoundTrip.PolygonRingRead | src/edu/oregonstate/cartography/geometryimport/ShapeGeometryImporter.java:305 | as written, a polygon ring of n >= 3 points comes back with n - 2 points, losing its last point; the corrected reader keeps n - 1 |
| Dbf.Latin1Byte | src/edu/oregonstate/cartography/geometryexport/DBFExporter.java:120 | a character with a Latin-1 code is encoded as that code |
| Dbf.Latin1 | src/edu/oregonstate/cartography/geometryexport/DBFExporter.java:120 | a string's Latin-1 encoding has one byte per character |
| Dbf.WriteString | src/edu/oregonstate/cartography/geometryexport/DBFExporter.java:118-125 | exactly length bytes: the string's bytes cut to the length, then zeros up to it |
| Dbf.TrimZeros | src/edu/oregonstate/cartography/geometryexport/DBFExporter.java:122-124 | removing the padding leaves a prefix of the field that does not end in a zero |
| Dbf.WriteStringRoundTrip | src/edu/oregonstate/cartography/geometryexport/DBFExporter.java:118-125 | a Latin-1 string that fits its field and does not end in a NUL comes back when the padding is dropped |
| Dbf.TrimPadding | src/edu/oregonstate/cartography/geometryexport/DBFExporter.java:122-124 | dropping the zeros appended after a field without a trailing zero gives the field back |
| Dbf.Format | src/edu/oregonstate/cartography/geometryexport/DBFExporter.java:174-187 | a negative width throws NegativeArraySizeException; otherwise the result is at least width + 1 + leadingSpaces long, starts with leadingSpaces spaces and ends with the formatted number |
| Dbf.FormatToWidth | src/edu/oregonstate/cartography/geometryexport/DBFExporter.java:174-187 | the corrected format pads the number on the left to exactly width characters, or to the number plus the leading spaces when that is longer |
| Dbf.NumberFieldAsWritten | src/edu/oregonstate/cartography/geometryexport/DBFExporter.java:197-198 | a number field as written is 20 bytes |
| Dbf.NumberField | src/edu/oregonstate/cartography/geometryexport/DBFExporter.java:197-198 | a corrected number field is 20 bytes |
| Dbf.NumberFieldLosesLastChar | src/edu/oregonstate/cartography/geometryexport/DBFExporter.java:197-206 | as written a number is padded to 21 characters and cut to 20, losing its last digit; the corrected field keeps the whole number right-aligned in 20 |
| Dbf.RowZeroField | src/edu/oregonstate/cartography/geometryexport/DBFExporter.java:197-198 | as written row 0 is stored as "0.0000000", one decimal short; the corrected field stores "0.00000000" |
| Dbf.Columns | src/edu/oregonstate/cartography/geometryexport/DBFExporter.java:56-59 | the row index is always a column, and the attribute is one exactly when a name is given |
| Dbf.Preamble | src/edu/oregonstate/cartography/geometryexport/DBFExporter.java:40-86 | the fixed 32 header bytes: flag 0x03, the year minus 1900, month and day, the record count, the header and record sizes, and the language driver 0x57 at byte 29 |
| Dbf.Title | src/edu/oregonstate/cartography/geometryexport/DBFExporter.java:138 | a column title is "attr" followed by its one-digit index |
| Dbf.Descriptor | src/edu/oregonstate/cartography/geometryexport/DBFExporter.java:134-161 | a field descriptor is 32 bytes: the title padded with zeros, type 'F', length 20, 8 decimals and 14 zero bytes |
| Dbf.Descriptors | src/edu/oregonstate/cartography/geometryexport/DBFExporter.java:127-162 | 32 bytes of descriptor per column |
| Dbf.Header | src/edu/oregonstate/cartography/geometryexport/DBFExporter.java:40-91 | the header is 32 + 32 columns + 1 bytes, starts with the preamble and ends with the terminator 0x0D |
| Dbf.RecordAsWritten | src/edu/oregonstate/cartography/geometryexport/DBFExporter.java:193-207 | as written a record is 41 bytes: the flag and two number fields, whatever the columns |
| Dbf.RecordsAsWritten | src/edu/oregonstate/cartography/geometryexport/DBFExporter.java:189-208 | one record per geometry, the row index counting from 0 |
| Dbf.ExportTableAsWritten | src/edu/oregonstate/cartography/geometryexport/DBFExporter.java:34-95 | as written the file declares its count, header size and a record size of 21, while its records take 41 bytes each; the month byte is the 0-based Calendar month |
| Dbf.RecordSizeMismatch | src/edu/oregonstate/cartography/geometryexport/DBFExporter.java:63 | as written a reader stepping by the declared record size ends before the last record's bytes: the declared size and the records disagree |
| Dbf.Record | src/edu/oregonstate/cartography/geometryexport/DBFExporter.java:193-207 | a corrected record holds the deletion flag, the row index field, and the attribute field exactly when a name is given |
| Dbf.Records | src/edu/oregonstate/cartography/geometryexport/DBFExporter.java:189-208 | one corrected record per geometry, the row index counting from 0 |
| Dbf.ExportTable | src/edu/oregonstate/cartography/geometryexport/DBFExporter.java:34-95 | the corrected file declares its count, header size and the record size of its columns, is exactly that long, and stores the month counted from 1 |
| Dbf.RecordLocated | src/edu/oregonstate/cartography/geometryexport/DBFExporter.java:34-95 | record i of the corrected file sits after the header and i records of the declared size, where a dBASE reader looks for it |
| Tables.GetMinMaxWith | src/edu/oregonstate/cartography/geometryimport/Table.java:76-97 | null exactly when some row's cell is not a Double; otherwise every counted value lies between min and max, each bound is a counted value or still the MAX_VALUE sentinel, and min <= max once anything was counted |
| Tables.GetMinMax | src/edu/oregonstate/cartography/geometryimport/Table.java:72-74 | null exactly when some row's cell is not a Double; otherwise all values lie within the pair, which is ordered when the table has rows |
| Tables.FindRowWithValue | src/edu/oregonstate/cartography/geometryimport/Table.java:119-127 | the first row whose cell equals the value, or -1 when every row was passed; a null value throws once a row is reached, and a missing column in a reached row is an index error |
| Tables.ReachedRows | src/edu/oregonstate/cartography/geometryimport/Table.java:120-125 | every row the search got past has the column, and the value is not null once one was passed |
| Tables.StopsAt | src/edu/oregonstate/cartography/geometryimport/Table.java:120-125 | a row the search does not get past is the last one it reaches |
| Tables.ClassOf | src/edu/oregonstate/cartography/geometryimport/Table.java:137-142 | a null cell is an Object, and each kind of value has its own class |
| Tables.ColumnClass | src/edu/oregonstate/cartography/geometryimport/Table.java:136-143 | the class of the first row's cell; an empty table or a column outside the first row is an index error |
| Tables.IsStringColumn | src/edu/oregonstate/cartography/geometryimport/Table.java:145-148 | a column is a String column exactly when its first cell is a String, and asking fails exactly as getColumnClass does |
| Tables.IsDoubleColumn | src/edu/oregonstate/cartography/geometryimport/Table.java:150-153 | a column is a Double column exactly when its first cell is a Double, and asking fails exactly as getColumnClass does |
| Paths.LowerChar | src/edu/oregonstate/cartography/geometryimport/ShapeGeometryImporter.java:57 | an ASCII capital becomes a lower-case letter and every other character stays |
| Paths.ToLower | src/edu/oregonstate/cartography/geometryimport/ShapeGeometryImporter.java:57 | the lower-cased path has the same length, each character lowered |
| Paths.LastIndexOf | src/edu/oregonstate/cartography/geometryimport/ShapeGeometryImporter.java:409 | the index holds the character and no later index does, or -1 when it is absent |
| Paths.ReplaceExtension | src/edu/oregonstate/cartography/geometryimport/ShapeGeometryImporter.java:408-414 | the result ends in a dot and the new extension; a dot-free path gets them appended, otherwise everything up to the last dot is kept |
| Paths.ReplacedExtensionIsLast | src/edu/oregonstate/cartography/geometryimport/ShapeGeometryImporter.java:408-414 | a dot-free extension becomes what follows the last dot of the new path |
| Paths.ReplaceExtensionTwice | src/edu/oregonstate/cartography/geometryimport/ShapeGeometryImporter.java:73-77 | replacing a dot-free extension and then another is the same as replacing with the second one |
| Paths.FindSibling | src/edu/oregonstate/cartography/geometryimport/ShapeGeometryImporter.java:50-79 | no path or one shorter than five characters gives null, a path already with the wanted extension is returned as is, and any other result is an existing sibling path with the wanted extension |
| Paths.FindDataFile | src/edu/oregonstate/cartography/geometryimport/ShapeGeometryImporter.java:50-79 | the main file found for a sibling is the path with extension shp or SHP |
| Paths.FindDbfFileSibling | src/edu/oregonstate/cartography/geometryimport/DBFShapeImporter.java:24-47 | the attribute file found for a sibling is the path with extension dbf or DBF |
| Paths.FindShxFilePath | src/edu/oregonstate/cartography/geometryimport/ShapeGeometryImporter.java:85-94 | no path or a short path gives null; a result always exists; the lower-case index file is preferred |
| Paths.FindSiblingFound | src/edu/oregonstate/cartography/geometryimport/ShapeGeometryImporter.java:62-78 | for a sibling's path the lower-case file is returned if it exists, else the upper-case one if it exists, else null |
| Paths.FindSiblingForeign | src/edu/oregonstate/cartography/geometryimport/ShapeGeometryImporter.java:62-71 | a path of another file type never yields a sibling |
| Paths.DataFileOfSibling | src/edu/oregonstate/cartography/geometryimport/ShapeGeometryImporter.java:50-79 | for a .dbf, .prj, .sbn, .sbx or .shx path the main file is found exactly when it exists with a lower- or upper-case extension |
| Paths.DbfFileOfSibling | src/edu/oregonstate/cartography/geometryimport/DBFShapeImporter.java:24-47 | for a .shp, .prj, .sbn, .sbx or .shx path the attribute file is found exactly when it exists with a lower- or upper-case extension |
| Paths.ShxFilePathFound | src/edu/oregonstate/cartography/geometryimport/ShapeGeometryImporter.java:85-94 | the index file is the lower-case one if it exists, else the upper-case one if it exists, else null |
| Numeric.MetricCellSize | src/edu/oregonstate/cartography/grid/operators/ShaderOperator.java:117-120 | a cell size below 0.1 is read as degrees and converted to metres on a sphere of radius 6371000; larger sizes are kept; a positive size stays positive |
| Numeric.Trunc | src/edu/oregonstate/cartography/gui/bivariate/BivariateColorRenderer.java:100-101 | Java's (int) cast of a double truncates toward zero |
| Numeric.Round | src/edu/oregonstate/cartography/gui/bivariate/BivariateColorRenderer.java:100-101 | Math.round gives the nearest integer, halves rounded up |
| Numeric.RoundToInt | src/edu/oregonstate/cartography/grid/ColorLUT.java:95-96 | (int) Math.round(x) is a 32-bit int equal to the rounded value when that fits and congruent to it modulo 2^32 within the long range |
| Numeric.Clamp | src/edu/oregonstate/cartography/grid/operators/ColorizerOperator.java:313 | the value is clamped into [lo, hi] and unchanged when already inside |

## Left out

- Floating point: values are reals. Float and double rounding, and the float/double casts, are not modelled. Infinity appears only where the code's result depends on it (the inverse-distance weight at distance 0, and the normalised value of a degenerate range). NaN is the `Void` cell.
- The Java math library: `Math.sqrt`, `exp`, `pow`, `atan2`, `cos`, `sin` and `tan` are function parameters. Each carries a predicate with only the laws the proofs need, because their IEEE definitions are out of reach of the prover.
- Threads and progress: the row chunks handed to worker threads are one sequential call per chunk. Progress reporting, progress messages and cancellation are I/O.
- Images: a `BufferedImage` is a sequence of rows of ARGB pixels. Image creation, `imageBuffer` and Swing painting (`paint` of `Point`, `LineString` and `GeometryCollection`) are not modelled.
- Shared Point objects: Java lines hold references to mutable `Point` objects. `addPoint` stores the reference, and `smoothPointAttribute`, `setX`, `setY` and `concatenateLines` change points in place. The model's points are values, so one object at two positions (a ring closed with its own first point, say, or a point shared by two lines) is not modelled: where Java's in-place change would show at both positions, the model changes only the one it writes.
- `toString`, `getName`, `getDescription`, `getDescriptionWithStatistics` and `getFileFormatName` are display text only.
- Plain getters and field setters without logic are not modelled as members of their own. The datatypes' fields stand for them.
- `ColorizerOperator.operate(Grid, Grid)` only throws UnsupportedOperationException. The image `operate` of ColorizerOperator and `ShaderOperator.operate` (ShaderOperator.java:110) build the light vector with Vector3D, which is not part of this model. The light vector is a parameter of Colorizer's shading and of Shader.ShadeChunk.
- `ColorizerOperator.setColors` copies the colour ramp into arrays. The ramp is a parameter of the colour functions instead.
- The scaled contour path of IlluminatedContoursOperator (scale > 1) is not modelled. It samples `Grid.getAspect(x, y, samplingDist)` by bicubic interpolation, which is not modelled either.
- `Model.setGrid`, `scaleGrid`, `verticallyOffsetGrid`, `voidGridValue`, `getGeneralizedSlopeGrid`, `getGridDimensionForDisplay`, `renderBackgroundImage`, `renderForegroundImage` and `setupIlluminatedContoursOperator` are not modelled. They construct pyramids and run operators that are not part of this model (LaplacianPyramid, GridSlopeOperator, GridScaleToRangeOperator, the scale and offset operators), or only wire settings into them.
- LaplacianPyramid.java is not part of this model. `Pyramids` keeps only the level count and the weighted level sum as a parameter.
- `Grid.getBoundingBox` and `Grid.isWellFormed` are not modelled. Every modelled grid has positive dimensions, and its border positions are stated by `Grids.North` and `Grids.East`.
- `BivariateColorRenderer.renderImage`, `getLUTCoordinates` and `getDiagramImage`, and `ColorLUT.getDiagramImage`, are image and GUI helpers. The per-pixel `renderPixel` and the table they read are modelled.
- ColorLUT's `interpolateValue`, `gaussianWeight`, `inverseDistanceWeight`, `weight`, `colorPointsChanged`, `addPoint`, `removePoint`, `setExponentP`, `setUseIDW` and `getLUTColor` repeat BivariateColorRenderer's code. The shared `Bivariate` members model both copies, and their rows cite the renderer's.
- ColorLUT calls `setR`, `setG` and `setB`, which BivariateColorPoint.java does not declare. They are modelled as setting the colour components.
- The RGB to CIE L*a*b* conversion of BivariateColorPoint (ColorSpaceConverter) is a pure floating-point computation. The Lab components are not modelled.
- Table: `changeEncoding` depends on Java charsets. `getColumn`, `addColumn`, `setName` and the geometry list are Swing column-model bookkeeping. `writeObject` is serialisation.
- `DBFShapeImporter.read` passes the resolved path to DBFImporter, which is not part of this model. The path resolution is `Paths.FindDbfFileSibling`.
- File existence is a predicate parameter. DecimalFormat is a formatter parameter. The DBF date is a parameter.
- MixedEndianDataInputStream and LittleEndianOutputStream are not part of this model. Their big- and little-endian layouts are written out in `Bytes`.
- Stream and file wrappers without logic of their own are not modelled: ShapeExporter.java, ShapeImporter.java, GeometryCollectionImporter.java, GridOperator.java, ColorLUTInterface.java and DisplayableTableColumn.java.
- Point records: the Shapefile writer never writes points, following a FIXME in the code, so the model writes none.
- ShapeImport.PolygonAsWritten: states only when it fails and with which error. The contents it returns are stated by ShapeFileRoundTrip.PolygonRingRead.
- ShapeImport.Polygon: states only when it fails and with which error. The contents it returns are stated by ShapeRoundTrip.PolygonOfOnePart and ShapeFileRoundTrip.PolygonRingRead.
- ShapeExport.Header: states only the length. The field values are stated by ShapeFileRoundTrip.HeaderFields.
- ShapeExport.Content: states only the length. The field values are stated by ShapeRoundTrip.ContentFields.
- ShapeExport.Record: states only the length. The record header and content are stated by the ShapeRoundTrip lemmas.
- Features.DensifyAsWritten: requires a maximum segment length other than 0. With 0 the Java cast of an infinite quotient gives Integer.MAX_VALUE points, and the model does not build that list.
- Dbf.NumberFieldAsWritten: states only the length of the field. The lost digit is stated by Dbf.NumberFieldLosesLastChar.
- Dbf.NumberField: states only the length of the field. Its contents are stated by Dbf.NumberFieldLosesLastChar and Dbf.FormatToWidth.
- Paths.LowerChar: lower-cases only the ASCII letters A to Z. Java's `String.toLowerCase` also maps non-ASCII letters by the default locale, which is not modelled.
- Paths.ToLower: lower-cases character by character with Paths.LowerChar, so it is ASCII-only as well.
- Colorizer.Shade: uses the corrected stencil Colorizer.Gradient. At the top-left cell the Java code takes nx with the opposite sign (Colorizer.GradientAsWritten, see Findings), so Shade does not give the Java gray there.
- Colorizer.PixelAt: its shading modes use Colorizer.Shade and inherit its corrected top-left cell. Its aspect mode follows the code as written and fails at border cells.
- Colorizer.OperateChunk: writes the pixels of Colorizer.PixelAt, so the shading modes inherit its corrected top-left cell.
- NormalMap.OperateChunk: writes NormalMap.Pixel, the corrected stencil. At the top-left cell the Java pixel is NormalMap.PixelAsWritten's, whose x byte differs (see Findings).
- NormalMap.Operate: encodes through NormalMap.OperateChunk, with the same corrected top-left cell.
- IlluminatedContours.RenderToImage: visits the rows of the corrected IlluminatedContours.RowRange, which includes row rows - 2. Java stops one row earlier (IlluminatedContours.RowRangeAsWritten, see Findings), so RenderToImage also draws that row.
- Bivariate.Sample: uses the corrected Bivariate.Interpolate. At a control point with inverse-distance weights Java gives opaque black (Bivariate.InterpolateAsWritten, see Findings), while Sample gives the point's colour.
- Bivariate.Lut: fills every table cell from Bivariate.Sample, so a cell at a control point holds that point's colour where the Java table holds black.
- Bivariate.Rebuilt: rebuilds the table from Bivariate.Sample, so a cell at a control point holds that point's colour where the Java table holds black.
- Bivariate.AddPoint: rebuilds the table from Bivariate.Sample, so a cell at a control point holds that point's colour where the Java table holds black.
- Bivariate.RemovePoint: rebuilds the table from Bivariate.Sample, so a cell at a control point holds that point's colour where the Java table holds black.
- Bivariate.SetExponentP: rebuilds the table from Bivariate.Sample, so a cell at a control point holds that point's colour where the Java table holds black.
- Bivariate.SetUseIdw: rebuilds the table from Bivariate.Sample, so a cell at a control point holds that point's colour where the Java table holds black.
- Bivariate.NewRenderer: builds its table from Bivariate.Sample, so a cell at a control point holds that point's colour where the Java table holds black.
- Bivariate.NewColorLut: builds its table from Bivariate.Sample, so a cell at a control point holds that point's colour where the Java table holds black.
- Bivariate.CachedSample: states that a current table holds Bivariate.Sample in every cell, so at a control point it gives that point's colour where Java gives black.
- Bivariate.Lookup: reads a table built from Bivariate.Sample, so at a control point it gives that point's colour where Java gives black.
- Bivariate.LutColor: reads a table built from Bivariate.Sample, so at a control point it gives that point's colour where Java gives black.
- Bivariate.RenderPixel: reads a table built from Bivariate.Sample, so at a control point it gives that point's colour where Java gives black.
- Bivariate.RenderShaded: reads a table built from Bivariate.Sample, so at a control point it gives that point's colour where Java gives black.
- Shearing.ShearCollection: takes a finite factor k. The infinite factor that Shearing.ShearFactor reports as None (a tangent of 0) gives Java infinite y values, or NaN for a point at the reference level, and reals have no infinity; collection shearing with that factor is not modelled.
- PlanOblique.Operate: takes the shear factor k as a real. The constructor computes k = 1 / tan(toRadians(angle)) (PlanObliqueOperator.java:24-27); that step is Shearing.ShearFactor, whose None (an inclination with tangent 0) would give Java an infinite k, which reals cannot hold, so the operator is modelled for finite factors only.

## Findings

| source | as written | input that shows it | evidently intended | confidence | as-written member | corrected member |
|---|---|---|---|---|---|---|
| src/edu/oregonstate/cartography/grid/operators/ColorizerOperator.java:319-324 | the top-left case of the shading stencil computes nx from the east neighbour minus the centre, the opposite sign of every other case | a plane rising to the east: the top-left pixel gets nx = +2, its neighbour and every other border case -2 | the same one-sided difference as the other border cases | not executed | Colorizer.TopLeftCounterexample | Colorizer.PlaneHasUniformGradient |
| src/edu/oregonstate/cartography/grid/operators/ColorizerOperator.java:516-533 | the aspect mode asks `getAspect` for every column, including columns 0 and cols - 1, whose neighbour look-ups leave the grid | any grid, column 0: the look-up of column -1 throws | aspects for border cells from clamped neighbours, or no aspect there | not executed | Colorizer.AspectBorderCounterexample | Colorizer.ClampedAspect |
| src/edu/oregonstate/cartography/grid/Grid.java:173-177 | on the bottom row the bilinear interpolation uses the distance from the west border, not from the cell's column | the node of column 1 on the bottom row returns the value of column 2 | the node's own value | not executed | Grids.LowerBorderCounterexample | Grids.BilinearAtNode |
| src/edu/oregonstate/cartography/grid/Grid.java:128-135 | on the east column the vertical blend measures its weight from the north and blends in the wrong order | the north-east node returns the south-east value | the node's own value | not executed | Grids.RightBorderCounterexample | Grids.BilinearAtNode |
| src/edu/oregonstate/cartography/grid/Grid.java:153-161 | `(int)` truncation toward zero maps positions up to one cell west of the grid to column 0 | half a cell west of the grid: an extrapolated value instead of NaN | NaN outside the grid | not executed | Grids.OutsideWestCounterexample | Grids.Bilinear |
| src/edu/oregonstate/cartography/grid/Grid.java:237-240 | the bicubic interpolation indexes the grid with the column stencil as rows and the row stencil as columns | a constant grid of 3 rows and 5 columns: the look-up reads past the last row | the value of the constant grid | not executed | Grids.BicubicCounterexample | Grids.BicubicAtNode |
| src/edu/oregonstate/cartography/grid/operators/NormalMapOperator.java:174-180 | the top-left case of the normal-map stencil has the x difference with the wrong sign | a plane rising to the east: the top-left x byte lies on the other side of the middle from its neighbour's | the same encoded normal at every cell of a plane | not executed | NormalMap.TopLeftCounterexample | NormalMap.PlaneEncodesUniformly |
| src/edu/oregonstate/cartography/grid/operators/IlluminatedContoursOperator.java:132-133 | the chunk's last row is min(rows - 2, endRow), exclusive, while columns run to cols - 2 inclusive | a chunk reaching the bottom: row rows - 2 has four neighbours yet is never drawn | every row with four neighbours is drawn | not executed | IlluminatedContours.LastInteriorRowSkipped | IlluminatedContours.RowRange |
| src/edu/oregonstate/cartography/grid/operators/GridStandardDeviationOperator.java:134-146 | the window sum counts only rows and columns from 1 on | a band that is 1 at the north-west corner and 0 elsewhere: that corner's window sums to 0 | row 0 and column 0 take part like any other cell | not executed | StandardDeviation.AsWrittenMissesSpike | StandardDeviation.SpikeWindow |
| src/edu/oregonstate/cartography/gui/bivariate/BivariateColorRenderer.java:161-195 | at a control point the inverse-distance weight is infinite, the weighted means are NaN and `(int)` NaN is 0 | any pixel at a control point with inverse-distance weights and a positive exponent comes out black | the control point's own colour | not executed | Bivariate.ControlPointBlackAsWritten | Bivariate.ControlPointKeepsColour |
| src/edu/oregonstate/cartography/simplefeatures/LineString.java:162-165 | the intermediate points of a long segment start at step 0, which is the segment's start point | a two-point line longer than the maximum: its start point appears twice in a row | intermediate points strictly inside the segment | not executed | Features.DensifyAsWrittenRepeatsStart | Features.DensifyKeepsNoRepeats |
| src/edu/oregonstate/cartography/simplefeatures/LineString.java:254-257 | `concatenateLines` inverts its argument lines in place, although its comment says they are not modified | a first line that starts at the central point and does not end there is left inverted | the arguments stay unchanged | not executed | Features.ConcatenateModifiesFirstLine | Features.JoinLines |
| src/edu/oregonstate/cartography/geometryimport/ShapeGeometryImporter.java:305 | the last part of a polygon stops one point before the end, after the first point was already skipped | a written ring of n >= 3 points is read back with n - 2 points | n - 1 points, the closing point alone dropped | not executed | ShapeFileRoundTrip.PolygonRingRead | ShapeImport.Polygon |
| src/edu/oregonstate/cartography/geometryimport/ShapeGeometryImporter.java:104-156 | an index of no records makes the import read offset 0 of an empty list, and a missing index is dereferenced | a .shx with no records throws an index error, no .shx throws a NullPointerException | no lines from an empty index, and sequential reading without one | not executed | ShapeFileRoundTrip.ImportAsWrittenOfLaid | ShapeFileRoundTrip.ImportOfLaid |
| src/edu/oregonstate/cartography/geometryexport/DBFExporter.java:63 | the header's record size comes from `computeRecordSize(null)`, 21, while each record written is 41 bytes | any table with at least two records: a reader stepping 21 bytes ends before the last record | the record size of the records actually written | not executed | Dbf.RecordSizeMismatch | Dbf.RecordLocated |
| src/edu/oregonstate/cartography/geometryexport/DBFExporter.java:34-95 | the month byte is `Calendar.MONTH`, which counts from 0 | a file written in January declares month 0 | months 1 to 12, as dBASE III stores them | not executed | Dbf.ExportTableAsWritten | Dbf.ExportTable |
| src/edu/oregonstate/cartography/geometryexport/DBFExporter.java:197-206 | numbers are padded to 21 characters and then cut to the 20-character field | row 0 is stored as "0.0000000", one decimal short | the whole number, right-aligned in 20 characters | not executed | Dbf.NumberFieldLosesLastChar | Dbf.FormatToWidth |

=== FILE: argb.dfy ===
/**
 * 32-bit ARGB pixels as java.awt.image.BufferedImage.TYPE_INT_ARGB stores them, read as an
 * unsigned word: alpha in the top byte, then red, green and blue.
 */
module Argb {

  newtype Pixel = x: int | 0 <= x < 0x1_0000_0000

  /** ColorizerOperator.VOID_COLOR: fully transparent black. */
  const VOID_COLOR: Pixel := 0

  function Alpha(p: Pixel): int { p as int / 0x100_0000 }
  function Red(p: Pixel): int { (p as int / 0x1_0000) % 0x100 }
  function Green(p: Pixel): int { (p as int / 0x100) % 0x100 }
  function Blue(p: Pixel): int { p as int % 0x100 }

  predicate IsChannel(c: int) { 0 <= c < 256 }

  /** java.awt.Color reduced to its red, green and blue components. */
  datatype Rgb = Rgb(r: int, g: int, b: int) {
    predicate Valid() { IsChannel(r) && IsChannel(g) && IsChannel(b) }
  }

  /** The red, green and blue bytes of a pixel. */
  function Channels(p: Pixel): (c: Rgb)
    ensures c.Valid()
  {
    Rgb(Red(p), Green(p), Blue(p))
  }

  /**
   * a << 24 | r << 16 | g << 8 | b for channels in [0, 255]; with disjoint bit ranges the
   * bitwise or is a sum, and every channel reads back unchanged.
   */
  function Pack(a: int, r: int, g: int, b: int): (p: Pixel)
    requires IsChannel(a) && IsChannel(r) && IsChannel(g) && IsChannel(b)
    ensures Alpha(p) == a && Red(p) == r && Green(p) == g && Blue(p) == b
  {
    var w := a * 0x100_0000 + r * 0x1_0000 + g * 0x100 + b;
    assert w / 0x100_0000 == a;
    assert w / 0x1_0000 == a * 0x100 + r;
    assert w / 0x100 == a * 0x1_0000 + r * 0x100 + g;
    w as Pixel
  }

  /** An opaque pixel, 0xFF000000 | r << 16 | g << 8 | b. */
  function Opaque(r: int, g: int, b: int): (p: Pixel)
    requires IsChannel(r) && IsChannel(g) && IsChannel(b)
    ensures Alpha(p) == 255 && Red(p) == r && Green(p) == g && Blue(p) == b
  {
    Pack(255, r, g, b)
  }

  /** Packing is injective: distinct channel tuples give distinct pixels. */
  lemma PackInjective(a: int, r: int, g: int, b: int, a': int, r': int, g': int, b': int)
    requires IsChannel(a) && IsChannel(r) && IsChannel(g) && IsChannel(b)
    requires IsChannel(a') && IsChannel(r') && IsChannel(g') && IsChannel(b')
    requires Pack(a, r, g, b) == Pack(a', r', g', b')
    ensures a == a' && r == r' && g == g' && b == b'
  {
    var p := Pack(a, r, g, b);
    assert Alpha(p) == a && Alpha(p) == a';
  }

  /** The bitwise or of two bytes, Java's | on values in [0, 255]. */
  function OrByte(x: int, y: int): (z: int)
    requires IsChannel(x) && IsChannel(y)
    ensures IsChannel(z)
    ensures x == 0 ==> z == y
    ensures y == 0 ==> z == x
  {
    OrBelow(x, y, 8);
    OrNat(x, y)
  }

  /** Java's | on non-negative integers, bit by bit from the lowest. */
  function OrNat(a: nat, b: nat): nat {
    if a == 0 then b
    else if b == 0 then a
    else 2 * OrNat(a / 2, b / 2) + (if a % 2 == 1 || b % 2 == 1 then 1 else 0)
  }

  function Pow2(n: nat): nat {
    if n == 0 then 1 else 2 * Pow2(n - 1)
  }

  /** The or of two n-bit numbers has n bits. */
  lemma {:induction false} OrBelow(a: nat, b: nat, n: nat)
    requires a < Pow2(n) && b < Pow2(n)
    ensures OrNat(a, b) < Pow2(n)
  {
    if a != 0 && b != 0 {
      OrBelow(a / 2, b / 2, n - 1);
    }
  }

  /** Or is idempotent. */
  lemma {:induction false} OrSelf(a: nat)
    ensures OrNat(a, a) == a
  {
    if a != 0 {
      OrSelf(a / 2);
    }
  }
}

=== FILE: bivariate.dfy ===
/**
 * The bivariate colour look-up table that BivariateColorRenderer and ColorLUT share: colour
 * control points placed in the plane of two normalised attributes, a 256 x 256 table of
 * colours interpolated from them with Gaussian or inverse-distance weights, and the
 * lookups that read the table.
 */
module Bivariate {
  import opened Wrappers
  import opened Numeric
  import opened Argb
  import Grids

  /** LUT_SIZE: the table has this many rows and columns. */
  const LUT_SIZE: int := 256

  // ------------------------------------------------------------------------------------------
  // Control points

  /**
   * BivariateColorPoint: an RGB colour, a position in the (attribute1, attribute2) plane and
   * an optional longitude and latitude, NaN until set.
   */
  datatype ColorPoint = ColorPoint(r: int, g: int, b: int, attribute1: real, attribute2: real, lon: Cell, lat: Cell)

  datatype Channel = R | G | B

  function Component(p: ColorPoint, ch: Channel): int {
    match ch
    case R => p.r
    case G => p.g
    case B => p.b
  }

  /** What new Color(r, g, b) accepts. */
  predicate HasRgb(p: ColorPoint) {
    IsChannel(p.r) && IsChannel(p.g) && IsChannel(p.b)
  }

  /** isLonLatDefined: neither longitude nor latitude is NaN. */
  predicate IsLonLatDefined(p: ColorPoint) {
    p.lon.Val? && p.lat.Val?
  }

  /** A new point: Java's zero defaults for colour and attributes, NaN longitude and latitude. */
  function NewPoint(): (p: ColorPoint)
    ensures !IsLonLatDefined(p)
    ensures p.r == 0 && p.g == 0 && p.b == 0 && p.attribute1 == 0.0 && p.attribute2 == 0.0
  {
    ColorPoint(0, 0, 0, 0.0, 0.0, Void, Void)
  }

  /** setColor(r, g, b): the getters return exactly r, g and b; position and location stay. */
  function SetColor(p: ColorPoint, r: int, g: int, b: int): (q: ColorPoint)
    ensures Component(q, R) == r && Component(q, G) == g && Component(q, B) == b
    ensures q.attribute1 == p.attribute1 && q.attribute2 == p.attribute2
    ensures IsLonLatDefined(q) == IsLonLatDefined(p)
  {
    p.(r := r, g := g, b := b)
  }

  /** setAttribute1 and setAttribute2 store their argument and nothing else. */
  function SetAttributes(p: ColorPoint, attribute1: real, attribute2: real): (q: ColorPoint)
    ensures q.attribute1 == attribute1 && q.attribute2 == attribute2
    ensures forall ch :: Component(q, ch) == Component(p, ch)
    ensures IsLonLatDefined(q) == IsLonLatDefined(p)
  {
    p.(attribute1 := attribute1, attribute2 := attribute2)
  }

  /** setLonLat: the location is defined exactly when both arguments are numbers. */
  function SetLonLat(p: ColorPoint, lon: Cell, lat: Cell): (q: ColorPoint)
    ensures IsLonLatDefined(q) <==> lon.Val? && lat.Val?
    ensures q.lon == lon && q.lat == lat
    ensures forall ch :: Component(q, ch) == Component(p, ch)
    ensures q.attribute1 == p.attribute1 && q.attribute2 == p.attribute2
  {
    p.(lon := lon, lat := lat)
  }

  /** A point built like initPoints builds one: a new point given a colour and a position. */
  function Corner(r: int, g: int, b: int, attribute1: real, attribute2: real): ColorPoint {
    ColorPoint(r, g, b, attribute1, attribute2, Void, Void)
  }

  /** BivariateColorRenderer.initPoints: brown, green, white and blue at the four corners. */
  function RendererPoints(): seq<ColorPoint> {
    [Corner(131, 116, 96, 0.0, 0.0), Corner(0, 100, 0, 1.0, 0.0),
     Corner(255, 255, 255, 1.0, 1.0), Corner(0, 0, 255, 0.0, 1.0)]
  }

  /** ColorLUT.initPoints: red, green, blue and blue at the four corners. */
  function ColorLutPoints(): seq<ColorPoint> {
    [Corner(255, 0, 0, 0.0, 0.0), Corner(0, 255, 0, 1.0, 0.0),
     Corner(0, 0, 255, 1.0, 1.0), Corner(0, 0, 255, 0.0, 1.0)]
  }

  // ------------------------------------------------------------------------------------------
  // Weights

  /** Math.sqrt, Math.exp and Math.pow. */
  datatype Library = Library(sqrt: real -> real, exp: real -> real, pow: (real, real) -> real) {
    ghost predicate Lawful() {
      IsSqrt(sqrt) && IsExp(exp) && IsPow(pow)
    }
  }

  /** The exponent and the choice between inverse-distance and Gaussian weights. */
  datatype Weighting = Weighting(exponentP: real, useIDW: bool)

  /** exponentP = 1.3, useIDW = false */
  const DEFAULT_WEIGHTING: Weighting := Weighting(1.3, false)

  /**
   * A weight as the double arithmetic produces it: 1 / Math.pow(0, p) for p > 0 is
   * positive infinity, every other weight is a finite number.
   */
  datatype Weight = Finite(w: real) | Infinite

  lemma SqZero(x: real)
    ensures Sq(x) >= 0.0
    ensures Sq(x) == 0.0 <==> x == 0.0
  {
    SqNonNegative(x);
    if x > 0.0 {
      SqPositive(x);
    } else if x < 0.0 {
      SqPositive(-x);
      TimesNegated(x, x);
    } else {
      TimesZero(x, x);
    }
  }

  /** A square root of a positive number is not zero. */
  lemma RootNotZero(sqrt: real -> real, v: real)
    ensures IsSqrt(sqrt) && v > 0.0 ==> sqrt(v) >= 0.0 && sqrt(v) != 0.0
  {
    if IsSqrt(sqrt) && v > 0.0 {
      var s := sqrt(v);
      assert s * s == v;
    }
  }

  /** The Euclidean distance between a point and (x, y) in the attribute plane. */
  function Distance(lib: Library, p: ColorPoint, x: real, y: real): (d: real)
    ensures IsSqrt(lib.sqrt) ==> d >= 0.0 && (d == 0.0 <==> p.attribute1 == x && p.attribute2 == y)
  {
    var d1 := p.attribute1 - x;
    var d2 := p.attribute2 - y;
    SqZero(d1);
    SqZero(d2);
    var v := Sq(d1) + Sq(d2);
    RootNotZero(lib.sqrt, v);
    lib.sqrt(v)
  }

  lemma ProductWithZero(a: real, b: real)
    requires b == 0.0
    ensures Times(a, b) == 0.0
  {
  }

  lemma ExponentAtZero(a: real, d: real)
    ensures d == 0.0 ==> Times(Times(a, d), d) == 0.0
  {
    if d == 0.0 {
      ProductWithZero(a, d);
      ProductWithZero(Times(a, d), d);
    }
  }

  /** gaussianWeight: exp(-K d^2) with K = p / 10000 * 255 * 255 / 3. */
  function GaussianWeight(lib: Library, p: real, d: real): (w: real)
    ensures IsExp(lib.exp) ==> w > 0.0 && (d == 0.0 ==> w == 1.0)
  {
    var k := p / 10000.0 * 255.0 * 255.0 / 3.0;
    var e := Times(Times(-k, d), d);
    ExponentAtZero(-k, d);
    lib.exp(e)
  }

  /**
   * inverseDistanceWeight: 1 / d^p. At distance 0, Math.pow(0, p) is 0 for p > 0 (an
   * infinite weight), 1 for p == 0 and infinity for p < 0 (a zero weight).
   */
  function InverseDistanceWeight(lib: Library, p: real, d: real): (w: Weight)
    ensures IsPow(lib.pow) && d > 0.0 ==> w.Finite? && w.w > 0.0
    ensures d == 0.0 ==> (w.Infinite? <==> p > 0.0)
    ensures IsPow(lib.pow) && d >= 0.0 && w.Finite? ==> w.w >= 0.0
  {
    if d > 0.0 then
      var q := lib.pow(d, p);
      if q == 0.0 then Infinite else Finite(1.0 / q)
    else if p > 0.0 then Infinite
    else if p == 0.0 then Finite(1.0)
    else Finite(0.0)
  }

  /** weight: inverse-distance weights when useIDW, Gaussian weights otherwise. */
  function WeightOf(lib: Library, s: Weighting, d: real): (w: Weight)
    ensures s.useIDW ==> w == InverseDistanceWeight(lib, s.exponentP, d)
    ensures !s.useIDW ==> w == Finite(GaussianWeight(lib, s.exponentP, d))
    ensures lib.Lawful() && d >= 0.0 && w.Finite? ==> w.w >= 0.0
  {
    if s.useIDW then InverseDistanceWeight(lib, s.exponentP, d)
    else Finite(GaussianWeight(lib, s.exponentP, d))
  }

  /** The weight of every control point for the position (x, y). */
  function Weights(lib: Library, s: Weighting, points: seq<ColorPoint>, x: real, y: real): (ws: seq<Weight>)
    ensures |ws| == |points|
    ensures forall i :: 0 <= i < |points| ==> ws[i] == WeightOf(lib, s, Distance(lib, points[i], x, y))
  {
    seq(|points|, i requires 0 <= i < |points| => WeightOf(lib, s, Distance(lib, points[i], x, y)))
  }

  predicate AnyInfinite(ws: seq<Weight>) {
    exists i :: 0 <= i < |ws| && ws[i].Infinite?
  }

  /** The finite weights, with an infinite one counted as 0. */
  function FiniteParts(ws: seq<Weight>): (v: seq<real>)
    ensures |v| == |ws|
    ensures forall i :: 0 <= i < |ws| ==> v[i] == (if ws[i].Finite? then ws[i].w else 0.0)
  {
    seq(|ws|, i requires 0 <= i < |ws| => if ws[i].Finite? then ws[i].w else 0.0)
  }

  /** Weight 1 for each point an infinite weight marks, 0 for the others. */
  function Hits(ws: seq<Weight>): (v: seq<real>)
    ensures |v| == |ws|
    ensures forall i :: 0 <= i < |ws| ==> v[i] == (if ws[i].Infinite? then 1.0 else 0.0)
  {
    seq(|ws|, i requires 0 <= i < |ws| => if ws[i].Infinite? then 1.0 else 0.0)
  }

  // ------------------------------------------------------------------------------------------
  // Weighted means

  /** The loop's weightedSumR, weightedSumG or weightedSumB: the sum of component * weight. */
  function WeightedSum(points: seq<ColorPoint>, ws: seq<real>, ch: Channel): real
    requires |ws| == |points|
  {
    if |points| == 0 then 0.0
    else WeightedSum(points[..|points| - 1], ws[..|ws| - 1], ch) + Times(Component(points[|points| - 1], ch) as real, ws[|ws| - 1])
  }

  /**
   * (int) Math.min(255, Math.max(0, sum / total)). A zero total makes the quotient NaN,
   * which both clamps pass through and the cast turns into 0.
   */
  function Mean(sum: real, total: real): (c: int)
    ensures IsChannel(c)
    ensures total == 0.0 ==> c == 0
  {
    if total == 0.0 then 0 else Trunc(Clamp(sum / total, 0.0, 255.0))
  }

  /** The opaque pixel of the three weighted means. */
  function MeanPixel(points: seq<ColorPoint>, ws: seq<real>): (p: Pixel)
    requires |ws| == |points|
    ensures Alpha(p) == 255
  {
    var total := Sum(ws);
    Opaque(Mean(WeightedSum(points, ws, R), total), Mean(WeightedSum(points, ws, G), total),
      Mean(WeightedSum(points, ws, B), total))
  }

  /**
   * interpolateColor and interpolateValue as written. One infinite weight makes every
   * weighted sum infinite or NaN and every quotient NaN, so the pixel is opaque black.
   */
  function InterpolateAsWritten(lib: Library, s: Weighting, points: seq<ColorPoint>, x: real, y: real): (p: Pixel)
    ensures Alpha(p) == 255
    ensures AnyInfinite(Weights(lib, s, points, x, y)) ==> p == Opaque(0, 0, 0)
  {
    var ws := Weights(lib, s, points, x, y);
    if AnyInfinite(ws) then Opaque(0, 0, 0) else MeanPixel(points, FiniteParts(ws))
  }

  /** The weights the interpolation uses: the hits where there are any, else the finite weights. */
  function Effective(ws: seq<Weight>): (v: seq<real>)
    ensures |v| == |ws|
  {
    if AnyInfinite(ws) then Hits(ws) else FiniteParts(ws)
  }

  /**
   * The interpolation with the limit that inverse-distance weighting has at a control point:
   * where points coincide with (x, y), their mean colour; elsewhere the weighted mean.
   */
  function Interpolate(lib: Library, s: Weighting, points: seq<ColorPoint>, x: real, y: real): (p: Pixel)
    ensures Alpha(p) == 255
    ensures !AnyInfinite(Weights(lib, s, points, x, y)) ==> p == InterpolateAsWritten(lib, s, points, x, y)
  {
    MeanPixel(points, Effective(Weights(lib, s, points, x, y)))
  }

  lemma TimesDistributes(a: real, x: real, y: real)
    ensures Times(a, x) + Times(a, y) == Times(a, x + y)
  {
  }

  lemma TimesMonotone(a: real, b: real, w: real)
    requires a <= b && w >= 0.0
    ensures Times(a, w) <= Times(b, w)
  {
    if w > 0.0 && a < b {
      ScaleLt(w, a, b);
    }
  }

  lemma TimesStrict(a: real, b: real, w: real)
    requires a < b && w > 0.0
    ensures Times(a, w) < Times(b, w)
  {
    ScaleLt(w, a, b);
  }

  /**
   * With non-negative weights, a weighted sum of components within [lo, hi] lies between lo
   * and hi times the total weight.
   */
  lemma {:induction false} WeightedSumBetween(points: seq<ColorPoint>, ws: seq<real>, ch: Channel, lo: real, hi: real)
    requires |ws| == |points|
    requires forall i :: 0 <= i < |ws| ==> ws[i] >= 0.0
    requires forall i :: 0 <= i < |points| ==> lo <= Component(points[i], ch) as real <= hi
    ensures Times(lo, Sum(ws)) <= WeightedSum(points, ws, ch) <= Times(hi, Sum(ws))
  {
    if |points| == 0 {
      ProductWithZero(lo, Sum(ws));
      ProductWithZero(hi, Sum(ws));
    } else {
      var n := |points| - 1;
      var c := Component(points[n], ch) as real;
      WeightedSumBetween(points[..n], ws[..n], ch, lo, hi);
      TimesMonotone(lo, c, ws[n]);
      TimesMonotone(c, hi, ws[n]);
      TimesDistributes(lo, Sum(ws[..n]), ws[n]);
      TimesDistributes(hi, Sum(ws[..n]), ws[n]);
    }
  }

  /** The sum of non-negative weights is positive when one of them is. */
  lemma {:induction false} SumPositive(ws: seq<real>, k: int)
    requires forall i :: 0 <= i < |ws| ==> ws[i] >= 0.0
    requires 0 <= k < |ws| && ws[k] > 0.0
    ensures Sum(ws) > 0.0
  {
    var n := |ws| - 1;
    if k < n {
      SumPositive(ws[..n], k);
    } else {
      SumNonNegative(ws[..n]);
    }
  }

  lemma {:induction false} SumNonNegative(ws: seq<real>)
    requires forall i :: 0 <= i < |ws| ==> ws[i] >= 0.0
    ensures Sum(ws) >= 0.0
  {
    if |ws| > 0 {
      SumNonNegative(ws[..|ws| - 1]);
    }
  }

  /** A sum between lo and hi times a positive total has its mean between lo and hi. */
  lemma MeanBetween(sum: real, total: real, lo: int, hi: int)
    requires 0 <= lo <= hi <= 255 && total > 0.0
    requires Times(lo as real, total) <= sum <= Times(hi as real, total)
    ensures lo <= Mean(sum, total) <= hi
  {
    var q := sum / total;
    TimesQuotient(sum, total);
    if q < lo as real {
      TimesStrict(q, lo as real, total);
    }
    if q > hi as real {
      TimesStrict(hi as real, q, total);
    }
  }

  /** Every weight the interpolation uses is non-negative. */
  lemma EffectiveNonNegative(ws: seq<Weight>)
    requires forall i :: 0 <= i < |ws| ==> ws[i].Finite? ==> ws[i].w >= 0.0
    ensures forall i :: 0 <= i < |ws| ==> Effective(ws)[i] >= 0.0
  {
  }

  /**
   * With at least one point, and a non-negative exponent when inverse-distance weights are
   * used, the weights the interpolation uses add up to a positive total.
   */
  lemma EffectiveTotalPositive(lib: Library, s: Weighting, points: seq<ColorPoint>, x: real, y: real)
    requires lib.Lawful() && |points| > 0
    requires s.useIDW ==> s.exponentP >= 0.0
    ensures Sum(Effective(Weights(lib, s, points, x, y))) > 0.0
  {
    var ws := Weights(lib, s, points, x, y);
    var v := Effective(ws);
    EffectiveNonNegative(ws);
    if AnyInfinite(ws) {
      var k :| 0 <= k < |ws| && ws[k].Infinite?;
      SumPositive(v, k);
    } else {
      var d := Distance(lib, points[0], x, y);
      assert ws[0] == WeightOf(lib, s, d);
      SumPositive(v, 0);
    }
  }

  /**
   * The interpolated colour never leaves the range of the control colours: a channel of the
   * pixel lies between the least and the greatest value of that channel among the points.
   */
  lemma InterpolateWithinColours(lib: Library, s: Weighting, points: seq<ColorPoint>, x: real, y: real, ch: Channel, lo: int, hi: int)
    requires lib.Lawful() && |points| > 0
    requires s.useIDW ==> s.exponentP >= 0.0
    requires 0 <= lo <= hi <= 255
    requires forall i :: 0 <= i < |points| ==> lo <= Component(points[i], ch) <= hi
    ensures var v := Effective(Weights(lib, s, points, x, y));
      lo <= Mean(WeightedSum(points, v, ch), Sum(v)) <= hi
  {
    var ws := Weights(lib, s, points, x, y);
    var v := Effective(ws);
    EffectiveNonNegative(ws);
    EffectiveTotalPositive(lib, s, points, x, y);
    WeightedSumBetween(points, v, ch, lo as real, hi as real);
    MeanBetween(WeightedSum(points, v, ch), Sum(v), lo, hi);
  }

  /** The colour all control points share, when they share one. */
  predicate Uniform(points: seq<ColorPoint>, r: int, g: int, b: int) {
    forall i :: 0 <= i < |points| ==> points[i].r == r && points[i].g == g && points[i].b == b
  }

  /** If every control point has the same colour, every interpolated pixel has that colour. */
  lemma UniformColour(lib: Library, s: Weighting, points: seq<ColorPoint>, x: real, y: real, r: int, g: int, b: int)
    requires lib.Lawful() && |points| > 0
    requires s.useIDW ==> s.exponentP >= 0.0
    requires IsChannel(r) && IsChannel(g) && IsChannel(b) && Uniform(points, r, g, b)
    ensures Interpolate(lib, s, points, x, y) == Opaque(r, g, b)
  {
    InterpolateWithinColours(lib, s, points, x, y, R, r, r);
    InterpolateWithinColours(lib, s, points, x, y, G, g, g);
    InterpolateWithinColours(lib, s, points, x, y, B, b, b);
  }

  /** Gaussian weights are finite, so the interpolation as written is the corrected one. */
  lemma GaussianWeightsAreFinite(lib: Library, s: Weighting, points: seq<ColorPoint>, x: real, y: real)
    requires lib.Lawful() && !s.useIDW
    ensures !AnyInfinite(Weights(lib, s, points, x, y))
    ensures Interpolate(lib, s, points, x, y) == InterpolateAsWritten(lib, s, points, x, y)
  {
    var ws := Weights(lib, s, points, x, y);
    forall i | 0 <= i < |ws|
      ensures ws[i].Finite?
    {
      assert ws[i] == WeightOf(lib, s, Distance(lib, points[i], x, y));
    }
  }

  /** With Gaussian weights the code as written returns the shared colour of uniform points. */
  lemma UniformColourAsWritten(lib: Library, s: Weighting, points: seq<ColorPoint>, x: real, y: real, r: int, g: int, b: int)
    requires lib.Lawful() && |points| > 0 && !s.useIDW
    requires IsChannel(r) && IsChannel(g) && IsChannel(b) && Uniform(points, r, g, b)
    ensures InterpolateAsWritten(lib, s, points, x, y) == Opaque(r, g, b)
  {
    GaussianWeightsAreFinite(lib, s, points, x, y);
    UniformColour(lib, s, points, x, y, r, g, b);
  }

  /** Weights that single out the point k. */
  predicate SinglesOut(ws: seq<real>, k: int) {
    forall i :: 0 <= i < |ws| ==> ws[i] == (if i == k then 1.0 else 0.0)
  }

  /** Weights that single out one point give that point's component and a total of 1. */
  lemma {:induction false} SingledOut(points: seq<ColorPoint>, ws: seq<real>, k: int, ch: Channel)
    requires |ws| == |points| && 0 <= k < |points| && SinglesOut(ws, k)
    ensures WeightedSum(points, ws, ch) == Component(points[k], ch) as real
    ensures Sum(ws) == 1.0
  {
    var n := |points| - 1;
    if k < n {
      SingledOut(points[..n], ws[..n], k, ch);
      ProductWithZero(Component(points[n], ch) as real, ws[n]);
    } else {
      NoneSingledOut(points[..n], ws[..n], ch);
    }
  }

  lemma {:induction false} NoneSingledOut(points: seq<ColorPoint>, ws: seq<real>, ch: Channel)
    requires |ws| == |points| && forall i :: 0 <= i < |ws| ==> ws[i] == 0.0
    ensures WeightedSum(points, ws, ch) == 0.0 && Sum(ws) == 0.0
  {
    if |points| > 0 {
      var n := |points| - 1;
      NoneSingledOut(points[..n], ws[..n], ch);
      ProductWithZero(Component(points[n], ch) as real, ws[n]);
    }
  }

  /** The mean of a single channel value c with total weight 1 is c. */
  lemma MeanOfOne(c: int)
    requires IsChannel(c)
    ensures Mean(c as real, 1.0) == c
  {
  }

  /** No other control point shares the position of point k. */
  predicate Alone(points: seq<ColorPoint>, k: int)
    requires 0 <= k < |points|
  {
    forall i :: 0 <= i < |points| && i != k ==>
      (points[i].attribute1, points[i].attribute2) != (points[k].attribute1, points[k].attribute2)
  }

  /**
   * Inverse-distance weighting interpolates exactly: with a positive exponent, at the
   * position of a control point that no other point shares, the corrected interpolation
   * returns that point's colour.
   */
  lemma ControlPointKeepsColour(lib: Library, s: Weighting, points: seq<ColorPoint>, k: int)
    requires lib.Lawful() && s.useIDW && s.exponentP > 0.0
    requires 0 <= k < |points| && HasRgb(points[k])
    requires Alone(points, k)
    ensures Interpolate(lib, s, points, points[k].attribute1, points[k].attribute2) ==
      Opaque(points[k].r, points[k].g, points[k].b)
  {
    var x, y := points[k].attribute1, points[k].attribute2;
    var ws := Weights(lib, s, points, x, y);
    assert ws[k] == WeightOf(lib, s, Distance(lib, points[k], x, y));
    var v := Effective(ws);
    forall i | 0 <= i < |ws|
      ensures v[i] == (if i == k then 1.0 else 0.0)
    {
      assert ws[i] == WeightOf(lib, s, Distance(lib, points[i], x, y));
    }
    SingledOut(points, v, k, R);
    SingledOut(points, v, k, G);
    SingledOut(points, v, k, B);
    MeanOfOne(points[k].r);
    MeanOfOne(points[k].g);
    MeanOfOne(points[k].b);
  }

  /**
   * The code as written turns the position of a control point black under inverse-distance
   * weights with a positive exponent.
   */
  lemma ControlPointBlackAsWritten(lib: Library, s: Weighting, points: seq<ColorPoint>, k: int)
    requires lib.Lawful() && s.useIDW && s.exponentP > 0.0 && 0 <= k < |points|
    ensures InterpolateAsWritten(lib, s, points, points[k].attribute1, points[k].attribute2) == Opaque(0, 0, 0)
  {
    var x, y := points[k].attribute1, points[k].attribute2;
    var ws := Weights(lib, s, points, x, y);
    assert ws[k] == WeightOf(lib, s, Distance(lib, points[k], x, y));
  }

  /** In the renderer's default points, brown sits alone at the origin. */
  lemma BrownAloneAtOrigin()
    ensures |RendererPoints()| == 4 && RendererPoints()[0] == Corner(131, 116, 96, 0.0, 0.0)
    ensures Alone(RendererPoints(), 0)
  {
    var points := RendererPoints();
    forall i | 0 <= i < |points| && i != 0
      ensures (points[i].attribute1, points[i].attribute2) != (0.0, 0.0)
    {
      if i == 1 {
        assert points[1].attribute1 == 1.0;
      } else if i == 2 {
        assert points[2].attribute1 == 1.0;
      } else {
        assert points[3].attribute2 == 1.0;
      }
    }
  }

  /**
   * The first cell of the renderer's table with inverse-distance weights and exponent 1.3,
   * where the brown control point sits alone (BrownAloneAtOrigin), is black as written.
   */
  lemma DefaultCornerBlackAsWritten(lib: Library, s: Weighting, points: seq<ColorPoint>)
    requires lib.Lawful() && s == Weighting(1.3, true)
    requires |points| > 0 && points[0] == Corner(131, 116, 96, 0.0, 0.0)
    ensures InterpolateAsWritten(lib, s, points, 0.0, 0.0) == Opaque(0, 0, 0)
  {
    ControlPointBlackAsWritten(lib, s, points, 0);
  }

  /** The same cell is brown once corrected. */
  lemma DefaultCornerBrown(lib: Library, s: Weighting, points: seq<ColorPoint>)
    requires lib.Lawful() && s == Weighting(1.3, true)
    requires |points| > 0 && points[0] == Corner(131, 116, 96, 0.0, 0.0) && Alone(points, 0)
    ensures Interpolate(lib, s, points, 0.0, 0.0) == Opaque(131, 116, 96)
  {
    ControlPointKeepsColour(lib, s, points, 0);
  }

  // ------------------------------------------------------------------------------------------
  // The look-up table

  /** A table of LUT_SIZE rows of LUT_SIZE pixels. */
  predicate IsSquare(lut: seq<seq<Pixel>>) {
    |lut| == LUT_SIZE && forall r :: 0 <= r < |lut| ==> |lut[r]| == LUT_SIZE
  }

  /** The colour of table row r, column c: the interpolation at (c / 255, r / 255). */
  function Sample(lib: Library, s: Weighting, points: seq<ColorPoint>, r: int, c: int): (p: Pixel)
    ensures Alpha(p) == 255
  {
    Interpolate(lib, s, points, c as real / 255.0, r as real / 255.0)
  }

  /** updateLUT and colorPointsChanged: every cell holds its sample. */
  function Lut(lib: Library, s: Weighting, points: seq<ColorPoint>): (lut: seq<seq<Pixel>>)
    ensures IsSquare(lut)
  {
    seq(LUT_SIZE, r => seq(LUT_SIZE, c => Sample(lib, s, points, r, c)))
  }

  /** Every cell of the table is an opaque colour, so none of them reads as VOID_COLOR. */
  lemma LutOpaque(lib: Library, s: Weighting, points: seq<ColorPoint>, r: int, c: int)
    requires 0 <= r < LUT_SIZE && 0 <= c < LUT_SIZE
    ensures Alpha(Lut(lib, s, points)[r][c]) == 255
    ensures Lut(lib, s, points)[r][c] != VOID_COLOR
  {
    assert Lut(lib, s, points)[r][c] == Sample(lib, s, points, r, c);
  }

  /** The state both classes keep: the control points, the weighting and the cached table. */
  datatype Table = Table(points: seq<ColorPoint>, weighting: Weighting, lut: seq<seq<Pixel>>) {
    /** The cached table is the one the current points and weighting give. */
    ghost predicate Current(lib: Library) {
      lut == Lut(lib, weighting, points)
    }
  }

  /** colorPointsChanged: the table is recomputed, points and weighting stay. */
  function Rebuilt(lib: Library, t: Table): (u: Table)
    ensures u.Current(lib)
    ensures u.points == t.points && u.weighting == t.weighting
  {
    t.(lut := Lut(lib, t.weighting, t.points))
  }

  /** addPoint: the point is appended and the table rebuilt. */
  function AddPoint(lib: Library, t: Table, p: ColorPoint): (u: Table)
    ensures u.Current(lib)
    ensures u.points == t.points + [p] && u.weighting == t.weighting
  {
    Rebuilt(lib, t.(points := t.points + [p]))
  }

  /** The index of the first occurrence of p. */
  function FirstIndex(points: seq<ColorPoint>, p: ColorPoint): (k: int)
    requires p in points
    ensures 0 <= k < |points| && points[k] == p && p !in points[..k]
  {
    if points[0] == p then 0 else 1 + FirstIndex(points[1..], p)
  }

  /**
   * ArrayList.remove(Object): the first occurrence goes, the order of the rest stays.
   * BivariateColorPoint does not override equals, so Java removes the first entry that is
   * the very same object; points here have no identity, so the first entry with equal
   * fields goes. The two differ only when the list holds two points with equal fields.
   */
  function RemoveFirst(points: seq<ColorPoint>, p: ColorPoint): (u: seq<ColorPoint>)
    ensures p !in points ==> u == points
    ensures p in points ==> u == points[..FirstIndex(points, p)] + points[FirstIndex(points, p) + 1..]
    ensures p in points ==> multiset(u) == multiset(points) - multiset{p}
  {
    if p !in points then points
    else
      var k := FirstIndex(points, p);
      assert points == points[..k] + [points[k]] + points[k + 1..];
      points[..k] + points[k + 1..]
  }

  /** removePoint: one occurrence of the point is removed and the table rebuilt. */
  function RemovePoint(lib: Library, t: Table, p: ColorPoint): (u: Table)
    ensures u.Current(lib) && u.weighting == t.weighting
    ensures p !in t.points ==> u.points == t.points
    ensures p in t.points ==> |u.points| == |t.points| - 1 && multiset(u.points) == multiset(t.points) - multiset{p}
  {
    Rebuilt(lib, t.(points := RemoveFirst(t.points, p)))
  }

  /** setExponentP: the exponent changes, the table is rebuilt. */
  function SetExponentP(lib: Library, t: Table, exponentP: real): (u: Table)
    ensures u.Current(lib) && u.points == t.points
    ensures u.weighting.exponentP == exponentP && u.weighting.useIDW == t.weighting.useIDW
  {
    Rebuilt(lib, t.(weighting := t.weighting.(exponentP := exponentP)))
  }

  /** setUseIDW: the choice of weights changes, the table is rebuilt. */
  function SetUseIdw(lib: Library, t: Table, useIDW: bool): (u: Table)
    ensures u.Current(lib) && u.points == t.points
    ensures u.weighting.useIDW == useIDW && u.weighting.exponentP == t.weighting.exponentP
  {
    Rebuilt(lib, t.(weighting := t.weighting.(useIDW := useIDW)))
  }

  /**
   * The table index (int) Math.round(a * 255) of a position a in [0, 1]: the nearest of the
   * 256 sampled positions, within half a step.
   */
  function Index(a: real): (i: int)
    requires 0.0 <= a <= 1.0
    ensures 0 <= i < LUT_SIZE
    ensures -0.5 < i as real - a * 255.0 <= 0.5
  {
    Round(a * 255.0)
  }

  /**
   * The lookup both renderPixel methods end with: VOID_COLOR where either position is NaN,
   * otherwise the cell nearest to (a1, a2), the second position selecting the row.
   */
  function Lookup(lib: Library, t: Table, a1: Cell, a2: Cell): (px: Pixel)
    requires IsSquare(t.lut)
    requires a1.Val? ==> 0.0 <= a1.v <= 1.0
    requires a2.Val? ==> 0.0 <= a2.v <= 1.0
    ensures a1.Void? || a2.Void? ==> px == VOID_COLOR
    ensures a1.Val? && a2.Val? && t.Current(lib) ==>
      px == Sample(lib, t.weighting, t.points, Index(a2.v), Index(a1.v)) && Alpha(px) == 255
  {
    if a1.Void? || a2.Void? then VOID_COLOR
    else
      CachedSample(lib, t, Index(a2.v), Index(a1.v));
      t.lut[Index(a2.v)][Index(a1.v)]
  }

  /** A current table holds each cell's sample. */
  lemma CachedSample(lib: Library, t: Table, r: int, c: int)
    requires 0 <= r < LUT_SIZE && 0 <= c < LUT_SIZE
    ensures t.Current(lib) ==> t.lut[r][c] == Sample(lib, t.weighting, t.points, r, c)
  {
  }

  /**
   * getLUTColor: the cell in column c, counted from the left, and row r, counted from the
   * top of the diagram, whose bottom row is the table's row 0.
   */
  function LutColor(lib: Library, t: Table, c: int, r: int): (px: Result<Pixel>)
    requires IsSquare(t.lut)
    ensures px.Success? <==> 0 <= c < LUT_SIZE && 0 <= r < LUT_SIZE
    ensures px.Failure? ==> px.error == IndexOutOfBounds
    ensures t.Current(lib) && px.Success? ==>
      px.value == Sample(lib, t.weighting, t.points, LUT_SIZE - 1 - r, c)
  {
    if 0 <= c < LUT_SIZE && 0 <= r < LUT_SIZE then
      var row := LUT_SIZE - 1 - r;
      CachedSample(lib, t, row, c);
      Success(t.lut[row][c])
    else Failure(IndexOutOfBounds)
  }

  // ------------------------------------------------------------------------------------------
  // BivariateColorRenderer

  /**
   * The renderer: the table and the two attribute grids. The minimum and maximum of a grid,
   * which the setters cache, are recomputed from the grid here.
   */
  datatype Renderer = Renderer(table: Table, attribute1: Option<Grids.Grid>, attribute2: Option<Grids.Grid>) {
    ghost predicate Valid() {
      IsSquare(table.lut) &&
      (attribute1.Some? ==> attribute1.value.Valid()) && (attribute2.Some? ==> attribute2.value.Valid())
    }
  }

  /** new BivariateColorRenderer(): the four corner points, default weights, no grids. */
  function NewRenderer(lib: Library): (r: Renderer)
    ensures r.Valid() && r.table.Current(lib)
    ensures r.table.points == RendererPoints() && r.table.weighting == DEFAULT_WEIGHTING
    ensures r.attribute1.None? && r.attribute2.None?
  {
    Renderer(Rebuilt(lib, Table(RendererPoints(), DEFAULT_WEIGHTING, [])), None, None)
  }

  /**
   * setAttribute1Grid: a null grid fails when its range is computed. Java has already
   * stored the null grid by then, so a renderer whose caller catches the exception has lost
   * its first grid; the failure result does not carry that state.
   */
  function SetAttribute1Grid(r: Renderer, g: Option<Grids.Grid>): (u: Result<Renderer>)
    ensures u.Success? <==> g.Some?
    ensures u.Failure? ==> u.error == NullPointer
    ensures u.Success? ==> u.value.attribute1 == g && u.value.attribute2 == r.attribute2 && u.value.table == r.table
  {
    if g.None? then Failure(NullPointer) else Success(r.(attribute1 := g))
  }

  /** setAttribute2Grid: as setAttribute1Grid, for the second grid. */
  function SetAttribute2Grid(r: Renderer, g: Option<Grids.Grid>): (u: Result<Renderer>)
    ensures u.Success? <==> g.Some?
    ensures u.Failure? ==> u.error == NullPointer
    ensures u.Success? ==> u.value.attribute2 == g && u.value.attribute1 == r.attribute1 && u.value.table == r.table
  {
    if g.None? then Failure(NullPointer) else Success(r.(attribute2 := g))
  }

  predicate HasGrids(r: Renderer) {
    r.attribute1.Some? && r.attribute2.Some?
  }

  /** getWarning: which grids are missing, or null when both are set. */
  function Warning(r: Renderer): (w: Option<string>)
    ensures w.None? <==> HasGrids(r)
    ensures r.attribute1.None? && r.attribute2.None? ==> w == Some("Select two grids.")
    ensures r.attribute1.None? && r.attribute2.Some? ==> w == Some("Horizontal grid missing.")
    ensures r.attribute1.Some? && r.attribute2.None? ==> w == Some("Vertical grid missing.")
  {
    if r.attribute1.None? && r.attribute2.None? then Some("Select two grids.")
    else if r.attribute1.None? then Some("Horizontal grid missing.")
    else if r.attribute2.None? then Some("Vertical grid missing.")
    else None
  }

  /** 0 <= num <= den with den > 0 gives a quotient in [0, 1]. */
  lemma UnitQuotient(num: real, den: real)
    requires 0.0 <= num <= den && den > 0.0
    ensures 0.0 <= num / den <= 1.0
  {
    TimesQuotient(num, den);
    if num / den > 1.0 {
      TimesStrict(1.0, num / den, den);
    }
    if num / den < 0.0 {
      TimesStrict(num / den, 0.0, den);
    }
  }

  /**
   * An attribute scaled to [0, 1] by the grid's range. A void cell stays NaN, and so does
   * every cell of a grid whose minimum equals its maximum, where the scaling is 0 / 0.
   */
  function Scaled(g: Grids.Grid, col: int, row: int): (a: Cell)
    requires g.Valid() && 0 <= col < g.Cols() && 0 <= row < g.Rows()
    ensures a.Val? ==> 0.0 <= a.v <= 1.0
    ensures a.Void? <==> g.Value(col, row).Void? || Grids.MinMax(g).0 == Grids.MinMax(g).1
    ensures a.Val? ==> Times(a.v, Grids.MinMax(g).1 - Grids.MinMax(g).0) == g.Value(col, row).v - Grids.MinMax(g).0
  {
    var v := g.Value(col, row);
    var m := Grids.MinMax(g);
    if v.Void? || m.0 == m.1 then Void
    else
      assert m.0 <= v.v <= m.1;
      Val(Fraction(v.v, m.0, m.1))
  }

  /** (v - lo) / (hi - lo) for lo <= v <= hi: the position of v in the range, from 0 to 1. */
  function Fraction(v: real, lo: real, hi: real): (q: real)
    requires lo <= v <= hi && lo < hi
    ensures 0.0 <= q <= 1.0
    ensures Times(q, hi - lo) == v - lo
  {
    UnitQuotient(v - lo, hi - lo);
    TimesQuotient(v - lo, hi - lo);
    (v - lo) / (hi - lo)
  }

  predicate InGrid(g: Grids.Grid, col: int, row: int)
    requires g.Valid()
  {
    0 <= col < g.Cols() && 0 <= row < g.Rows()
  }

  /**
   * renderPixel: both attributes at (col, row), scaled to [0, 1]; VOID_COLOR where either is
   * NaN, otherwise the table cell nearest to the pair, the second attribute selecting the row.
   */
  function RenderPixel(lib: Library, r: Renderer, col: int, row: int): (px: Result<Pixel>)
    requires r.Valid()
    ensures px.Success? <==> HasGrids(r) && InGrid(r.attribute1.value, col, row) && InGrid(r.attribute2.value, col, row)
    ensures px.Failure? ==> px.error == (if r.attribute1.None? || (InGrid(r.attribute1.value, col, row) && r.attribute2.None?) then NullPointer else IndexOutOfBounds)
    ensures px.Success? ==>
      px.value == Lookup(lib, r.table, Scaled(r.attribute1.value, col, row), Scaled(r.attribute2.value, col, row))
  {
    if r.attribute1.None? then Failure(NullPointer)
    else if !InGrid(r.attribute1.value, col, row) then Failure(IndexOutOfBounds)
    else if r.attribute2.None? then Failure(NullPointer)
    else if !InGrid(r.attribute2.value, col, row) then Failure(IndexOutOfBounds)
    else Success(Lookup(lib, r.table, Scaled(r.attribute1.value, col, row), Scaled(r.attribute2.value, col, row)))
  }

  // ------------------------------------------------------------------------------------------
  // getColorPointsString

  /** Integer.toHexString of a non-negative value: lower-case digits, no leading zeros. */
  function Hex(n: nat): (s: string)
    ensures |s| >= 1
    ensures forall i :: 0 <= i < |s| ==> IsHexDigit(s[i])
  {
    if n < 16 then [HexDigit(n)] else Hex(n / 16) + [HexDigit(n % 16)]
  }

  predicate IsHexDigit(c: char) {
    '0' <= c <= '9' || 'a' <= c <= 'f'
  }

  /** The digit for 0 <= d < 16, from '0'-'9' and 'a'-'f'. */
  function HexDigit(d: nat): (c: char)
    requires d < 16
    ensures IsHexDigit(c) && DigitValue(c) == d
  {
    if d < 10 then ('0' as int + d) as char else ('a' as int + d - 10) as char
  }

  /** The value of a digit of a hexadecimal string. */
  function DigitValue(c: char): nat {
    if '0' <= c <= '9' then c as nat - '0' as nat
    else if 'a' <= c <= 'f' then c as nat - 'a' as nat + 10
    else 0
  }

  /** The number a string of hexadecimal digits denotes. */
  function HexValue(s: string): nat {
    if |s| == 0 then 0 else 16 * HexValue(s[..|s| - 1]) + DigitValue(s[|s| - 1])
  }

  /** Reading the digits back gives the number: the hexadecimal form loses nothing. */
  lemma {:induction false} HexRoundTrip(n: nat)
    ensures HexValue(Hex(n)) == n
  {
    var s := Hex(n);
    if n < 16 {
      assert s[..0] == [];
    } else {
      HexRoundTrip(n / 16);
      assert s[..|s| - 1] == Hex(n / 16);
    }
  }

  /** One point's entry: "lon, lat, 0x" and the hexadecimal ARGB of its opaque colour. */
  function Entry(fmt: real -> string, p: ColorPoint): string
    requires IsLonLatDefined(p) && HasRgb(p)
  {
    fmt(p.lon.v) + ", " + fmt(p.lat.v) + ", 0x" + Hex(Opaque(p.r, p.g, p.b) as nat)
  }

  /** Every located point has a colour new Color accepts. */
  predicate LocatedHaveRgb(points: seq<ColorPoint>) {
    forall i :: 0 <= i < |points| && IsLonLatDefined(points[i]) ==> HasRgb(points[i])
  }

  /** Each point's entry, or nothing for a point without a location. */
  function Items(fmt: real -> string, points: seq<ColorPoint>): (items: seq<Option<string>>)
    requires LocatedHaveRgb(points)
    ensures |items| == |points|
    ensures forall i :: 0 <= i < |points| ==> items[i].Some? == IsLonLatDefined(points[i])
  {
    seq(|points|, i requires 0 <= i < |points| && LocatedHaveRgb(points) =>
      if IsLonLatDefined(points[i]) then Some(Entry(fmt, points[i])) else None)
  }

  /** The loop's buffer: each present item followed by ", ". */
  function Buffer(items: seq<Option<string>>): string {
    if |items| == 0 then ""
    else
      var item := items[|items| - 1];
      Buffer(items[..|items| - 1]) + (if item.Some? then item.value + ", " else "")
  }

  /**
   * getColorPointsString: the buffer without its last two characters. Double.toString is
   * the parameter fmt; a located point whose colour is outside [0, 255] makes new Color fail.
   */
  function ColorPointsString(fmt: real -> string, points: seq<ColorPoint>): (s: Result<string>)
    ensures s.Failure? <==> !LocatedHaveRgb(points)
    ensures s.Failure? ==> s.error == IllegalArgument
  {
    if !LocatedHaveRgb(points) then Failure(IllegalArgument)
    else
      var str := Buffer(Items(fmt, points));
      Success(if |str| >= 2 then str[..|str| - 2] else str)
  }

  /** The present items, in order. */
  function Present(items: seq<Option<string>>): (es: seq<string>)
    ensures |es| <= |items|
  {
    if |items| == 0 then []
    else
      var item := items[|items| - 1];
      Present(items[..|items| - 1]) + (if item.Some? then [item.value] else [])
  }

  /** The strings joined with ", " between neighbours. */
  function Join(es: seq<string>): string {
    if |es| == 0 then ""
    else if |es| == 1 then es[0]
    else Join(es[..|es| - 1]) + ", " + es[|es| - 1]
  }

  /** The buffer is the present items joined, followed by one ", ", or empty without items. */
  lemma {:induction false} BufferIsJoined(items: seq<Option<string>>)
    ensures var es := Present(items);
      Buffer(items) == if |es| == 0 then "" else Join(es) + ", "
  {
    if |items| > 0 {
      var n := |items| - 1;
      BufferIsJoined(items[..n]);
      var es := Present(items[..n]);
      if items[n].Some? {
        var e := items[n].value;
        assert Present(items) == es + [e];
        if |es| > 0 {
          assert (es + [e])[..|es|] == es;
        }
      } else {
        assert Present(items) == es;
        assert Buffer(items) == Buffer(items[..n]);
      }
    }
  }

  /**
   * Dropping the trailing ", " leaves the entries of the located points, in order, separated
   * by ", ", and nothing when no point is located.
   */
  lemma ColorPointsStringJoinsEntries(fmt: real -> string, points: seq<ColorPoint>)
    requires LocatedHaveRgb(points)
    ensures ColorPointsString(fmt, points) == Success(Join(Present(Items(fmt, points))))
  {
    var items := Items(fmt, points);
    BufferIsJoined(items);
    var es := Present(items);
    if |es| > 0 {
      var j := Join(es);
      assert (j + ", ")[..|j + ", "| - 2] == j;
    }
  }

  // ------------------------------------------------------------------------------------------
  // ColorLUT

  /**
   * new ColorLUT(): the table is first built when initPoints adds its first point, and is
   * rebuilt after each of the four.
   */
  function NewColorLut(lib: Library): (t: Table)
    ensures t.Current(lib)
    ensures t.points == ColorLutPoints() && t.weighting == DEFAULT_WEIGHTING
  {
    var ps := ColorLutPoints();
    var t0 := Table([], DEFAULT_WEIGHTING, []);
    AddPoint(lib, AddPoint(lib, AddPoint(lib, AddPoint(lib, t0, ps[0]), ps[1]), ps[2]), ps[3])
  }

  /**
   * The table index (int) Math.round((LUT_SIZE - 1) * a) that ColorLUT.renderPixel computes
   * for any argument: Math.round of NaN is 0, and a position in [0, 1] gives Index.
   */
  function LutPosition(a: Cell): (i: int)
    ensures a.Void? ==> i == 0
    ensures a.Val? && 0.0 <= a.v <= 1.0 ==> i == Index(a.v)
  {
    match a
    case Void => 0
    case Val(x) => RoundToInt((LUT_SIZE - 1) as real * x)
  }

  /**
   * ColorLUT.renderPixel. Its range checks are Java assertions: enabled, a shade or relative
   * elevation that is NaN or outside [0, 1] fails them; disabled (the JVM default), the
   * rounded positions index the table directly, so a NaN reads row or column 0 and a
   * position that rounds outside the table is an index error. Either way an argument in
   * [0, 1] gives the nearest table cell, the elevation selecting the row.
   */
  function RenderShaded(lib: Library, t: Table, shade: Cell, relativeElevation: Cell, assertions: bool): (px: Result<Pixel>)
    requires IsSquare(t.lut)
    ensures assertions ==> (px.Success? <==>
      shade.Val? && 0.0 <= shade.v <= 1.0 && relativeElevation.Val? && 0.0 <= relativeElevation.v <= 1.0)
    ensures assertions && px.Failure? ==> px.error == AssertionFailed
    ensures !assertions ==> (px.Success? <==>
      0 <= LutPosition(shade) < LUT_SIZE && 0 <= LutPosition(relativeElevation) < LUT_SIZE)
    ensures !assertions && px.Failure? ==> px.error == IndexOutOfBounds
    ensures !assertions && shade.Void? && relativeElevation.Void? ==> px == Success(t.lut[0][0])
    ensures shade.Val? && 0.0 <= shade.v <= 1.0 && relativeElevation.Val? && 0.0 <= relativeElevation.v <= 1.0 ==>
      px == Success(Lookup(lib, t, shade, relativeElevation))
  {
    if assertions && !(shade.Val? && 0.0 <= shade.v <= 1.0 && relativeElevation.Val? && 0.0 <= relativeElevation.v <= 1.0) then
      Failure(AssertionFailed)
    else
      var col, row := LutPosition(shade), LutPosition(relativeElevation);
      if !(0 <= row < LUT_SIZE && 0 <= col < LUT_SIZE) then Failure(IndexOutOfBounds)
      else Success(t.lut[row][col])
  }

  /** ColorLUT.getWarning: the table needs no grids and never warns. */
  function ColorLutWarning(t: Table): (w: Option<string>)
    ensures w.None?
  {
    None
  }
}

=== FILE: bytes.dfy ===
/**
 * Byte-level encodings used by the Shapefile and dBASE codecs: big- and
 * little-endian fixed-width integers, an abstract IEEE 754 double codec, and
 * readers over an in-memory byte sequence that fail with `EndOfFile` the way a
 * Java `DataInputStream` throws `EOFException`.
 */
module Bytes {
  import opened Wrappers

  type byte = b: int | 0 <= b < 256

  /** 256 to the power n: the number of values n bytes can hold. */
  function Span(n: nat): (r: nat)
    ensures r >= 1
  {
    if n == 0 then 1 else 256 * Span(n - 1)
  }

  const TWO_15: int := 0x8000
  const TWO_16: int := 0x1_0000
  const TWO_31: int := 0x8000_0000
  const TWO_32: int := 0x1_0000_0000

  /** A value of Java type `int`. */
  predicate IsInt32(v: int) {
    -TWO_31 <= v < TWO_31
  }

  /** The two's-complement bit pattern of a Java `int`, read as an unsigned number. */
  function Unsigned32(v: int): (u: int)
    requires IsInt32(v)
    ensures 0 <= u < TWO_32
    ensures u % TWO_32 == v % TWO_32
  {
    if v < 0 then v + TWO_32 else v
  }

  /** The Java `int` whose two's-complement bit pattern is u. */
  function Signed32(u: int): (v: int)
    requires 0 <= u < TWO_32
    ensures IsInt32(v)
    ensures v % TWO_32 == u
  {
    if u >= TWO_31 then u - TWO_32 else u
  }

  /** Java `int` arithmetic: the exact result wrapped into 32-bit two's complement. */
  function Wrap32(x: int): (r: int)
    ensures IsInt32(r)
    ensures IsInt32(x) ==> r == x
  {
    (x + TWO_31) % TWO_32 - TWO_31
  }

  /** Wrapping keeps a value's residue modulo 2^32. */
  lemma WrapResidue(x: int)
    ensures (Wrap32(x) - x) % TWO_32 == 0
  {
  }

  /** Values that agree modulo 2^32 wrap to the same Java `int`. */
  lemma WrapCongruent(a: int, b: int)
    requires (a - b) % TWO_32 == 0
    ensures Wrap32(a) == Wrap32(b)
  {
    var k := (a - b) / TWO_32;
    assert a == b + k * TWO_32;
    assert (a + TWO_31) % TWO_32 == (b + TWO_31 + k * TWO_32) % TWO_32;
  }

  /** Java `int` division: the quotient truncated toward zero. */
  function JavaDiv(a: int, b: int): (q: int)
    requires b > 0
    ensures a >= 0 ==> q == a / b
    ensures a < 0 ==> q == -((-a) / b)
    ensures q * b <= a < q * b + b || q * b - b < a <= q * b
  {
    if a >= 0 then a / b else -((-a) / b)
  }

  lemma SignedUnsigned(v: int)
    requires IsInt32(v)
    ensures Signed32(Unsigned32(v)) == v
  {
  }

  /** The n low-order bytes of u, most significant first. */
  function BigEndian(u: nat, n: nat): (r: seq<byte>)
    ensures |r| == n
  {
    if n == 0 then [] else BigEndian(u / 256, n - 1) + [u % 256]
  }

  /** The n low-order bytes of u, least significant first. */
  function LittleEndian(u: nat, n: nat): (r: seq<byte>)
    ensures |r| == n
  {
    if n == 0 then [] else [u % 256] + LittleEndian(u / 256, n - 1)
  }

  /** The unsigned number a big-endian byte sequence denotes. */
  function ValueBE(bs: seq<byte>): (u: nat)
    ensures u < Span(|bs|)
  {
    if |bs| == 0 then 0 else ValueBE(bs[..|bs| - 1]) * 256 + bs[|bs| - 1]
  }

  /** The unsigned number a little-endian byte sequence denotes. */
  function ValueLE(bs: seq<byte>): (u: nat)
    ensures u < Span(|bs|)
  {
    if |bs| == 0 then 0 else bs[0] + 256 * ValueLE(bs[1..])
  }

  lemma {:induction false} BigEndianRoundTrip(u: nat, n: nat)
    requires u < Span(n)
    ensures ValueBE(BigEndian(u, n)) == u
  {
    if n > 0 {
      var bs := BigEndian(u, n);
      assert bs[..n - 1] == BigEndian(u / 256, n - 1);
      assert bs[n - 1] == u % 256;
      QuotientSpan(u, n);
      BigEndianRoundTrip(u / 256, n - 1);
      assert ValueBE(bs) == ValueBE(bs[..n - 1]) * 256 + bs[n - 1];
    }
  }

  /** Dropping the low byte of a number below 256^n leaves one below 256^(n-1). */
  lemma QuotientSpan(u: nat, n: nat)
    requires n > 0 && u < Span(n)
    ensures u / 256 < Span(n - 1)
    ensures u == u / 256 * 256 + u % 256
  {
  }

  lemma {:induction false} LittleEndianRoundTrip(u: nat, n: nat)
    requires u < Span(n)
    ensures ValueLE(LittleEndian(u, n)) == u
  {
    if n > 0 {
      var bs := LittleEndian(u, n);
      assert bs[1..] == LittleEndian(u / 256, n - 1);
      assert bs[0] == u % 256;
      QuotientSpan(u, n);
      LittleEndianRoundTrip(u / 256, n - 1);
      assert ValueLE(bs) == bs[0] + 256 * ValueLE(bs[1..]);
    }
  }

  /** `DataOutputStream.writeInt`: four big-endian bytes. */
  function IntBE(v: int): (r: seq<byte>)
    requires IsInt32(v)
    ensures |r| == 4
    ensures ValueBE(r) == Unsigned32(v)
  {
    BigEndianRoundTrip(Unsigned32(v), 4);
    BigEndian(Unsigned32(v), 4)
  }

  /** A little-endian `writeInt`: four bytes, least significant first. */
  function IntLE(v: int): (r: seq<byte>)
    requires IsInt32(v)
    ensures |r| == 4
    ensures ValueLE(r) == Unsigned32(v)
  {
    LittleEndianRoundTrip(Unsigned32(v), 4);
    LittleEndian(Unsigned32(v), 4)
  }

  /** A little-endian `writeShort`: the low 16 bits of v, least significant first. */
  function ShortLE(v: int): (r: seq<byte>)
    ensures |r| == 2
    ensures ValueLE(r) == v % TWO_16
    ensures 0 <= v < TWO_16 ==> ValueLE(r) == v
  {
    LittleEndianRoundTrip(v % TWO_16, 2);
    LittleEndian(v % TWO_16, 2)
  }

  /** `OutputStream.write(int)`: the low eight bits of v. */
  function LowByte(v: int): (r: byte)
    ensures (r - v) % 256 == 0
    ensures 0 <= v < 256 ==> r == v
  {
    v % 256
  }

  /** The Java `int` four big-endian bytes denote (`DataInputStream.readInt`). */
  function DecodeIntBE(bs: seq<byte>): (v: int)
    requires |bs| == 4
    ensures IsInt32(v)
  {
    Signed32(ValueBE(bs))
  }

  /** The Java `int` four little-endian bytes denote. */
  function DecodeIntLE(bs: seq<byte>): (v: int)
    requires |bs| == 4
    ensures IsInt32(v)
  {
    Signed32(ValueLE(bs))
  }

  lemma IntBERoundTrip(v: int)
    requires IsInt32(v)
    ensures DecodeIntBE(IntBE(v)) == v
  {
  }

  lemma IntLERoundTrip(v: int)
    requires IsInt32(v)
    ensures DecodeIntLE(IntLE(v)) == v
  {
  }

  /**
   * The eight-byte little-endian IEEE 754 image of a double and its inverse
   * are parameters; a lawful pair has fixed width and round-trips.
   */
  ghost predicate IsDoubleCodec(enc: real -> seq<byte>, dec: seq<byte> -> real) {
    forall x :: |enc(x)| == 8 && dec(enc(x)) == x
  }

  /** The bytes of a file and a read position inside it. */
  predicate At(bs: seq<byte>, pos: int) {
    0 <= pos <= |bs|
  }

  /** Reads n bytes at pos: `EndOfFile` when fewer remain. */
  function Take(bs: seq<byte>, pos: int, n: nat): (r: Result<seq<byte>>)
    requires At(bs, pos)
    ensures r.Failure? <==> pos + n > |bs|
    ensures r.Failure? ==> r.error == EndOfFile
    ensures r.Success? ==> r.value == bs[pos..pos + n] && |r.value| == n
  {
    if pos + n > |bs| then Failure(EndOfFile) else Success(bs[pos..pos + n])
  }

  /** `DataInputStream.readInt`: a big-endian `int` at pos and the position after it. */
  function ReadIntBE(bs: seq<byte>, pos: int): (r: Result<(int, int)>)
    requires At(bs, pos)
    ensures r.Failure? <==> pos + 4 > |bs|
    ensures r.Failure? ==> r.error == EndOfFile
    ensures r.Success? ==> r.value.1 == pos + 4 && IsInt32(r.value.0)
  {
    var b :- Take(bs, pos, 4);
    Success((DecodeIntBE(b), pos + 4))
  }

  /** A little-endian `int` at pos and the position after it. */
  function ReadIntLE(bs: seq<byte>, pos: int): (r: Result<(int, int)>)
    requires At(bs, pos)
    ensures r.Failure? <==> pos + 4 > |bs|
    ensures r.Failure? ==> r.error == EndOfFile
    ensures r.Success? ==> r.value.1 == pos + 4 && IsInt32(r.value.0)
  {
    var b :- Take(bs, pos, 4);
    Success((DecodeIntLE(b), pos + 4))
  }

  /** A little-endian double at pos and the position after it. */
  function ReadDoubleLE(dec: seq<byte> -> real, bs: seq<byte>, pos: int): (r: Result<(real, int)>)
    requires At(bs, pos)
    ensures r.Failure? <==> pos + 8 > |bs|
    ensures r.Failure? ==> r.error == EndOfFile
    ensures r.Success? ==> r.value.1 == pos + 8
  {
    var b :- Take(bs, pos, 8);
    Success((dec(b), pos + 8))
  }

  /**
   * `DataInputStream.skipBytes(n)`: a non-positive n skips nothing, and
   * skipping stops at the end of the file.
   */
  function Skip(bs: seq<byte>, pos: int, n: int): (r: int)
    requires At(bs, pos)
    ensures At(bs, r) && pos <= r
    ensures n <= 0 ==> r == pos
    ensures n > 0 && pos + n <= |bs| ==> r == pos + n
    ensures pos + n > |bs| ==> r == |bs|
  {
    if n <= 0 then pos else if pos + n > |bs| then |bs| else pos + n
  }

  /** The bytes of s stand in bs from position p on. */
  predicate HoldsAt(bs: seq<byte>, p: int, s: seq<byte>) {
    0 <= p && p + |s| <= |bs| && bs[p..p + |s|] == s
  }

  /** Where a + b stands at p, a stands at p, and b right after it at q. */
  lemma Peel(bs: seq<byte>, p: int, q: int, a: seq<byte>, b: seq<byte>)
    requires HoldsAt(bs, p, a + b) && q == p + |a|
    ensures HoldsAt(bs, p, a) && HoldsAt(bs, q, b)
  {
    assert bs[p..p + |a|] == bs[p..p + |a| + |b|][..|a|];
    assert bs[p + |a|..p + |a| + |b|] == bs[p..p + |a| + |b|][|a|..];
  }

  /** A big-endian `int` written at p reads back. */
  lemma IntBEAt(bs: seq<byte>, p: int, v: int)
    requires IsInt32(v) && HoldsAt(bs, p, IntBE(v))
    ensures ReadIntBE(bs, p) == Success((v, p + 4))
  {
    IntBERoundTrip(v);
  }

  /** A little-endian `int` written at p reads back. */
  lemma IntLEAt(bs: seq<byte>, p: int, v: int)
    requires IsInt32(v) && HoldsAt(bs, p, IntLE(v))
    ensures ReadIntLE(bs, p) == Success((v, p + 4))
  {
    IntLERoundTrip(v);
  }

  /** A double written at p reads back through a lawful codec. */
  lemma DoubleAt(enc: real -> seq<byte>, dec: seq<byte> -> real, bs: seq<byte>, p: int, x: real)
    requires IsDoubleCodec(enc, dec) && HoldsAt(bs, p, enc(x))
    ensures ReadDoubleLE(dec, bs, p).Success?
    ensures ReadDoubleLE(dec, bs, p).value == (x, p + 8)
  {
    assert |enc(x)| == 8 && dec(enc(x)) == x;
  }

  /** Byte strings written one after the other, from part k on. */
  function Concat(parts: seq<seq<byte>>, k: nat): (r: seq<byte>)
    requires k <= |parts|
    decreases |parts| - k
  {
    if k == |parts| then [] else parts[k] + Concat(parts, k + 1)
  }

  /** Where part j starts when the parts are written one after the other: the size written before it. */
  function Offset(parts: seq<seq<byte>>, j: nat): (r: int)
    requires j <= |parts|
    ensures r >= 0
    ensures j == 0 ==> r == 0
  {
    if j == 0 then 0 else Offset(parts, j - 1) + |parts[j - 1]|
  }

  /** The start of every part, and the size of all of them as a last entry. */
  function Offsets(parts: seq<seq<byte>>): (r: seq<int>)
    ensures |r| == |parts| + 1
    ensures forall j :: 0 <= j <= |parts| ==> r[j] == Offset(parts, j)
  {
    seq(|parts| + 1, j requires 0 <= j <= |parts| => Offset(parts, j))
  }

  lemma {:induction false} OffsetMono(parts: seq<seq<byte>>, k: nat, j: nat)
    requires k <= j <= |parts|
    ensures Offset(parts, k) <= Offset(parts, j)
    decreases j - k
  {
    if k < j {
      OffsetMono(parts, k, j - 1);
    }
  }

  /** The parts from k on take the bytes from their offset to the last. */
  lemma {:induction false} ConcatLength(parts: seq<seq<byte>>, k: nat)
    requires k <= |parts|
    ensures Offset(parts, k) + |Concat(parts, k)| == Offset(parts, |parts|)
    decreases |parts| - k
  {
    if k < |parts| {
      ConcatLength(parts, k + 1);
    }
  }

  lemma AppendDrop(a: seq<byte>, b: seq<byte>, d: int, e: int)
    requires |a| <= d <= |a| + |b| && e == d - |a|
    ensures (a + b)[d..] == b[e..]
  {
  }

  /** The parts from j on start Offset(parts, j) - Offset(parts, k) bytes into those from k on. */
  lemma {:induction false} ConcatDropFrom(parts: seq<seq<byte>>, k: nat, j: nat)
    requires k <= j <= |parts|
    ensures 0 <= Offset(parts, j) - Offset(parts, k) <= |Concat(parts, k)|
    ensures Concat(parts, k)[Offset(parts, j) - Offset(parts, k)..] == Concat(parts, j)
    decreases j - k
  {
    OffsetMono(parts, k, j);
    if k == j {
      assert Concat(parts, k)[0..] == Concat(parts, k);
    } else {
      OffsetMono(parts, k + 1, j);
      ConcatDropFrom(parts, k + 1, j);
      AppendDrop(parts[k], Concat(parts, k + 1), Offset(parts, j) - Offset(parts, k), Offset(parts, j) - Offset(parts, k + 1));
    }
  }

  /** Where a is all of bs from p on, a from s on is all of bs from t = p + s on. */
  lemma DropShift(bs: seq<byte>, p: int, a: seq<byte>, s: int, t: int)
    requires 0 <= p <= |bs| && bs[p..] == a && 0 <= s <= |a| && t == p + s
    ensures t <= |bs| && bs[t..] == a[s..]
  {
  }

  /** Where a + b is all of bs from q on, a stands at q. */
  lemma PrefixHolds(bs: seq<byte>, q: int, a: seq<byte>, b: seq<byte>)
    requires 0 <= q <= |bs| && bs[q..] == a + b
    ensures HoldsAt(bs, q, a)
  {
    assert bs[q..q + |a|] == bs[q..][..|a|];
  }

  /**
   * Where parts written one after the other make up all of bs from p on,
   * part j stands at p plus its offset, and the file ends after the last.
   */
  lemma PartAt(bs: seq<byte>, p: int, parts: seq<seq<byte>>, j: nat, q: int)
    requires 0 <= p <= |bs| && bs[p..] == Concat(parts, 0) && j < |parts|
    requires q == p + Offset(parts, j)
    ensures HoldsAt(bs, q, parts[j])
    ensures q + |parts[j]| == p + Offset(parts, j + 1)
    ensures p + Offset(parts, |parts|) == |bs|
  {
    ConcatLength(parts, 0);
    ConcatDropFrom(parts, 0, j);
    var d := Offset(parts, j) - Offset(parts, 0);
    DropShift(bs, p, Concat(parts, 0), d, q);
    PrefixHolds(bs, q, parts[j], Concat(parts, j + 1));
  }

  /** Parts of even length start at even offsets. */
  lemma {:induction false} OffsetEven(parts: seq<seq<byte>>, j: nat)
    requires j <= |parts|
    requires forall i :: 0 <= i < |parts| ==> |parts[i]| % 2 == 0
    ensures Offset(parts, j) % 2 == 0
  {
    if j > 0 {
      OffsetEven(parts, j - 1);
    }
  }

  /** Parts of at least w bytes each put part j at least w * j bytes in. */
  lemma {:induction false} OffsetAtLeast(parts: seq<seq<byte>>, j: nat, w: nat)
    requires j <= |parts|
    requires forall i :: 0 <= i < |parts| ==> |parts[i]| >= w
    ensures Offset(parts, j) >= w * j
  {
    if j > 0 {
      OffsetAtLeast(parts, j - 1, w);
      assert w * j == w * (j - 1) + w;
    }
  }

  /** Parts of one length w start at multiples of w. */
  lemma {:induction false} OffsetUniform(parts: seq<seq<byte>>, j: nat, w: nat)
    requires j <= |parts|
    requires forall i :: 0 <= i < |parts| ==> |parts[i]| == w
    ensures Offset(parts, j) == w * j
  {
    if j > 0 {
      OffsetUniform(parts, j - 1, w);
      assert w * j == w * (j - 1) + w;
    }
  }

  /** Parts of one length w concatenate to w bytes per part. */
  lemma ConcatUniform(parts: seq<seq<byte>>, w: nat)
    requires forall i :: 0 <= i < |parts| ==> |parts[i]| == w
    ensures |Concat(parts, 0)| == w * |parts|
  {
    ConcatLength(parts, 0);
    OffsetUniform(parts, |parts|, w);
  }

  /** No part is longer than all the parts together. */
  lemma PartWithin(parts: seq<seq<byte>>, i: nat)
    requires i < |parts|
    ensures |parts[i]| <= |Concat(parts, 0)|
  {
    ConcatLength(parts, 0);
    OffsetMono(parts, i + 1, |parts|);
    OffsetMono(parts, 0, i);
  }
}

=== FILE: cellops.dfy ===
/**
 * The cell-wise grid operators (GridMaskOperator, GridVoidOperator, GridDiffOperator,
 * GridDivOperator, GridDiffDivOperator). Each processes one chunk of rows
 * [startRow, endRow) across all columns, as one call of its `operate(src, dst, startRow,
 * endRow)`; the chunk methods return the destination raster after the call.
 *
 * Java's Float.isInfinite test turns a division by zero into NaN; with unbounded reals the
 * only source of an infinite (or NaN) quotient is a zero denominator.
 */
module CellOperators {
  import opened Wrappers
  import opened Numeric
  import opened Grids

  type Raster = seq<seq<Cell>>

  /** `big` has every row and column `small` has, so indexing `big` at `small`'s cells is safe. */
  predicate Covers(big: Raster, small: Raster) {
    |big| >= |small| && forall r :: 0 <= r < |small| ==> |big[r]| >= |small[r]|
  }

  /** Both rasters have the same rows, each of the same length. */
  ghost predicate SameShape(a: Raster, b: Raster) {
    |a| == |b| && forall r :: 0 <= r < |a| ==> |a[r]| == |b[r]|
  }

  // ------------------------------------------------------------------------------------------
  // Per-cell rules

  /** GridMaskOperator: a void source cell voids the destination; otherwise it is kept. */
  function MaskCell(s: Cell, d: Cell): (r: Cell)
    ensures r.Void? <==> s.Void? || d.Void?
    ensures r.Val? ==> r == d
  {
    if s.Void? then Void else d
  }

  /** GridVoidOperator: the value v becomes void (NaN never equals v, so voids stay void). */
  function VoidCell(v: real, s: Cell): (r: Cell)
    ensures r.Void? <==> s.Void? || s == Val(v)
    ensures r.Val? ==> r == s
  {
    if s == Val(v) then Void else s
  }

  /** GridDiffOperator: src - dst, void when either operand is void. */
  function DiffCell(s: Cell, d: Cell): (r: Cell)
    ensures r.Void? <==> s.Void? || d.Void?
    ensures r.Val? ==> r.v + d.v == s.v
  {
    if s.Void? || d.Void? then Void else Val(s.v - d.v)
  }

  /** a / (b + k): void when an operand is void or the denominator is zero (±Infinity or 0/0). */
  function DivCell(a: Cell, b: Cell, k: real): (r: Cell)
    ensures r.Void? <==> a.Void? || b.Void? || b.v + k == 0.0
    ensures r.Val? ==> r.v * (b.v + k) == a.v
  {
    if a.Void? || b.Void? || b.v + k == 0.0 then Void else Val(a.v / (b.v + k))
  }

  /** (a - b) / (c + k), void as for DivCell. */
  function DiffDivCell(a: Cell, b: Cell, c: Cell, k: real): (r: Cell)
    ensures r.Void? <==> a.Void? || b.Void? || c.Void? || c.v + k == 0.0
    ensures r.Val? ==> r.v * (c.v + k) + b.v == a.v
  {
    DivCell(DiffCell(a, b), c, k)
  }

  // ------------------------------------------------------------------------------------------
  // Row chunks

  /** The rows of `out` outside [startRow, endRow) are those of `dst`. */
  ghost predicate OtherRowsKept(out: Raster, dst: Raster, startRow: int, endRow: int) {
    |out| == |dst| && forall r :: 0 <= r < |dst| && !(startRow <= r < endRow) ==> out[r] == dst[r]
  }

  /** GridMaskOperator.operate: copies the voids of src into rows [startRow, endRow) of dst. */
  method MaskChunk(src: Raster, dst: Raster, startRow: int, endRow: int) returns (out: Raster)
    requires SameShape(src, dst) && 0 <= startRow <= endRow <= |src|
    ensures SameShape(out, dst) && OtherRowsKept(out, dst, startRow, endRow)
    ensures forall r, c :: startRow <= r < endRow && 0 <= c < |dst[r]| ==> out[r][c] == MaskCell(src[r][c], dst[r][c])
  {
    out := dst;
    var row := startRow;
    while row < endRow
      invariant startRow <= row <= endRow
      invariant SameShape(out, dst) && OtherRowsKept(out, dst, startRow, row)
      invariant forall r, c :: startRow <= r < row && 0 <= c < |dst[r]| ==> out[r][c] == MaskCell(src[r][c], dst[r][c])
    {
      var line := dst[row];
      var col := 0;
      while col < |src[row]|
        invariant 0 <= col <= |src[row]| && |line| == |dst[row]|
        invariant forall c :: 0 <= c < col ==> line[c] == MaskCell(src[row][c], dst[row][c])
        invariant forall c :: col <= c < |line| ==> line[c] == dst[row][c]
      {
        if src[row][col].Void? {
          line := line[col := Void];
        }
        col := col + 1;
      }
      out := out[row := line];
      row := row + 1;
    }
  }

  /** GridVoidOperator.operate: rows [startRow, endRow) of dst become src with v made void. */
  method VoidChunk(v: real, src: Raster, dst: Raster, startRow: int, endRow: int) returns (out: Raster)
    requires SameShape(src, dst) && 0 <= startRow <= endRow <= |src|
    ensures SameShape(out, dst) && OtherRowsKept(out, dst, startRow, endRow)
    ensures forall r, c :: startRow <= r < endRow && 0 <= c < |dst[r]| ==> out[r][c] == VoidCell(v, src[r][c])
  {
    out := dst;
    var row := startRow;
    while row < endRow
      invariant startRow <= row <= endRow
      invariant SameShape(out, dst) && OtherRowsKept(out, dst, startRow, row)
      invariant forall r, c :: startRow <= r < row && 0 <= c < |dst[r]| ==> out[r][c] == VoidCell(v, src[r][c])
    {
      var line := dst[row];
      var col := 0;
      while col < |src[row]|
        invariant 0 <= col <= |src[row]| && |line| == |dst[row]|
        invariant forall c :: 0 <= c < col ==> line[c] == VoidCell(v, src[row][c])
      {
        line := line[col := if src[row][col] == Val(v) then Void else src[row][col]];
        col := col + 1;
      }
      out := out[row := line];
      row := row + 1;
    }
  }

  /** The no-argument GridVoidOperator voids the value 0. */
  const DEFAULT_VOID_VALUE: real := 0.0

  /** GridDiffOperator.operate: rows [startRow, endRow) of dst become src - dst. */
  method DiffChunk(src: Raster, dst: Raster, startRow: int, endRow: int) returns (out: Raster)
    requires SameShape(src, dst) && 0 <= startRow <= endRow <= |src|
    ensures SameShape(out, dst) && OtherRowsKept(out, dst, startRow, endRow)
    ensures forall r, c :: startRow <= r < endRow && 0 <= c < |dst[r]| ==> out[r][c] == DiffCell(src[r][c], dst[r][c])
  {
    out := dst;
    var row := startRow;
    while row < endRow
      invariant startRow <= row <= endRow
      invariant SameShape(out, dst) && OtherRowsKept(out, dst, startRow, row)
      invariant forall r, c :: startRow <= r < row && 0 <= c < |dst[r]| ==> out[r][c] == DiffCell(src[r][c], dst[r][c])
    {
      var line := dst[row];
      var col := 0;
      while col < |src[row]|
        invariant 0 <= col <= |src[row]| && |line| == |dst[row]|
        invariant forall c :: 0 <= c < col ==> line[c] == DiffCell(src[row][c], dst[row][c])
        invariant forall c :: col <= c < |line| ==> line[c] == dst[row][c]
      {
        line := line[col := DiffCell(src[row][col], line[col])];
        col := col + 1;
      }
      out := out[row := line];
      row := row + 1;
    }
  }

  /** GridDivOperator.operate(src, dst, startRow, endRow): rows of dst become grid1 / (grid2 + k). */
  method DivChunk(grid1: Raster, grid2: Raster, k: real, dst: Raster, startRow: int, endRow: int) returns (out: Raster)
    requires SameShape(grid1, dst) && Covers(grid2, grid1) && 0 <= startRow <= endRow <= |grid1|
    ensures SameShape(out, dst) && OtherRowsKept(out, dst, startRow, endRow)
    ensures forall r, c :: startRow <= r < endRow && 0 <= c < |dst[r]| ==> out[r][c] == DivCell(grid1[r][c], grid2[r][c], k)
  {
    out := dst;
    var row := startRow;
    while row < endRow
      invariant startRow <= row <= endRow
      invariant SameShape(out, dst) && OtherRowsKept(out, dst, startRow, row)
      invariant forall r, c :: startRow <= r < row && 0 <= c < |dst[r]| ==> out[r][c] == DivCell(grid1[r][c], grid2[r][c], k)
    {
      var line := dst[row];
      var col := 0;
      while col < |grid1[row]|
        invariant 0 <= col <= |grid1[row]| && |line| == |dst[row]|
        invariant forall c :: 0 <= c < col ==> line[c] == DivCell(grid1[row][c], grid2[row][c], k)
      {
        line := line[col := DivCell(grid1[row][col], grid2[row][col], k)];
        col := col + 1;
      }
      out := out[row := line];
      row := row + 1;
    }
  }

  /** GridDiffDivOperator.operate(src, dst, startRow, endRow): rows of dst become (g1 - g2) / (g3 + k). */
  method DiffDivChunk(grid1: Raster, grid2: Raster, grid3: Raster, k: real, dst: Raster, startRow: int, endRow: int)
    returns (out: Raster)
    requires SameShape(grid1, dst) && Covers(grid2, grid1) && Covers(grid3, grid1) && 0 <= startRow <= endRow <= |grid1|
    ensures SameShape(out, dst) && OtherRowsKept(out, dst, startRow, endRow)
    ensures forall r, c :: startRow <= r < endRow && 0 <= c < |dst[r]| ==>
      out[r][c] == DiffDivCell(grid1[r][c], grid2[r][c], grid3[r][c], k)
  {
    out := dst;
    var row := startRow;
    while row < endRow
      invariant startRow <= row <= endRow
      invariant SameShape(out, dst) && OtherRowsKept(out, dst, startRow, row)
      invariant forall r, c :: startRow <= r < row && 0 <= c < |dst[r]| ==>
        out[r][c] == DiffDivCell(grid1[r][c], grid2[r][c], grid3[r][c], k)
    {
      var line := dst[row];
      var col := 0;
      while col < |grid1[row]|
        invariant 0 <= col <= |grid1[row]| && |line| == |dst[row]|
        invariant forall c :: 0 <= c < col ==> line[c] == DiffDivCell(grid1[row][c], grid2[row][c], grid3[row][c], k)
      {
        line := line[col := DiffDivCell(grid1[row][col], grid2[row][col], grid3[row][col], k)];
        col := col + 1;
      }
      out := out[row := line];
      row := row + 1;
    }
  }

  // ------------------------------------------------------------------------------------------
  // Whole-grid entry points

  /** The destination grid the operator framework allocates: the source's size and position, all 0. */
  function Blank(src: Grid): (g: Grid)
    requires src.Valid()
    ensures g.Valid() && SameShape(g.cells, src.cells)
    ensures g.cellSize == src.cellSize && g.west == src.west && g.south == src.south
  {
    Grid(Filled(src.Cols(), src.Rows(), Val(0.0)), src.cellSize, src.west, src.south)
  }

  /**
   * GridDivOperator.operate(grid1, grid2, k): a missing grid is an IllegalArgumentException,
   * a grid2 smaller than grid1 an index error; otherwise every cell is grid1 / (grid2 + k).
   */
  method Div(grid1: Option<Grid>, grid2: Option<Grid>, k: real) returns (r: Result<Grid>)
    requires grid1.Some? ==> grid1.value.Valid()
    ensures r.Failure? <==> grid1.None? || grid2.None? || !Covers(grid2.value.cells, grid1.value.cells)
    ensures grid1.None? || grid2.None? ==> r == Failure(IllegalArgument)
    ensures grid1.Some? && grid2.Some? && !Covers(grid2.value.cells, grid1.value.cells) ==> r == Failure(IndexOutOfBounds)
    ensures r.Success? ==> (SameShape(r.value.cells, grid1.value.cells) &&
      forall row, col :: 0 <= row < grid1.value.Rows() && 0 <= col < grid1.value.Cols() ==>
        r.value.cells[row][col] == DivCell(grid1.value.cells[row][col], grid2.value.cells[row][col], k))
    ensures r.Success? ==> Quotient(grid1.value.cells, grid2.value.cells, k) == Success(r.value.cells)
  {
    if grid1.None? || grid2.None? {
      return Failure(IllegalArgument);
    }
    var g1, g2 := grid1.value, grid2.value;
    if !(|g2.cells| >= |g1.cells| && forall row :: 0 <= row < |g1.cells| ==> |g2.cells[row]| >= |g1.cells[row]|) {
      return Failure(IndexOutOfBounds);
    }
    var dst := Blank(g1);
    var cells := DivChunk(g1.cells, g2.cells, k, dst.cells, 0, g1.Rows());
    forall row | 0 <= row < |cells|
      ensures cells[row] == Quotient(g1.cells, g2.cells, k).value[row]
    {
      assert |cells[row]| == |g1.cells[row]|;
    }
    assert cells == Quotient(g1.cells, g2.cells, k).value;
    return Success(dst.(cells := cells));
  }

  /**
   * GridDiffDivOperator.operate(grid1, grid2, grid3, k): a missing grid is an
   * IllegalArgumentException, a grid2 or grid3 smaller than grid1 an index error; otherwise
   * every cell is (grid1 - grid2) / (grid3 + k).
   */
  method DiffDiv(grid1: Option<Grid>, grid2: Option<Grid>, grid3: Option<Grid>, k: real) returns (r: Result<Grid>)
    requires grid1.Some? ==> grid1.value.Valid()
    ensures r.Failure? <==> (grid1.None? || grid2.None? || grid3.None?
      || !Covers(grid2.value.cells, grid1.value.cells) || !Covers(grid3.value.cells, grid1.value.cells))
    ensures grid1.None? || grid2.None? || grid3.None? ==> r == Failure(IllegalArgument)
    ensures grid1.Some? && grid2.Some? && grid3.Some?
      && (!Covers(grid2.value.cells, grid1.value.cells) || !Covers(grid3.value.cells, grid1.value.cells))
      ==> r == Failure(IndexOutOfBounds)
    ensures r.Success? ==> (SameShape(r.value.cells, grid1.value.cells) &&
      forall row, col :: 0 <= row < grid1.value.Rows() && 0 <= col < grid1.value.Cols() ==>
        r.value.cells[row][col] == DiffDivCell(grid1.value.cells[row][col], grid2.value.cells[row][col], grid3.value.cells[row][col], k))
  {
    if grid1.None? || grid2.None? || grid3.None? {
      return Failure(IllegalArgument);
    }
    var g1, g2, g3 := grid1.value, grid2.value, grid3.value;
    if !(|g2.cells| >= |g1.cells| && forall row :: 0 <= row < |g1.cells| ==> |g2.cells[row]| >= |g1.cells[row]|)
      || !(|g3.cells| >= |g1.cells| && forall row :: 0 <= row < |g1.cells| ==> |g3.cells[row]| >= |g1.cells[row]|) {
      return Failure(IndexOutOfBounds);
    }
    var dst := Blank(g1);
    var cells := DiffDivChunk(g1.cells, g2.cells, g3.cells, k, dst.cells, 0, g1.Rows());
    return Success(dst.(cells := cells));
  }

  /**
   * The whole-raster difference a - b that GridDiffOperator.operate(a, b) leaves in b: an
   * index error when b lacks a cell of a.
   */
  function Difference(a: Raster, b: Raster): (d: Result<Raster>)
    ensures d.Failure? <==> !Covers(b, a)
    ensures d.Failure? ==> d.error == IndexOutOfBounds
    ensures d.Success? ==> SameShape(d.value, a) && forall r, c :: 0 <= r < |a| && 0 <= c < |a[r]| ==>
      d.value[r][c].Void? == (a[r][c].Void? || b[r][c].Void?) &&
      (d.value[r][c].Val? ==> d.value[r][c].v + b[r][c].v == a[r][c].v)
  {
    if !Covers(b, a) then Failure(IndexOutOfBounds)
    else Success(seq(|a|, r requires 0 <= r < |a| => seq(|a[r]|, c requires 0 <= c < |a[r]| => DiffCell(a[r][c], b[r][c]))))
  }

  /** The whole-raster quotient a / (b + k) of GridDivOperator.operate(a, b, k) for present grids. */
  function Quotient(a: Raster, b: Raster, k: real): (q: Result<Raster>)
    ensures q.Failure? <==> !Covers(b, a)
    ensures q.Failure? ==> q.error == IndexOutOfBounds
    ensures q.Success? ==> SameShape(q.value, a) && forall r, c :: 0 <= r < |a| && 0 <= c < |a[r]| ==>
      q.value[r][c].Void? == (a[r][c].Void? || b[r][c].Void? || b[r][c].v + k == 0.0) &&
      (q.value[r][c].Val? ==> q.value[r][c].v * (b[r][c].v + k) == a[r][c].v)
  {
    if !Covers(b, a) then Failure(IndexOutOfBounds)
    else Success(seq(|a|, r requires 0 <= r < |a| => seq(|a[r]|, c requires 0 <= c < |a[r]| => DivCell(a[r][c], b[r][c], k))))
  }

  /** The mask rule over a whole raster: dst with the voids of src copied in. */
  function MaskAll(src: Raster, dst: Raster): (out: Raster)
    requires SameShape(src, dst)
    ensures SameShape(out, dst)
    ensures forall r, c :: 0 <= r < |dst| && 0 <= c < |dst[r]| ==>
      (out[r][c].Void? <==> src[r][c].Void? || dst[r][c].Void?) && (out[r][c].Val? ==> out[r][c] == dst[r][c])
  {
    seq(|dst|, r requires 0 <= r < |dst| => seq(|dst[r]|, c requires 0 <= c < |dst[r]| => MaskCell(src[r][c], dst[r][c])))
  }

  /** Masking twice with the same source changes nothing more: the operator is idempotent. */
  lemma MaskIdempotent(src: Raster, dst: Raster)
    requires SameShape(src, dst)
    ensures MaskAll(src, MaskAll(src, dst)) == MaskAll(src, dst)
  {
    var once := MaskAll(src, dst);
    var twice := MaskAll(src, once);
    forall r | 0 <= r < |once|
      ensures twice[r] == once[r]
    {
      assert |twice[r]| == |once[r]|;
    }
  }

  /** Dividing the product back recovers the numerator: DivCell is the inverse of multiplication. */
  lemma DivInvertsProduct(a: real, b: real, k: real)
    requires b + k != 0.0
    ensures DivCell(Val(a * (b + k)), Val(b), k) == Val(a)
  {
  }
}

=== FILE: collection.dfy ===
/**
 * Bounding boxes of points, lines and geometry collections, and the list operations of
 * GeometryCollection. A Java bounding box of null is None; a collection whose members
 * include an empty line or an empty collection throws a NullPointerException when its box
 * is asked for, because Rectangle2D.createUnion dereferences the null box.
 */
module Collections {
  import opened Wrappers
  import opened Numeric
  import opened Features

  /** The box covers every point of the geometry, at any depth. */
  predicate Covers(r: Rect, g: Geometry)
    decreases g
  {
    match g
    case PointGeometry(p) => Contains(r, p.x, p.y)
    case LineString(ps, _) => forall k :: 0 <= k < |ps| ==> Contains(r, ps[k].x, ps[k].y)
    case GeometryCollection(ms, _) => forall i :: 0 <= i < |ms| ==> Covers(r, ms[i])
  }

  /** r lies inside s. */
  predicate Within(r: Rect, s: Rect) {
    s.minX <= r.minX && r.maxX <= s.maxX && s.minY <= r.minY && r.maxY <= s.maxY
  }

  /** A box that covers a geometry keeps covering it when it grows. */
  lemma {:induction false} CoversWider(r: Rect, s: Rect, g: Geometry)
    requires Within(r, s) && Covers(r, g)
    ensures Covers(s, g)
    decreases g
  {
    match g
    case PointGeometry(p) =>
    case LineString(ps, _) =>
    case GeometryCollection(ms, _) =>
      forall i | 0 <= i < |ms|
        ensures Covers(s, ms[i])
      {
        CoversWider(r, s, ms[i]);
      }
  }

  /**
   * The smallest rectangle holding every point of a non-empty line: it contains them all and
   * each of its sides passes through one of them.
   */
  function Extent(ps: seq<Point>): (r: Rect)
    requires |ps| > 0
    ensures forall k :: 0 <= k < |ps| ==> Contains(r, ps[k].x, ps[k].y)
    ensures exists k :: 0 <= k < |ps| && ps[k].x == r.minX
    ensures exists k :: 0 <= k < |ps| && ps[k].x == r.maxX
    ensures exists k :: 0 <= k < |ps| && ps[k].y == r.minY
    ensures exists k :: 0 <= k < |ps| && ps[k].y == r.maxY
  {
    if |ps| == 1 then PointBox(ps[0])
    else
      var init := ps[..|ps| - 1];
      var e := Extent(init);
      assert forall k :: 0 <= k < |init| ==> init[k] == ps[k];
      Union(e, PointBox(ps[|ps| - 1]))
  }

  /**
   * getBoundingBox of a line: null for no points, otherwise the box of the first point grown
   * by the box of every point in turn.
   */
  method LineBoundingBox(ps: seq<Point>) returns (r: Option<Rect>)
    ensures r.None? <==> |ps| == 0
    ensures r.Some? ==> r.value == Extent(ps)
  {
    if |ps| < 1 {
      return None;
    }
    var bb := PointBox(ps[0]);
    var i := 0;
    while i < |ps|
      invariant 0 <= i <= |ps|
      invariant bb == Extent(ps[..if i == 0 then 1 else i])
    {
      if i > 0 {
        assert ps[..i + 1][..i] == ps[..i];
      }
      bb := Union(bb, PointBox(ps[i]));
      i := i + 1;
    }
    assert ps[..i] == ps;
    return Some(bb);
  }

  /** A line or collection with nothing in it, whose box is null. */
  predicate Empty(g: Geometry) {
    (g.LineString? && |g.points| == 0) || (g.GeometryCollection? && |g.members| == 0)
  }

  /** Somewhere inside the collection sits an empty line or an empty collection. */
  predicate HasEmptyPart(g: Geometry)
    decreases g
  {
    g.GeometryCollection? &&
    exists i :: 0 <= i < |g.members| && (Empty(g.members[i]) || HasEmptyPart(g.members[i]))
  }

  /** Member i of the collection is empty or has an empty part. */
  predicate BadMember(g: Geometry, i: int)
    requires g.GeometryCollection? && 0 <= i < |g.members|
  {
    Empty(g.members[i]) || HasEmptyPart(g.members[i])
  }

  /** getBoundingBox of any geometry. */
  function GeometryBox(g: Geometry): (r: Result<Option<Rect>>)
    ensures r.Failure? ==> r.error == NullPointer
    ensures r.Success? ==> (r.value.None? <==> Empty(g))
    ensures r.Success? && r.value.Some? ==> Covers(r.value.value, g)
    decreases g, if g.GeometryCollection? then |g.members| + 1 else 0
  {
    match g
    case PointGeometry(p) => Success(Some(PointBox(p)))
    case LineString(ps, _) => if |ps| == 0 then Success(None) else Success(Some(Extent(ps)))
    case GeometryCollection(ms, _) =>
      if |ms| < 1 then Success(None)
      else
        match MembersBox(g, |ms|)
        case Failure(e) => Failure(e)
        case Success(bb) => Success(Some(bb))
  }

  /**
   * The box of the first n members of a collection: the first member's box, grown by each
   * member's box in turn; a null box or a throwing member throws.
   */
  function MembersBox(g: Geometry, n: int): (r: Result<Rect>)
    requires g.GeometryCollection? && 1 <= n <= |g.members|
    ensures r.Failure? ==> r.error == NullPointer
    ensures r.Success? ==> forall i :: 0 <= i < n ==> Covers(r.value, g.members[i])
    decreases g, n
  {
    var m := g.members[n - 1];
    var b := GeometryBox(m);
    if b.Failure? then Failure(b.error)
    else if b.value.None? then Failure(NullPointer)
    else if n == 1 then Success(b.value.value)
    else
      match MembersBox(g, n - 1)
      case Failure(e) => Failure(e)
      case Success(acc) =>
        var u := Union(acc, b.value.value);
        forall i | 0 <= i < n - 1 ensures Covers(u, g.members[i]) {
          CoversWider(acc, u, g.members[i]);
        }
        CoversWider(b.value.value, u, m);
        Success(u)
  }

  /** Asking a geometry for its box throws exactly when it holds an empty part. */
  lemma {:induction false} GeometryBoxFails(g: Geometry)
    ensures GeometryBox(g).Failure? <==> HasEmptyPart(g)
    decreases g, if g.GeometryCollection? then |g.members| + 1 else 0
  {
    if g.GeometryCollection? && |g.members| > 0 {
      var n := |g.members|;
      MembersBoxFails(g, n);
      assert GeometryBox(g).Failure? <==> MembersBox(g, n).Failure?;
      if HasEmptyPart(g) {
        var i :| 0 <= i < n && (Empty(g.members[i]) || HasEmptyPart(g.members[i]));
        assert BadMember(g, i);
      }
    } else {
      assert !HasEmptyPart(g);
      assert GeometryBox(g).Success?;
    }
  }

  /** The box of the first n members throws exactly when one of them is bad. */
  lemma {:induction false} MembersBoxFails(g: Geometry, n: int)
    requires g.GeometryCollection? && 1 <= n <= |g.members|
    ensures MembersBox(g, n).Failure? <==> exists i :: 0 <= i < n && BadMember(g, i)
    decreases g, n
  {
    var m := g.members[n - 1];
    GeometryBoxFails(m);
    var b := GeometryBox(m);
    assert BadMember(g, n - 1) <==> b.Failure? || b.value.None?;
    if BadMember(g, n - 1) {
      assert MembersBox(g, n).Failure?;
    } else {
      if n > 1 {
        MembersBoxFails(g, n - 1);
        assert MembersBox(g, n).Failure? <==> MembersBox(g, n - 1).Failure?;
        if i :| 0 <= i < n && BadMember(g, i) {
          assert i < n - 1;
        }
      }
    }
  }

  /** ---------------------------------------------------------------- the member list */

  /** getGeometryN: ArrayList.get throws for an index outside the list. */
  function GetGeometryN(c: Geometry, index: int): (r: Result<Geometry>)
    requires c.GeometryCollection?
    ensures r.Failure? <==> index < 0 || index >= |c.members|
    ensures r.Failure? ==> r.error == IndexOutOfBounds
    ensures r.Success? ==> r.value in c.members
  {
    if 0 <= index < |c.members| then Success(c.members[index]) else Failure(IndexOutOfBounds)
  }

  /** addGeometry: the new member is last; the earlier members and the attributes stay. */
  function AddGeometry(c: Geometry, g: Geometry): (r: Geometry)
    requires c.GeometryCollection?
    ensures r.GeometryCollection? && r.attributes == c.attributes
    ensures |r.members| == |c.members| + 1
    ensures GetGeometryN(r, |c.members|) == Success(g)
    ensures forall i :: 0 <= i < |c.members| ==> GetGeometryN(r, i) == GetGeometryN(c, i)
  {
    c.(members := c.members + [g])
  }

  /** toArray: copies the members one by one, in order. */
  method ToArray(c: Geometry) returns (arr: seq<Geometry>)
    requires c.GeometryCollection?
    ensures |arr| == |c.members|
    ensures forall i :: 0 <= i < |arr| ==> GetGeometryN(c, i) == Success(arr[i])
  {
    arr := [];
    var i := 0;
    while i < |c.members|
      invariant 0 <= i <= |c.members|
      invariant |arr| == i
      invariant forall k :: 0 <= k < i ==> GetGeometryN(c, k) == Success(arr[k])
    {
      var g := GetGeometryN(c, i);
      arr := arr + [g.value];
      i := i + 1;
    }
  }
}

=== FILE: colorizer.dfy ===
/**
 * ColorizerOperator: turns a grid into 32-bit ARGB pixels, one visualization mode at a time.
 * The colour ramp lookup, the gray shading of a surface normal, the nine-way border stencil
 * that estimates the normal, and the pixel each mode writes for a cell.
 */
module Colorizer {
  import opened Wrappers
  import opened Numeric
  import opened Argb
  import Grids

  // ------------------------------------------------------------------------------------------
  // Visualization modes

  datatype ColorVisualization =
    | GrayShading | Exposition | BivariateColor | HypsometricShading | Hypsometric
    | LocalHypsometricShading | LocalHypsometric | SlopeColor | AspectColor
    | ProfileCurvature | Continuous
  {
    predicate IsLocal() {
      this == LocalHypsometric || this == LocalHypsometricShading
    }

    predicate IsShading() {
      this == GrayShading || this == Exposition || this == HypsometricShading || this == LocalHypsometricShading
    }

    predicate IsColored() {
      this == Exposition || this == BivariateColor || this == HypsometricShading || this == Hypsometric
      || this == LocalHypsometric || this == LocalHypsometricShading || this == SlopeColor || this == AspectColor
    }
  }

  /** The private routine the chunk `operate` switches to. */
  datatype Routine =
    | GrayRoutine | ExpositionRoutine | BivariateRoutine | HypsometricShadingRoutine
    | HypsometricRoutine | SlopeRoutine | AspectRoutine | CurvatureRoutine

  /** The switch of the chunk `operate`; the local modes share the routines of the global ones. */
  function RoutineOf(v: ColorVisualization): (r: Option<Routine>)
    ensures r.None? <==> v == Continuous
  {
    match v
    case GrayShading => Some(GrayRoutine)
    case Exposition => Some(ExpositionRoutine)
    case BivariateColor => Some(BivariateRoutine)
    case HypsometricShading => Some(HypsometricShadingRoutine)
    case LocalHypsometricShading => Some(HypsometricShadingRoutine)
    case Hypsometric => Some(HypsometricRoutine)
    case LocalHypsometric => Some(HypsometricRoutine)
    case SlopeColor => Some(SlopeRoutine)
    case AspectColor => Some(AspectRoutine)
    case ProfileCurvature => Some(CurvatureRoutine)
    case Continuous => None
  }

  /** Routines that compute the shade stencil before picking a colour. */
  predicate Shades(r: Routine) {
    r == GrayRoutine || r == ExpositionRoutine || r == HypsometricShadingRoutine
  }

  /**
   * The mode predicates agree with the switch: the shading modes are exactly the modes whose
   * routine shades, the coloured modes are those not rendered in gray, the local modes reuse
   * the hypsometric routines, and Continuous satisfies no predicate and has no routine.
   */
  lemma PredicatesMatchDispatch(v: ColorVisualization)
    ensures v.IsShading() <==> RoutineOf(v).Some? && Shades(RoutineOf(v).value)
    ensures v.IsColored() <==> RoutineOf(v).Some? && RoutineOf(v).value != GrayRoutine && RoutineOf(v).value != CurvatureRoutine
    ensures v.IsLocal() ==> RoutineOf(v) == Some(HypsometricShadingRoutine) || RoutineOf(v) == Some(HypsometricRoutine)
    ensures v.IsLocal() ==> v.IsColored()
    ensures v == Continuous ==> !v.IsLocal() && !v.IsShading() && !v.IsColored()
  {
  }

  // ------------------------------------------------------------------------------------------
  // Colour ramps

  /** The colours handed to setColors, with their relative positions between 0 and 1. */
  datatype Ramp = Ramp(colors: seq<Rgb>, positions: seq<real>) {
    ghost predicate Valid() {
      |colors| == |positions| >= 1
      && (forall i :: 0 <= i < |colors| ==> colors[i].Valid())
      && (forall i, j :: 0 <= i < j < |positions| ==> positions[i] < positions[j])
    }

    function Last(): nat
      requires |positions| >= 1
    {
      |positions| - 1
    }
  }

  /**
   * The normalised value (v - min) / (max - min) as the ramp loop compares it. With
   * max == min the float division yields +Infinity (above every knot) for v > min, and
   * -Infinity or NaN (below every knot) otherwise; NaN input compares below every knot.
   */
  datatype RampPosition = Below | Above | At(t: real)

  function Normalize(v: Cell, lo: real, hi: real): (p: RampPosition)
    ensures p.Above? <==> v.Val? && hi == lo && v.v > lo
    ensures p.At? <==> v.Val? && hi != lo
    ensures p.At? ==> p.t * (hi - lo) == v.v - lo
  {
    if v.Void? then Below
    else if hi != lo then At((v.v - lo) / (hi - lo))
    else if v.v > lo then Above
    else Below
  }

  /** The two ends of the value range land on the positions 0 and 1. */
  lemma NormalizeEndpoints(lo: real, hi: real)
    requires lo != hi
    ensures Normalize(Val(lo), lo, hi) == At(0.0)
    ensures Normalize(Val(hi), lo, hi) == At(1.0)
  {
    CancelFactor(Normalize(Val(hi), lo, hi).t, hi, lo);
  }

  /** t * (hi - lo) == hi - lo with hi != lo forces t == 1. */
  lemma CancelFactor(t: real, hi: real, lo: real)
    requires hi != lo
    requires t * (hi - lo) == hi - lo
    ensures t == 1.0
  {
    if t > 1.0 && hi > lo { PositiveProduct(t - 1.0, hi - lo); }
    if t > 1.0 && hi < lo { PositiveProduct(t - 1.0, lo - hi); }
    if t < 1.0 && hi > lo { PositiveProduct(1.0 - t, hi - lo); }
    if t < 1.0 && hi < lo { PositiveProduct(1.0 - t, lo - hi); }
  }

  /** The largest knot index j <= i with t >= positions[j], or -1 when there is none. */
  function KnotBelow(positions: seq<real>, t: real, i: int): (k: int)
    requires -1 <= i < |positions|
    ensures -1 <= k <= i
    ensures k >= 0 ==> t >= positions[k]
    ensures forall j :: k < j <= i ==> t < positions[j]
    decreases i + 1
  {
    if i < 0 then -1 else if t >= positions[i] then i else KnotBelow(positions, t, i - 1)
  }

  /** For 0 <= t <= 1 and x >= 0, 0 <= t * x <= x. */
  lemma UnitScale(t: real, x: real)
    requires 0.0 <= t <= 1.0 && x >= 0.0
    ensures 0.0 <= t * x <= x
  {
    if x > 0.0 {
      assert x * t <= x * 1.0 by { assert x * 1.0 - x * t == x * (1.0 - t); }
    }
  }

  /** tl * a + tu * b with tl = 1 - tu, the blend of two knot channels. */
  function Mix(tu: real, a: real, b: real): (m: real)
    requires 0.0 <= tu <= 1.0
    ensures Min(a, b) <= m <= Max(a, b)
  {
    MixBounds(tu, a, b);
    (1.0 - tu) * a + tu * b
  }

  lemma MixBounds(tu: real, a: real, b: real)
    requires 0.0 <= tu <= 1.0
    ensures Min(a, b) <= (1.0 - tu) * a + tu * b <= Max(a, b)
  {
    var m := (1.0 - tu) * a + tu * b;
    var d := b - a;
    var p := tu * d;
    assert m == a + p by {
      assert (1.0 - tu) * a == a - tu * a;
      assert tu * d == tu * b - tu * a;
    }
    if a <= b {
      UnitScale(tu, d);
    } else {
      UnitScale(tu, -d);
      assert tu * (-d) == -p;
    }
  }

  /** (int) (mult * c) for a channel c and 0 <= mult <= 1: a channel no brighter than c. */
  function Scale(mult: real, c: real): (s: int)
    requires 0.0 <= mult <= 1.0 && 0.0 <= c <= 255.0
    ensures 0 <= s <= 255 && s as real <= c
  {
    var x := mult * c;
    UnitScale(mult, c);
    assert 0.0 <= x <= c;
    assert Trunc(x) as real <= x;
    Trunc(x)
  }

  function ScaledColor(c: Rgb, mult: real): (s: Rgb)
    requires c.Valid() && 0.0 <= mult <= 1.0
    ensures s.Valid()
    ensures mult == 1.0 ==> s == c
  {
    Rgb(Scale(mult, c.r as real), Scale(mult, c.g as real), Scale(mult, c.b as real))
  }

  /** Where t lies between knots i and i + 1, as a fraction of the knot distance. */
  function KnotFraction(ramp: Ramp, i: int, t: real): (tu: real)
    requires ramp.Valid() && 0 <= i < ramp.Last()
    requires ramp.positions[i] <= t < ramp.positions[i + 1]
    ensures 0.0 <= tu < 1.0
    ensures tu * (ramp.positions[i + 1] - ramp.positions[i]) == t - ramp.positions[i]
    ensures t == ramp.positions[i] ==> tu == 0.0
  {
    var d := ramp.positions[i + 1] - ramp.positions[i];
    FractionBelowOne(t - ramp.positions[i], d);
    (t - ramp.positions[i]) / d
  }

  lemma FractionBelowOne(x: real, d: real)
    requires 0.0 <= x < d
    ensures 0.0 <= x / d < 1.0 && (x / d) * d == x
  {
    var q := x / d;
    assert q * d == x;
    if q >= 1.0 {
      ScaleLe(d, 1.0, q);
    }
    if q < 0.0 {
      ScaleLt(d, q, 0.0);
    }
  }

  /** The colour between knots i and i + 1: each channel mult times a convex blend. */
  function Blended(ramp: Ramp, i: int, t: real, mult: real): (c: Rgb)
    requires ramp.Valid() && 0 <= i < ramp.Last() && 0.0 <= mult <= 1.0
    requires ramp.positions[i] <= t < ramp.positions[i + 1]
    ensures c.Valid()
  {
    var tu := KnotFraction(ramp, i, t);
    var lo, hi := ramp.colors[i], ramp.colors[i + 1];
    Rgb(Scale(mult, Mix(tu, lo.r as real, hi.r as real)),
        Scale(mult, Mix(tu, lo.g as real, hi.g as real)),
        Scale(mult, Mix(tu, lo.b as real, hi.b as real)))
  }

  /**
   * The knot search finds the interval: when positions[i] <= t < positions[i + 1], the
   * largest knot at or below t among the first n - 1 knots is i.
   */
  lemma KnotBelowFindsInterval(ramp: Ramp, t: real)
    requires ramp.Valid() && ramp.Last() >= 1
    ensures forall i :: 0 <= i < ramp.Last() && ramp.positions[i] <= t < ramp.positions[i + 1] ==>
      KnotBelow(ramp.positions, t, ramp.Last() - 1) == i
  {
    var k := KnotBelow(ramp.positions, t, ramp.Last() - 1);
    forall i | 0 <= i < ramp.Last() && ramp.positions[i] <= t < ramp.positions[i + 1]
      ensures k == i
    {
    }
  }

  /**
   * The colour getLinearRGB picks for a normalised position, before packing: at or above the
   * last knot the last colour, below the first knot the first colour, and in between the
   * blend of the two surrounding knots, every channel times mult.
   */
  function RampColor(ramp: Ramp, p: RampPosition, mult: real): (c: Rgb)
    requires ramp.Valid() && 0.0 <= mult <= 1.0
    ensures c.Valid()
    ensures p.Above? || (p.At? && p.t >= ramp.positions[ramp.Last()]) ==>
      c == ScaledColor(ramp.colors[ramp.Last()], mult)
    ensures p.Below? || (p.At? && p.t < ramp.positions[0]) ==>
      c == ScaledColor(ramp.colors[0], mult)
    ensures forall i :: 0 <= i < ramp.Last() && p.At? && ramp.positions[i] <= p.t < ramp.positions[i + 1] ==>
      c == Blended(ramp, i, p.t, mult)
  {
    var n := ramp.Last();
    if p.Above? || (p.At? && n >= 1 && p.t >= ramp.positions[n]) then ScaledColor(ramp.colors[n], mult)
    else if p.Below? || n == 0 then ScaledColor(ramp.colors[0], mult)
    else
      KnotBelowFindsInterval(ramp, p.t);
      var k := KnotBelow(ramp.positions, p.t, n - 1);
      if k < 0 then ScaledColor(ramp.colors[0], mult)
      else Blended(ramp, k, p.t, mult)
  }

  /** getLinearRGB: the ramp colour packed as an opaque pixel. */
  function LinearRgb(ramp: Ramp, p: RampPosition, mult: real): (px: Pixel)
    requires ramp.Valid() && 0.0 <= mult <= 1.0
    ensures Alpha(px) == 255 && Channels(px) == RampColor(ramp, p, mult)
  {
    var c := RampColor(ramp, p, mult);
    Opaque(c.r, c.g, c.b)
  }

  /** At the position of a knot the unshaded ramp gives exactly that knot's colour. */
  lemma RampPassesThroughKnots(ramp: Ramp, i: int)
    requires ramp.Valid() && 0 <= i < |ramp.positions|
    ensures Channels(LinearRgb(ramp, At(ramp.positions[i]), 1.0)) == ramp.colors[i]
  {
    var t := ramp.positions[i];
    if i < ramp.Last() {
      var tu := KnotFraction(ramp, i, t);
      assert tu == 0.0;
      var c := ramp.colors[i];
      assert Blended(ramp, i, t, 1.0) == c;
    }
  }

  // ------------------------------------------------------------------------------------------
  // Shading

  /**
   * The per-image constants: the ramp and elevation range, the unit light vector, the z
   * component of the normal, the ambient term, the library functions, the profile
   * curvature of GridProfileCurvatureOperator and the bivariate renderer.
   */
  datatype Settings = Settings(
    ramp: Ramp, minElev: real, maxElev: real,
    lx: real, ly: real, lz: real, nz: ZComponent, ambientLight: real,
    sqrt: real -> real, atan2: (real, real) -> real,
    profileCurvature: (int, int) -> Cell,
    hasGrids: bool, bivariatePixel: (int, int) -> Pixel)

  /**
   * The z component of the normal as a Java double: finite, infinite when the vertical
   * exaggeration is 0 (of either sign, which no consumer tells apart), or NaN from 0 / 0.
   */
  datatype ZComponent = Finite(v: real) | Infinite | NotANumber

  /**
   * nz = 2 * cellSize / vertExaggeration, the cell size first converted to metres. An
   * exaggeration of 0 (the slider's minimum) divides by zero.
   */
  function NormalZ(cellSize: real, vertExaggeration: real): (nz: ZComponent)
    ensures nz.Finite? <==> vertExaggeration != 0.0
    ensures nz.Finite? ==> nz.v * vertExaggeration == 2.0 * MetricCellSize(cellSize)
    ensures nz.NotANumber? <==> vertExaggeration == 0.0 && cellSize == 0.0
    ensures cellSize > 0.0 && vertExaggeration > 0.0 ==> nz.Finite? && nz.v > 0.0
  {
    var m := 2.0 * MetricCellSize(cellSize);
    if vertExaggeration != 0.0 then Finite(m / vertExaggeration)
    else if m == 0.0 then NotANumber
    else Infinite
  }

  /**
   * shadeNormal: the dot product of the normalised normal (nx, ny, nz) with the light,
   * plus 1 and the ambient light, scaled by 127.5 and clamped into [0, 255]. A zero normal
   * divides 0 by 0 and gives NaN; so does an infinite or NaN nz, whose length is infinite
   * or NaN as well.
   */
  function ShadeNormal(s: Settings, nx: real, ny: real): (gray: Cell)
    requires IsSqrt(s.sqrt)
    ensures !s.nz.Finite? ==> gray.Void?
    ensures s.nz.Finite? ==> (gray.Void? <==> nx * nx + ny * ny + s.nz.v * s.nz.v == 0.0)
    ensures gray.Val? ==> 0.0 <= gray.v <= 255.0
  {
    if !s.nz.Finite? then Void
    else
    var nz := s.nz.v;
    var sq := nx * nx + ny * ny + nz * nz;
    assert sq >= 0.0;
    if sq == 0.0 then Void
    else
      var nL := s.sqrt(sq);
      assert nL * nL == sq;
      var dot := (nx * s.lx + ny * s.ly + nz * s.lz) / nL;
      Val(Clamp((dot + 1.0 + s.ambientLight) * 127.5, 0.0, 255.0))
  }

  /** With a vertical exaggeration of 0 shadeNormal is NaN for every normal. */
  lemma ZeroExaggerationShadesVoid(s: Settings, cellSize: real, nx: real, ny: real)
    requires IsSqrt(s.sqrt) && s.nz == NormalZ(cellSize, 0.0)
    ensures ShadeNormal(s, nx, ny).Void?
  {
  }

  function Sub(a: Cell, b: Cell): (d: Cell)
    ensures d.Val? <==> a.Val? && b.Val?
    ensures d.Val? ==> d.v + b.v == a.v
  {
    if a.Val? && b.Val? then Val(a.v - b.v) else Void
  }

  function Twice(a: Cell): (d: Cell)
    ensures d.Val? <==> a.Val?
    ensures d.Val? ==> d.v == a.v + a.v
  {
    if a.Val? then Val(2.0 * a.v) else Void
  }

  /**
   * The normal's horizontal components (nx, ny) at a cell: the central differences
   * west - east and south - north inside the grid, and twice the one-sided difference on
   * the border rows and columns, with the orientation of the central difference in all nine
   * cases.
   */
  function Gradient(g: Grids.Grid, col: int, row: int): (n: (Cell, Cell))
    requires g.Valid() && 0 <= col < g.Cols() && 0 <= row < g.Rows()
  {
    (GradientX(g, col, row), GradientY(g, col, row))
  }

  /** nx: west minus east, doubled on the left and right border columns. */
  function GradientX(g: Grids.Grid, col: int, row: int): (nx: Cell)
    requires g.Valid() && 0 <= col < g.Cols() && 0 <= row < g.Rows()
  {
    var w := g.Value(if col > 0 then col - 1 else col, row);
    var e := g.Value(if col < g.Cols() - 1 then col + 1 else col, row);
    if 0 < col < g.Cols() - 1 then Sub(w, e) else Twice(Sub(w, e))
  }

  /** ny: south minus north, doubled on the top and bottom border rows. */
  function GradientY(g: Grids.Grid, col: int, row: int): (ny: Cell)
    requires g.Valid() && 0 <= col < g.Cols() && 0 <= row < g.Rows()
  {
    var n := g.Value(col, if row > 0 then row - 1 else row);
    var s := g.Value(col, if row < g.Rows() - 1 then row + 1 else row);
    if 0 < row < g.Rows() - 1 then Sub(s, n) else Twice(Sub(s, n))
  }

  /**
   * shade's stencil as written: identical to Gradient except in the top-left corner, where
   * nx is 2 * (east - centre) instead of 2 * (centre - east).
   */
  function GradientAsWritten(g: Grids.Grid, col: int, row: int): (n: (Cell, Cell))
    requires g.Valid() && 0 <= col < g.Cols() && 0 <= row < g.Rows()
    ensures !(col == 0 && row == 0) ==> n == Gradient(g, col, row)
    ensures col == 0 && row == 0 ==> n.1 == Gradient(g, col, row).1
  {
    if col == 0 && row == 0 then
      var s, e, c := g.Value(0, 1), g.Value(1, 0), g.Value(0, 0);
      (Twice(Sub(e, c)), Twice(Sub(s, c)))
    else Gradient(g, col, row)
  }

  /** A tilted plane: the cell at (col, row) holds z0 + a * col + b * row. */
  ghost predicate IsPlane(g: Grids.Grid, z0: real, a: real, b: real) {
    g.Valid() &&
    forall row, col :: 0 <= row < g.Rows() && 0 <= col < g.Cols() ==>
      g.cells[row][col] == Val(z0 + a * col as real + b * row as real)
  }

  /**
   * On a plane every one of the nine stencil cases gives the same normal, (-2a, 2b): the
   * one-sided border differences are scaled to match the central ones.
   */
  lemma PlaneHasUniformGradient(g: Grids.Grid, z0: real, a: real, b: real, col: int, row: int)
    requires IsPlane(g, z0, a, b) && 0 <= col < g.Cols() && 0 <= row < g.Rows()
    ensures Gradient(g, col, row) == (Val(-2.0 * a), Val(2.0 * b))
  {
    PlaneGradientX(g, z0, a, b, col, row);
    PlaneGradientY(g, z0, a, b, col, row);
  }

  lemma PlaneGradientX(g: Grids.Grid, z0: real, a: real, b: real, col: int, row: int)
    requires IsPlane(g, z0, a, b) && 0 <= col < g.Cols() && 0 <= row < g.Rows()
    ensures GradientX(g, col, row) == Val(-2.0 * a)
  {
    var cw := if col > 0 then col - 1 else col;
    var ce := if col < g.Cols() - 1 then col + 1 else col;
    var dx := PlaneAlongRow(g, z0, a, b, row, cw, ce);
    if 0 < col < g.Cols() - 1 {
      assert dx == -2.0 * a;
    } else {
      assert dx == -a;
    }
  }

  lemma PlaneGradientY(g: Grids.Grid, z0: real, a: real, b: real, col: int, row: int)
    requires IsPlane(g, z0, a, b) && 0 <= col < g.Cols() && 0 <= row < g.Rows()
    ensures GradientY(g, col, row) == Val(2.0 * b)
  {
    var rn := if row > 0 then row - 1 else row;
    var rs := if row < g.Rows() - 1 then row + 1 else row;
    var dy := PlaneAlongColumn(g, z0, a, b, col, rs, rn);
    if 0 < row < g.Rows() - 1 {
      assert dy == 2.0 * b;
    } else {
      assert dy == b;
    }
  }

  /** Along a row of a plane, two cells differ by a times their column distance. */
  lemma PlaneAlongRow(g: Grids.Grid, z0: real, a: real, b: real, row: int, c1: int, c2: int) returns (d: real)
    requires IsPlane(g, z0, a, b) && 0 <= row < g.Rows() && 0 <= c1 < g.Cols() && 0 <= c2 < g.Cols()
    requires -2 <= c1 - c2 <= 0
    ensures Sub(g.Value(c1, row), g.Value(c2, row)) == Val(d)
    ensures c1 - c2 == -2 ==> d == -2.0 * a
    ensures c1 - c2 == -1 ==> d == -a
  {
    var base := z0 + b * row as real;
    assert g.Value(c1, row) == Val(base + a * c1 as real);
    assert g.Value(c2, row) == Val(base + a * c2 as real);
    d := a * c1 as real - a * c2 as real;
    assert d == a * (c1 - c2) as real;
  }

  /** Along a column of a plane, two cells differ by b times their row distance. */
  lemma PlaneAlongColumn(g: Grids.Grid, z0: real, a: real, b: real, col: int, r1: int, r2: int) returns (d: real)
    requires IsPlane(g, z0, a, b) && 0 <= col < g.Cols() && 0 <= r1 < g.Rows() && 0 <= r2 < g.Rows()
    requires 0 <= r1 - r2 <= 2
    ensures Sub(g.Value(col, r1), g.Value(col, r2)) == Val(d)
    ensures r1 - r2 == 2 ==> d == 2.0 * b
    ensures r1 - r2 == 1 ==> d == b
  {
    var base := z0 + a * col as real;
    assert g.Value(col, r1) == Val(base + b * r1 as real);
    assert g.Value(col, r2) == Val(base + b * r2 as real);
    d := b * r1 as real - b * r2 as real;
    assert d == b * (r1 - r2) as real;
  }

  /** The top-left nx of the stencil as written is the negation of the corrected one. */
  lemma TopLeftSignFlipped(g: Grids.Grid)
    requires g.Valid()
    ensures GradientAsWritten(g, 0, 0).0.Val? <==> Gradient(g, 0, 0).0.Val?
    ensures GradientAsWritten(g, 0, 0).0.Val? ==> GradientAsWritten(g, 0, 0).0.v == -Gradient(g, 0, 0).0.v
  {
  }

  /** A 3 x 3 grid of unit cells rising one unit per column to the east. */
  function EastRamp(): (g: Grids.Grid)
    ensures g.Valid()
  {
    var line := [Val(0.0), Val(1.0), Val(2.0)];
    Grids.Grid([line, line, line], 1.0, 0.0, 0.0)
  }

  lemma EastRampIsPlane()
    ensures IsPlane(EastRamp(), 0.0, 1.0, 0.0)
  {
    var g := EastRamp();
    forall row, col | 0 <= row < g.Rows() && 0 <= col < g.Cols()
      ensures g.cells[row][col] == Val(0.0 + 1.0 * col as real + 0.0 * row as real)
    {
      assert g.cells[row] == [Val(0.0), Val(1.0), Val(2.0)];
    }
  }

  /**
   * On a plane rising to the east, the top-left pixel of the stencil as written gets nx = +2
   * while its neighbour on the top row, and every other pixel, gets nx = -2: the corner is
   * lit as if the slope faced the opposite way.
   */
  lemma TopLeftCounterexample(g: Grids.Grid)
    requires IsPlane(g, 0.0, 1.0, 0.0)
    ensures GradientAsWritten(g, 0, 0).0 == Val(2.0)
    ensures GradientAsWritten(g, 1, 0).0 == Val(-2.0)
    ensures Gradient(g, 0, 0).0 == Val(-2.0)
  {
    PlaneHasUniformGradient(g, 0.0, 1.0, 0.0, 0, 0);
    PlaneHasUniformGradient(g, 0.0, 1.0, 0.0, 1, 0);
    TopLeftSignFlipped(g);
  }

  /** shade: the gray value of the stencil's normal, void when a value it uses is void. */
  function Shade(s: Settings, g: Grids.Grid, col: int, row: int): (gray: Cell)
    requires IsSqrt(s.sqrt) && g.Valid() && 0 <= col < g.Cols() && 0 <= row < g.Rows()
    ensures (Gradient(g, col, row).0.Void? || Gradient(g, col, row).1.Void?) ==> gray.Void?
    ensures gray.Val? ==> 0.0 <= gray.v <= 255.0
  {
    var (nx, ny) := Gradient(g, col, row);
    if nx.Void? || ny.Void? then Void else ShadeNormal(s, nx.v, ny.v)
  }

  // ------------------------------------------------------------------------------------------
  // Aspect

  /**
   * getAspect(col, row) reads the four direct neighbours without clamping; the ASPECT
   * routine calls it for every column, so column 0 indexes column -1 and throws.
   */
  lemma AspectBorderCounterexample(atan2: (real, real) -> real, g: Grids.Grid, row: int)
    requires g.Valid() && 0 <= row < g.Rows()
    ensures Grids.Aspect(atan2, g, 0, row).Failure?
  {
  }

  /**
   * The aspect the ASPECT routine evidently intends: the neighbours clamped into the grid
   * as getSlope clamps them, so every cell has an aspect.
   */
  function ClampedAspect(atan2: (real, real) -> real, g: Grids.Grid, col: int, row: int): (a: Cell)
    requires g.Valid() && 0 <= col < g.Cols() && 0 <= row < g.Rows()
    ensures 1 <= col <= g.Cols() - 2 && 1 <= row <= g.Rows() - 2 ==> Grids.Aspect(atan2, g, col, row) == Success(a)
  {
    var win := Grids.SlopeWindow(g, col, row);
    var w, e, s, n := g.Value(win.0, row), g.Value(win.1, row), g.Value(col, win.3), g.Value(col, win.2);
    if w.Void? || e.Void? || s.Void? || n.Void? then Void
    else Val(atan2(n.v - s.v, e.v - w.v))
  }

  // ------------------------------------------------------------------------------------------
  // Pixels

  /**
   * The pixel the chunk `operate` writes at (col, row): None when it writes nothing
   * (Continuous), a failure when the routine throws.
   */
  function PixelAt(v: ColorVisualization, s: Settings, g: Grids.Grid, col: int, row: int): (r: Result<Option<Pixel>>)
    requires IsSqrt(s.sqrt) && s.ramp.Valid() && g.Valid()
    requires 0 <= col < g.Cols() && 0 <= row < g.Rows()
    ensures r.Failure? <==> v == AspectColor && !(1 <= col <= g.Cols() - 2 && 1 <= row <= g.Rows() - 2)
    ensures r == Success(None) <==> v == Continuous
    ensures v.IsShading() ==> (r == Success(Some(VOID_COLOR)) <==> Shade(s, g, col, row).Void?)
    ensures (v == Hypsometric || v == LocalHypsometric) ==> (r == Success(Some(VOID_COLOR)) <==> g.Value(col, row).Void?)
    ensures v == SlopeColor ==> (r == Success(Some(VOID_COLOR)) <==> Grids.Slope(s.sqrt, g, col, row).Void?)
    ensures v == BivariateColor ==> r == Success(Some(if s.hasGrids then s.bivariatePixel(col, row) else VOID_COLOR))
  {
    match v
    case GrayShading =>
      var gray := Shade(s, g, col, row);
      if gray.Void? then Success(Some(VOID_COLOR))
      else
        var c := Trunc(gray.v);
        Success(Some(Opaque(c, c, c)))
    case Exposition =>
      var gray := Shade(s, g, col, row);
      if gray.Void? then Success(Some(VOID_COLOR))
      else Success(Some(LinearRgb(s.ramp, Normalize(gray, 0.0, 255.0), 1.0)))
    case BivariateColor =>
      Success(Some(if s.hasGrids then s.bivariatePixel(col, row) else VOID_COLOR))
    case HypsometricShading => HypsometricShaded(s, g, col, row)
    case LocalHypsometricShading => HypsometricShaded(s, g, col, row)
    case Hypsometric => HypsometricPlain(s, g, col, row)
    case LocalHypsometric => HypsometricPlain(s, g, col, row)
    case SlopeColor =>
      var slope := Grids.Slope(s.sqrt, g, col, row);
      Success(Some(RampOrVoid(s.ramp, slope, 0.0, 1.0)))
    case AspectColor =>
      var aspect :- Grids.Aspect(s.atan2, g, col, row);
      Success(Some(RampOrVoid(s.ramp, aspect, -PI, PI)))
    case ProfileCurvature =>
      Success(Some(RampOrVoid(s.ramp, s.profileCurvature(col, row), 0.0, 1.0)))
    case Continuous => Success(None)
  }

  /** Every pixel a visualization other than the bivariate one writes is either VOID_COLOR or opaque. */
  lemma PixelsOpaqueOrVoid(v: ColorVisualization, s: Settings, g: Grids.Grid, col: int, row: int)
    requires IsSqrt(s.sqrt) && s.ramp.Valid() && g.Valid()
    requires 0 <= col < g.Cols() && 0 <= row < g.Rows()
    requires v != BivariateColor
    ensures var r := PixelAt(v, s, g, col, row);
      r.Success? && r.value.Some? ==> r.value.value == VOID_COLOR || Alpha(r.value.value) == 255
  {
  }

  /** Gray shading writes the truncated shade in all three channels of an opaque pixel. */
  lemma GrayShadingIsGray(s: Settings, g: Grids.Grid, col: int, row: int)
    requires IsSqrt(s.sqrt) && s.ramp.Valid() && g.Valid()
    requires 0 <= col < g.Cols() && 0 <= row < g.Rows()
    requires Shade(s, g, col, row).Val?
    ensures var r := PixelAt(GrayShading, s, g, col, row);
      var c := Trunc(Shade(s, g, col, row).v);
      r.Success? && r.value.Some? && Alpha(r.value.value) == 255 && Channels(r.value.value) == Rgb(c, c, c)
  {
  }

  /** VOID_COLOR for a void value, otherwise the unshaded ramp colour of the value in [lo, hi]. */
  function RampOrVoid(ramp: Ramp, x: Cell, lo: real, hi: real): (px: Pixel)
    requires ramp.Valid()
    ensures px == VOID_COLOR <==> x.Void?
    ensures x.Val? ==> Alpha(px) == 255
  {
    if x.Void? then VOID_COLOR else LinearRgb(ramp, Normalize(x, lo, hi), 1.0)
  }

  /**
   * hypsometricShading: the ramp colour of the cell's elevation darkened by gray / 255. The
   * interior stencil does not read the centre cell, so a void centre with valid neighbours
   * is coloured as lying below the ramp rather than made transparent.
   */
  function HypsometricShaded(s: Settings, g: Grids.Grid, col: int, row: int): (r: Result<Option<Pixel>>)
    requires IsSqrt(s.sqrt) && s.ramp.Valid() && g.Valid()
    requires 0 <= col < g.Cols() && 0 <= row < g.Rows()
    ensures r.Success? && r.value.Some?
    ensures r.value.value == VOID_COLOR <==> Shade(s, g, col, row).Void?
    ensures Shade(s, g, col, row).Val? ==>
      Alpha(r.value.value) == 255 &&
      r.value.value == LinearRgb(s.ramp, Normalize(g.Value(col, row), s.minElev, s.maxElev), Shade(s, g, col, row).v / 255.0)
  {
    var gray := Shade(s, g, col, row);
    if gray.Void? then Success(Some(VOID_COLOR))
    else
      var mult := gray.v / 255.0;
      assert 0.0 <= mult <= 1.0;
      Success(Some(LinearRgb(s.ramp, Normalize(g.Value(col, row), s.minElev, s.maxElev), mult)))
  }

  /** hypsometric: the ramp colour of the cell's elevation, VOID_COLOR for a void cell. */
  function HypsometricPlain(s: Settings, g: Grids.Grid, col: int, row: int): (r: Result<Option<Pixel>>)
    requires s.ramp.Valid() && g.Valid()
    requires 0 <= col < g.Cols() && 0 <= row < g.Rows()
    ensures r.Success? && r.value.Some?
    ensures r.value.value == VOID_COLOR <==> g.Value(col, row).Void?
  {
    Success(Some(RampOrVoid(s.ramp, g.Value(col, row), s.minElev, s.maxElev)))
  }

  /** The image as rows of pixels, one per grid cell. */
  type Image = seq<seq<Pixel>>

  ghost predicate Fits(image: Image, g: Grids.Grid)
    requires g.Valid()
  {
    |image| == g.Rows() && forall r :: 0 <= r < |image| ==> |image[r]| == g.Cols()
  }

  /** What the chunk leaves at one pixel: the written pixel, or the old one when none is written. */
  function Written(prev: Pixel, r: Option<Pixel>): Pixel {
    if r.Some? then r.value else prev
  }

  /**
   * The chunk `operate(grid, ignore, startRow, endRow)`: every pixel of rows
   * [startRow, endRow) gets its mode's pixel; other rows keep their pixels. The ASPECT
   * routine throws at the first border cell it reaches.
   */
  method OperateChunk(v: ColorVisualization, s: Settings, g: Grids.Grid, image: Image, startRow: int, endRow: int)
    returns (r: Result<Image>)
    requires IsSqrt(s.sqrt) && s.ramp.Valid() && g.Valid() && Fits(image, g)
    requires 0 <= startRow <= endRow <= g.Rows()
    ensures r.Failure? <==> v == AspectColor && startRow < endRow
    ensures v == Continuous ==> r == Success(image)
    ensures r.Success? ==> Fits(r.value, g)
    ensures r.Success? ==> forall row :: 0 <= row < g.Rows() && !(startRow <= row < endRow) ==> r.value[row] == image[row]
    ensures r.Success? ==> forall row, col :: startRow <= row < endRow && 0 <= col < g.Cols() ==>
      PixelAt(v, s, g, col, row).Success? && r.value[row][col] == Written(image[row][col], PixelAt(v, s, g, col, row).value)
  {
    var out := image;
    var row := startRow;
    while row < endRow
      invariant startRow <= row <= endRow
      invariant Fits(out, g)
      invariant v == AspectColor ==> row == startRow
      invariant v == Continuous ==> out == image
      invariant forall rr :: 0 <= rr < g.Rows() && !(startRow <= rr < row) ==> out[rr] == image[rr]
      invariant forall rr, c :: startRow <= rr < row && 0 <= c < g.Cols() ==>
        PixelAt(v, s, g, c, rr).Success? && out[rr][c] == Written(image[rr][c], PixelAt(v, s, g, c, rr).value)
    {
      var line := out[row];
      var col := 0;
      while col < g.Cols()
        invariant 0 <= col <= g.Cols() && |line| == g.Cols()
        invariant v == AspectColor ==> col == 0
        invariant v == Continuous ==> line == image[row]
        invariant forall c :: col <= c < |line| ==> line[c] == image[row][c]
        invariant forall c :: 0 <= c < col ==>
          PixelAt(v, s, g, c, row).Success? && line[c] == Written(image[row][c], PixelAt(v, s, g, c, row).value)
      {
        var p := PixelAt(v, s, g, col, row);
        if p.Failure? {
          return Failure(p.error);
        }
        line := line[col := Written(line[col], p.value)];
        col := col + 1;
      }
      out := out[row := line];
      row := row + 1;
    }
    return Success(out);
  }
}

=== FILE: contours.dfy ===
/**
 * Illuminated contour lines (IlluminatedContoursOperator.java): the gray or transparent
 * decision for one cell, from the angle between the light and the smoothed aspect, the
 * elevation-dependent line width, and the vertical distance to the nearest contour line;
 * and the chunk that writes the decisions into an image of the grid's size.
 */
module IlluminatedContours {
  import opened Wrappers
  import opened Numeric
  import opened Argb
  import Grids
  import Colorizer

  /** The value computeGray returns for a cell that no contour line covers. */
  const CONTOURS_TRANSPARENT: int := -1

  /** The operator's parameters, as the constructor stores them. */
  datatype Contours = Contours(
    illuminated: bool,
    shadowWidthLow: real, shadowWidthHigh: real,
    illuminatedWidthLow: real, illuminatedWidthHigh: real,
    minWidth: real, azimuth: real, interval: real,
    gradientAngle: int, illuminatedGray: int, transitionAngle: int,
    gridMin: real, gridMax: real)

  /** The constructor keeps every parameter but stores the contour interval as its absolute value. */
  function NewContours(illuminated: bool, shadowWidthLow: real, shadowWidthHigh: real,
                       illuminatedWidthLow: real, illuminatedWidthHigh: real, minWidth: real,
                       azimuth: real, interval: real, gradientAngle: int, illuminatedGray: int,
                       transitionAngle: int, gridMinMax: (real, real)): (c: Contours)
    ensures c.interval >= 0.0 && (c.interval == interval || c.interval == -interval)
    ensures c.illuminated == illuminated && c.minWidth == minWidth && c.azimuth == azimuth
    ensures c.gradientAngle == gradientAngle && c.transitionAngle == transitionAngle
    ensures c.illuminatedGray == illuminatedGray
    ensures c.gridMin == gridMinMax.0 && c.gridMax == gridMinMax.1
  {
    Contours(illuminated, shadowWidthLow, shadowWidthHigh, illuminatedWidthLow, illuminatedWidthHigh,
             minWidth, azimuth, Abs(interval), gradientAngle, illuminatedGray, transitionAngle,
             gridMinMax.0, gridMinMax.1)
  }

  // ------------------------------------------------------------------------------------------
  // Angles

  /**
   * smallestAngleDiff: |a - b| folded into [0, 180] degrees. The result is the difference
   * itself or its negation, up to whole turns.
   */
  function SmallestAngleDiff(a: real, b: real): (d: real)
    ensures 0.0 <= d <= 180.0
    ensures exists k: int :: WholeTurnsApart(a, b, d, k)
  {
    var x := Abs(a - b);
    var r := FMod(x, 360.0);
    var q := Trunc(x / 360.0);
    assert x == r + 360.0 * q as real;
    if r > 180.0 then
      assert a - b >= 0.0 ==> WholeTurnsApart(a, b, 360.0 - r, q + 1);
      assert a - b < 0.0 ==> WholeTurnsApart(a, b, 360.0 - r, -q - 1);
      360.0 - r
    else
      assert a - b >= 0.0 ==> WholeTurnsApart(a, b, r, q);
      assert a - b < 0.0 ==> WholeTurnsApart(a, b, r, -q);
      r
  }

  /** a - b is d or -d plus k whole turns of 360 degrees. */
  predicate WholeTurnsApart(a: real, b: real, d: real, k: int) {
    a - b == d + 360.0 * k as real || a - b == -d + 360.0 * k as real
  }

  /** The fold is blind to the order of its arguments. */
  lemma AngleDiffSymmetric(a: real, b: real)
    ensures SmallestAngleDiff(a, b) == SmallestAngleDiff(b, a)
  {
    assert Abs(a - b) == Abs(b - a);
  }

  /** No whole number of turns brings a and b closer than the folded difference. */
  lemma AngleDiffIsSmallest(a: real, b: real, k: int)
    ensures SmallestAngleDiff(a, b) <= Abs(a - b - 360.0 * k as real)
  {
    var d := SmallestAngleDiff(a, b);
    var j: int :| WholeTurnsApart(a, b, d, j);
    var n := j - k;
    if a - b == d + 360.0 * j as real {
      assert a - b - 360.0 * k as real == d + 360.0 * n as real;
    } else {
      assert a - b - 360.0 * k as real == -d + 360.0 * n as real;
    }
    TurnsAway(d, n);
  }

  /** For d in [0, 180], d + 360n and -d + 360n are at least d away from zero. */
  lemma TurnsAway(d: real, n: int)
    requires 0.0 <= d <= 180.0
    ensures d <= Abs(d + 360.0 * n as real) && d <= Abs(-d + 360.0 * n as real)
  {
    if n >= 1 {
      assert 360.0 * n as real >= 360.0;
    } else if n <= -1 {
      assert 360.0 * n as real <= -360.0;
    }
  }

  // ------------------------------------------------------------------------------------------
  // Distance to the nearest contour line

  /**
   * |elevation| % interval folded onto [0, interval / 2]: the vertical distance to the
   * closest multiple of the interval. A zero interval makes the remainder NaN.
   */
  function ZDist(elevation: real, interval: real): (z: Cell)
    requires interval >= 0.0
    ensures z.Void? <==> interval == 0.0
    ensures z.Val? ==> 0.0 <= z.v && 2.0 * z.v <= interval
    ensures z.Val? ==> exists k: int :: LevelsApart(Abs(elevation), interval, z.v, k)
  {
    if interval == 0.0 then Void
    else
      var e := Abs(elevation);
      var r := FMod(e, interval);
      var q := Trunc(e / interval);
      assert e - q as real * interval == r;
      if r > interval / 2.0 then
        assert (q + 1) as real * interval - e == interval - r;
        assert LevelsApart(e, interval, interval - r, q + 1);
        Val(interval - r)
      else
        assert LevelsApart(e, interval, r, q);
        Val(r)
  }

  /** The elevation e lies z above or below the contour level k * interval. */
  predicate LevelsApart(e: real, interval: real, z: real, k: int) {
    e - k as real * interval == z || k as real * interval - e == z
  }

  /** No contour level k * interval lies closer to the elevation than ZDist says. */
  lemma ZDistIsNearest(elevation: real, interval: real, k: int)
    requires interval > 0.0
    ensures ZDist(elevation, interval).v <= Abs(Abs(elevation) - k as real * interval)
  {
    var z := ZDist(elevation, interval).v;
    var e := Abs(elevation);
    var j: int :| LevelsApart(e, interval, z, j);
    var n := k - j;
    var p := n as real * interval;
    assert k as real * interval == j as real * interval + p;
    MultiplesAway(z, interval, n);
  }

  /** For 0 <= z <= interval / 2, shifting z or -z by n intervals does not bring it below z. */
  lemma MultiplesAway(z: real, interval: real, n: int)
    requires interval > 0.0 && 0.0 <= z && 2.0 * z <= interval
    ensures z <= Abs(z - n as real * interval) && z <= Abs(-z - n as real * interval)
  {
    assert n as real >= 1.0 || n as real <= -1.0 || n as real == 0.0;
    var p := MultipleBounds(n as real, interval);
    Away(z, interval, p);
  }

  /** A whole multiple of a positive interval is 0 or at least one interval away from 0. */
  lemma MultipleBounds(x: real, interval: real) returns (p: real)
    requires interval > 0.0 && (x >= 1.0 || x <= -1.0 || x == 0.0)
    ensures p == x * interval
    ensures p >= interval || p <= -interval || p == 0.0
  {
    p := x * interval;
    if x > 1.0 {
      var d := x - 1.0;
      PositiveProduct(d, interval);
      assert p == d * interval + interval;
    } else if x < -1.0 {
      var d := -x - 1.0;
      PositiveProduct(d, interval);
      assert p == -(d * interval) - interval;
    } else if x == 1.0 {
      assert p == interval;
    } else if x == -1.0 {
      assert p == -interval;
    } else {
      assert p == 0.0;
    }
  }

  lemma Away(z: real, interval: real, p: real)
    requires interval > 0.0 && 0.0 <= z && 2.0 * z <= interval
    requires p >= interval || p <= -interval || p == 0.0
    ensures z <= Abs(z - p) && z <= Abs(-z - p)
  {
  }

  // ------------------------------------------------------------------------------------------
  // Line width

  /**
   * A Java double that may also be infinite or NaN. The widths computeGray derives from the
   * blend weight w take these values on a flat range (gridMax == gridMin).
   */
  datatype Ext = Fin(v: real) | PosInf | NegInf | NaN

  /** IEEE x * b for a finite b: an infinity keeps or flips its sign, and an infinity times 0 is NaN. */
  function Mul(x: Ext, b: real): (r: Ext)
    ensures r.NaN? <==> x.NaN? || (!x.Fin? && b == 0.0)
    ensures r.Fin? <==> x.Fin?
    ensures x.Fin? ==> r.v == x.v * b
    ensures r.PosInf? <==> (x.PosInf? && b > 0.0) || (x.NegInf? && b < 0.0)
  {
    match x
    case Fin(a) => Fin(a * b)
    case NaN => NaN
    case PosInf => if b > 0.0 then PosInf else if b < 0.0 then NegInf else NaN
    case NegInf => if b > 0.0 then NegInf else if b < 0.0 then PosInf else NaN
  }

  /** IEEE x + b for a finite b: only a finite x moves. */
  function Add(x: Ext, b: real): (r: Ext)
    ensures x.Fin? ==> r.Fin? && r.v - b == x.v
    ensures !x.Fin? ==> r == x
  {
    match x
    case Fin(a) => Fin(a + b)
    case _ => x
  }

  /** Math.max(m, x) for a finite m: NaN wins, +Infinity wins, and -Infinity gives m. */
  function MaxWith(m: real, x: Ext): (r: Ext)
    ensures r.NaN? <==> x.NaN?
    ensures r.PosInf? <==> x.PosInf?
    ensures !r.NegInf?
    ensures r.Fin? ==> r.v >= m && (r.v == m || (x.Fin? && r.v == x.v))
  {
    match x
    case Fin(a) => Fin(Max(m, a))
    case NegInf => Fin(m)
    case _ => x
  }

  /**
   * The blend weight w = (gridMax - elevation) / (gridMax - gridMin). A flat range divides
   * by +0: 0 / 0 is NaN at gridMax, and any other elevation gives an infinity of its sign.
   */
  function BlendWeight(s: Contours, elevation: real): (w: Ext)
    ensures w.Fin? <==> s.gridMax != s.gridMin
    ensures w.Fin? ==> w.v * (s.gridMax - s.gridMin) == s.gridMax - elevation
    ensures w.NaN? <==> s.gridMax == s.gridMin && elevation == s.gridMax
    ensures w.PosInf? <==> s.gridMax == s.gridMin && elevation < s.gridMax
  {
    if s.gridMax != s.gridMin then Fin((s.gridMax - elevation) / (s.gridMax - s.gridMin))
    else if elevation == s.gridMax then NaN
    else if elevation < s.gridMax then PosInf
    else NegInf
  }

  /** The angle's conversion to radians in degrees / 180 * PI. */
  function Radians(deg: real): real {
    deg / 180.0 * PI
  }

  /**
   * The line width in z units before the test against zDist: the elevation blends the low
   * and high widths; the angle modulates them with cosine (illuminated contours, rescaled
   * on either side of the transition angle) or sine (shadowed contours only); the result is
   * at least minWidth and multiplied by the cell size. With a transition angle of 0 and an
   * angle difference of 0 the rescaling divides 0 by 0 and the width is NaN. On a flat range
   * the blend weight is NaN at gridMax and infinite elsewhere, and the width follows Java's
   * double arithmetic.
   */
  function LineWidth(s: Contours, elevation: real, angleDiff: real, cellSize: real,
                     cos: real -> real, sin: real -> real): (lw: Ext)
    requires 0.0 <= angleDiff <= 180.0
    ensures s.gridMax != s.gridMin ==> !lw.PosInf? && !lw.NegInf?
    ensures s.gridMax != s.gridMin ==>
      (lw.NaN? <==> s.illuminated && s.transitionAngle == 0 && angleDiff == 0.0)
    ensures s.gridMax == s.gridMin && elevation == s.gridMax ==> lw.NaN?
    ensures s.illuminated && s.transitionAngle == 0 && angleDiff == 0.0 ==> lw.NaN?
    ensures lw.Fin? && cellSize >= 0.0 ==> lw.v >= s.minWidth * cellSize
  {
    var w := BlendWeight(s, elevation);
    var widest := MaxWith(s.minWidth, AngleWidth(s, w, angleDiff, cos, sin));
    match widest
    case Fin(x) =>
      if cellSize > 0.0 then ScaleLe(cellSize, s.minWidth, x); Fin(x * cellSize)
      else Fin(x * cellSize)
    case _ => Mul(widest, cellSize)
  }

  /** w * (low - high) + high: the width the blend weight w picks between high (w = 0) and low (w = 1). */
  function Blend(w: Ext, low: real, high: real): (r: Ext)
    ensures r.Fin? <==> w.Fin?
    ensures w.Fin? && w.v == 0.0 ==> r.v == high
    ensures w.Fin? && w.v == 1.0 ==> r.v == low
    ensures w.NaN? ==> r.NaN?
  {
    Add(Mul(w, low - high), high)
  }

  /**
   * The width before the minimum and the cell size: the shadow or illuminated width for the
   * blend weight w, modulated by the angle to the light.
   */
  function AngleWidth(s: Contours, w: Ext, angleDiff: real, cos: real -> real, sin: real -> real): (width: Ext)
    requires 0.0 <= angleDiff <= 180.0
    ensures w.Fin? ==> !width.PosInf? && !width.NegInf?
    ensures w.Fin? ==> (width.NaN? <==> s.illuminated && s.transitionAngle == 0 && angleDiff == 0.0)
    ensures w.NaN? ==> width.NaN?
    ensures s.illuminated && s.transitionAngle == 0 && angleDiff == 0.0 ==> width.NaN?
  {
    var rad := Radians(angleDiff);
    var t := s.transitionAngle as real;
    if s.illuminated then
      var tRad := Radians(t);
      if angleDiff > t then
        assert PI - tRad != 0.0 by { assert t < 180.0; }
        var m := (PI / 2.0) / (PI - tRad);
        var c := PI / 2.0 - m * tRad;
        Mul(Blend(w, s.shadowWidthLow, s.shadowWidthHigh), Abs(cos(rad * m + c)))
      else if tRad == 0.0 then
        NaN
      else
        Mul(Blend(w, s.illuminatedWidthLow, s.illuminatedWidthHigh), Abs(cos(rad / tRad * (PI / 2.0))))
    else
      Mul(Blend(w, s.shadowWidthLow, s.shadowWidthHigh), Abs(sin(rad / 2.0)))
  }

  // ------------------------------------------------------------------------------------------
  // Gray value

  /**
   * The tone of a covered cell: black on the shaded side, the illuminated gray on the lit
   * side, and a linear ramp inside the gradient band around the transition angle.
   */
  function ToneFor(s: Contours, angleDiff: real): (g: int)
    ensures !s.illuminated || angleDiff >= (s.transitionAngle + s.gradientAngle) as real ==> g == 0
    ensures (s.illuminated && angleDiff < (s.transitionAngle + s.gradientAngle) as real
      && angleDiff <= (s.transitionAngle - s.gradientAngle) as real) ==> g == s.illuminatedGray
    ensures InBand(s, angleDiff) ==> g == BandTone(s, angleDiff)
  {
    var t, gA := s.transitionAngle as real, s.gradientAngle as real;
    if !s.illuminated || angleDiff >= t + gA then 0
    else if angleDiff <= t - gA then s.illuminatedGray
    else BandTone(s, angleDiff)
  }

  /** Strictly inside the gradient band of illuminated contours. */
  predicate InBand(s: Contours, angleDiff: real) {
    s.illuminated
    && (s.transitionAngle - s.gradientAngle) as real < angleDiff < (s.transitionAngle + s.gradientAngle) as real
  }

  /** (int) (d / (2 * gradientAngle) * 255) with d the angle left to the band's shaded end. */
  function BandTone(s: Contours, angleDiff: real): (g: int)
    requires InBand(s, angleDiff)
    ensures 0 <= g <= 254
  {
    var t, gA := s.transitionAngle as real, s.gradientAngle as real;
    var d := t + gA - angleDiff;
    BandFraction(d, gA);
    Trunc(d / (2.0 * gA) * 255.0)
  }

  /** The band fraction d / (2 * gradientAngle) lies strictly between 0 and 1. */
  lemma BandFraction(d: real, gA: real)
    requires 0.0 < d < 2.0 * gA
    ensures 0.0 < d / (2.0 * gA) < 1.0
    ensures (2.0 * gA) * (d / (2.0 * gA)) == d
  {
    var q := 2.0 * gA;
    var f := d / q;
    assert q * f == d;
    if f <= 0.0 { ScaleLe(q, f, 0.0); }
    if f >= 1.0 { ScaleLe(q, 1.0, f); }
  }

  /** Inside the band the tone darkens as the angle turns away from the light. */
  lemma BandDarkensAwayFromLight(s: Contours, a1: real, a2: real)
    requires InBand(s, a1) && InBand(s, a2) && a1 <= a2
    ensures ToneFor(s, a1) >= ToneFor(s, a2)
  {
    var t, gA := s.transitionAngle as real, s.gradientAngle as real;
    var q := 2.0 * gA;
    var d1, d2 := t + gA - a1, t + gA - a2;
    BandFraction(d1, gA);
    BandFraction(d2, gA);
    var f1, f2 := d1 / q, d2 / q;
    assert f2 <= f1 by {
      if f1 < f2 { ScaleLt(q, f1, f2); }
    }
    var x1, x2 := f1 * 255.0, f2 * 255.0;
    assert 0.0 <= x2 <= x1;
    TruncMonotone(x2, x1);
  }

  lemma TruncMonotone(x: real, y: real)
    requires 0.0 <= x <= y
    ensures Trunc(x) <= Trunc(y)
  {
  }

  /**
   * Whether the contour line covers the cell: lineWidth * slope > zDist, where a NaN on
   * either side fails and +Infinity passes.
   */
  predicate Covered(lw: Ext, slope: Cell, z: Cell) {
    slope.Val? && z.Val? &&
    match Mul(lw, slope.v)
    case Fin(x) => x > z.v
    case PosInf => true
    case _ => false
  }

  /**
   * computeGray: the tone of a covered cell, CONTOURS_TRANSPARENT otherwise. NaN in the
   * elevation, the aspect or the slope makes every comparison fail, so such cells stay
   * transparent.
   */
  function ComputeGray(s: Contours, elevation: Cell, aspectDeg: Cell, slope: Cell, cellSize: real,
                       cos: real -> real, sin: real -> real): (g: int)
    requires s.interval >= 0.0
    ensures s.gridMax == s.gridMin && elevation == Val(s.gridMax) ==> g == CONTOURS_TRANSPARENT
    ensures elevation.Void? || aspectDeg.Void? || slope.Void? ==> g == CONTOURS_TRANSPARENT
    ensures slope == Val(0.0) ==> g == CONTOURS_TRANSPARENT
    ensures !s.illuminated ==> g == 0 || g == CONTOURS_TRANSPARENT
    ensures elevation.Val? && aspectDeg.Val? ==>
      var angleDiff := SmallestAngleDiff(90.0 - s.azimuth, aspectDeg.v);
      var covered := Covered(LineWidth(s, elevation.v, angleDiff, cellSize, cos, sin), slope, ZDist(elevation.v, s.interval));
      (covered ==> g == ToneFor(s, angleDiff)) && (!covered ==> g == CONTOURS_TRANSPARENT)
  {
    if elevation.Void? || aspectDeg.Void? then CONTOURS_TRANSPARENT
    else
      var angleDiff := SmallestAngleDiff(90.0 - s.azimuth, aspectDeg.v);
      var lw := LineWidth(s, elevation.v, angleDiff, cellSize, cos, sin);
      var z := ZDist(elevation.v, s.interval);
      if Covered(lw, slope, z) then ToneFor(s, angleDiff) else CONTOURS_TRANSPARENT
  }

  /**
   * On a flat range an elevation below gridMax makes w = +Infinity. Shadowed contours with
   * shadowWidthLow > shadowWidthHigh then have an infinite width wherever the sine factor is
   * not 0, so every cell with a positive slope is covered and drawn black.
   */
  lemma FlatRangeDrawsBelowMax(s: Contours, elevation: real, aspectDeg: real, slope: real, cellSize: real,
                               cos: real -> real, sin: real -> real)
    requires s.interval > 0.0 && !s.illuminated
    requires s.gridMax == s.gridMin && elevation < s.gridMax
    requires s.shadowWidthLow > s.shadowWidthHigh && cellSize > 0.0 && slope > 0.0
    requires sin(Radians(SmallestAngleDiff(90.0 - s.azimuth, aspectDeg)) / 2.0) != 0.0
    ensures LineWidth(s, elevation, SmallestAngleDiff(90.0 - s.azimuth, aspectDeg), cellSize, cos, sin) == PosInf
    ensures ComputeGray(s, Val(elevation), Val(aspectDeg), Val(slope), cellSize, cos, sin) == 0
  {
    var angleDiff := SmallestAngleDiff(90.0 - s.azimuth, aspectDeg);
    var w := BlendWeight(s, elevation);
    assert w == PosInf;
    var shadowWidth := Blend(w, s.shadowWidthLow, s.shadowWidthHigh);
    assert shadowWidth == PosInf;
    var f := Abs(sin(Radians(angleDiff) / 2.0));
    assert f > 0.0;
    assert Mul(shadowWidth, f) == PosInf;
  }

  // ------------------------------------------------------------------------------------------
  // Writing the image

  /**
   * g | (g << 8) | (g << 16) | 0xFF000000 on the Java int g: byte k of the result ors bytes
   * 0 to k of g's 32 bits, and the top byte is 0xFF. The illuminated tone is the packed RGB
   * of the colour setting (0x00FFFFFF by default), so only tones in [0, 255] come out as a
   * true gray.
   */
  function GrayPixel(g: int): (p: Pixel)
    ensures Alpha(p) == 255
    ensures IsChannel(g) ==> Channels(p) == Rgb(g, g, g)
  {
    var w := g % 0x1_0000_0000;
    var b0, b1, b2 := ByteOf(w, 0x1), ByteOf(w, 0x100), ByteOf(w, 0x1_0000);
    if IsChannel(g) then
      ChannelBytes(g);
      Pack(255, OrByte(b2, OrByte(b1, b0)), OrByte(b1, b0), b0)
    else
      Pack(255, OrByte(b2, OrByte(b1, b0)), OrByte(b1, b0), b0)
  }

  /** The byte of the 32-bit word w at place value d. */
  function ByteOf(w: int, d: int): (b: int)
    requires d > 0
    ensures IsChannel(b)
  {
    w / d % 0x100
  }

  /** A tone in [0, 255] is its word's low byte, and the two bytes above it are zero. */
  lemma ChannelBytes(g: int)
    requires IsChannel(g)
    ensures ByteOf(g % 0x1_0000_0000, 0x1) == g
    ensures ByteOf(g % 0x1_0000_0000, 0x100) == 0 && ByteOf(g % 0x1_0000_0000, 0x1_0000) == 0
  {
  }

  /** The default illuminated colour 0x00FFFFFF draws opaque white. */
  lemma DefaultIlluminatedColorIsWhite()
    ensures Channels(GrayPixel(0xFF_FFFF)) == Rgb(255, 255, 255)
  {
    var w := 0xFF_FFFF % 0x1_0000_0000;
    assert ByteOf(w, 0x1) == 255;
    assert ByteOf(w, 0x100) == 255;
    assert ByteOf(w, 0x1_0000) == 255;
    OrSelf(255);
  }

  /**
   * Everything one cell's decision reads: the parameters, the elevation grid, its low-pass
   * version for the aspect, and the library functions the operator calls.
   */
  datatype Scene = Scene(s: Contours, src: Grids.Grid, smooth: Grids.Grid, sqrt: real -> real,
                         atan2: (real, real) -> real, cos: real -> real, sin: real -> real)
  {
    ghost predicate Valid() {
      s.interval >= 0.0 && IsSqrt(sqrt) && src.Valid() && smooth.Valid()
      && smooth.Rows() == src.Rows() && smooth.Cols() == src.Cols()
    }
  }

  /**
   * illuminatedContours at one interior cell: the elevation, the smoothed aspect in degrees
   * and the slope decide the gray; a transparent result writes nothing. An illuminated
   * colour of -1 (opaque white as java.awt.Color.getRGB reports it) equals
   * CONTOURS_TRANSPARENT, so lit cells then stay unwritten.
   */
  function ContourPixel(sc: Scene, col: int, row: int): (p: Option<Pixel>)
    requires sc.Valid()
    requires 1 <= col <= sc.src.Cols() - 2 && 1 <= row <= sc.src.Rows() - 2
    ensures p.Some? ==> Alpha(p.value) == 255
    ensures p.Some? && IsChannel(sc.s.illuminatedGray) ==> Red(p.value) == Green(p.value) == Blue(p.value)
    ensures sc.s.gridMax == sc.s.gridMin && sc.src.Value(col, row) == Val(sc.s.gridMax) ==> p.None?
  {
    var aspect := Degrees(Grids.Aspect(sc.atan2, sc.smooth, col, row).value);
    var g := ComputeGray(sc.s, sc.src.Value(col, row), aspect, Grids.Slope(sc.sqrt, sc.src, col, row), sc.src.cellSize, sc.cos, sc.sin);
    if g == CONTOURS_TRANSPARENT then None
    else
      assert IsChannel(sc.s.illuminatedGray) ==> IsChannel(g) by {
        var angleDiff := SmallestAngleDiff(90.0 - sc.s.azimuth, aspect.v);
        assert g == ToneFor(sc.s, angleDiff);
      }
      Some(GrayPixel(g))
  }

  /**
   * A pixel is written exactly where computeGray is not transparent, and never on a void
   * elevation.
   */
  lemma PixelWrittenUnlessTransparent(sc: Scene, col: int, row: int)
    requires sc.Valid()
    requires 1 <= col <= sc.src.Cols() - 2 && 1 <= row <= sc.src.Rows() - 2
    ensures ContourPixel(sc, col, row).None? <==>
      ComputeGray(sc.s, sc.src.Value(col, row), Degrees(Grids.Aspect(sc.atan2, sc.smooth, col, row).value),
        Grids.Slope(sc.sqrt, sc.src, col, row), sc.src.cellSize, sc.cos, sc.sin) == CONTOURS_TRANSPARENT
    ensures sc.src.Value(col, row).Void? ==> ContourPixel(sc, col, row).None?
  {
  }

  /** (aspect + PI) * 180 / PI: atan2's radians turned into degrees in [0, 360]. */
  function Degrees(a: Cell): (d: Cell)
    ensures d.Void? <==> a.Void?
  {
    match a
    case Void => Void
    case Val(x) => Val((x + PI) * 180.0 / PI)
  }

  /** The rows operate visits, as written: [max(1, startRow), min(rows - 2, endRow)). */
  function RowRangeAsWritten(rows: int, startRow: int, endRow: int): (range: (int, int))
  {
    (if startRow > 1 then startRow else 1, if endRow < rows - 2 then endRow else rows - 2)
  }

  /**
   * The rows operate evidently means to visit: every row whose four neighbours exist, that
   * is [max(1, startRow), min(rows - 1, endRow)) as for the columns [1, cols - 1).
   */
  function RowRange(rows: int, startRow: int, endRow: int): (range: (int, int))
    ensures range.0 >= 1 && range.1 <= rows - 1
    ensures forall row :: Visits(range, row) <==> startRow <= row < endRow && 1 <= row <= rows - 2
  {
    (if startRow > 1 then startRow else 1, if endRow < rows - 1 then endRow else rows - 1)
  }

  predicate Visits(range: (int, int), row: int) {
    range.0 <= row < range.1
  }

  /**
   * The row next to the bottom border is interior (its aspect exists), yet the as-written
   * range of a chunk covering the whole grid stops before it.
   */
  lemma LastInteriorRowSkipped(g: Grids.Grid)
    requires g.Valid()
    ensures Grids.Aspect((x, y) => 0.0, g, 1, g.Rows() - 2).Success?
    ensures !Visits(RowRangeAsWritten(g.Rows(), 0, g.Rows()), g.Rows() - 2)
    ensures Visits(RowRange(g.Rows(), 0, g.Rows()), g.Rows() - 2)
  {
  }

  /**
   * illuminatedContours over rows [lo, hi) and columns [1, cols - 1): a pixel is written
   * only where computeGray is not transparent; everything else keeps its pixel.
   */
  method RenderRows(sc: Scene, image: Colorizer.Image, lo: int, hi: int) returns (out: Colorizer.Image)
    requires sc.Valid() && Colorizer.Fits(image, sc.src)
    requires 1 <= lo && hi <= sc.src.Rows() - 1
    ensures Colorizer.Fits(out, sc.src)
    ensures forall row, col :: (0 <= row < sc.src.Rows() && 0 <= col < sc.src.Cols()
      && !(Visits((lo, hi), row) && 1 <= col <= sc.src.Cols() - 2)) ==> out[row][col] == image[row][col]
    ensures forall row, col :: Visits((lo, hi), row) && 1 <= col <= sc.src.Cols() - 2 ==>
      out[row][col] == Colorizer.Written(image[row][col], ContourPixel(sc, col, row))
  {
    out := image;
    var row := lo;
    while row < hi
      invariant lo <= row <= (if lo <= hi then hi else lo)
      invariant Colorizer.Fits(out, sc.src)
      invariant forall rr :: 0 <= rr < sc.src.Rows() && !(lo <= rr < row) ==> out[rr] == image[rr]
      invariant forall rr, c :: lo <= rr < row && 0 <= c < sc.src.Cols() && !(1 <= c <= sc.src.Cols() - 2) ==>
        out[rr][c] == image[rr][c]
      invariant forall rr, c :: lo <= rr < row && 1 <= c <= sc.src.Cols() - 2 ==>
        out[rr][c] == Colorizer.Written(image[rr][c], ContourPixel(sc, c, rr))
    {
      var line := RenderRow(sc, out[row], row);
      out := out[row := line];
      row := row + 1;
    }
  }

  /** One row of the chunk: columns 1 to cols - 2 get their contour pixel where there is one. */
  function RenderRow(sc: Scene, prev: seq<Pixel>, row: int): (line: seq<Pixel>)
    requires sc.Valid() && |prev| == sc.src.Cols() && 1 <= row <= sc.src.Rows() - 2
    ensures |line| == |prev|
    ensures forall c :: 0 <= c < |line| && !(1 <= c <= sc.src.Cols() - 2) ==> line[c] == prev[c]
    ensures forall c :: 1 <= c <= sc.src.Cols() - 2 ==> line[c] == Colorizer.Written(prev[c], ContourPixel(sc, c, row))
  {
    seq(|prev|, c requires 0 <= c < |prev| => RowPixel(sc, prev[c], c, row))
  }

  function RowPixel(sc: Scene, prev: Pixel, col: int, row: int): Pixel
    requires sc.Valid() && 0 <= col < sc.src.Cols() && 1 <= row <= sc.src.Rows() - 2
  {
    if 1 <= col <= sc.src.Cols() - 2 then Colorizer.Written(prev, ContourPixel(sc, col, row)) else prev
  }

  /**
   * renderToImage followed by the chunk operate(src, slopeGrid, startRow, endRow) for an
   * image of the grid's size: a missing image is an IllegalArgumentException; otherwise the
   * interior cells of the chunk's rows are rendered and every other pixel is kept.
   */
  method RenderToImage(sc: Scene, image: Option<Colorizer.Image>, startRow: int, endRow: int)
    returns (r: Result<Colorizer.Image>)
    requires sc.Valid() && (image.Some? ==> Colorizer.Fits(image.value, sc.src))
    ensures r.Failure? <==> image.None?
    ensures r.Failure? ==> r.error == IllegalArgument
    ensures r.Success? ==> Colorizer.Fits(r.value, sc.src)
    ensures r.Success? ==> forall row, col :: (startRow <= row < endRow && 1 <= row <= sc.src.Rows() - 2
      && 1 <= col <= sc.src.Cols() - 2) ==>
      r.value[row][col] == Colorizer.Written(image.value[row][col], ContourPixel(sc, col, row))
    ensures r.Success? ==> forall row, col :: (0 <= row < sc.src.Rows() && 0 <= col < sc.src.Cols()
      && !(startRow <= row < endRow && 1 <= row <= sc.src.Rows() - 2 && 1 <= col <= sc.src.Cols() - 2)) ==>
      r.value[row][col] == image.value[row][col]
  {
    if image.None? {
      return Failure(IllegalArgument);
    }
    var range := RowRange(sc.src.Rows(), startRow, endRow);
    var out := RenderRows(sc, image.value, range.0, range.1);
    assert range == (range.0, range.1);
    return Success(out);
  }
}

=== FILE: dbf.dfy ===
/**
 * The dBASE III attribute file written next to an exported shapefile
 * (DBFExporter): a 32-byte preamble, one 32-byte descriptor per numeric
 * column, the 0x0D terminator, then one record per geometry holding its row
 * index and, optionally, one of its attributes. The date of the file and
 * `DecimalFormat`'s rendering of a number are parameters. Multi-byte fields
 * are little-endian, as in the dBASE III layout.
 */
module Dbf {
  import opened Wrappers
  import opened Bytes
  import opened Features

  const STRING_LENGTH: int := 64
  const NUMBER_LENGTH: nat := 20
  const NUMBER_DECIMALS: nat := 8

  /** The header's first byte: a dBASE III file without memo. */
  const DBF_FLAG: byte := 0x03
  /** The language driver byte ESRI uses for ANSI text. */
  const LANGUAGE_DRIVER: byte := 0x57
  /** Ends the field descriptors. */
  const HEADER_TERMINATOR: byte := 0x0D
  /** The deletion flag of a live record. */
  const NOT_DELETED: byte := 32

  /** The calendar fields the exporter reads: the month as `Calendar.MONTH`, 0 for January. */
  datatype Date = Date(year: int, month: int, day: int)

  /** `DecimalFormat` with the given number of fraction digits, applied to a value. */
  type Formatter = (real, nat) -> string

  /** `getBytes("ISO-8859-1")` of one character: its code, or '?' when it has none in Latin-1. */
  function Latin1Byte(c: char): (b: byte)
    ensures c as int < 256 ==> b == c as int
  {
    if c as int < 256 then c as int else '?' as int
  }

  /** `getBytes("ISO-8859-1")`: one byte per character. */
  function Latin1(s: string): (r: seq<byte>)
    ensures |r| == |s|
    ensures forall i :: 0 <= i < |s| ==> r[i] == Latin1Byte(s[i])
  {
    seq(|s|, i requires 0 <= i < |s| => Latin1Byte(s[i]))
  }

  function Zeros(n: nat): (r: seq<byte>)
    ensures |r| == n && forall i :: 0 <= i < n ==> r[i] == 0
  {
    seq(n, _ => 0)
  }

  function Spaces(n: int): (r: string)
    ensures |r| == if n > 0 then n else 0
    ensures forall i :: 0 <= i < |r| ==> r[i] == ' '
  {
    if n <= 0 then [] else seq(n, _ => ' ')
  }

  /**
   * `writeString(str, length)`: exactly `length` bytes, the Latin-1 bytes of
   * the string cut to that length, then zeros up to it.
   */
  function WriteString(s: string, length: nat): (r: seq<byte>)
    ensures |r| == length
    ensures forall i :: 0 <= i < length && i < |s| ==> r[i] == Latin1Byte(s[i])
    ensures forall i :: |s| <= i < length ==> r[i] == 0
  {
    var b := Latin1(s);
    if length <= |b| then b[..length] else b + Zeros(length - |b|)
  }

  /** Removes the zero bytes a field is padded with. */
  function TrimZeros(bs: seq<byte>): (r: seq<byte>)
    ensures |r| <= |bs| && r == bs[..|r|]
    ensures |r| > 0 ==> r[|r| - 1] != 0
  {
    if |bs| == 0 || bs[|bs| - 1] != 0 then bs else TrimZeros(bs[..|bs| - 1])
  }

  /** A string `writeString` cannot confuse with its padding: its last character is not NUL. */
  predicate NoTrailingNul(s: string) {
    |s| == 0 || s[|s| - 1] != 0 as char
  }

  /** A Latin-1 string that fits its field is read back by dropping the padding. */
  lemma {:induction false} WriteStringRoundTrip(s: string, length: nat)
    requires |s| <= length && NoTrailingNul(s)
    requires forall i :: 0 <= i < |s| ==> s[i] as int < 256
    ensures TrimZeros(WriteString(s, length)) == Latin1(s)
  {
    var b := Latin1(s);
    var w := WriteString(s, length);
    assert w == b + Zeros(length - |b|);
    TrimPadding(b, length - |b|);
  }

  lemma {:induction false} TrimPadding(b: seq<byte>, n: nat)
    requires |b| == 0 || b[|b| - 1] != 0
    ensures TrimZeros(b + Zeros(n)) == b
  {
    if n > 0 {
      assert (b + Zeros(n))[..|b| + n - 1] == b + Zeros(n - 1);
      TrimPadding(b, n - 1);
    } else {
      assert b + Zeros(0) == b;
    }
  }

  /**
   * `format(value, width, decimals, leadingSpaces)`: the formatted number,
   * preceded by at least `leadingSpaces` spaces and padded on the left to
   * `width + 1 + leadingSpaces` characters. `new StringBuilder(width)` throws
   * for a negative width before anything is formatted.
   */
  function Format(fmt: Formatter, value: real, width: int, decimals: nat, leadingSpaces: int): (r: Result<string>)
    ensures r.Failure? <==> width < 0
    ensures r.Failure? ==> r.error == NegativeArraySize
    ensures r.Success? ==> |r.value| >= width + 1 + leadingSpaces && |r.value| >= |fmt(value, decimals)|
    ensures r.Success? ==> forall k :: 0 <= k < leadingSpaces ==> r.value[k] == ' '
    ensures r.Success? ==> r.value[|r.value| - |fmt(value, decimals)|..] == fmt(value, decimals)
  {
    if width < 0 then Failure(NegativeArraySize)
    else
      var total := width + 1 + leadingSpaces;
      var s := fmt(value, decimals);
      var padding := if leadingSpaces > total - |s| then leadingSpaces else total - |s|;
      Success(Spaces(padding) + s)
  }

  /**
   * `format` as its documentation describes it: `width` is the total width,
   * so the number is padded on the left to `width` characters, with at least
   * `leadingSpaces` spaces.
   */
  function FormatToWidth(fmt: Formatter, value: real, width: nat, decimals: nat, leadingSpaces: nat): (r: string)
    ensures |r| == if width > |fmt(value, decimals)| + leadingSpaces then width else |fmt(value, decimals)| + leadingSpaces
    ensures forall k :: 0 <= k < |r| - |fmt(value, decimals)| ==> r[k] == ' '
    ensures r[|r| - |fmt(value, decimals)|..] == fmt(value, decimals)
  {
    var s := fmt(value, decimals);
    var padding := if leadingSpaces > width - |s| then leadingSpaces else width - |s|;
    Spaces(padding) + s
  }

  /** A number field of a record as written: `format(value, 20, 8, 0)` cut to 20 bytes. */
  function NumberFieldAsWritten(fmt: Formatter, value: real): (r: seq<byte>)
    ensures |r| == NUMBER_LENGTH
  {
    WriteString(Format(fmt, value, NUMBER_LENGTH, NUMBER_DECIMALS, 0).value, NUMBER_LENGTH)
  }

  /** A number field holding the whole formatted number, right-aligned in 20 bytes. */
  function NumberField(fmt: Formatter, value: real): (r: seq<byte>)
    ensures |r| == NUMBER_LENGTH
  {
    WriteString(FormatToWidth(fmt, value, NUMBER_LENGTH, NUMBER_DECIMALS, 0), NUMBER_LENGTH)
  }

  /**
   * `format` pads a number to 21 characters and `writeString` keeps 20 of
   * them, so the last character of every number that fits is lost; the
   * width-respecting field keeps it.
   */
  lemma NumberFieldLosesLastChar(fmt: Formatter, value: real)
    requires 1 <= |fmt(value, NUMBER_DECIMALS)| <= NUMBER_LENGTH
    ensures NumberFieldAsWritten(fmt, value) ==
      Latin1(Spaces(NUMBER_LENGTH + 1 - |fmt(value, NUMBER_DECIMALS)|) + fmt(value, NUMBER_DECIMALS)[..|fmt(value, NUMBER_DECIMALS)| - 1])
    ensures NumberField(fmt, value) ==
      Latin1(Spaces(NUMBER_LENGTH - |fmt(value, NUMBER_DECIMALS)|) + fmt(value, NUMBER_DECIMALS))
  {
    var s := fmt(value, NUMBER_DECIMALS);
    var t := Format(fmt, value, NUMBER_LENGTH, NUMBER_DECIMALS, 0).value;
    assert t == Spaces(NUMBER_LENGTH + 1 - |s|) + s;
    assert t[..NUMBER_LENGTH] == Spaces(NUMBER_LENGTH + 1 - |s|) + s[..|s| - 1];
  }

  /** The row index 0 is rendered "0.00000000" and written as "0.0000000", with one decimal too few. */
  lemma RowZeroField(fmt: Formatter)
    requires fmt(0.0, NUMBER_DECIMALS) == "0.00000000"
    ensures NumberFieldAsWritten(fmt, 0.0) == Latin1(Spaces(11) + "0.0000000")
    ensures NumberField(fmt, 0.0) == Latin1(Spaces(10) + "0.00000000")
  {
    var s := fmt(0.0, NUMBER_DECIMALS);
    NumberFieldLosesLastChar(fmt, 0.0);
    assert s[..|s| - 1] == "0.0000000";
  }

  /** `computeRecordSize`: the deletion flag and one 20-byte number per column. */
  function RecordSize(columns: nat): nat {
    1 + NUMBER_LENGTH * columns
  }

  /** The columns described: the row index, and the attribute when one is named. */
  function Columns(attributeName: Option<string>): (n: nat)
    ensures n == 1 || n == 2
    ensures n == 2 <==> attributeName.Some?
  {
    if attributeName.Some? then 2 else 1
  }

  /** 32 header bytes, one 32-byte descriptor per column and the terminator. */
  function HeaderSize(columns: nat): nat {
    32 + columns * 32 + 1
  }

  /**
   * The fixed part of the header: flag, date as year - 1900, month and day,
   * the record count, header and record sizes, reserved, transaction and
   * encryption bytes, 13 multi-user bytes, the language driver and two
   * reserved bytes.
   */
  function Preamble(year: int, month: int, day: int, count: int, columns: nat, recordSize: int): (r: seq<byte>)
    requires IsInt32(count)
    ensures |r| == 32
    ensures r[0] == DBF_FLAG && r[1] == LowByte(year - 1900) && r[2] == LowByte(month) && r[3] == LowByte(day)
    ensures r[4..8] == IntLE(count) && r[8..10] == ShortLE(HeaderSize(columns)) && r[10..12] == ShortLE(recordSize)
    ensures r[29] == LANGUAGE_DRIVER
  {
    var date := [DBF_FLAG, LowByte(year - 1900), LowByte(month), LowByte(day)];
    var counted := date + IntLE(count);
    var sized := counted + ShortLE(HeaderSize(columns));
    var sizes := sized + ShortLE(recordSize);
    var fixed := sizes + ShortLE(0) + [0, 0] + Zeros(13);
    var r := fixed + [LANGUAGE_DRIVER] + ShortLE(0);
    assert r[..12] == sizes && sizes[..10] == sized && sized[..8] == counted;
    assert r[4..8] == counted[4..8];
    assert r[8..10] == sized[8..10];
    assert r[10..12] == sizes[10..12];
    r
  }

  /** The title of column i: "attr" and the index. */
  function Title(i: nat): (t: string)
    requires i < 10
    ensures |t| == 5 && t[..4] == "attr"
  {
    "attr" + [('0' as int + i) as char]
  }

  /**
   * The descriptor `writeFieldDescriptors` writes for column i: the title in
   * ten bytes and a zero, type 'F', a zero field address, length 20,
   * 8 decimals and 14 zero bytes.
   */
  function Descriptor(i: nat): (r: seq<byte>)
    requires i < 10
    ensures |r| == 32
    ensures r[10] == 0 && r[11] == 'F' as int && r[16] == NUMBER_LENGTH && r[17] == NUMBER_DECIMALS
    ensures r[18..] == Zeros(14)
  {
    WriteString(Title(i), 10) + [0] + ['F' as int] + IntLE(0) + [NUMBER_LENGTH as byte] + [NUMBER_DECIMALS as byte] + Zeros(14)
  }

  /** The descriptors of columns k and on. */
  function Descriptors(columns: nat, k: nat): (r: seq<byte>)
    requires k <= columns < 10
    ensures |r| == 32 * (columns - k)
    decreases columns - k
  {
    if k == columns then [] else Descriptor(k) + Descriptors(columns, k + 1)
  }

  /** The whole header for the given month byte and record-size field. */
  function Header(year: int, month: int, day: int, count: int, columns: nat, recordSize: int): (r: seq<byte>)
    requires IsInt32(count) && columns < 10
    ensures |r| == HeaderSize(columns)
    ensures r[..32] == Preamble(year, month, day, count, columns, recordSize)
    ensures r[|r| - 1] == HEADER_TERMINATOR
  {
    Preamble(year, month, day, count, columns, recordSize) + Descriptors(columns, 0) + [HEADER_TERMINATOR]
  }

  /** The attribute a record stores: the named attribute's value, 0 when it is missing or no name is given. */
  function AttributeValue(g: Geometry, attributeName: Option<string>): (v: real)
    ensures attributeName.None? ==> v == 0.0
  {
    var attributes := match g
      case PointGeometry(p) => p.attributes
      case LineString(_, a) => a
      case GeometryCollection(_, a) => a;
    if attributeName.None? then 0.0
    else GetAttribute(attributes, attributeName.value).GetOr(0.0)
  }

  /** A record as `writeRecords` writes it: the flag, the row index and the attribute, whatever the columns. */
  function RecordAsWritten(fmt: Formatter, g: Geometry, row: nat, attributeName: Option<string>): (r: seq<byte>)
    ensures |r| == 1 + 2 * NUMBER_LENGTH
  {
    [NOT_DELETED] + NumberFieldAsWritten(fmt, row as real) + NumberFieldAsWritten(fmt, AttributeValue(g, attributeName))
  }

  /** The records of `writeRecords`, one per geometry, the row index counting from 0. */
  function RecordsAsWritten(fmt: Formatter, gs: seq<Geometry>, attributeName: Option<string>): (r: seq<seq<byte>>)
    ensures |r| == |gs|
    ensures forall i :: 0 <= i < |gs| ==> r[i] == RecordAsWritten(fmt, gs[i], i, attributeName)
  {
    seq(|gs|, i requires 0 <= i < |gs| => RecordAsWritten(fmt, gs[i], i, attributeName))
  }

  /**
   * `exportTable`: the month byte is `Calendar.MONTH` and the record-size
   * field is `computeRecordSize(null)`, one column's worth, while every
   * record carries two number fields.
   */
  function ExportTableAsWritten(fmt: Formatter, date: Date, gs: seq<Geometry>, attributeName: Option<string>): (r: seq<byte>)
    requires |gs| < TWO_31
    ensures Declares(r, |gs|, HeaderSize(Columns(attributeName)), RecordSize(1))
    ensures |r| == HeaderSize(Columns(attributeName)) + (1 + 2 * NUMBER_LENGTH) * |gs|
    ensures r[2] == LowByte(date.month)
  {
    var h := Header(date.year, date.month, date.day, |gs|, Columns(attributeName), RecordSize(1));
    var records := RecordsAsWritten(fmt, gs, attributeName);
    FileFields(h, records, date.year, date.month, date.day, |gs|, Columns(attributeName), RecordSize(1), 1 + 2 * NUMBER_LENGTH);
    h + Concat(records, 0)
  }

  /**
   * The file as written disagrees with itself: a reader stepping by the
   * declared record size does not land on the records, and without an
   * attribute name the records also hold a field the header does not describe.
   */
  lemma RecordSizeMismatch(fmt: Formatter, date: Date, gs: seq<Geometry>, attributeName: Option<string>)
    requires 0 < |gs| < TWO_31
    ensures var r := ExportTableAsWritten(fmt, date, gs, attributeName);
      Declares(r, |gs|, HeaderSize(Columns(attributeName)), RecordSize(1)) &&
      HeaderSize(Columns(attributeName)) + RecordSize(1) * |gs| < |r|
  {
    var n := |gs|;
    assert RecordSize(1) * n < (1 + 2 * NUMBER_LENGTH) * n;
  }

  /** A record holding one number field per described column. */
  function Record(fmt: Formatter, g: Geometry, row: nat, attributeName: Option<string>): (r: seq<byte>)
    ensures |r| == RecordSize(Columns(attributeName))
    ensures r[0] == NOT_DELETED && r[1..1 + NUMBER_LENGTH] == NumberField(fmt, row as real)
    ensures attributeName.Some? ==> r[1 + NUMBER_LENGTH..] == NumberField(fmt, AttributeValue(g, attributeName))
  {
    [NOT_DELETED] + NumberField(fmt, row as real) +
    (if attributeName.Some? then NumberField(fmt, AttributeValue(g, attributeName)) else [])
  }

  /** One record per geometry, the row index counting from 0. */
  function Records(fmt: Formatter, gs: seq<Geometry>, attributeName: Option<string>): (r: seq<seq<byte>>)
    ensures |r| == |gs|
    ensures forall i :: 0 <= i < |gs| ==> r[i] == Record(fmt, gs[i], i, attributeName)
  {
    seq(|gs|, i requires 0 <= i < |gs| => Record(fmt, gs[i], i, attributeName))
  }

  /**
   * The dBASE III file the exporter evidently means to write: the month
   * counted from 1, the record-size field matching the described columns and
   * every record holding exactly those columns, each number whole.
   */
  function ExportTable(fmt: Formatter, date: Date, gs: seq<Geometry>, attributeName: Option<string>): (r: seq<byte>)
    requires |gs| < TWO_31
    ensures Declares(r, |gs|, HeaderSize(Columns(attributeName)), RecordSize(Columns(attributeName)))
    ensures |r| == HeaderSize(Columns(attributeName)) + RecordSize(Columns(attributeName)) * |gs|
    ensures 0 <= date.month < 12 ==> r[2] == date.month + 1
  {
    var c := Columns(attributeName);
    var h := Header(date.year, date.month + 1, date.day, |gs|, c, RecordSize(c));
    var records := Records(fmt, gs, attributeName);
    FileFields(h, records, date.year, date.month + 1, date.day, |gs|, c, RecordSize(c), RecordSize(c));
    h + Concat(records, 0)
  }

  /**
   * What a dBASE reader takes from a file's header: the record count, the
   * header size, after which the records start, and the size of each record;
   * the byte before the records is the header terminator.
   */
  predicate Declares(r: seq<byte>, count: int, headerSize: int, recordSize: int) {
    12 <= headerSize <= |r| &&
    ValueLE(r[4..8]) == count && ValueLE(r[8..10]) == headerSize && ValueLE(r[10..12]) == recordSize &&
    r[headerSize - 1] == HEADER_TERMINATOR
  }

  /** A header declaring records of one size, followed by `count` records of a size of their own. */
  lemma FileFields(h: seq<byte>, records: seq<seq<byte>>, year: int, month: int, day: int, count: int,
                   columns: nat, declared: nat, recordSize: nat)
    requires IsInt32(count) && columns < 10 && h == Header(year, month, day, count, columns, declared)
    requires 0 <= count && declared < TWO_16
    requires |records| == count && forall i :: 0 <= i < |records| ==> |records[i]| == recordSize
    ensures (h + Concat(records, 0))[2] == LowByte(month)
    ensures 0 <= month < 256 ==> (h + Concat(records, 0))[2] == month
    ensures Declares(h + Concat(records, 0), count, HeaderSize(columns), declared)
    ensures |h + Concat(records, 0)| == HeaderSize(columns) + recordSize * count
  {
    ConcatUniform(records, recordSize);
    HeaderFields(h, Concat(records, 0), year, month, day, count, columns, declared);
  }

  /** The preamble's fields, read from the header and whatever follows it. */
  lemma HeaderFields(h: seq<byte>, rest: seq<byte>, year: int, month: int, day: int, count: int, columns: nat, recordSize: int)
    requires IsInt32(count) && columns < 10 && h == Header(year, month, day, count, columns, recordSize)
    requires 0 <= count && 0 <= recordSize < TWO_16
    ensures (h + rest)[2] == LowByte(month)
    ensures 0 <= month < 256 ==> (h + rest)[2] == month
    ensures Declares(h + rest, count, HeaderSize(columns), recordSize)
  {
    var p := Preamble(year, month, day, count, columns, recordSize);
    LeadingSlice(h, rest, p, 4, 8);
    LeadingSlice(h, rest, p, 8, 10);
    LeadingSlice(h, rest, p, 10, 12);
    LeadingSlice(h, rest, p, 2, 3);
    var size := HeaderSize(columns);
    assert 0 <= size < TWO_16;
    assert ValueLE((h + rest)[8..10]) == size;
    assert ValueLE((h + rest)[10..12]) == recordSize;
    assert (h + rest)[2] == (h + rest)[2..3][0];
  }

  /** A slice of the leading bytes p of h is the same slice of h followed by anything. */
  lemma LeadingSlice(h: seq<byte>, rest: seq<byte>, p: seq<byte>, i: int, j: int)
    requires |p| <= |h| && h[..|p|] == p && 0 <= i <= j <= |p|
    ensures (h + rest)[i..j] == p[i..j]
  {
    forall k | 0 <= k < j - i
      ensures (h + rest)[i..j][k] == p[i..j][k]
    {
      assert p[i + k] == h[..|p|][i + k];
    }
  }

  /**
   * Record i of the corrected file sits where a dBASE reader looks for it:
   * after the header and i records of the declared size.
   */
  lemma RecordLocated(fmt: Formatter, date: Date, gs: seq<Geometry>, attributeName: Option<string>, i: nat)
    requires |gs| < TWO_31 && i < |gs|
    ensures HoldsAt(ExportTable(fmt, date, gs, attributeName),
                    HeaderSize(Columns(attributeName)) + RecordSize(Columns(attributeName)) * i,
                    Record(fmt, gs[i], i, attributeName))
  {
    var h := ExportTableHeader(fmt, date, gs, attributeName);
    RecordAfter(h, fmt, gs, attributeName, i);
  }

  /** The corrected file is some header of the declared size followed by the records. */
  lemma ExportTableHeader(fmt: Formatter, date: Date, gs: seq<Geometry>, attributeName: Option<string>) returns (h: seq<byte>)
    requires |gs| < TWO_31
    ensures ExportTable(fmt, date, gs, attributeName) == h + Concat(Records(fmt, gs, attributeName), 0)
    ensures |h| == HeaderSize(Columns(attributeName))
  {
    var c := Columns(attributeName);
    h := Header(date.year, date.month + 1, date.day, |gs|, c, RecordSize(c));
  }

  /** Record i of records of one size, written after a header, stands i records after the header. */
  lemma RecordInFile(r: seq<byte>, h: seq<byte>, records: seq<seq<byte>>, i: nat, hs: int, w: nat)
    requires r == h + Concat(records, 0) && |h| == hs && i < |records|
    requires forall j :: 0 <= j < |records| ==> |records[j]| == w
    ensures HoldsAt(r, hs + w * i, records[i])
  {
    OffsetUniform(records, i, w);
    PartLocated(r, h, records, i, hs + w * i);
  }

  /** Records written after any header of the right size stand i records after it. */
  lemma RecordAfter(h: seq<byte>, fmt: Formatter, gs: seq<Geometry>, attributeName: Option<string>, i: nat)
    requires i < |gs| && |h| == HeaderSize(Columns(attributeName))
    ensures HoldsAt(h + Concat(Records(fmt, gs, attributeName), 0),
                    HeaderSize(Columns(attributeName)) + RecordSize(Columns(attributeName)) * i,
                    Record(fmt, gs[i], i, attributeName))
  {
    RecordsUniform(fmt, gs, attributeName);
    RecordInFile(h + Concat(Records(fmt, gs, attributeName), 0), h, Records(fmt, gs, attributeName), i,
                 HeaderSize(Columns(attributeName)), RecordSize(Columns(attributeName)));
  }

  /** Every corrected record has the declared size. */
  lemma RecordsUniform(fmt: Formatter, gs: seq<Geometry>, attributeName: Option<string>)
    ensures forall j :: 0 <= j < |Records(fmt, gs, attributeName)| ==>
      |Records(fmt, gs, attributeName)[j]| == RecordSize(Columns(attributeName))
  {
  }

  /** Part i of parts written after a header stands at the header's size plus its offset. */
  lemma PartLocated(r: seq<byte>, h: seq<byte>, parts: seq<seq<byte>>, i: nat, q: int)
    requires r == h + Concat(parts, 0) && i < |parts| && q == |h| + Offset(parts, i)
    ensures HoldsAt(r, q, parts[i])
  {
    PartAt(r, |h|, parts, i, q);
  }
}

=== FILE: features.dfy ===
/**
 * The simple-features vector model (package simplefeatures): points, line strings and
 * geometry collections, each carrying a table of named numeric attributes. Geometries are
 * values here; an operation that mutates a Java object returns the new value instead.
 */
module Features {
  import opened Wrappers
  import opened Numeric

  /** Geometry's HashMap<String, Number>; a stored Java null is the value None. */
  type Attributes = map<string, Option<real>>

  /** hasAttribute: the name is a key of the table, whatever its value. */
  predicate HasAttribute(a: Attributes, name: string) {
    name in a
  }

  /** getAttribute: the stored value, or null for a name that was never set. */
  function GetAttribute(a: Attributes, name: string): (v: Option<real>)
    ensures !HasAttribute(a, name) ==> v == None
  {
    if name in a then a[name] else None
  }

  /** setAttribute: afterwards the name is present and yields the value; no other name changes. */
  function SetAttribute(a: Attributes, name: string, value: Option<real>): (r: Attributes)
    ensures HasAttribute(r, name) && GetAttribute(r, name) == value
    ensures forall n :: n != name ==> (HasAttribute(r, n) <==> HasAttribute(a, n))
    ensures forall n :: n != name ==> GetAttribute(r, n) == GetAttribute(a, n)
    ensures |r.Keys| <= |a.Keys| + 1
  {
    a[name := value]
  }

  /** A point with its own attribute table. */
  datatype Point = Point(x: real, y: real, attributes: Attributes)

  /** new Point(x, y): no attributes yet. */
  function NewPoint(x: real, y: real): (p: Point)
    ensures p.x == x && p.y == y && p.attributes == map[]
  {
    Point(x, y, map[])
  }

  /** isSameLocation: both coordinates are equal; the attributes play no part. */
  predicate SameLocation(p: Point, q: Point) {
    p.x == q.x && p.y == q.y
  }

  /** setX: the new x; the y coordinate and the attributes stay. */
  function SetX(p: Point, x: real): (q: Point)
    ensures q.x == x && q.y == p.y && q.attributes == p.attributes
  {
    p.(x := x)
  }

  /** setY: the new y; the x coordinate and the attributes stay. */
  function SetY(p: Point, y: real): (q: Point)
    ensures q.y == y && q.x == p.x && q.attributes == p.attributes
  {
    p.(y := y)
  }

  /** An axis-aligned rectangle given by its extreme coordinates. */
  datatype Rect = Rect(minX: real, minY: real, maxX: real, maxY: real)

  predicate Contains(r: Rect, x: real, y: real) {
    r.minX <= x <= r.maxX && r.minY <= y <= r.maxY
  }

  /** Rectangle2D.createUnion: the smallest rectangle holding both. */
  function Union(a: Rect, b: Rect): (u: Rect)
    ensures forall x, y :: Contains(a, x, y) || Contains(b, x, y) ==> Contains(u, x, y)
    ensures u.minX == Min(a.minX, b.minX) && u.maxX == Max(a.maxX, b.maxX)
    ensures u.minY == Min(a.minY, b.minY) && u.maxY == Max(a.maxY, b.maxY)
  {
    Rect(Min(a.minX, b.minX), Min(a.minY, b.minY), Max(a.maxX, b.maxX), Max(a.maxY, b.maxY))
  }

  /** The bounding box of a point: a rectangle of zero size at its position. */
  function PointBox(p: Point): (r: Rect)
    ensures Contains(r, p.x, p.y)
    ensures forall x, y :: Contains(r, x, y) ==> x == p.x && y == p.y
  {
    Rect(p.x, p.y, p.x, p.y)
  }

  /** The three kinds of geometry the program builds. */
  datatype Geometry =
    | PointGeometry(point: Point)
    | LineString(points: seq<Point>, attributes: Attributes)
    | GeometryCollection(members: seq<Geometry>, attributes: Attributes)

  /** ---------------------------------------------------------------- line strings */

  /** Point equality up to location: no point sits where its predecessor is. */
  predicate NoRepeats(ps: seq<Point>) {
    forall i :: 0 < i < |ps| ==> ApartAt(ps, i)
  }

  /** Point i is not where point i - 1 is. */
  predicate ApartAt(ps: seq<Point>, i: int)
    requires 0 < i < |ps|
  {
    !SameLocation(ps[i - 1], ps[i])
  }

  /** The Euclidean length of the segment between two points. */
  function SegmentLength(sqrt: real -> real, p: Point, q: Point): (d: real)
    ensures IsSqrt(sqrt) ==> d >= 0.0
  {
    SqNonNegative(p.x - q.x);
    SqNonNegative(p.y - q.y);
    sqrt(Sq(p.x - q.x) + Sq(p.y - q.y))
  }

  lemma SegmentLengthSymmetric(sqrt: real -> real, p: Point, q: Point)
    ensures SegmentLength(sqrt, p, q) == SegmentLength(sqrt, q, p)
  {
    var dx, dy := p.x - q.x, p.y - q.y;
    TimesNegated(dx, dx);
    TimesNegated(dy, dy);
    assert Sq(q.x - p.x) == Sq(dx);
    assert Sq(q.y - p.y) == Sq(dy);
  }

  /** A segment has zero length exactly when its two ends are at the same location. */
  lemma SegmentLengthZero(sqrt: real -> real, p: Point, q: Point)
    requires IsSqrt(sqrt)
    ensures SegmentLength(sqrt, p, q) == 0.0 <==> SameLocation(p, q)
  {
    var dx, dy := p.x - q.x, p.y - q.y;
    SqNonNegative(dx);
    SqNonNegative(dy);
    var s := Sq(dx) + Sq(dy);
    if SegmentLength(sqrt, p, q) == 0.0 {
      assert sqrt(s) * sqrt(s) == s;
      if dx != 0.0 { SqPositive(if dx > 0.0 then dx else -dx); TimesNegated(dx, dx); }
      if dy != 0.0 { SqPositive(if dy > 0.0 then dy else -dy); TimesNegated(dy, dy); }
    } else if SameLocation(p, q) {
      TimesZero(dx, dx);
      TimesZero(dy, dy);
    }
  }

  /** The length of a polyline: the sum of its segment lengths, 0 below two points. */
  function PathLength(sqrt: real -> real, ps: seq<Point>): (len: real)
    ensures IsSqrt(sqrt) ==> len >= 0.0
  {
    if |ps| < 2 then 0.0
    else PathLength(sqrt, ps[..|ps| - 1]) + SegmentLength(sqrt, ps[|ps| - 2], ps[|ps| - 1])
  }

  /** getLength: walks the segments from the first point on. */
  method GetLength(sqrt: real -> real, ps: seq<Point>) returns (length: real)
    ensures length == PathLength(sqrt, ps)
    ensures |ps| < 2 ==> length == 0.0
    ensures IsSqrt(sqrt) ==> length >= 0.0
  {
    if |ps| < 2 {
      return 0.0;
    }
    length := 0.0;
    var p1 := ps[0];
    var i := 1;
    while i < |ps|
      invariant 1 <= i <= |ps|
      invariant p1 == ps[i - 1]
      invariant length == PathLength(sqrt, ps[..i])
    {
      var p2 := ps[i];
      assert ps[..i + 1][..i] == ps[..i];
      length := length + SegmentLength(sqrt, p1, p2);
      p1 := p2;
      i := i + 1;
    }
    assert ps[..i] == ps;
  }

  /** Prepending a point adds the length of the new first segment. */
  lemma {:induction false} PathLengthPrepend(sqrt: real -> real, p: Point, ps: seq<Point>)
    requires |ps| >= 1
    ensures PathLength(sqrt, [p] + ps) == SegmentLength(sqrt, p, ps[0]) + PathLength(sqrt, ps)
    decreases |ps|
  {
    var qs := [p] + ps;
    if |ps| == 1 {
      assert qs[..1] == [p];
    } else {
      var init := ps[..|ps| - 1];
      assert qs[..|qs| - 1] == [p] + init;
      PathLengthPrepend(sqrt, p, init);
    }
  }

  /** The reversed point order, as invert leaves it. */
  function Reverse(ps: seq<Point>): (r: seq<Point>)
    ensures |r| == |ps|
    ensures forall i :: 0 <= i < |ps| ==> r[i] == ps[|ps| - 1 - i]
  {
    seq(|ps|, i requires 0 <= i < |ps| => ps[|ps| - 1 - i])
  }

  /** invert: swaps the i-th point from either end for i below half the count. */
  method Invert(ps: seq<Point>) returns (r: seq<Point>)
    ensures r == Reverse(ps)
  {
    var n := |ps|;
    r := ps;
    var i := 0;
    assert r == SwappedEnds(ps, 0);
    while i < n / 2
      invariant 0 <= i <= n / 2
      invariant r == SwappedEnds(ps, i)
    {
      var p1 := r[i];
      var p2 := r[n - i - 1];
      r := r[n - i - 1 := p1];
      r := r[i := p2];
      assert r == SwappedEnds(ps, i + 1);
      i := i + 1;
    }
    assert r == Reverse(ps);
  }

  /** The points after invert has swapped the first i pairs of ends. */
  function SwappedEnds(ps: seq<Point>, i: int): (r: seq<Point>)
    ensures |r| == |ps|
  {
    seq(|ps|, k requires 0 <= k < |ps| => if k < i || k >= |ps| - i then ps[|ps| - 1 - k] else ps[k])
  }

  lemma InvertTwice(ps: seq<Point>)
    ensures Reverse(Reverse(ps)) == ps
  {
    var r := Reverse(ps);
    var rr := Reverse(r);
    forall i | 0 <= i < |ps|
      ensures rr[i] == ps[i]
    {
      assert rr[i] == r[|ps| - 1 - i];
    }
  }

  /** Reversing the points does not change the length of the line. */
  lemma {:induction false} LengthUnderInvert(sqrt: real -> real, ps: seq<Point>)
    ensures PathLength(sqrt, Reverse(ps)) == PathLength(sqrt, ps)
    decreases |ps|
  {
    if |ps| >= 2 {
      var init := ps[..|ps| - 1];
      var last := ps[|ps| - 1];
      assert Reverse(ps) == [last] + Reverse(init);
      LengthUnderInvert(sqrt, init);
      PathLengthPrepend(sqrt, last, Reverse(init));
      SegmentLengthSymmetric(sqrt, last, ps[|ps| - 2]);
    }
  }

  lemma ReverseKeepsNoRepeats(ps: seq<Point>)
    requires NoRepeats(ps)
    ensures NoRepeats(Reverse(ps))
  {
    var r := Reverse(ps);
    forall i | 0 < i < |r|
      ensures ApartAt(r, i)
    {
      var j := |ps| - i;
      assert ApartAt(ps, j);
      assert r[i - 1] == ps[j] && r[i] == ps[j - 1];
    }
  }

  /** isClosed: reads the first and the last point, so an empty line fails with an index error. */
  function IsClosed(ps: seq<Point>): (r: Result<bool>)
    ensures r.Failure? <==> |ps| == 0
    ensures r.Failure? ==> r.error == IndexOutOfBounds
    ensures r.Success? ==> (r.value <==> SameLocation(ps[0], ps[|ps| - 1]))
  {
    if |ps| == 0 then Failure(IndexOutOfBounds)
    else Success(ps[0].x == ps[|ps| - 1].x && ps[0].y == ps[|ps| - 1].y)
  }

  lemma ClosedUnderInvert(ps: seq<Point>)
    ensures IsClosed(Reverse(ps)) == IsClosed(ps)
  {
  }

  /** addPointIfDifferentFromLast */
  function AddPointIfDifferentFromLast(ps: seq<Point>, p: Point): (r: seq<Point>)
    ensures |r| == |ps| + 1 <==> |ps| == 0 || !SameLocation(ps[|ps| - 1], p)
    ensures r == ps || r == ps + [p]
    ensures |r| > 0 && SameLocation(r[|r| - 1], p)
    ensures NoRepeats(ps) ==> NoRepeats(r)
  {
    if |ps| == 0 || !SameLocation(ps[|ps| - 1], p) then
      NoRepeatsExtended(ps, p);
      ps + [p]
    else ps
  }

  lemma NoRepeatsExtended(ps: seq<Point>, p: Point)
    requires |ps| == 0 || !SameLocation(ps[|ps| - 1], p)
    ensures NoRepeats(ps) ==> NoRepeats(ps + [p])
  {
    if NoRepeats(ps) {
      forall i | 0 < i < |ps + [p]|
        ensures ApartAt(ps + [p], i)
      {
        if i < |ps| {
          assert ApartAt(ps, i);
        }
      }
    }
  }

  lemma NoRepeatsPrefix(ps: seq<Point>, m: int)
    requires NoRepeats(ps) && 0 <= m <= |ps|
    ensures NoRepeats(ps[..m])
  {
    forall i | 0 < i < m
      ensures ApartAt(ps[..m], i)
    {
      assert ApartAt(ps, i);
    }
  }

  /** The points of l2 added one by one with addPointIfDifferentFromLast. */
  function AppendPoints(ps: seq<Point>, qs: seq<Point>): (r: seq<Point>)
    ensures |ps| <= |r| <= |ps| + |qs|
    ensures r[..|ps|] == ps
    ensures |qs| > 0 ==> |r| > 0 && SameLocation(r[|r| - 1], qs[|qs| - 1])
    ensures NoRepeats(ps) ==> NoRepeats(r)
    decreases |qs|
  {
    if |qs| == 0 then ps
    else
      var init := AppendPoints(ps, qs[..|qs| - 1]);
      var r := AddPointIfDifferentFromLast(init, qs[|qs| - 1]);
      assert r[..|init|] == init;
      r
  }

  /** append: a null or empty line adds nothing; otherwise its points are appended one by one. */
  function Append(ps: seq<Point>, l2: Option<seq<Point>>): (r: seq<Point>)
    ensures l2.None? ==> r == ps
    ensures l2.Some? ==> r == AppendPoints(ps, l2.value)
  {
    if l2.None? || |l2.value| == 0 then ps else AppendPoints(ps, l2.value)
  }

  /** Appending lines one after another is appending their concatenation. */
  lemma {:induction false} AppendPointsSplit(ps: seq<Point>, qs: seq<Point>, rs: seq<Point>)
    ensures AppendPoints(ps, qs + rs) == AppendPoints(AppendPoints(ps, qs), rs)
    decreases |rs|
  {
    if |rs| == 0 {
      assert qs + rs == qs;
    } else {
      var init := rs[..|rs| - 1];
      assert (qs + rs)[..|qs + rs| - 1] == qs + init;
      assert (qs + rs)[|qs + rs| - 1] == rs[|rs| - 1];
      AppendPointsSplit(ps, qs, init);
    }
  }

  /** When no point would repeat its predecessor, append is plain concatenation. */
  lemma {:induction false} AppendWithoutRepeats(ps: seq<Point>, qs: seq<Point>)
    requires NoRepeats(ps + qs)
    ensures AppendPoints(ps, qs) == ps + qs
    decreases |qs|
  {
    if |qs| > 0 {
      var init := qs[..|qs| - 1];
      var q := qs[|qs| - 1];
      var front := ps + init;
      assert ps + qs == front + [q];
      NoRepeatsPrefix(front + [q], |front|);
      assert (front + [q])[..|front|] == front;
      AppendWithoutRepeats(ps, init);
      AddsApartPoint(front, q);
    }
  }

  /** A point apart from the last one is added. */
  lemma AddsApartPoint(ps: seq<Point>, p: Point)
    requires NoRepeats(ps + [p])
    ensures AddPointIfDifferentFromLast(ps, p) == ps + [p]
  {
    if |ps| > 0 {
      assert ApartAt(ps + [p], |ps|);
    }
  }

  /** The result of concatenateLines together with the two arguments as it leaves them. */
  datatype Concatenation = Concatenation(line: seq<Point>, first: seq<Point>, second: seq<Point>)

  /**
   * concatenateLines as written: l1 is inverted in place when it starts at the central
   * point and l2 when it does not, and the caller's lines keep that new order. An empty
   * line has no first point, and the null it yields makes the call fail. When only l2 is
   * empty, Java has already inverted l1 in place before it fails; the failure result does
   * not carry that changed l1.
   */
  function ConcatenateLinesAsWritten(l1: seq<Point>, l2: seq<Point>, centralPt: Point): (r: Result<Concatenation>)
    ensures r.Failure? <==> |l1| == 0 || |l2| == 0
    ensures r.Failure? ==> r.error == NullPointer
    ensures r.Success? ==> r.value.first == (if SameLocation(l1[0], centralPt) then Reverse(l1) else l1)
    ensures r.Success? ==> r.value.second == (if SameLocation(l2[0], centralPt) then l2 else Reverse(l2))
    ensures r.Success? ==> r.value.line == AppendPoints(AppendPoints([], r.value.first), r.value.second)
  {
    if |l1| == 0 || |l2| == 0 then Failure(NullPointer)
    else
      var first := if SameLocation(l1[0], centralPt) then Reverse(l1) else l1;
      var second := if !SameLocation(l2[0], centralPt) then Reverse(l2) else l2;
      Success(Concatenation(Append(Append([], Some(first)), Some(second)), first, second))
  }

  /** A line of two or more distinct locations that starts at the central point comes back inverted. */
  lemma ConcatenateModifiesFirstLine(l1: seq<Point>, l2: seq<Point>, centralPt: Point)
    requires |l1| >= 2 && |l2| >= 1
    requires SameLocation(l1[0], centralPt) && !SameLocation(l1[|l1| - 1], centralPt)
    ensures ConcatenateLinesAsWritten(l1, l2, centralPt).Success?
    ensures ConcatenateLinesAsWritten(l1, l2, centralPt).value.first != l1
  {
    var first := ConcatenateLinesAsWritten(l1, l2, centralPt).value.first;
    assert first[0] == l1[|l1| - 1];
  }

  /**
   * concatenateLines as its documentation promises: the joined line only, computed on copies
   * so that the arguments stay as they were.
   */
  function JoinLines(l1: seq<Point>, l2: seq<Point>, centralPt: Point): (r: Result<seq<Point>>)
    ensures r.Failure? <==> |l1| == 0 || |l2| == 0
    ensures r.Success? ==> r.value == ConcatenateLinesAsWritten(l1, l2, centralPt).value.line
  {
    if |l1| == 0 || |l2| == 0 then Failure(NullPointer)
    else
      var first := if SameLocation(l1[0], centralPt) then Reverse(l1) else l1;
      var second := if SameLocation(l2[0], centralPt) then l2 else Reverse(l2);
      Success(AppendPoints(AppendPoints([], first), second))
  }

  /** Each line has a first or a last point at the central point. */
  predicate MeetAt(l1: seq<Point>, l2: seq<Point>, c: Point) {
    |l1| > 0 && |l2| > 0 &&
    (SameLocation(l1[0], c) || SameLocation(l1[|l1| - 1], c)) &&
    (SameLocation(l2[0], c) || SameLocation(l2[|l2| - 1], c))
  }

  /** Two point runs without repeats, the second starting where the first ends, chain without repeats. */
  lemma NoRepeatsChained(first: seq<Point>, second: seq<Point>)
    requires |first| > 0 && |second| > 0 && NoRepeats(first) && NoRepeats(second)
    requires SameLocation(first[|first| - 1], second[0])
    ensures NoRepeats(first + second[1..])
  {
    var rest := second[1..];
    var joined := first + rest;
    forall i | 0 < i < |joined|
      ensures ApartAt(joined, i)
    {
      if i < |first| {
        assert ApartAt(first, i);
      } else if i == |first| {
        assert ApartAt(second, 1);
        assert joined[i] == second[1];
      } else {
        assert ApartAt(second, i - |first| + 1);
        assert joined[i - 1] == second[i - |first|] && joined[i] == second[i - |first| + 1];
      }
    }
  }

  /** Appending a line that starts where the line so far ends drops only the shared point. */
  lemma AppendAtSharedPoint(first: seq<Point>, second: seq<Point>)
    requires |first| > 0 && |second| > 0 && NoRepeats(first) && NoRepeats(second)
    requires SameLocation(first[|first| - 1], second[0])
    ensures AppendPoints(AppendPoints([], first), second) == first + second[1..]
  {
    AppendToEmpty(first);
    var rest := second[1..];
    SplitFirst(second);
    AppendPointsSplit(first, [second[0]], rest);
    AppendSharedPoint(first, second[0]);
    NoRepeatsChained(first, second);
    AppendWithoutRepeats(first, rest);
  }

  lemma AppendToEmpty(ps: seq<Point>)
    requires NoRepeats(ps)
    ensures AppendPoints([], ps) == ps
  {
    assert [] + ps == ps;
    AppendWithoutRepeats([], ps);
  }

  lemma SplitFirst(ps: seq<Point>)
    requires |ps| > 0
    ensures [ps[0]] + ps[1..] == ps
  {
  }

  /** A point at the location of the last point adds nothing. */
  lemma AppendSharedPoint(ps: seq<Point>, p: Point)
    requires |ps| > 0 && SameLocation(ps[|ps| - 1], p)
    ensures AppendPoints(ps, [p]) == ps
  {
    assert [p][..0] == [];
  }

  /**
   * Two lines without repeated points that each have an end at the central point are joined
   * there: the first runs into the central point and the second continues from it, so the
   * central point occurs once and no other point is lost.
   */
  lemma JoinLinesMeetsAtCentre(l1: seq<Point>, l2: seq<Point>, c: Point)
    requires MeetAt(l1, l2, c) && NoRepeats(l1) && NoRepeats(l2)
    ensures JoinLines(l1, l2, c).Success?
    ensures var line := JoinLines(l1, l2, c).value;
      |line| == |l1| + |l2| - 1 && SameLocation(line[|l1| - 1], c)
  {
    var first := if SameLocation(l1[0], c) then Reverse(l1) else l1;
    var second := if SameLocation(l2[0], c) then l2 else Reverse(l2);
    if first == Reverse(l1) { ReverseKeepsNoRepeats(l1); }
    if second == Reverse(l2) { ReverseKeepsNoRepeats(l2); }
    assert SameLocation(first[|first| - 1], c);
    assert SameLocation(second[0], c);
    AppendAtSharedPoint(first, second);
    assert JoinLines(l1, l2, c).value == first + second[1..];
  }

  /** ---------------------------------------------------------------- densify */

  /** The point t along the segment from p1 towards p2, whose length is len. */
  function AlongAt(p1: Point, p2: Point, len: real, t: real): Point
    requires len != 0.0
  {
    NewPoint(p1.x + t * ((p2.x - p1.x) / len), p1.y + t * ((p2.y - p1.y) / len))
  }

  /** densify's j-th intermediate point: x1 + j * dx * maxSegmentLength with (dx, dy) the unit direction. */
  function Intermediate(p1: Point, p2: Point, len: real, maxLen: real, j: int): (q: Point)
    requires len != 0.0
    ensures q == AlongAt(p1, p2, len, j as real * maxLen)
  {
    var dx := (p2.x - p1.x) / len;
    var dy := (p2.y - p1.y) / len;
    NewPoint(p1.x + j as real * dx * maxLen, p1.y + j as real * dy * maxLen)
  }

  /** The segment end p2 lies at offset len. */
  lemma AlongAtEnd(p1: Point, p2: Point, len: real)
    requires len != 0.0
    ensures SameLocation(AlongAt(p1, p2, len, len), p2)
  {
  }

  /** On a segment of non-zero extent different offsets are different locations. */
  lemma AlongAtDistinct(p1: Point, p2: Point, len: real, s: real, t: real)
    requires len != 0.0 && !SameLocation(p1, p2) && s != t
    ensures !SameLocation(AlongAt(p1, p2, len, s), AlongAt(p1, p2, len, t))
  {
    var dx := (p2.x - p1.x) / len;
    var dy := (p2.y - p1.y) / len;
    assert p2.x - p1.x == dx * len;
    assert p2.y - p1.y == dy * len;
    assert dx != 0.0 || dy != 0.0;
    if dx != 0.0 {
      ScaledApart(dx, s, t);
    } else {
      ScaledApart(dy, s, t);
    }
  }

  lemma ScaledApart(d: real, s: real, t: real)
    requires d != 0.0 && s != t
    ensures s * d != t * d
  {
    ProductNonZero(s - t, d);
    assert s * d - t * d == (s - t) * d;
  }

  lemma ProductNonZero(a: real, b: real)
    requires a != 0.0 && b != 0.0
    ensures a * b != 0.0
  {
    if a > 0.0 && b > 0.0 { PositiveProduct(a, b); }
    if a > 0.0 && b < 0.0 { PositiveProduct(a, -b); }
    if a < 0.0 && b > 0.0 { PositiveProduct(-a, b); }
    if a < 0.0 && b < 0.0 { PositiveProduct(-a, -b); }
  }

  /**
   * The points densify inserts between p1 and p2 as written: for a segment longer than
   * maxSegmentLength, (int) (length / maxSegmentLength) points at offsets 0, max, 2 max, ...,
   * so the first of them repeats p1.
   */
  function FillAsWritten(sqrt: real -> real, maxLen: real, p1: Point, p2: Point): (r: seq<Point>)
    requires maxLen != 0.0
    ensures SegmentLength(sqrt, p1, p2) <= maxLen ==> r == []
    ensures IsSqrt(sqrt) && maxLen > 0.0 && SegmentLength(sqrt, p1, p2) > maxLen ==>
      |r| == Trunc(SegmentLength(sqrt, p1, p2) / maxLen) >= 1
    ensures |r| > 0 ==> SameLocation(r[0], p1)
  {
    var len := SegmentLength(sqrt, p1, p2);
    if len <= maxLen then []
    else
      var n := Trunc(len / maxLen);
      if n <= 0 then []
      else
        assert len / maxLen >= 1.0;
        seq(n, j requires 0 <= j < n => Intermediate(p1, p2, len, maxLen, j))
  }

  /** The number of multiples j * maxLen, j >= 1, that lie strictly below len. */
  function InnerSteps(len: real, maxLen: real): (m: int)
    requires maxLen > 0.0
    ensures len > 0.0 ==> m >= 0 && m as real * maxLen < len <= (m + 1) as real * maxLen
    ensures len <= maxLen ==> m <= 0
  {
    var n := Trunc(len / maxLen);
    if len <= 0.0 then 0
    else
      var q := len / maxLen;
      QuotientAtMostOne(len, maxLen);
      assert n as real <= q < n as real + 1.0;
      assert q * maxLen == len;
      ScaleLe(maxLen, n as real, q);
      ScaleLt(maxLen, q, n as real + 1.0);
      if n as real * maxLen == len then n - 1 else n
  }

  lemma QuotientAtMostOne(len: real, maxLen: real)
    requires maxLen > 0.0
    ensures len <= maxLen ==> len / maxLen <= 1.0
  {
    var q := len / maxLen;
    assert q * maxLen == len;
    if len <= maxLen && q > 1.0 {
      ScaleLt(maxLen, 1.0, q);
    }
  }

  /**
   * The intermediate points densify evidently intends: offsets max, 2 max, ... strictly
   * inside the segment, so that neither end is repeated and no piece is longer than max.
   */
  function Fill(sqrt: real -> real, maxLen: real, p1: Point, p2: Point): (r: seq<Point>)
    requires maxLen > 0.0
    ensures SegmentLength(sqrt, p1, p2) <= maxLen ==> r == []
    ensures |r| > 0 ==> SegmentLength(sqrt, p1, p2) > maxLen
    ensures |r| > 0 ==> (|r| + 1) as real * maxLen >= SegmentLength(sqrt, p1, p2)
  {
    var len := SegmentLength(sqrt, p1, p2);
    if len <= maxLen then []
    else
      var m := InnerSteps(len, maxLen);
      if m <= 0 then []
      else seq(m, j requires 0 <= j < m => Intermediate(p1, p2, len, maxLen, j + 1))
  }

  /** The j-th corrected intermediate point lies (j + 1) max along the segment. */
  lemma FillOffsets(sqrt: real -> real, maxLen: real, p1: Point, p2: Point)
    requires maxLen > 0.0
    ensures var r := Fill(sqrt, maxLen, p1, p2);
      forall j :: 0 <= j < |r| ==> r[j] == AlongAt(p1, p2, SegmentLength(sqrt, p1, p2), (j + 1) as real * maxLen)
  {
    var r := Fill(sqrt, maxLen, p1, p2);
    var len := SegmentLength(sqrt, p1, p2);
    if |r| > 0 {
      var m := InnerSteps(len, maxLen);
      assert r == seq(m, j requires 0 <= j < m => Intermediate(p1, p2, len, maxLen, j + 1));
      forall j | 0 <= j < |r|
        ensures r[j] == AlongAt(p1, p2, len, (j + 1) as real * maxLen)
      {
        assert r[j] == Intermediate(p1, p2, len, maxLen, j + 1);
      }
    }
  }

  /**
   * What a fill between p1 and p2 must satisfy for the dense line to repeat no point: its
   * first point is not at p1, its last not at p2, consecutive points differ, and an empty
   * fill joins two different locations.
   */
  predicate SeparatesEnds(fill: seq<Point>, p1: Point, p2: Point) {
    NoRepeats(fill) &&
    (|fill| == 0 ==> !SameLocation(p1, p2)) &&
    (|fill| > 0 ==> !SameLocation(p1, fill[0]) && !SameLocation(fill[|fill| - 1], p2))
  }

  /** The corrected fill of a segment between two different locations separates its ends. */
  lemma FillSeparatesEnds(sqrt: real -> real, maxLen: real, p1: Point, p2: Point)
    requires IsSqrt(sqrt) && maxLen > 0.0 && !SameLocation(p1, p2)
    ensures SeparatesEnds(Fill(sqrt, maxLen, p1, p2), p1, p2)
  {
    var r := Fill(sqrt, maxLen, p1, p2);
    var len := SegmentLength(sqrt, p1, p2);
    if |r| > 0 {
      FillOffsets(sqrt, maxLen, p1, p2);
      SegmentLengthZero(sqrt, p1, p2);
      InnerStepsBelow(len, maxLen, |r|);
      OffsetsSeparateEnds(p1, p2, len, maxLen, r);
    }
  }

  /** Points at offsets max, 2 max, ..., m max below len separate the two ends of the segment. */
  lemma OffsetsSeparateEnds(p1: Point, p2: Point, len: real, maxLen: real, r: seq<Point>)
    requires len > 0.0 && maxLen > 0.0 && !SameLocation(p1, p2) && |r| > 0
    requires |r| as real * maxLen < len
    requires forall j :: 0 <= j < |r| ==> r[j] == AlongAt(p1, p2, len, (j + 1) as real * maxLen)
    ensures SeparatesEnds(r, p1, p2)
  {
    forall j | 0 < j < |r|
      ensures ApartAt(r, j)
    {
      AlongAtDistinct(p1, p2, len, j as real * maxLen, (j + 1) as real * maxLen);
    }
    assert r[0] == AlongAt(p1, p2, len, maxLen);
    AlongAtStart(p1, p2, len);
    AlongAtDistinct(p1, p2, len, 0.0, maxLen);
    var k := |r| - 1;
    var last := (k + 1) as real * maxLen;
    assert r[k] == AlongAt(p1, p2, len, last);
    assert k + 1 == |r|;
    AlongAtDistinct(p1, p2, len, last, len);
    AlongAtEnd(p1, p2, len);
  }

  lemma AlongAtStart(p1: Point, p2: Point, len: real)
    requires len != 0.0
    ensures SameLocation(AlongAt(p1, p2, len, 0.0), p1)
  {
  }

  /** The corrected fill never reaches the end of its segment. */
  lemma InnerStepsBelow(len: real, maxLen: real, m: int)
    requires maxLen > 0.0 && len > maxLen && m == InnerSteps(len, maxLen)
    ensures m as real * maxLen < len
  {
  }

  /** The number of points densify inserts before the original point k. */
  function Inserted(fill: (Point, Point) -> seq<Point>, ps: seq<Point>, k: int): (n: nat)
    requires 0 <= k < |ps|
  {
    if k == 0 then 0 else Inserted(fill, ps, k - 1) + |fill(ps[k - 1], ps[k])|
  }

  /** Where the original point k ends up in the dense line. */
  function Position(fill: (Point, Point) -> seq<Point>, ps: seq<Point>, k: int): (i: nat)
    requires 0 <= k < |ps|
  {
    k + Inserted(fill, ps, k)
  }

  lemma {:induction false} InsertedPrefix(fill: (Point, Point) -> seq<Point>, ps: seq<Point>, m: int, k: int)
    requires 0 <= k < m <= |ps|
    ensures Inserted(fill, ps[..m], k) == Inserted(fill, ps, k)
    decreases k
  {
    if k > 0 {
      InsertedPrefix(fill, ps, m, k - 1);
    }
  }

  /**
   * densify with the segment fill as a parameter: the first point is copied, and every
   * further point is preceded by the fill of the segment that ends at it.
   */
  function DensifyWith(fill: (Point, Point) -> seq<Point>, ps: seq<Point>): (r: seq<Point>)
    ensures |ps| == 0 <==> r == []
    ensures |ps| > 0 ==> r[0] == ps[0] && r[|r| - 1] == ps[|ps| - 1]
    ensures |r| >= |ps|
    decreases |ps|
  {
    if |ps| <= 1 then ps
    else
      var n := |ps|;
      DensifyWith(fill, ps[..n - 1]) + fill(ps[n - 2], ps[n - 1]) + [ps[n - 1]]
  }

  /** The dense line ends with the last original point, at its position. */
  lemma {:induction false} DensifyLength(fill: (Point, Point) -> seq<Point>, ps: seq<Point>)
    requires |ps| > 0
    ensures |DensifyWith(fill, ps)| == Position(fill, ps, |ps| - 1) + 1
    decreases |ps|
  {
    var n := |ps|;
    if n >= 2 {
      var init := ps[..n - 1];
      DensifyLength(fill, init);
      DensifyUnfold(fill, ps, init);
      InsertedPrefix(fill, ps, n - 1, n - 2);
    }
  }

  /** densify keeps every original point, in order: point k sits at Position(k) of the dense line. */
  lemma {:induction false} DensifyKeepsOriginal(fill: (Point, Point) -> seq<Point>, ps: seq<Point>, k: int)
    requires 0 <= k < |ps|
    ensures Position(fill, ps, k) < |DensifyWith(fill, ps)|
    ensures DensifyWith(fill, ps)[Position(fill, ps, k)] == ps[k]
    decreases |ps|
  {
    var n := |ps|;
    DensifyLength(fill, ps);
    if k < n - 1 {
      var init := ps[..n - 1];
      DensifyKeepsOriginal(fill, init, k);
      DensifyUnfold(fill, ps, init);
      InsertedPrefix(fill, ps, n - 1, k);
      PositionBelowLast(fill, ps, k);
    }
  }

  /** Original points sit in increasing positions. */
  lemma {:induction false} PositionBelowLast(fill: (Point, Point) -> seq<Point>, ps: seq<Point>, k: int)
    requires 0 <= k < |ps| - 1
    ensures Position(fill, ps, k) < Position(fill, ps, |ps| - 2) + 1
    decreases |ps| - k
  {
    if k < |ps| - 2 {
      PositionBelowLast(fill, ps, k + 1);
    }
  }

  lemma DensifyUnfold(fill: (Point, Point) -> seq<Point>, ps: seq<Point>, init: seq<Point>)
    requires |ps| >= 2 && init == ps[..|ps| - 1]
    ensures DensifyWith(fill, ps) == DensifyWith(fill, init) + fill(ps[|ps| - 2], ps[|ps| - 1]) + [ps[|ps| - 1]]
  {
  }

  /** The segment ending at point k gets no fill. */
  predicate FillsNothing(fill: (Point, Point) -> seq<Point>, ps: seq<Point>, k: int)
    requires 0 < k < |ps|
  {
    fill(ps[k - 1], ps[k]) == []
  }

  /** The fill of the segment ending at point k separates its ends. */
  predicate SeparatedAt(fill: (Point, Point) -> seq<Point>, ps: seq<Point>, k: int)
    requires 0 < k < |ps|
  {
    SeparatesEnds(fill(ps[k - 1], ps[k]), ps[k - 1], ps[k])
  }

  /** Where no segment gets a fill, densify returns the line unchanged. */
  lemma {:induction false} DensifyWithoutFill(fill: (Point, Point) -> seq<Point>, ps: seq<Point>)
    requires forall k :: 0 < k < |ps| ==> FillsNothing(fill, ps, k)
    ensures DensifyWith(fill, ps) == ps
    decreases |ps|
  {
    var n := |ps|;
    if n >= 2 {
      var init := ps[..n - 1];
      forall k | 0 < k < |init|
        ensures FillsNothing(fill, init, k)
      {
        assert FillsNothing(fill, ps, k);
        assert init[k - 1] == ps[k - 1] && init[k] == ps[k];
      }
      DensifyWithoutFill(fill, init);
      DensifyUnfold(fill, ps, init);
      assert FillsNothing(fill, ps, n - 1);
      assert init + [ps[n - 1]] == ps;
    }
  }

  /** A fill that separates the ends of every segment leaves no point repeating its predecessor. */
  lemma {:induction false} DensifyWithoutRepeats(fill: (Point, Point) -> seq<Point>, ps: seq<Point>)
    requires forall k :: 0 < k < |ps| ==> SeparatedAt(fill, ps, k)
    ensures NoRepeats(DensifyWith(fill, ps))
    decreases |ps|
  {
    var n := |ps|;
    if n >= 2 {
      var init := ps[..n - 1];
      forall k | 0 < k < |init|
        ensures SeparatedAt(fill, init, k)
      {
        assert SeparatedAt(fill, ps, k);
        assert init[k - 1] == ps[k - 1] && init[k] == ps[k];
      }
      DensifyWithoutRepeats(fill, init);
      DensifyUnfold(fill, ps, init);
      assert SeparatedAt(fill, ps, n - 1);
      var front := DensifyWith(fill, init);
      assert front[|front| - 1] == ps[n - 2];
      ChainSeparated(front, fill(ps[n - 2], ps[n - 1]), ps[n - 1]);
    }
  }

  /** A run without repeats, a separating fill and the next point chain without repeats. */
  lemma ChainSeparated(front: seq<Point>, seg: seq<Point>, p2: Point)
    requires |front| > 0 && NoRepeats(front) && SeparatesEnds(seg, front[|front| - 1], p2)
    ensures NoRepeats(front + seg + [p2])
  {
    var r := front + seg + [p2];
    forall i | 0 < i < |r|
      ensures ApartAt(r, i)
    {
      if i < |front| {
        assert ApartAt(front, i);
        assert r[i - 1] == front[i - 1] && r[i] == front[i];
      } else if i < |front| + |seg| {
        if i == |front| {
          assert r[i - 1] == front[|front| - 1] && r[i] == seg[0];
        } else {
          assert ApartAt(seg, i - |front|);
          assert r[i - 1] == seg[i - 1 - |front|] && r[i] == seg[i - |front|];
        }
      } else if |seg| == 0 {
        assert r[i - 1] == front[|front| - 1];
      } else {
        assert r[i - 1] == seg[|seg| - 1];
      }
    }
  }

  /** densify exactly as written. */
  function DensifyAsWritten(sqrt: real -> real, ps: seq<Point>, maxSegmentLength: real): (r: seq<Point>)
    requires maxSegmentLength != 0.0
    ensures |ps| == 0 <==> r == []
    ensures |ps| > 0 ==> r[0] == ps[0] && r[|r| - 1] == ps[|ps| - 1]
    ensures |r| >= |ps|
  {
    DensifyWith((p1, p2) => FillAsWritten(sqrt, maxSegmentLength, p1, p2), ps)
  }

  /** densify with the corrected fill. */
  function Densify(sqrt: real -> real, ps: seq<Point>, maxSegmentLength: real): (r: seq<Point>)
    requires maxSegmentLength > 0.0
    ensures |ps| == 0 <==> r == []
    ensures |ps| > 0 ==> r[0] == ps[0] && r[|r| - 1] == ps[|ps| - 1]
    ensures |r| >= |ps|
  {
    DensifyWith((p1, p2) => Fill(sqrt, maxSegmentLength, p1, p2), ps)
  }

  /**
   * As written, densify repeats the start of every segment it fills: for a two-point line
   * longer than maxSegmentLength, the second point of the dense line is at the first.
   */
  lemma DensifyAsWrittenRepeatsStart(sqrt: real -> real, maxSegmentLength: real, p1: Point, p2: Point)
    requires IsSqrt(sqrt) && maxSegmentLength > 0.0
    requires SegmentLength(sqrt, p1, p2) > maxSegmentLength
    ensures var r := DensifyAsWritten(sqrt, [p1, p2], maxSegmentLength);
      |r| >= 3 && SameLocation(r[0], r[1]) && !NoRepeats(r)
  {
    var fill := (a, b) => FillAsWritten(sqrt, maxSegmentLength, a, b);
    var ps := [p1, p2];
    DensifyUnfold(fill, ps, [p1]);
    var f := FillAsWritten(sqrt, maxSegmentLength, p1, p2);
    var r := DensifyAsWritten(sqrt, ps, maxSegmentLength);
    assert r == [p1] + f + [p2];
    assert r[1] == f[0];
    assert !ApartAt(r, 1);
  }

  /** The corrected densify keeps a line free of repeated points. */
  lemma DensifyKeepsNoRepeats(sqrt: real -> real, ps: seq<Point>, maxSegmentLength: real)
    requires IsSqrt(sqrt) && maxSegmentLength > 0.0 && NoRepeats(ps)
    ensures NoRepeats(Densify(sqrt, ps, maxSegmentLength))
  {
    var fill := (a, b) => Fill(sqrt, maxSegmentLength, a, b);
    forall k | 0 < k < |ps|
      ensures SeparatedAt(fill, ps, k)
    {
      assert ApartAt(ps, k);
      FillSeparatesEnds(sqrt, maxSegmentLength, ps[k - 1], ps[k]);
    }
    DensifyWithoutRepeats(fill, ps);
  }

  /** The segment ending at point k is no longer than max. */
  predicate ShortAt(sqrt: real -> real, ps: seq<Point>, k: int, maxSegmentLength: real)
    requires 0 < k < |ps|
  {
    SegmentLength(sqrt, ps[k - 1], ps[k]) <= maxSegmentLength
  }

  /** A line whose segments are all short enough comes back from densify unchanged, as written and corrected. */
  lemma DensifyShortSegments(sqrt: real -> real, ps: seq<Point>, maxSegmentLength: real)
    requires maxSegmentLength > 0.0
    requires forall k :: 0 < k < |ps| ==> ShortAt(sqrt, ps, k, maxSegmentLength)
    ensures DensifyAsWritten(sqrt, ps, maxSegmentLength) == ps
    ensures Densify(sqrt, ps, maxSegmentLength) == ps
  {
    var fillAsWritten := (a, b) => FillAsWritten(sqrt, maxSegmentLength, a, b);
    var fill := (a, b) => Fill(sqrt, maxSegmentLength, a, b);
    forall k | 0 < k < |ps|
      ensures FillsNothing(fillAsWritten, ps, k) && FillsNothing(fill, ps, k)
    {
      assert ShortAt(sqrt, ps, k, maxSegmentLength);
    }
    DensifyWithoutFill(fillAsWritten, ps);
    DensifyWithoutFill(fill, ps);
  }
}

=== FILE: grid.dfy ===
/**
 * The raster value type of the renderer (Grid.java): a rectangular array of float cells
 * with a cell size and the coordinates of its west and south borders. Row 0 is the
 * northern row; column 0 is the western column.
 */
module Grids {
  import opened Wrappers
  import opened Numeric

  datatype Grid = Grid(cells: seq<seq<Cell>>, cellSize: real, west: real, south: real) {

    /** What every constructor guarantees: at least 3 x 3 cells, rectangular, positive cell size. */
    ghost predicate Valid() {
      |cells| >= 3 && |cells[0]| >= 3 && cellSize > 0.0 &&
      forall r :: 0 <= r < |cells| ==> |cells[r]| == |cells[0]|
    }

    function Rows(): nat { |cells| }

    function Cols(): nat
      requires |cells| > 0
    {
      |cells[0]|
    }

    /** getValue(col, row) */
    function Value(col: int, row: int): Cell
      requires Valid() && 0 <= col < Cols() && 0 <= row < Rows()
    {
      cells[row][col]
    }

    /** The y coordinate of row 0. */
    function North(): (n: real)
      requires Valid()
      ensures n > south
      ensures n - south == (Rows() - 1) as real * cellSize
    {
      south + (Rows() - 1) as real * cellSize
    }

    /** The x coordinate of the last column. */
    function East(): (e: real)
      requires Valid()
      ensures e > west
      ensures e - west == (Cols() - 1) as real * cellSize
    {
      west + (Cols() - 1) as real * cellSize
    }
  }

  /** A rectangular array of `rows` rows holding `cols` copies of `v`. */
  function Filled(cols: nat, rows: nat, v: Cell): (cells: seq<seq<Cell>>)
    ensures |cells| == rows
    ensures forall r :: 0 <= r < rows ==> |cells[r]| == cols && forall c :: 0 <= c < cols ==> cells[r][c] == v
  {
    seq(rows, _ => seq(cols, _ => v))
  }

  /** new Grid(cols, rows): fewer than 3 columns or rows is an IllegalArgumentException. */
  function NewGrid(cols: int, rows: int): (r: Result<Grid>)
    ensures r.Success? <==> cols >= 3 && rows >= 3
    ensures r.Success? ==> (r.value.Valid() && r.value.Cols() == cols && r.value.Rows() == rows
      && r.value.cellSize == 1.0 && r.value.west == 0.0 && r.value.south == 0.0
      && forall row, col :: 0 <= row < rows && 0 <= col < cols ==> r.value.cells[row][col] == Val(0.0))
  {
    if cols < 3 || rows < 3 then Failure(IllegalArgument)
    else Success(Grid(Filled(cols, rows, Val(0.0)), 1.0, 0.0, 0.0))
  }

  /** new Grid(cols, rows, cellSize): additionally rejects a cell size that is not positive. */
  function NewGridWithCellSize(cols: int, rows: int, cellSize: real): (r: Result<Grid>)
    ensures r.Success? <==> cols >= 3 && rows >= 3 && cellSize > 0.0
    ensures r.Success? ==> (r.value.Valid() && r.value.Cols() == cols && r.value.Rows() == rows
      && r.value.cellSize == cellSize && r.value.west == 0.0 && r.value.south == 0.0)
  {
    var g :- NewGrid(cols, rows);
    if cellSize <= 0.0 then Failure(IllegalArgument)
    else Success(g.(cellSize := cellSize))
  }

  /** The copy constructor: a grid of the template's size whose rows are copied one by one. */
  function Copy(template: Grid): (r: Grid)
    requires template.Valid()
    ensures r.Valid()
    ensures r.cellSize == template.cellSize && r.west == template.west && r.south == template.south
    ensures r.Rows() == template.Rows() && r.Cols() == template.Cols()
    ensures forall row, col :: 0 <= row < r.Rows() && 0 <= col < r.Cols() ==>
      r.cells[row][col] == template.cells[row][col]
  {
    var empty := NewGridWithCellSize(template.Cols(), template.Rows(), template.cellSize).value;
    var rows := seq(template.Rows(), row requires 0 <= row < template.Rows() =>
      if 0 <= row < |empty.cells| then template.cells[row][..empty.Cols()] else []);
    empty.(cells := rows, west := template.west, south := template.south)
  }

  /** isIdenticalInSize: a missing grid never matches; otherwise columns, rows and cell size agree. */
  predicate IsIdenticalInSize(a: Grid, b: Option<Grid>)
    requires a.Valid()
  {
    b.Some? && |b.value.cells| > 0 &&
    a.Cols() == b.value.Cols() && a.Rows() == b.value.Rows() && a.cellSize == b.value.cellSize
  }

  /** Same size is an equivalence between valid grids, and a copy has its template's size. */
  lemma IdenticalInSizeIsEquivalence(a: Grid, b: Grid, c: Grid)
    requires a.Valid() && b.Valid() && c.Valid()
    ensures IsIdenticalInSize(a, Some(a))
    ensures IsIdenticalInSize(a, Some(b)) <==> IsIdenticalInSize(b, Some(a))
    ensures IsIdenticalInSize(a, Some(b)) && IsIdenticalInSize(b, Some(c)) ==> IsIdenticalInSize(a, Some(c))
    ensures IsIdenticalInSize(a, Some(Copy(a))) && !IsIdenticalInSize(a, None)
  {
  }

  // ------------------------------------------------------------------------------------------
  // Sampling

  /** The column index the sampling code derives from x: (int)((x - west) / cellSize). */
  function ColOf(g: Grid, x: real): int
    requires g.Valid()
  {
    Trunc((x - g.west) / g.cellSize)
  }

  /** The row index the sampling code derives from y: (int)((north - y) / cellSize). */
  function RowOf(g: Grid, y: real): int
    requires g.Valid()
  {
    Trunc((g.North() - y) / g.cellSize)
  }

  /** h1 + (h2-h1)·relX + (h3-h1)·relY + (h1-h2-h3+h4)·relX·relY; NaN in any corner spreads. */
  function Blend(relX: real, relY: real, h1: Cell, h2: Cell, h3: Cell, h4: Cell): (h: Cell)
    ensures h.Void? <==> h1.Void? || h2.Void? || h3.Void? || h4.Void?
    ensures h.Val? && relX == 0.0 && relY == 1.0 ==> h == h3
    ensures h.Val? && relX == 0.0 && relY == 0.0 ==> h == h1
  {
    if h1.Void? || h2.Void? || h3.Void? || h4.Void? then Void
    else
      var a, b, c, d := h1.v, h2.v, h3.v, h4.v;
      Val(a + (b - a) * relX + (c - a) * relY + (a - b - c + d) * relX * relY)
  }

  /** w·(to - from) + from: w = 0 gives `from`, w = 1 gives `to`. */
  function Lerp(w: real, from: Cell, to: Cell): (h: Cell)
    ensures h.Void? <==> from.Void? || to.Void?
    ensures h.Val? && w == 0.0 ==> h == from
    ensures h.Val? && w == 1.0 ==> h == to
  {
    if from.Void? || to.Void? then Void else Val(w * (to.v - from.v) + from.v)
  }

  /**
   * getBilinearInterpol exactly as written: the indices come from truncating casts, the
   * lower-border branch weighs with the absolute dx, and the right-border branch
   * (verticalBilinearInterpol) weighs with the distance from the north border.
   */
  function BilinearAsWritten(g: Grid, x: real, y: real): (h: Cell)
    requires g.Valid()
    ensures ColOf(g, x) < 0 || ColOf(g, x) > g.Cols() - 1 || RowOf(g, y) < 0 || RowOf(g, y) > g.Rows() - 1
      ==> h == Void
    ensures ColOf(g, x) == g.Cols() - 1 && RowOf(g, y) == g.Rows() - 1
      ==> h == g.Value(g.Cols() - 1, g.Rows() - 1)
  {
    var cols, rows := g.Cols(), g.Rows();
    var dx := (x - g.west) / g.cellSize;
    var col := ColOf(g, x);
    var row := RowOf(g, y);
    if col < 0 || col > cols - 1 || row < 0 || row > rows - 1 then Void
    else if col == cols - 1 then
      if row == rows - 1 then g.cells[rows - 1][cols - 1]
      else
        var w := (g.North() - y) / g.cellSize;
        Lerp(w, g.cells[row + 1][col], g.cells[row][col])
    else if row == rows - 1 then
      Lerp(dx, g.cells[row][col], g.cells[row][col + 1])
    else
      var relX := dx - col as real;
      var relY := (y - g.south) / g.cellSize - rows as real + row as real + 2.0;
      Blend(relX, relY, g.cells[row + 1][col], g.cells[row + 1][col + 1], g.cells[row][col], g.cells[row][col + 1])
  }

  /**
   * Bilinear interpolation with the three defects of the original removed: points outside
   * [west, east] x [south, north] are void, and both border branches weigh with the
   * offset inside their cell, measured from the upper or left node.
   */
  function Bilinear(g: Grid, x: real, y: real): (h: Cell)
    requires g.Valid()
    ensures x < g.west || x > g.East() || y < g.south || y > g.North() ==> h == Void
    ensures ColOf(g, x) == g.Cols() - 1 && RowOf(g, y) == g.Rows() - 1 && x <= g.East() && y >= g.south
      ==> h == g.Value(g.Cols() - 1, g.Rows() - 1)
  {
    var cols, rows := g.Cols(), g.Rows();
    var dx := (x - g.west) / g.cellSize;
    var dy := (g.North() - y) / g.cellSize;
    if x < g.west || x > g.East() || y < g.south || y > g.North() then Void
    else
      InsideFraction(g, x, y);
      var col := ColOf(g, x);
      var row := RowOf(g, y);
      if col == cols - 1 then
        if row == rows - 1 then g.cells[rows - 1][cols - 1]
        else Lerp(dy - row as real, g.cells[row][col], g.cells[row + 1][col])
      else if row == rows - 1 then
        Lerp(dx - col as real, g.cells[row][col], g.cells[row][col + 1])
      else
        var relX := dx - col as real;
        var relY := (y - g.south) / g.cellSize - rows as real + row as real + 2.0;
        Blend(relX, relY, g.cells[row + 1][col], g.cells[row + 1][col + 1], g.cells[row][col], g.cells[row][col + 1])
  }

  /** Inside the grid bounds the truncated indices are valid grid indices. */
  lemma InsideFraction(g: Grid, x: real, y: real)
    requires g.Valid()
    requires g.west <= x <= g.East() && g.south <= y <= g.North()
    ensures 0 <= ColOf(g, x) <= g.Cols() - 1 && 0 <= RowOf(g, y) <= g.Rows() - 1
  {
    var (nx, ny) := ((g.Cols() - 1) as real, (g.Rows() - 1) as real);
    QuotientWithin(x - g.west, nx, g.cellSize);
    QuotientWithin(g.North() - y, ny, g.cellSize);
  }

  /** A quantity between none and n steps of a positive size is between 0 and n steps. */
  lemma QuotientWithin(a: real, n: real, size: real)
    requires size > 0.0 && 0.0 <= a <= n * size
    ensures 0.0 <= a / size <= n
  {
    var t := a / size;
    assert size * t == a;
    if t < 0.0 { ScaleLt(size, t, 0.0); }
    if t > n { ScaleLt(size, n, t); }
  }

  /** The x coordinate of column `col` and the y coordinate of row `row`. */
  function NodeX(g: Grid, col: int): real
    requires g.Valid()
  {
    g.west + col as real * g.cellSize
  }

  function NodeY(g: Grid, row: int): real
    requires g.Valid()
  {
    g.North() - row as real * g.cellSize
  }

  /** At a node the truncated indices recover the node's column and row. */
  lemma NodeIndices(g: Grid, col: nat, row: nat)
    requires g.Valid()
    ensures ColOf(g, NodeX(g, col)) == col && RowOf(g, NodeY(g, row)) == row
  {
    assert (NodeX(g, col) - g.west) / g.cellSize == col as real;
    assert (g.North() - NodeY(g, row)) / g.cellSize == row as real;
  }

  /** Every node lies inside the grid bounds. */
  lemma NodeInside(g: Grid, col: nat, row: nat)
    requires g.Valid() && col < g.Cols() && row < g.Rows()
    ensures g.west <= NodeX(g, col) <= g.East() && g.south <= NodeY(g, row) <= g.North()
  {
    StepsBetween(col as real, (g.Cols() - 1) as real, g.cellSize);
    StepsBetween(row as real, (g.Rows() - 1) as real, g.cellSize);
  }

  /** k steps of a positive size, 0 <= k <= n, cover no less than nothing and no more than n steps. */
  lemma StepsBetween(k: real, n: real, size: real)
    requires 0.0 <= k <= n && size > 0.0
    ensures 0.0 <= k * size <= n * size
  {
    if k > 0.0 { PositiveProduct(k, size); }
    if n > k {
      PositiveProduct(n - k, size);
      assert n * size - k * size == (n - k) * size;
    }
  }

  /** At an interior node the weight of the upper-left corner is 1 and that of the right column 0. */
  lemma NodeWeights(g: Grid, col: nat, row: nat)
    requires g.Valid() && col < g.Cols() && row < g.Rows()
    ensures (NodeX(g, col) - g.west) / g.cellSize - col as real == 0.0
    ensures (g.North() - NodeY(g, row)) / g.cellSize - row as real == 0.0
    ensures (NodeY(g, row) - g.south) / g.cellSize - g.Rows() as real + row as real + 2.0 == 1.0
  {
    var y := NodeY(g, row);
    assert y - g.south == (g.Rows() - 1 - row) as real * g.cellSize;
    assert (y - g.south) / g.cellSize == (g.Rows() - 1 - row) as real;
  }

  /** No cell of the grid is void. */
  ghost predicate NoVoid(g: Grid) {
    forall r, c :: 0 <= r < |g.cells| && 0 <= c < |g.cells[r]| ==> g.cells[r][c].Val?
  }

  /**
   * The corrected interpolation passes through every grid node: it returns the node's
   * value, or void when a corner of the node's cell is void (NaN spreads through the blend).
   */
  lemma BilinearAtNode(g: Grid, col: nat, row: nat)
    requires g.Valid() && col < g.Cols() && row < g.Rows()
    ensures var h := Bilinear(g, NodeX(g, col), NodeY(g, row)); h == g.Value(col, row) || h == Void
    ensures NoVoid(g) ==> Bilinear(g, NodeX(g, col), NodeY(g, row)) == g.Value(col, row)
  {
    NodeIndices(g, col, row);
    NodeInside(g, col, row);
    NodeWeights(g, col, row);
    var x, y := NodeX(g, col), NodeY(g, row);
    var v := g.Value(col, row);
    if col == g.Cols() - 1 && row < g.Rows() - 1 {
      assert Bilinear(g, x, y) == Lerp(0.0, v, g.cells[row + 1][col]);
    } else if col < g.Cols() - 1 && row == g.Rows() - 1 {
      assert Bilinear(g, x, y) == Lerp(0.0, v, g.cells[row][col + 1]);
    } else if col < g.Cols() - 1 && row < g.Rows() - 1 {
      assert Bilinear(g, x, y) ==
        Blend(0.0, 1.0, g.cells[row + 1][col], g.cells[row + 1][col + 1], v, g.cells[row][col + 1]);
    }
  }

  /** A 3 x 3 grid with cell size 1 whose south-west node sits at the origin. */
  function Sample3x3(top: seq<real>, middle: seq<real>, bottom: seq<real>): (g: Grid)
    requires |top| == 3 && |middle| == 3 && |bottom| == 3
    ensures g.Valid() && g.North() == 2.0 && g.East() == 2.0
  {
    var row := (s: seq<real>) requires |s| == 3 => [Val(s[0]), Val(s[1]), Val(s[2])];
    Grid([row(top), row(middle), row(bottom)], 1.0, 0.0, 0.0)
  }

  /**
   * The lower-border branch of the original weighs with dx instead of dx - col: at the
   * bottom node of column 1 it returns 7, the value of column 2, instead of 5.
   */
  lemma LowerBorderCounterexample()
    ensures var g := Sample3x3([0.0, 0.0, 0.0], [0.0, 0.0, 0.0], [0.0, 5.0, 7.0]);
      g.Value(1, 2) == Val(5.0) && BilinearAsWritten(g, 1.0, 0.0) == Val(7.0)
      && Bilinear(g, 1.0, 0.0) == Val(5.0)
  {
    var g := Sample3x3([0.0, 0.0, 0.0], [0.0, 0.0, 0.0], [0.0, 5.0, 7.0]);
    assert ColOf(g, 1.0) == 1 && RowOf(g, 0.0) == 2;
  }

  /**
   * The right-border branch of the original measures its weight from the north border and
   * puts it on the wrong node: at the north-east node it returns the value one row below.
   */
  lemma RightBorderCounterexample()
    ensures var g := Sample3x3([0.0, 0.0, 1.0], [0.0, 0.0, 0.0], [0.0, 0.0, 0.0]);
      g.Value(2, 0) == Val(1.0) && BilinearAsWritten(g, 2.0, 2.0) == Val(0.0)
      && Bilinear(g, 2.0, 2.0) == Val(1.0)
  {
    var g := Sample3x3([0.0, 0.0, 1.0], [0.0, 0.0, 0.0], [0.0, 0.0, 0.0]);
    assert ColOf(g, 2.0) == 2 && RowOf(g, 2.0) == 0;
  }

  /**
   * The truncating cast maps x in (west - cellSize, west) to column 0, so a point half a
   * cell west of the grid is extrapolated instead of being void.
   */
  lemma OutsideWestCounterexample()
    ensures var g := Sample3x3([0.0, 4.0, 0.0], [0.0, 0.0, 0.0], [0.0, 0.0, 0.0]);
      BilinearAsWritten(g, -0.5, 2.0) == Val(-2.0) && Bilinear(g, -0.5, 2.0) == Void
  {
    var g := Sample3x3([0.0, 4.0, 0.0], [0.0, 0.0, 0.0], [0.0, 0.0, 0.0]);
    assert ColOf(g, -0.5) == 0 && RowOf(g, 2.0) == 0;
  }

  // ------------------------------------------------------------------------------------------
  // Bicubic sampling

  /** interp_cubic: the cubic through four equally spaced knots, evaluated between c1 and c2. */
  function InterpCubic(u: real, c0: real, c1: real, c2: real, c3: real): (r: real)
    ensures u == 0.0 ==> r == c1
    ensures u == 1.0 ==> r == c2
  {
    (u * (u * (u * (c3 - 3.0 * c2 + 3.0 * c1 - c0) + (-c3 + 4.0 * c2 - 5.0 * c1 + 2.0 * c0)) + (c2 - c0)) + 2.0 * c1) / 2.0
  }

  /** The four stencil indices around i1, mirrored at the near border: i0 := i2 when i1 is 0, else i3 := i1 when i2 is n - 1. */
  function Stencil(i1: int, n: int): (s: seq<int>)
    ensures |s| == 4 && s[1] == i1 && s[2] == i1 + 1
    ensures s[0] == (if i1 == 0 then i1 + 1 else i1 - 1)
    ensures s[3] == (if i1 != 0 && i1 + 1 == n - 1 then i1 else i1 + 2)
  {
    var i0 := if i1 == 0 then i1 + 1 else i1 - 1;
    var i3 := if i1 != 0 && i1 + 1 == n - 1 then i1 else i1 + 2;
    [i0, i1, i1 + 1, i3]
  }

  /** All four entries of a stencil are indices into [0, n). */
  predicate StencilInRange(s: seq<int>, n: int)
    requires |s| == 4
  {
    forall k :: 0 <= k < 4 ==> 0 <= s[k] < n
  }

  /** Cubic convolution of a 4 x 4 block of cells, rows first; NaN anywhere spreads. */
  function Cubic2D(u: real, v: real, block: seq<seq<Cell>>): (h: Cell)
    requires |block| == 4 && forall j :: 0 <= j < 4 ==> |block[j]| == 4
    ensures h.Void? <==> exists j, k :: 0 <= j < 4 && 0 <= k < 4 && block[j][k].Void?
    ensures h.Val? && u == 0.0 && v == 0.0 ==> h == block[1][1]
  {
    if exists j, k :: 0 <= j < 4 && 0 <= k < 4 && block[j][k].Void? then Void
    else
      var line := (j: int) requires 0 <= j < 4 =>
        InterpCubic(u, block[j][0].v, block[j][1].v, block[j][2].v, block[j][3].v);
      Val(InterpCubic(v, line(0), line(1), line(2), line(3)))
  }

  /**
   * getBicubicInterpol as written: the arrays it calls c0..c3 are fetched as grid[colK],
   * that is as ROWS selected by column indices, and are then indexed by row indices.
   * An index outside the array raises ArrayIndexOutOfBoundsException.
   */
  function BicubicAsWritten(g: Grid, x: real, y: real): (r: Result<Cell>)
    requires g.Valid()
    ensures r.Success? <==>
      StencilInRange(Stencil(ColOf(g, x), g.Cols()), g.Rows()) && StencilInRange(Stencil(RowOf(g, y), g.Rows()), g.Cols())
  {
    var cs := Stencil(ColOf(g, x), g.Cols());
    var rs := Stencil(RowOf(g, y), g.Rows());
    if !StencilInRange(cs, g.Rows()) || !StencilInRange(rs, g.Cols()) then Failure(IndexOutOfBounds)
    else
      var u := (x - g.west) / g.cellSize - cs[1] as real;
      var v := (g.North() - y) / g.cellSize - rs[1] as real;
      var block := seq(4, j requires 0 <= j < 4 => seq(4, k requires 0 <= k < 4 => g.cells[cs[k]][rs[j]]));
      Success(Cubic2D(u, v, block))
  }

  /**
   * Bicubic interpolation with the array access the comments describe: c0..c3 are columns,
   * so the value of column cs[k] in row rs[j] is grid[rs[j]][cs[k]].
   */
  function Bicubic(g: Grid, x: real, y: real): (r: Result<Cell>)
    requires g.Valid()
    ensures r.Success? <==>
      StencilInRange(Stencil(ColOf(g, x), g.Cols()), g.Cols()) && StencilInRange(Stencil(RowOf(g, y), g.Rows()), g.Rows())
  {
    var cs := Stencil(ColOf(g, x), g.Cols());
    var rs := Stencil(RowOf(g, y), g.Rows());
    if !StencilInRange(cs, g.Cols()) || !StencilInRange(rs, g.Rows()) then Failure(IndexOutOfBounds)
    else
      var u := (x - g.west) / g.cellSize - cs[1] as real;
      var v := (g.North() - y) / g.cellSize - rs[1] as real;
      var block := seq(4, j requires 0 <= j < 4 => seq(4, k requires 0 <= k < 4 => g.cells[rs[j]][cs[k]]));
      Success(Cubic2D(u, v, block))
  }

  /**
   * The corrected bicubic interpolation passes through every node whose stencil fits in
   * the grid (column and row at most n - 2), or is void when its 4 x 4 block holds a void.
   */
  lemma BicubicAtNode(g: Grid, col: nat, row: nat)
    requires g.Valid() && col <= g.Cols() - 2 && row <= g.Rows() - 2
    ensures var r := Bicubic(g, NodeX(g, col), NodeY(g, row));
      r.Success? && (r.value == g.Value(col, row) || r.value == Void)
    ensures NoVoid(g) ==> Bicubic(g, NodeX(g, col), NodeY(g, row)) == Success(g.Value(col, row))
  {
    NodeIndices(g, col, row);
    NodeWeights(g, col, row);
  }

  /**
   * On a 3 x 5 grid (3 rows, 5 columns) the original fetches grid[3] near the east border,
   * past the last of its 3 rows, where the corrected version finds all 16 cells.
   */
  lemma BicubicCounterexample()
    ensures var g := Grid(Filled(5, 3, Val(1.0)), 1.0, 0.0, 0.0);
      g.Valid() && BicubicAsWritten(g, 3.0, 1.0).Failure? && Bicubic(g, 3.0, 1.0) == Success(Val(1.0))
  {
    var g := Grid(Filled(5, 3, Val(1.0)), 1.0, 0.0, 0.0);
    assert ColOf(g, 3.0) == 3 && RowOf(g, 1.0) == 1;
    assert NodeX(g, 3) == 3.0 && NodeY(g, 1) == 1.0;
    BicubicAtNode(g, 3, 1);
  }

  // ------------------------------------------------------------------------------------------
  // Slope and aspect

  /** The horizontal and vertical Sobel gradients of a 3 x 3 neighbourhood a b c / d e f / g h i. */
  function Sobel(a: real, b: real, c: real, d: real, f: real, g: real, h: real, i: real, cellSize: real): (grad: (real, real))
    requires cellSize > 0.0
  {
    (((c + 2.0 * f + i) - (a + 2.0 * d + g)) / (8.0 * cellSize),
     ((g + 2.0 * h + i) - (a + 2.0 * b + c)) / (8.0 * cellSize))
  }

  /** sqrt(dZdX² + dZdY²) of the eight neighbours; a void neighbour makes the slope void. */
  function SlopeOf(sqrt: real -> real, n: seq<Cell>, cellSize: real): (s: Cell)
    requires IsSqrt(sqrt) && |n| == 8 && cellSize > 0.0
    ensures s.Void? <==> exists k :: 0 <= k < 8 && n[k].Void?
    ensures s.Val? ==> s.v >= 0.0
    ensures s.Val? ==> var grad := Sobel(n[0].v, n[1].v, n[2].v, n[3].v, n[4].v, n[5].v, n[6].v, n[7].v, cellSize);
      s.v * s.v == grad.0 * grad.0 + grad.1 * grad.1
  {
    if exists k :: 0 <= k < 8 && n[k].Void? then Void
    else
      var grad := Sobel(n[0].v, n[1].v, n[2].v, n[3].v, n[4].v, n[5].v, n[6].v, n[7].v, cellSize);
      Val(sqrt(grad.0 * grad.0 + grad.1 * grad.1))
  }

  /** getSlopeInsideGrid: the neighbours of an interior cell, without any clamping. */
  function SlopeInsideGrid(sqrt: real -> real, g: Grid, col: int, row: int): (s: Cell)
    requires IsSqrt(sqrt) && g.Valid()
    requires 1 <= col <= g.Cols() - 2 && 1 <= row <= g.Rows() - 2
    ensures s.Val? ==> s.v >= 0.0
  {
    SlopeOf(sqrt, [g.Value(col - 1, row - 1), g.Value(col, row - 1), g.Value(col + 1, row - 1),
                   g.Value(col - 1, row), g.Value(col + 1, row),
                   g.Value(col - 1, row + 1), g.Value(col, row + 1), g.Value(col + 1, row + 1)], g.cellSize)
  }

  /** The neighbour indices getSlope uses: one step away, clamped into the grid. */
  function SlopeWindow(g: Grid, col: int, row: int): (w: (int, int, int, int))
    requires g.Valid() && 0 <= col < g.Cols() && 0 <= row < g.Rows()
    ensures 0 <= w.0 <= col <= w.1 < g.Cols() && 0 <= w.2 <= row <= w.3 < g.Rows()
    ensures w.0 == (if col > 0 then col - 1 else 0) && w.1 == (if col < g.Cols() - 1 then col + 1 else g.Cols() - 1)
    ensures w.2 == (if row > 0 then row - 1 else 0) && w.3 == (if row < g.Rows() - 1 then row + 1 else g.Rows() - 1)
  {
    (if col > 0 then col - 1 else 0, if col < g.Cols() - 1 then col + 1 else g.Cols() - 1,
     if row > 0 then row - 1 else 0, if row < g.Rows() - 1 then row + 1 else g.Rows() - 1)
  }

  /** getSlope: the Sobel slope with every neighbour index clamped into the grid. */
  function Slope(sqrt: real -> real, g: Grid, col: int, row: int): (s: Cell)
    requires IsSqrt(sqrt) && g.Valid() && 0 <= col < g.Cols() && 0 <= row < g.Rows()
    ensures s.Val? ==> s.v >= 0.0
  {
    var w := SlopeWindow(g, col, row);
    var (l, r, t, b) := (w.0, w.1, w.2, w.3);
    SlopeOf(sqrt, [g.Value(l, t), g.Value(col, t), g.Value(r, t), g.Value(l, row), g.Value(r, row),
                   g.Value(l, b), g.Value(col, b), g.Value(r, b)], g.cellSize)
  }

  /** Away from the border clamping changes nothing: both slope functions agree. */
  lemma SlopeAgreesInside(sqrt: real -> real, g: Grid, col: int, row: int)
    requires IsSqrt(sqrt) && g.Valid()
    requires 1 <= col <= g.Cols() - 2 && 1 <= row <= g.Rows() - 2
    ensures Slope(sqrt, g, col, row) == SlopeInsideGrid(sqrt, g, col, row)
  {
  }

  /** A grid of one constant value has slope 0 everywhere, borders included. */
  lemma {:induction false} FlatGridHasZeroSlope(sqrt: real -> real, g: Grid, col: int, row: int, z: real)
    requires IsSqrt(sqrt) && g.Valid() && 0 <= col < g.Cols() && 0 <= row < g.Rows()
    requires forall r, c :: 0 <= r < g.Rows() && 0 <= c < g.Cols() ==> g.cells[r][c] == Val(z)
    ensures Slope(sqrt, g, col, row) == Val(0.0)
  {
    var s := Slope(sqrt, g, col, row);
    assert s.Val?;
    var w := SlopeWindow(g, col, row);
    assert Sobel(z, z, z, z, z, z, z, z, g.cellSize) == (0.0, 0.0);
    assert s == Val(sqrt(0.0 * 0.0 + 0.0 * 0.0));
  }

  /** getAspect(col, row): atan2(north - south, east - west) of the four direct neighbours. */
  function Aspect(atan2: (real, real) -> real, g: Grid, col: int, row: int): (a: Result<Cell>)
    requires g.Valid()
    ensures a.Success? <==> 1 <= col <= g.Cols() - 2 && 1 <= row <= g.Rows() - 2
    ensures a.Success? ==> (a.value.Void? <==>
      (g.Value(col - 1, row).Void? || g.Value(col + 1, row).Void? || g.Value(col, row - 1).Void? || g.Value(col, row + 1).Void?))
  {
    if !(1 <= col <= g.Cols() - 2 && 1 <= row <= g.Rows() - 2) then Failure(IndexOutOfBounds)
    else
      var w, e, s, n := g.Value(col - 1, row), g.Value(col + 1, row), g.Value(col, row + 1), g.Value(col, row - 1);
      if w.Void? || e.Void? || s.Void? || n.Void? then Success(Void)
      else Success(Val(atan2(n.v - s.v, e.v - w.v)))
  }

  // ------------------------------------------------------------------------------------------
  // Minimum and maximum

  /**
   * One row of the getMinMax scan: a value lowers the minimum when it is smaller and raises
   * the maximum when it is larger; NaN fails both comparisons and is skipped.
   */
  function ScanRow(s: seq<Cell>, lo: real, hi: real): (m: (real, real))
    ensures m.0 <= lo && m.1 >= hi
    ensures forall i :: 0 <= i < |s| && s[i].Val? ==> m.0 <= s[i].v <= m.1
    ensures m.0 == lo || exists i :: 0 <= i < |s| && s[i].Val? && m.0 == s[i].v
    ensures m.1 == hi || exists i :: 0 <= i < |s| && s[i].Val? && m.1 == s[i].v
    decreases |s|
  {
    if |s| == 0 then (lo, hi)
    else
      var (lo', hi') := match s[0]
        case Void => (lo, hi)
        case Val(v) => (if v < lo then v else lo, if v > hi then v else hi);
      var m := ScanRow(s[1..], lo', hi');
      assert forall i :: 1 <= i < |s| ==> s[i] == s[1..][i - 1];
      m
  }

  /** The getMinMax scan over rows 0, 1, ... of the grid. */
  function ScanRows(rows: seq<seq<Cell>>, lo: real, hi: real): (m: (real, real))
    ensures m.0 <= lo && m.1 >= hi
    ensures forall r, c :: 0 <= r < |rows| && 0 <= c < |rows[r]| && rows[r][c].Val? ==>
      m.0 <= rows[r][c].v <= m.1
    ensures m.0 == lo || exists r, c :: 0 <= r < |rows| && 0 <= c < |rows[r]| && rows[r][c].Val? && m.0 == rows[r][c].v
    ensures m.1 == hi || exists r, c :: 0 <= r < |rows| && 0 <= c < |rows[r]| && rows[r][c].Val? && m.1 == rows[r][c].v
    decreases |rows|
  {
    if |rows| == 0 then (lo, hi)
    else
      var first := ScanRow(rows[0], lo, hi);
      var m := ScanRows(rows[1..], first.0, first.1);
      assert forall r :: 1 <= r < |rows| ==> rows[r] == rows[1..][r - 1];
      m
  }

  /**
   * getMinMax: starts from [Float.MAX_VALUE, -Float.MAX_VALUE], so every non-void value lies
   * in [min, max] and an all-void grid yields exactly the two start values.
   */
  function MinMax(g: Grid): (m: (real, real))
    requires g.Valid()
    ensures forall r, c :: 0 <= r < g.Rows() && 0 <= c < g.Cols() && g.cells[r][c].Val? ==>
      m.0 <= g.cells[r][c].v <= m.1
    ensures (forall r, c :: 0 <= r < g.Rows() && 0 <= c < g.Cols() ==> g.cells[r][c].Void?) ==>
      m == (FLOAT_MAX, -FLOAT_MAX)
    ensures m.0 == FLOAT_MAX || exists r, c :: 0 <= r < g.Rows() && 0 <= c < g.Cols() && g.cells[r][c].Val? && m.0 == g.cells[r][c].v
    ensures m.1 == -FLOAT_MAX || exists r, c :: 0 <= r < g.Rows() && 0 <= c < g.Cols() && g.cells[r][c].Val? && m.1 == g.cells[r][c].v
  {
    ScanRows(g.cells, FLOAT_MAX, -FLOAT_MAX)
  }
}

=== FILE: localmodel.dfy ===
/**
 * LocalGridModel: local hypsometric tints, a high-pass filtered grid divided by the local
 * standard deviation. The model keeps three lazily computed caches (the high-pass grid, the
 * standard-deviation grid and the filtered grid) and drops or refreshes them when its inputs
 * change.
 *
 * The Gaussian low-pass filter, the rescaling to the original value range and Math.sqrt are
 * collaborators whose code is not part of this model; they enter as the functions of a
 * Tools value. Caches are rasters: each has the original grid's position and cell size.
 */
module LocalGrids {
  import opened Wrappers
  import opened Numeric
  import opened CellOperators
  import opened Pyramids
  import Grids
  import StandardDeviation

  /** The collaborators: GridGaussLowPassOperator, GridScaleToRangeOperator and Math.sqrt. */
  datatype Tools = Tools(
    lowPass: (real, Raster) -> Raster,       // the Gaussian blur with a standard deviation
    scaleToRange: (seq<real>, Raster) -> Raster,  // rescaling to the [min, max] pair given
    sqrt: real -> real)

  ghost predicate Lawful(t: Tools) {
    IsSqrt(t.sqrt)
  }

  /** The fields of a LocalGridModel; a null reference is None. */
  datatype LocalModel = LocalModel(
    original: Option<Grids.Grid>,
    minMax: seq<real>,
    pyramid: Option<Pyramid>,
    highPassWeight: real,
    stdLevels: int,
    highPass: Option<Raster>,
    std: Option<Raster>,
    filtered: Option<Raster>)

  /** Every grid the model is given comes from a Grid constructor. */
  ghost predicate WellFormed(m: LocalModel) {
    m.original.Some? ==> m.original.value.Valid()
  }

  /** A new model: no grid, high-pass weight 1.5, three standard-deviation levels, empty caches. */
  function Initial(): (m: LocalModel)
    ensures WellFormed(m) && m.original.None?
    ensures m.highPassWeight == 1.5 && m.stdLevels == 3
  {
    LocalModel(None, [], None, 1.5, 3, None, None, None)
  }

  // ------------------------------------------------------------------------------------------
  // The high-pass weights

  /** The smallest Gaussian standard deviation, used for a high-pass weight of 0. */
  const MIN_STD_DEV: real := 0.3
  /** The standard deviation for a high-pass weight of 1, matching the pyramid's first level. */
  const STD_DEV_1: real := 1.2

  /** The Gaussian standard deviation for a high-pass weight below 1. */
  function GaussStdDev(highPassWeight: real): (s: real)
    ensures 0.0 <= highPassWeight < 1.0 ==> MIN_STD_DEV <= s < MIN_STD_DEV + STD_DEV_1
    ensures highPassWeight == 0.0 ==> s == MIN_STD_DEV
  {
    highPassWeight * STD_DEV_1 + MIN_STD_DEV
  }

  /** A larger high-pass weight asks for a wider blur, so more detail lands in the high-pass grid. */
  lemma GaussStdDevIncreasing(a: real, b: real)
    requires a < b
    ensures GaussStdDev(a) < GaussStdDev(b)
  {
  }

  /** The loop body for level i: 1 below floor(w), the fraction w - floor(w) at floor(w), else unchanged. */
  function DetailWeight(highPassWeight: real, i: int, old_: real): real {
    if highPassWeight.Floor == i then highPassWeight - i as real
    else if highPassWeight.Floor > i then 1.0
    else old_
  }

  /**
   * The pyramid weights for a high-pass weight of at least 1: the first floor(w) levels at
   * full weight, the next at the fractional part of w, the others at createConstantWeights(0).
   */
  function DetailWeights(highPassWeight: real, p: Pyramid): (w: seq<real>)
    ensures |w| == p.levels
    ensures forall i :: 0 <= i < |w| ==> 0.0 <= w[i] <= 1.0
    ensures forall i :: 0 <= i < |w| && i != highPassWeight.Floor ==> w[i] == (if i < highPassWeight.Floor then 1.0 else 0.0)
  {
    var w := ConstantWeights(p, 0.0);
    seq(|w|, i requires 0 <= i < |w| => DetailWeight(highPassWeight, i, w[i]))
  }

  /**
   * The weights add up to the high-pass weight itself, or to the level count when the weight
   * asks for more levels than the pyramid has.
   */
  lemma DetailWeightsSum(highPassWeight: real, p: Pyramid)
    requires highPassWeight >= 0.0
    ensures Sum(DetailWeights(highPassWeight, p)) == Min(highPassWeight, p.levels as real)
  {
    var w := DetailWeights(highPassWeight, p);
    DetailPrefixSum(w, highPassWeight, |w|);
    assert w[..|w|] == w;
  }

  lemma {:induction false} DetailPrefixSum(w: seq<real>, highPassWeight: real, k: nat)
    requires highPassWeight >= 0.0 && k <= |w|
    requires forall i :: 0 <= i < |w| ==> w[i] == DetailWeight(highPassWeight, i, 0.0)
    ensures Sum(w[..k]) == if k <= highPassWeight.Floor then k as real else highPassWeight
  {
    if k > 0 {
      assert w[..k][..k - 1] == w[..k - 1];
      DetailPrefixSum(w, highPassWeight, k - 1);
    }
  }

  /**
   * A whole-number high-pass weight k selects the same band as the standard-deviation
   * operator's weights for k levels: k levels at full weight, none partially.
   */
  lemma WholeWeightIsBand(k: nat, p: Pyramid)
    ensures DetailWeights(k as real, p) == StandardDeviation.HighPassWeights(k, p)
  {
    assert (k as real).Floor == k;
  }

  // ------------------------------------------------------------------------------------------
  // The computations behind the caches

  /**
   * updateHighPassGrid's value: below weight 1 the difference between the grid and its
   * Gaussian blur; from 1 on the weighted sum of the pyramid levels, which needs a pyramid.
   */
  function HighPassOf(m: LocalModel, t: Tools): Result<Raster>
    requires m.original.Some?
  {
    var g := m.original.value;
    if m.highPassWeight < 1.0 then
      Difference(g.cells, t.lowPass(GaussStdDev(m.highPassWeight), g.cells))
    else
      match m.pyramid
      case None => Failure(NullPointer)
      case Some(p) => Success(p.sumLevels(DetailWeights(m.highPassWeight, p)))
  }

  /** updateStdGrid's value: the standard-deviation operator, as written, over the whole grid. */
  function StdOf(m: LocalModel, t: Tools): Result<Raster>
    requires Lawful(t) && WellFormed(m) && m.original.Some?
  {
    var g := m.original.value;
    match m.pyramid
    case None => Failure(NullPointer)
    case Some(p) => StandardDeviation.Chunk(t.sqrt, m.original, p, m.stdLevels, StandardDeviation.BorderAsWritten, Blank(g).cells, 0, g.Rows())
  }

  /** updateFilteredGrid's last step: highPass / (std + 1), rescaled to the original range. */
  function FilteredOf(highPass: Raster, std: Raster, minMax: seq<real>, t: Tools): (r: Result<Raster>)
    ensures r.Failure? <==> !Covers(std, highPass)
    ensures r.Success? ==> r.value == t.scaleToRange(minMax, Quotient(highPass, std, 1.0).value)
  {
    var q :- Quotient(highPass, std, 1.0);
    Success(t.scaleToRange(minMax, q))
  }

  /** What getFilteredGrid returns when every cache is computed afresh from the model's inputs. */
  function Fresh(m: LocalModel, t: Tools): Result<Option<Raster>>
    requires Lawful(t) && WellFormed(m)
  {
    if m.original.None? then Success(None)
    else
      var hp :- HighPassOf(m, t);
      var s :- StdOf(m, t);
      var f :- FilteredOf(hp, s, m.minMax, t);
      Success(Some(f))
  }

  /** Without a grid there is nothing in the caches. */
  ghost predicate NoGridNoCaches(m: LocalModel) {
    m.original.None? ==> m.highPass.None? && m.std.None? && m.filtered.None?
  }

  /** A cached high-pass grid is the one the current grid, weight and pyramid give. */
  ghost predicate HighPassCurrent(m: LocalModel, t: Tools) {
    m.original.Some? && m.highPass.Some? ==> HighPassOf(m, t) == Success(m.highPass.value)
  }

  /** A cached standard-deviation grid is the one the current grid, level count and pyramid give. */
  ghost predicate StdCurrent(m: LocalModel, t: Tools)
    requires Lawful(t) && WellFormed(m)
  {
    m.original.Some? && m.std.Some? ==> StdOf(m, t) == Success(m.std.value)
  }

  /** A cached filtered grid is the one the cached high-pass and standard-deviation grids give. */
  ghost predicate FilteredCurrent(m: LocalModel, t: Tools) {
    m.original.Some? && m.filtered.Some? ==> (m.highPass.Some? && m.std.Some?
      && FilteredOf(m.highPass.value, m.std.value, m.minMax, t) == Success(m.filtered.value))
  }

  /** Every cache holds what its computation gives for the current inputs. */
  ghost predicate Coherent(m: LocalModel, t: Tools)
    requires Lawful(t) && WellFormed(m)
  {
    NoGridNoCaches(m) && HighPassCurrent(m, t) && StdCurrent(m, t) && FilteredCurrent(m, t)
  }

  // ------------------------------------------------------------------------------------------
  // Operations

  /** setGrid: store the grid, its range and its pyramid, and drop all three caches. */
  function SetGrid(m: LocalModel, grid: Option<Grids.Grid>, minMax: seq<real>, pyramid: Option<Pyramid>): (r: LocalModel)
    requires grid.Some? ==> grid.value.Valid()
    ensures WellFormed(r)
    ensures r.original == grid && r.minMax == minMax && r.pyramid == pyramid
    ensures r.highPass.None? && r.std.None? && r.filtered.None?
    ensures r.highPassWeight == m.highPassWeight && r.stdLevels == m.stdLevels
  {
    m.(original := grid, minMax := minMax, pyramid := pyramid, highPass := None, std := None, filtered := None)
  }

  /** updateHighPassGrid: a no-op without a grid; otherwise only the high-pass cache changes. */
  function UpdateHighPass(m: LocalModel, t: Tools): (r: Result<LocalModel>)
    ensures m.original.None? ==> r == Success(m)
    ensures r.Success? ==> r.value == m.(highPass := r.value.highPass)
    ensures r.Success? && m.original.Some? ==> r.value.highPass.Some?
    ensures m.original.Some? && m.highPassWeight >= 1.0 && m.pyramid.None? ==> r == Failure(NullPointer)
    ensures m.original.Some? && m.highPassWeight >= 1.0 && m.pyramid.Some? ==>
      r == Success(m.(highPass := Some(m.pyramid.value.sumLevels(DetailWeights(m.highPassWeight, m.pyramid.value)))))
    ensures r.Success? && m.original.Some? && m.highPassWeight < 1.0 ==>
      var g := m.original.value.cells;
      var hp := r.value.highPass.value;
      var low := t.lowPass(GaussStdDev(m.highPassWeight), g);
      SameShape(hp, g) && Covers(low, g) && forall row, col :: 0 <= row < |g| && 0 <= col < |g[row]| ==>
        (hp[row][col].Val? ==> low[row][col].Val? && g[row][col].Val? && hp[row][col].v + low[row][col].v == g[row][col].v)
  {
    if m.original.None? then Success(m)
    else
      var hp :- HighPassOf(m, t);
      Success(m.(highPass := Some(hp)))
  }

  /** updateStdGrid: a no-op without a grid; otherwise only the standard-deviation cache changes. */
  function UpdateStd(m: LocalModel, t: Tools): (r: Result<LocalModel>)
    requires Lawful(t) && WellFormed(m)
    ensures m.original.None? ==> r == Success(m)
    ensures r.Success? ==> r.value == m.(std := r.value.std)
    ensures m.original.Some? && m.pyramid.None? ==> r == Failure(NullPointer)
    ensures r.Success? && m.original.Some? ==> r.value.std.Some? && SameShape(r.value.std.value, m.original.value.cells)
  {
    if m.original.None? then Success(m)
    else
      var s :- StdOf(m, t);
      Success(m.(std := Some(s)))
  }

  /**
   * updateFilteredGrid: a no-op without a grid; otherwise the missing high-pass and
   * standard-deviation caches are filled, and the filtered grid is recomputed from them.
   */
  function UpdateFiltered(m: LocalModel, t: Tools): (r: Result<LocalModel>)
    requires Lawful(t) && WellFormed(m)
    ensures m.original.None? ==> r == Success(m)
    ensures r.Success? ==> (r.value.original == m.original && r.value.minMax == m.minMax && r.value.pyramid == m.pyramid
      && r.value.highPassWeight == m.highPassWeight && r.value.stdLevels == m.stdLevels)
    ensures r.Success? && m.highPass.Some? ==> r.value.highPass == m.highPass
    ensures r.Success? && m.std.Some? ==> r.value.std == m.std
    ensures r.Success? && m.original.Some? ==> (r.value.highPass.Some? && r.value.std.Some? && r.value.filtered.Some?
      && FilteredOf(r.value.highPass.value, r.value.std.value, m.minMax, t) == Success(r.value.filtered.value))
  {
    if m.original.None? then Success(m)
    else
      var m1 :- if m.highPass.None? then UpdateHighPass(m, t) else Success(m);
      var m2 :- if m1.std.None? then UpdateStd(m1, t) else Success(m1);
      match (m2.highPass, m2.std)
      case (Some(hp), Some(s)) =>
        var f :- FilteredOf(hp, s, m2.minMax, t);
        Success(m2.(filtered := Some(f)))
      case _ => Failure(IllegalArgument)
  }

  /** getFilteredGrid: a cached filtered grid is returned as is; otherwise it is computed first. */
  function GetFiltered(m: LocalModel, t: Tools): (r: Result<(LocalModel, Option<Raster>)>)
    requires Lawful(t) && WellFormed(m)
    ensures m.filtered.Some? ==> r == Success((m, m.filtered))
    ensures m.original.None? && m.filtered.None? ==> r == Success((m, None))
    ensures r.Success? ==> r.value.1 == r.value.0.filtered && WellFormed(r.value.0)
    ensures r.Success? && m.original.Some? ==> r.value.1.Some?
  {
    if m.filtered.Some? then Success((m, m.filtered))
    else
      var m1 :- UpdateFiltered(m, t);
      Success((m1, m1.filtered))
  }

  /** setHighPassWeight: any value is accepted; the high-pass and filtered grids are recomputed. */
  function SetHighPassWeight(m: LocalModel, highPassWeight: real, t: Tools): (r: Result<LocalModel>)
    requires Lawful(t) && WellFormed(m)
    ensures m.original.None? ==> r == Success(m.(highPassWeight := highPassWeight))
    ensures r.Success? ==> (r.value.highPassWeight == highPassWeight && r.value.stdLevels == m.stdLevels
      && r.value.original == m.original && WellFormed(r.value))
    ensures r.Success? && m.original.Some? ==> (r.value.highPass.Some? && r.value.filtered.Some?
      && HighPassOf(m.(highPassWeight := highPassWeight), t) == Success(r.value.highPass.value))
  {
    var m1 :- UpdateHighPass(m.(highPassWeight := highPassWeight), t);
    UpdateFiltered(m1, t)
  }

  /**
   * setLocalGridStandardDeviationLevels: with Java assertions enabled a level count below 1
   * fails the assertion; with them disabled (the JVM default) any count is stored. The
   * standard-deviation and filtered grids are then recomputed.
   */
  function SetStdLevels(m: LocalModel, levels: int, t: Tools, assertions: bool): (r: Result<LocalModel>)
    requires Lawful(t) && WellFormed(m)
    ensures assertions && levels <= 0 ==> r == Failure(AssertionFailed)
    ensures (levels > 0 || !assertions) && m.original.None? ==> r == Success(m.(stdLevels := levels))
    ensures r.Success? ==> (r.value.stdLevels == levels && r.value.highPassWeight == m.highPassWeight
      && r.value.original == m.original && WellFormed(r.value))
    ensures r.Success? && m.original.Some? ==> (r.value.std.Some? && r.value.filtered.Some?
      && StdOf(m.(stdLevels := levels), t) == Success(r.value.std.value))
  {
    if assertions && levels <= 0 then Failure(AssertionFailed)
    else
      var m1 :- UpdateStd(m.(stdLevels := levels), t);
      UpdateFiltered(m1, t)
  }

  // ------------------------------------------------------------------------------------------
  // The caches never go stale

  lemma InitialCoherent(t: Tools)
    requires Lawful(t)
    ensures Coherent(Initial(), t)
  {
  }

  lemma SetGridCoherent(m: LocalModel, grid: Option<Grids.Grid>, minMax: seq<real>, pyramid: Option<Pyramid>, t: Tools)
    requires Lawful(t) && (grid.Some? ==> grid.value.Valid())
    ensures Coherent(SetGrid(m, grid, minMax, pyramid), t)
  {
  }

  /**
   * updateHighPassGrid refreshes the high-pass cache; it leaves the filtered grid stale,
   * which is why every caller follows it with updateFilteredGrid.
   */
  lemma UpdateHighPassCoherent(m: LocalModel, t: Tools)
    requires Lawful(t) && WellFormed(m) && NoGridNoCaches(m) && StdCurrent(m, t)
    requires UpdateHighPass(m, t).Success?
    ensures WellFormed(UpdateHighPass(m, t).value)
    ensures NoGridNoCaches(UpdateHighPass(m, t).value)
    ensures HighPassCurrent(UpdateHighPass(m, t).value, t) && StdCurrent(UpdateHighPass(m, t).value, t)
  {
  }

  lemma UpdateStdCoherent(m: LocalModel, t: Tools)
    requires Lawful(t) && WellFormed(m) && NoGridNoCaches(m) && HighPassCurrent(m, t)
    requires UpdateStd(m, t).Success?
    ensures WellFormed(UpdateStd(m, t).value)
    ensures NoGridNoCaches(UpdateStd(m, t).value)
    ensures HighPassCurrent(UpdateStd(m, t).value, t) && StdCurrent(UpdateStd(m, t).value, t)
  {
  }

  /** updateFilteredGrid makes every cache current, given current high-pass and deviation caches. */
  lemma UpdateFilteredCoherent(m: LocalModel, t: Tools)
    requires Lawful(t) && WellFormed(m) && NoGridNoCaches(m) && HighPassCurrent(m, t) && StdCurrent(m, t)
    requires UpdateFiltered(m, t).Success?
    ensures WellFormed(UpdateFiltered(m, t).value)
    ensures Coherent(UpdateFiltered(m, t).value, t)
  {
    if m.original.Some? {
      if m.highPass.None? {
        UpdateHighPassCoherent(m, t);
      }
      var m1 := if m.highPass.None? then UpdateHighPass(m, t).value else m;
      if m1.std.None? {
        UpdateStdCoherent(m1, t);
      }
    }
  }

  /** Changing the high-pass weight keeps the caches coherent with the new weight. */
  lemma SetHighPassWeightCoherent(m: LocalModel, highPassWeight: real, t: Tools)
    requires Lawful(t) && WellFormed(m) && Coherent(m, t)
    requires SetHighPassWeight(m, highPassWeight, t).Success?
    ensures Coherent(SetHighPassWeight(m, highPassWeight, t).value, t)
  {
    var m0 := m.(highPassWeight := highPassWeight);
    var m1 := UpdateHighPass(m0, t).value;
    assert m.original.Some? ==> StdOf(m0, t) == StdOf(m, t);
    UpdateHighPassCoherent(m0, t);
    UpdateFilteredCoherent(m1, t);
  }

  /** Changing the level count keeps the caches coherent with the new count. */
  lemma SetStdLevelsCoherent(m: LocalModel, levels: int, t: Tools, assertions: bool)
    requires Lawful(t) && WellFormed(m) && Coherent(m, t)
    requires SetStdLevels(m, levels, t, assertions).Success?
    ensures Coherent(SetStdLevels(m, levels, t, assertions).value, t)
  {
    var m0 := m.(stdLevels := levels);
    var m1 := UpdateStd(m0, t).value;
    assert m.original.Some? ==> HighPassOf(m0, t) == HighPassOf(m, t);
    UpdateStdCoherent(m0, t);
    UpdateFilteredCoherent(m1, t);
  }

  /**
   * The cache is invisible: on a coherent model getFilteredGrid fails exactly when the
   * computation from scratch fails, and otherwise returns the grid it computes.
   */
  lemma GetFilteredIsFresh(m: LocalModel, t: Tools)
    requires Lawful(t) && WellFormed(m) && Coherent(m, t)
    ensures GetFiltered(m, t).Success? <==> Fresh(m, t).Success?
    ensures GetFiltered(m, t).Success? ==> GetFiltered(m, t).value.1 == Fresh(m, t).value
  {
    if m.original.Some? && m.filtered.None? {
      ComputedIsFresh(m, t);
    }
  }

  lemma ComputedIsFresh(m: LocalModel, t: Tools)
    requires Lawful(t) && WellFormed(m) && Coherent(m, t) && m.original.Some? && m.filtered.None?
    ensures UpdateFiltered(m, t).Success? <==> Fresh(m, t).Success?
    ensures UpdateFiltered(m, t).Success? ==> UpdateFiltered(m, t).value.filtered == Fresh(m, t).value
  {
    var m1 := if m.highPass.None? then UpdateHighPass(m, t) else Success(m);
    assert m1.Success? <==> HighPassOf(m, t).Success?;
    if m1.Success? {
      var m2 := if m1.value.std.None? then UpdateStd(m1.value, t) else Success(m1.value);
      assert m2.Success? <==> StdOf(m, t).Success?;
    }
  }

  /** A second getFilteredGrid call finds the cache filled and changes nothing. */
  lemma GetFilteredTwice(m: LocalModel, t: Tools)
    requires Lawful(t) && WellFormed(m)
    requires GetFiltered(m, t).Success? && m.original.Some?
    ensures GetFiltered(GetFiltered(m, t).value.0, t) == GetFiltered(m, t)
  {
  }
}

=== FILE: model.dfy ===
/**
 * The rendering model's own logic (Model.java): the weights that turn the Laplacian
 * pyramid into a generalized grid, the generalization switch, the predefined colour ramps
 * and their selection by name, the size of the destination image, and the branch
 * structure of updating the generalized grid.
 */
module TerrainModel {
  import opened Wrappers
  import opened Numeric
  import opened Argb
  import opened CellOperators
  import opened Pyramids
  import Grids
  import Colorizer

  /** The generalization parameters: how many pyramid levels are filtered, and by how much. */
  datatype Generalization = Generalization(maxLevels: int, details: real)

  /** Two filtered levels with details -1: every level keeps its full weight. */
  const DEFAULT_GENERALIZATION: Generalization := Generalization(2, -1.0)

  /** setGeneralizationDetails: values outside [-1, 1] are rejected, others stored. */
  function SetGeneralizationDetails(g: Generalization, details: real): (r: Result<Generalization>)
    ensures r.Failure? <==> details < -1.0 || details > 1.0
    ensures r.Failure? ==> r.error == IllegalArgument
    ensures r.Success? ==> r.value.details == details && r.value.maxLevels == g.maxLevels
  {
    if details < -1.0 || details > 1.0 then Failure(IllegalArgument)
    else Success(g.(details := details))
  }

  predicate IsGeneralizing(g: Generalization) {
    g.details > -1.0
  }

  /** The details value lies in [-1, 1], as every accepted setter call leaves it. */
  predicate Accepted(g: Generalization) {
    -1.0 <= g.details <= 1.0
  }

  // ------------------------------------------------------------------------------------------
  // Pyramid level weights

  /**
   * The slope m and intercept c of the weight line y = m * level + c. For details > 0 the
   * line crosses the level axis at details * maxLevels; otherwise it crosses the weight axis
   * at -details. Both reach 1 at level maxLevels (LineReachesOne).
   */
  function LineCoefficients(maxLevels: int, details: real): (mc: (real, real))
    requires maxLevels > 0 && details != 1.0
  {
    if details > 0.0 then
      (1.0 / (maxLevels as real * (1.0 - details)), details / (details - 1.0))
    else
      ((1.0 + details) / maxLevels as real, -details)
  }

  /** The unclamped weight line m * level + c. */
  function Line(maxLevels: int, details: real, level: int): real
    requires maxLevels > 0 && details != 1.0
  {
    var mc := LineCoefficients(maxLevels, details);
    mc.0 * level as real + mc.1
  }

  /** getPyramidLevelWeight: the weight of one pyramid level, level 0 holding the highest frequencies. */
  function LevelWeight(g: Generalization, level: int): (w: real)
    ensures 0.0 <= w <= 1.0
    ensures level >= g.maxLevels || g.maxLevels <= 0 ==> w == 1.0
    ensures g.details == 1.0 && 0 <= level < g.maxLevels ==> w == 0.0
  {
    if level >= g.maxLevels || g.maxLevels <= 0 then 1.0
    else if g.details == 1.0 then 0.0
    else Clamp(Line(g.maxLevels, g.details, level), 0.0, 1.0)
  }

  /** With details in [-1, 1) the line never falls. */
  lemma SlopeNonNegative(maxLevels: int, details: real)
    requires maxLevels > 0 && -1.0 <= details < 1.0
    ensures LineCoefficients(maxLevels, details).0 >= 0.0
  {
    var M := maxLevels as real;
    if details > 0.0 {
      var q := M * (1.0 - details);
      PositiveProduct(M, 1.0 - details);
      var m := 1.0 / q;
      assert m * q == 1.0;
      if m < 0.0 { PositiveProduct(-m, q); }
    } else {
      var m := (1.0 + details) / M;
      assert m * M == 1.0 + details;
      if m < 0.0 { PositiveProduct(-m, M); }
    }
  }

  /** t * d == d with d != 0 forces t == 1. */
  lemma CancelUnit(t: real, d: real)
    requires d != 0.0 && t * d == d
    ensures t == 1.0
  {
    if t > 1.0 && d > 0.0 { PositiveProduct(t - 1.0, d); }
    if t > 1.0 && d < 0.0 { PositiveProduct(t - 1.0, -d); }
    if t < 1.0 && d > 0.0 { PositiveProduct(1.0 - t, d); }
    if t < 1.0 && d < 0.0 { PositiveProduct(1.0 - t, -d); }
  }

  /** In both branches the line passes through weight 1 at level maxLevels. */
  lemma LineReachesOne(maxLevels: int, details: real)
    requires maxLevels > 0 && -1.0 <= details < 1.0
    ensures Line(maxLevels, details, maxLevels) == 1.0
  {
    var M := maxLevels as real;
    var (m, c) := LineCoefficients(maxLevels, details);
    if details > 0.0 {
      var u := 1.0 - details;
      assert m * (M * u) == 1.0;
      assert c * (details - 1.0) == details;
      assert (m * M) * u == 1.0;
      assert c * u == -details;
      assert (m * M + c) * u == u;
      CancelUnit(m * M + c, u);
    } else {
      assert m * M == 1.0 + details;
    }
  }

  lemma LineMonotone(m: real, c: real, x1: real, x2: real)
    requires m >= 0.0 && x1 <= x2
    ensures m * x1 + c <= m * x2 + c
  {
    if m > 0.0 { ScaleLe(m, x1, x2); } else { assert m * x1 == 0.0 && m * x2 == 0.0; }
  }

  lemma LineNondecreasing(maxLevels: int, details: real, l1: int, l2: int)
    requires maxLevels > 0 && -1.0 <= details < 1.0 && l1 <= l2
    ensures Line(maxLevels, details, l1) <= Line(maxLevels, details, l2)
  {
    SlopeNonNegative(maxLevels, details);
    var mc := LineCoefficients(maxLevels, details);
    LineMonotone(mc.0, mc.1, l1 as real, l2 as real);
  }

  lemma ClampMonotone(x: real, y: real, lo: real, hi: real)
    requires lo <= hi && x <= y
    ensures Clamp(x, lo, hi) <= Clamp(y, lo, hi)
  {
  }

  /** Coarser levels never weigh less than finer ones: the weight is nondecreasing in the level. */
  lemma {:induction false} WeightMonotone(g: Generalization, l1: int, l2: int)
    requires Accepted(g) && l1 <= l2
    ensures LevelWeight(g, l1) <= LevelWeight(g, l2)
  {
    if l2 >= g.maxLevels || g.maxLevels <= 0 || g.details == 1.0 {
    } else {
      LineNondecreasing(g.maxLevels, g.details, l1, l2);
      ClampMonotone(Line(g.maxLevels, g.details, l1), Line(g.maxLevels, g.details, l2), 0.0, 1.0);
    }
  }

  /** With details > 0 every level up to details * maxLevels is removed (weight 0). */
  lemma ZeroUpToCrossing(g: Generalization, level: int)
    requires g.maxLevels > 0 && 0.0 < g.details < 1.0
    requires level as real <= g.details * g.maxLevels as real
    ensures LevelWeight(g, level) == 0.0
  {
    var M := g.maxLevels as real;
    var d := g.details;
    var u := 1.0 - d;
    var (m, c) := LineCoefficients(g.maxLevels, d);
    SlopeNonNegative(g.maxLevels, d);
    assert m * (M * u) == 1.0;
    assert c * u == -d;
    var k := m * M;
    assert k * u == 1.0;
    assert d * (k * u) == d;
    assert (d * k + c) * u == 0.0;
    ZeroFactor(d * k + c, u);
    var L := level as real;
    if m > 0.0 { ScaleLe(m, L, d * M); }
    assert m * (d * M) == d * k;
    assert m * L + c <= 0.0;
  }

  /**
   * Not generalizing means no filtering: an accepted details value of -1 gives the flat
   * line m = 0, c = 1 and weight 1 on every level.
   */
  lemma NotGeneralizingKeepsAllLevels(g: Generalization, level: int)
    requires Accepted(g) && !IsGeneralizing(g)
    ensures LevelWeight(g, level) == 1.0
  {
    if level < g.maxLevels && g.maxLevels > 0 {
      var mc := LineCoefficients(g.maxLevels, g.details);
      assert mc.0 == 0.0 / g.maxLevels as real;
    }
  }

  /** The weight vector handed to sumLevels: one weight per pyramid level. */
  function Weights(g: Generalization, levels: nat): (w: seq<real>)
    ensures |w| == levels
    ensures forall i :: 0 <= i < levels ==> w[i] == LevelWeight(g, i)
  {
    seq(levels, i requires 0 <= i < levels => LevelWeight(g, i))
  }

  /** The weight vector is sorted and lies in [0, 1]. */
  lemma WeightsSorted(g: Generalization, levels: nat)
    requires Accepted(g)
    ensures forall i :: 0 <= i < levels ==> 0.0 <= Weights(g, levels)[i] <= 1.0
    ensures forall i, j :: 0 <= i <= j < levels ==> Weights(g, levels)[i] <= Weights(g, levels)[j]
  {
    var w := Weights(g, levels);
    forall i, j | 0 <= i <= j < levels
      ensures w[i] <= w[j]
    {
      WeightMonotone(g, i, j);
    }
  }

  // ------------------------------------------------------------------------------------------
  // Updating the generalized grid

  /** The rescaling to the original grid's range leaves the shape and every void in place. */
  ghost predicate KeepsVoids(f: Raster -> Raster) {
    forall x: Raster :: SameShape(f(x), x)
      && forall r, c :: 0 <= r < |x| && 0 <= c < |x[r]| && x[r][c].Void? ==> f(x)[r][c].Void?
  }

  /**
   * updateGeneralizedGrid: nothing happens without a pyramid; without generalization the
   * grid is copied; otherwise the weighted pyramid sum gets the grid's voids and is scaled
   * back to the grid's value range.
   */
  function UpdateGeneralizedGrid(g: Generalization, grid: Grids.Grid, pyramid: Option<Pyramid>,
                                 scaleToRange: Raster -> Raster, current: Option<Raster>): (r: Option<Raster>)
    requires pyramid.Some? ==> SameShape(grid.cells, pyramid.value.sumLevels(Weights(g, pyramid.value.levels)))
    ensures pyramid.None? ==> r == current
    ensures pyramid.Some? && !IsGeneralizing(g) ==> r == Some(grid.cells)
    ensures pyramid.Some? && IsGeneralizing(g) ==>
      r == Some(scaleToRange(MaskAll(grid.cells, pyramid.value.sumLevels(Weights(g, pyramid.value.levels)))))
  {
    match pyramid
    case None => current
    case Some(p) =>
      if IsGeneralizing(g) then
        Some(scaleToRange(MaskAll(grid.cells, p.sumLevels(Weights(g, p.levels)))))
      else
        Some(grid.cells)
  }

  /**
   * Every void of the original grid is void in the generalized grid, whichever branch runs,
   * as long as the range scaling keeps voids.
   */
  lemma GeneralizedGridKeepsVoids(g: Generalization, grid: Grids.Grid, p: Pyramid, scaleToRange: Raster -> Raster, current: Option<Raster>)
    requires SameShape(grid.cells, p.sumLevels(Weights(g, p.levels)))
    requires KeepsVoids(scaleToRange)
    ensures var r := UpdateGeneralizedGrid(g, grid, Some(p), scaleToRange, current);
      r.Some? && SameShape(r.value, grid.cells)
      && forall row, col :: 0 <= row < |grid.cells| && 0 <= col < |grid.cells[row]| && grid.cells[row][col].Void? ==>
        r.value[row][col].Void?
  {
    if IsGeneralizing(g) {
      var sum := p.sumLevels(Weights(g, p.levels));
      var masked := MaskAll(grid.cells, sum);
      assert SameShape(scaleToRange(masked), masked);
    }
  }

  // ------------------------------------------------------------------------------------------
  // Colour ramps

  datatype NamedRamp = NamedRamp(name: string, ramp: Colorizer.Ramp)

  const BLACK: Rgb := Rgb(0, 0, 0)
  const WHITE: Rgb := Rgb(255, 255, 255)
  const GRAY: Rgb := Rgb(128, 128, 128)

  /** The six ramps the model offers, in the order they are offered. */
  function PredefinedRamps(): (rs: seq<NamedRamp>)
    ensures |rs| == 6
  {
    [ NamedRamp("Black-White", Colorizer.Ramp([BLACK, WHITE], [0.0, 1.0])),
      NamedRamp("Soft Gray", Colorizer.Ramp([GRAY, WHITE], [0.0, 1.0])),
      NamedRamp("Hard Gray", Colorizer.Ramp([BLACK, WHITE], [0.5, 1.0])),
      NamedRamp("Natural Light (Exposition)", Colorizer.Ramp(
        [Rgb(0x6d, 0x7e, 0xa1), Rgb(0x97, 0xa3, 0xba), Rgb(0xbc, 0xbc, 0xbc), Rgb(0xde, 0xda, 0xce), Rgb(0xe8, 0xe8, 0xe8)],
        [0.0, 0.56, 0.81, 0.93, 1.0])),
      NamedRamp("Swiss Style (Exposition)", Colorizer.Ramp(
        [Rgb(0x52, 0x6b, 0x75), Rgb(0x6a, 0x8e, 0x82), Rgb(0xa6, 0xb4, 0xa9), Rgb(0xe2, 0xd4, 0xac), Rgb(0xf7, 0xf3, 0xb1)],
        [0.0, 0.42, 0.73, 0.88, 1.0])),
      NamedRamp("Hypsometric", Colorizer.Ramp(
        [Rgb(120, 181, 141), Rgb(124, 172, 104), Rgb(190, 194, 107), Rgb(212, 218, 170), Rgb(225, 246, 244), Rgb(255, 255, 255)],
        [0.0, 0.08, 0.24, 0.43, 0.69, 0.89]))
    ]
  }

  /** The ramp a new model starts with is the first predefined one. */
  function InitialRamp(): (r: NamedRamp)
    ensures r in PredefinedRamps() && r.name == "Black-White"
  {
    PredefinedRamps()[0]
  }

  /** Positions given pairwise ascending are strictly increasing. */
  lemma AdjacentIncreasing(ps: seq<real>)
    requires forall i :: 0 <= i < |ps| - 1 ==> ps[i] < ps[i + 1]
    ensures forall i, j :: 0 <= i < j < |ps| ==> ps[i] < ps[j]
  {
    forall i, j | 0 <= i < j < |ps|
      ensures ps[i] < ps[j]
    {
      var k := i + 1;
      while k < j
        invariant i < k <= j && ps[i] < ps[k]
        decreases j - k
      {
        k := k + 1;
      }
    }
  }

  /** Every predefined ramp is usable by the colorizer: matching lengths, channels, ascending knots. */
  lemma PredefinedRampsValid()
    ensures forall i :: 0 <= i < |PredefinedRamps()| ==> PredefinedRamps()[i].ramp.Valid()
  {
    var rs := PredefinedRamps();
    forall i | 0 <= i < |rs|
      ensures rs[i].ramp.Valid()
    {
      AdjacentIncreasing(rs[i].ramp.positions);
    }
  }

  /** No two predefined ramps share a name. */
  lemma PredefinedNamesDistinct()
    ensures forall i, j :: 0 <= i < j < |PredefinedRamps()| ==> PredefinedRamps()[i].name != PredefinedRamps()[j].name
  {
    var rs := PredefinedRamps();
    forall i, j | 0 <= i < j < |rs|
      ensures rs[i].name != rs[j].name
    {
      assert |rs[i].name| != |rs[j].name| || rs[i].name[0] != rs[j].name[0];
    }
  }

  /** selectColorRamp: the first ramp with the name, or the current ramp when no ramp has it. */
  function SelectColorRamp(ramps: seq<NamedRamp>, current: NamedRamp, name: string): (r: NamedRamp)
    ensures (forall i :: 0 <= i < |ramps| ==> ramps[i].name != name) ==> r == current
    ensures forall i :: 0 <= i < |ramps| && ramps[i].name == name && (forall j :: 0 <= j < i ==> ramps[j].name != name) ==>
      r == ramps[i]
    ensures r == current || (r in ramps && r.name == name)
    decreases |ramps|
  {
    if |ramps| == 0 then current
    else if ramps[0].name == name then ramps[0]
    else SelectColorRamp(ramps[1..], current, name)
  }

  /** Choosing a predefined ramp by its name yields exactly that ramp, whatever was current. */
  lemma SelectPredefined(current: NamedRamp, k: int)
    requires 0 <= k < |PredefinedRamps()|
    ensures SelectColorRamp(PredefinedRamps(), current, PredefinedRamps()[k].name) == PredefinedRamps()[k]
  {
    PredefinedNamesDistinct();
  }

  /** Selecting the same name twice changes nothing the second time. */
  lemma {:induction false} SelectIdempotent(ramps: seq<NamedRamp>, current: NamedRamp, name: string)
    ensures var once := SelectColorRamp(ramps, current, name);
      SelectColorRamp(ramps, once, name) == once
    decreases |ramps|
  {
    if |ramps| > 0 && ramps[0].name != name {
      SelectIdempotent(ramps[1..], current, name);
    }
  }

  // ------------------------------------------------------------------------------------------
  // Destination image

  /**
   * createDestinationImage: the bivariate mode with an attribute grid uses that grid's size;
   * otherwise the generalized grid's size times the scale, or no image without a generalized
   * grid. A width or height below 1 is refused by the image constructor.
   */
  function DestinationSize(v: Colorizer.ColorVisualization, attribute1: Option<Grids.Grid>,
                           generalized: Option<Grids.Grid>, scale: int): (r: Result<Option<(int, int)>>)
    requires attribute1.Some? ==> attribute1.value.Valid()
    requires generalized.Some? ==> generalized.value.Valid()
    ensures r.Success? && r.value.Some? ==> r.value.value.0 >= 1 && r.value.value.1 >= 1
    ensures v == Colorizer.BivariateColor && attribute1.Some? && r.Success? ==>
      r.value == Some((attribute1.value.Cols(), attribute1.value.Rows()))
    ensures !(v == Colorizer.BivariateColor && attribute1.Some?) ==>
      (generalized.None? <==> r == Success(None))
    ensures !(v == Colorizer.BivariateColor && attribute1.Some?) && r.Success? && generalized.Some? ==>
      r.value == Some((generalized.value.Cols() * scale, generalized.value.Rows() * scale))
  {
    if v == Colorizer.BivariateColor && attribute1.Some? then
      Image(attribute1.value.Cols(), attribute1.value.Rows())
    else if generalized.None? then
      Success(None)
    else
      Image(generalized.value.Cols() * scale, generalized.value.Rows() * scale)
  }

  /** new BufferedImage(w, h): refused unless both dimensions are positive. */
  function Image(width: int, height: int): (r: Result<Option<(int, int)>>)
    ensures r.Failure? <==> width < 1 || height < 1
    ensures r.Success? ==> r.value == Some((width, height))
  {
    if width < 1 || height < 1 then Failure(IllegalArgument) else Success(Some((width, height)))
  }

  /**
   * At scale 1 the destination image has one pixel per cell of a non-empty generalized grid,
   * so the colorizer can render into it.
   */
  lemma DestinationFitsGrid(v: Colorizer.ColorVisualization, attribute1: Option<Grids.Grid>,
                            g: Grids.Grid, image: Colorizer.Image)
    requires g.Valid() && (attribute1.Some? ==> attribute1.value.Valid())
    requires v != Colorizer.BivariateColor
    requires var r := DestinationSize(v, attribute1, Some(g), 1);
      r.Success? && r.value.Some?
      && |image| == r.value.value.1 && forall row :: 0 <= row < |image| ==> |image[row]| == r.value.value.0
    ensures Colorizer.Fits(image, g)
  {
  }
}

=== FILE: normalmap.dfy ===
/**
 * NormalMapOperator: every cell's terrain normal (nx, ny, nz) is normalised and each
 * component in [-1, 1] is mapped to a byte in [0, 255], stored in a configurable colour
 * channel of an opaque 32-bit ARGB pixel. The horizontal components come from the same
 * nine-case border stencil as ColorizerOperator's shading.
 */
module NormalMap {
  import opened Wrappers
  import opened Numeric
  import Grids
  import Colorizer
  import Argb

  datatype Channel = R | G | B

  type byte = b: int | 0 <= b < 256

  /**
   * A TYPE_INT_ARGB pixel by its four bytes, alpha first. The bitwise or of packed words is
   * the byte-wise or, and Bits packs the bytes into the 32-bit word.
   */
  datatype Word = Word(alpha: byte, red: byte, green: byte, blue: byte)

  function Bits(p: Word): bv32 {
    ((p.alpha as bv32) << 24) | ((p.red as bv32) << 16) | ((p.green as bv32) << 8) | (p.blue as bv32)
  }

  function Or(p: Word, q: Word): Word {
    Word(Argb.OrByte(p.alpha, q.alpha), Argb.OrByte(p.red, q.red), Argb.OrByte(p.green, q.green), Argb.OrByte(p.blue, q.blue))
  }

  /** The operator's settings; a new operator stores x, y, z in R, G, B, none inverted, exaggeration 1. */
  datatype Settings = Settings(
    xChannel: Channel, yChannel: Channel, zChannel: Channel,
    invertX: bool, invertY: bool, invertZ: bool,
    vertExaggeration: real)

  function DefaultSettings(): Settings {
    Settings(R, G, B, false, false, false, 1.0)
  }

  /** Every component has a channel of its own. */
  predicate Distinct(s: Settings) {
    s.xChannel != s.yChannel && s.yChannel != s.zChannel && s.xChannel != s.zChannel
  }

  /** Opaque black, 0xFF000000, the alpha byte every encoded pixel carries. */
  const OPAQUE: Word := Word(0xFF, 0, 0, 0)
  /** The pixel for a void normal: opaque blue, 0xFF0000FF. */
  const VOID_NORMAL: Word := Word(0xFF, 0, 0, 0xFF)

  // ------------------------------------------------------------------------------------------
  // Channels

  /** The byte of channel ch in a pixel. */
  function Byte(p: Word, ch: Channel): byte {
    match ch
    case R => p.red
    case G => p.green
    case B => p.blue
  }

  /** shift: the byte lands in its channel and every other byte of the word is zero. */
  function Shift(ch: Channel, color: byte): (w: Word)
    ensures Byte(w, ch) == color
    ensures forall other :: other != ch ==> Byte(w, other) == 0
    ensures w.alpha == 0
  {
    match ch
    case R => Word(0, color, 0, 0)
    case G => Word(0, 0, color, 0)
    case B => Word(0, 0, 0, color)
  }

  /** The byte channel ch receives: the bitwise or of the components assigned to it. */
  function Assigned(s: Settings, ch: Channel, x: byte, y: byte, z: byte): byte {
    Argb.OrByte(Argb.OrByte(Argb.OrByte(0, Pick(s.xChannel, ch, x)), Pick(s.yChannel, ch, y)), Pick(s.zChannel, ch, z))
  }

  /** The contribution of a component stored in channel c to the byte of channel ch. */
  function Pick(c: Channel, ch: Channel, x: byte): byte {
    if c == ch then x else 0
  }

  /**
   * 0xFF000000 | shift(xChannel, x) | shift(yChannel, y) | shift(zChannel, z): the pixel is
   * opaque and each channel byte is the or of the components assigned to it.
   */
  function Combine(s: Settings, x: byte, y: byte, z: byte): (p: Word)
    ensures p.alpha == 0xFF
    ensures forall ch :: Byte(p, ch) == Assigned(s, ch, x, y, z)
  {
    var p := Or(Or(Or(OPAQUE, Shift(s.xChannel, x)), Shift(s.yChannel, y)), Shift(s.zChannel, z));
    CombineBytes(s, x, y, z, p);
    p
  }

  lemma CombineBytes(s: Settings, x: byte, y: byte, z: byte, p: Word)
    requires p == Or(Or(Or(OPAQUE, Shift(s.xChannel, x)), Shift(s.yChannel, y)), Shift(s.zChannel, z))
    ensures forall ch :: Byte(p, ch) == Assigned(s, ch, x, y, z)
  {
    forall ch
      ensures Byte(p, ch) == Assigned(s, ch, x, y, z)
    {
      CombineByte(s, x, y, z, ch);
    }
  }

  lemma CombineByte(s: Settings, x: byte, y: byte, z: byte, ch: Channel)
    ensures Byte(Or(Or(Or(OPAQUE, Shift(s.xChannel, x)), Shift(s.yChannel, y)), Shift(s.zChannel, z)), ch)
            == Assigned(s, ch, x, y, z)
  {
    var u, v, w := Shift(s.xChannel, x), Shift(s.yChannel, y), Shift(s.zChannel, z);
    OrByte(OPAQUE, u, ch);
    OrByte(Or(OPAQUE, u), v, ch);
    OrByte(Or(Or(OPAQUE, u), v), w, ch);
    ShiftByte(s.xChannel, x, ch);
    ShiftByte(s.yChannel, y, ch);
    ShiftByte(s.zChannel, z, ch);
  }

  lemma ShiftByte(c: Channel, x: byte, ch: Channel)
    ensures Byte(Shift(c, x), ch) == Pick(c, ch, x)
  {}

  lemma OrByte(p: Word, q: Word, ch: Channel)
    ensures Byte(OPAQUE, ch) == 0
    ensures Byte(Or(p, q), ch) == Argb.OrByte(Byte(p, ch), Byte(q, ch))
  {
    match ch
    case R =>
    case G =>
    case B =>
  }

  /** With one channel per component, each component reads back from its own channel. */
  lemma CombineReadsBack(s: Settings, x: byte, y: byte, z: byte)
    requires Distinct(s)
    ensures Byte(Combine(s, x, y, z), s.xChannel) == x
    ensures Byte(Combine(s, x, y, z), s.yChannel) == y
    ensures Byte(Combine(s, x, y, z), s.zChannel) == z
  {
    assert Assigned(s, s.xChannel, x, y, z) == x;
    assert Assigned(s, s.yChannel, x, y, z) == y;
    assert Assigned(s, s.zChannel, x, y, z) == z;
  }

  // ------------------------------------------------------------------------------------------
  // Components

  /** (int) Math.round((m + 1) / 2 * 255) for a normalised component m in [-1, 1]. */
  function Level(m: real): (c: byte)
    requires -1.0 <= m <= 1.0
    ensures m == -1.0 ==> c == 0
    ensures m == 0.0 ==> c == 128
    ensures m == 1.0 ==> c == 255
  {
    var x := (m + 1.0) / 2.0 * 255.0;
    assert 0.0 <= x <= 255.0;
    Round(x)
  }

  /** The sign of a normalised component decides on which side of the middle its level lies. */
  lemma LevelAroundMiddle(m: real)
    requires 0.0 < m <= 1.0
    ensures Level(m) >= 128 && Level(-m) <= 127
  {
  }

  /** A component divided by the length of a vector containing it lies in [-1, 1]. */
  lemma QuotientWithinOne(n: real, len: real)
    requires len > 0.0 && Sq(n) <= Sq(len)
    ensures -1.0 <= n / len <= 1.0
  {
    TimesQuotient(n, len);
    if n / len > 1.0 {
      TimesAboveOne(n / len, len);
      SqGrows(len, n);
    }
    if n / len < -1.0 {
      TimesAboveOne(-(n / len), len);
      assert Times(-(n / len), len) == -n;
      SqGrows(len, -n);
      TimesNegated(n, n);
    }
  }

  lemma TimesAboveOne(q: real, len: real)
    requires q > 1.0 && len > 0.0
    ensures Times(q, len) > len
  {
    assert q * len - len == (q - 1.0) * len;
    PositiveProduct(q - 1.0, len);
  }

  lemma SqGrows(a: real, b: real)
    requires 0.0 <= a < b
    ensures Sq(a) < Sq(b)
  {
    assert b * b - a * a == (b - a) * (b + a);
    PositiveProduct(b - a, b + a);
  }

  /** The positive root of a square is the number squared. */
  lemma RootOfSquare(sqrt: real -> real, z: real)
    requires IsSqrt(sqrt) && z >= 0.0
    ensures sqrt(Sq(z)) == z
  {
    SqNonNegative(z);
    var r := sqrt(Sq(z));
    assert r >= 0.0 && Sq(r) == Sq(z);
    if r < z { SqGrows(r, z); }
    if r > z { SqGrows(z, r); }
  }

  function Signed(invert: bool, n: real): real {
    if invert then -n else n
  }

  /**
   * The three channel bytes of normalARGB. With the length nL = sqrt(nx^2 + ny^2 + nz^2)
   * positive every component is nL-normalised into [-1, 1], an invert flag negating only its
   * own component; a zero vector divides 0 by 0, and Math.round of NaN is 0.
   */
  function Components(s: Settings, sqrt: real -> real, nx: real, ny: real, nz: real): (c: (byte, byte, byte))
    requires IsSqrt(sqrt)
    ensures Sq(nx) + Sq(ny) + Sq(nz) == 0.0 ==> c == (0, 0, 0)
  {
    SqNonNegative(nx);
    SqNonNegative(ny);
    SqNonNegative(nz);
    var sq := Sq(nx) + Sq(ny) + Sq(nz);
    if sq == 0.0 then (0, 0, 0)
    else
      var len := sqrt(sq);
      assert Sq(len) == sq;
      assert len > 0.0 by { TimesZero(len, len); }
      TimesNegated(nx, nx);
      TimesNegated(ny, ny);
      TimesNegated(nz, nz);
      QuotientWithinOne(Signed(s.invertX, nx), len);
      QuotientWithinOne(Signed(s.invertY, ny), len);
      QuotientWithinOne(Signed(s.invertZ, nz), len);
      (Level(Signed(s.invertX, nx) / len), Level(Signed(s.invertY, ny) / len), Level(Signed(s.invertZ, nz) / len))
  }

  /** Toggling invertX re-encodes x as -x and leaves the y and z bytes alone. */
  lemma InvertXOnlyNegatesX(s: Settings, sqrt: real -> real, nx: real, ny: real, nz: real)
    requires IsSqrt(sqrt)
    ensures Components(s.(invertX := !s.invertX), sqrt, nx, ny, nz).0 == Components(s, sqrt, -nx, ny, nz).0
    ensures Components(s.(invertX := !s.invertX), sqrt, nx, ny, nz).1 == Components(s, sqrt, nx, ny, nz).1
    ensures Components(s.(invertX := !s.invertX), sqrt, nx, ny, nz).2 == Components(s, sqrt, nx, ny, nz).2
  {
    TimesNegated(nx, nx);
    assert Sq(-nx) == Sq(nx);
  }

  /** normalARGB of real components. */
  function NormalArgb(s: Settings, sqrt: real -> real, nx: real, ny: real, nz: real): (p: Word)
    requires IsSqrt(sqrt)
    ensures p.alpha == 0xFF
  {
    var c := Components(s, sqrt, nx, ny, nz);
    Combine(s, c.0, c.1, c.2)
  }

  /** A level surface (nx = ny = 0, nz > 0) with the default settings is the neutral 0xFF8080FF. */
  lemma LevelSurfaceIsNeutral(sqrt: real -> real, nz: real)
    requires IsSqrt(sqrt) && nz > 0.0
    ensures NormalArgb(DefaultSettings(), sqrt, 0.0, 0.0, nz) == Word(0xFF, 0x80, 0x80, 0xFF)
    ensures Bits(NormalArgb(DefaultSettings(), sqrt, 0.0, 0.0, nz)) == 0xFF80_80FF
  {
    TimesZero(0.0, 0.0);
    SqPositive(nz);
    RootOfSquare(sqrt, nz);
    assert Sq(0.0) + Sq(0.0) + Sq(nz) == Sq(nz);
    assert sqrt(Sq(0.0) + Sq(0.0) + Sq(nz)) == nz;
    assert 0.0 / nz == 0.0 && nz / nz == 1.0;
    assert Level(0.0) == 128 && Level(1.0) == 255;
    assert Components(DefaultSettings(), sqrt, 0.0, 0.0, nz) == (128, 128, 255);
  }

  /**
   * The encoded normal of a cell: a void horizontal component or a NaN nz makes the length
   * NaN and the pixel opaque blue. An infinite nz (vertical exaggeration 0) makes the length
   * infinite: nx / nL and ny / nL vanish and encode as Math.round(127.5) = 128, while
   * nz / nL is NaN and Math.round(NaN) is 0. Otherwise normalARGB. Either way the pixel is
   * opaque.
   */
  function Encode(s: Settings, sqrt: real -> real, n: (Cell, Cell), nz: Colorizer.ZComponent): (p: Word)
    requires IsSqrt(sqrt)
    ensures p.alpha == 0xFF
    ensures n.0.Void? || n.1.Void? || nz.NotANumber? ==> p == VOID_NORMAL
    ensures n.0.Val? && n.1.Val? && nz.Infinite? ==> forall ch :: Byte(p, ch) == Assigned(s, ch, 128, 128, 0)
  {
    if n.0.Void? || n.1.Void? || nz.NotANumber? then VOID_NORMAL
    else if nz.Infinite? then Combine(s, 128, 128, 0)
    else NormalArgb(s, sqrt, n.0.v, n.1.v, nz.v)
  }

  // ------------------------------------------------------------------------------------------
  // Cells

  /**
   * normalARGB_4Neighbors as written: the nine-case stencil whose top-left corner takes nx
   * with the wrong sign, nz = 2 * cellSize / vertExaggeration in metres.
   */
  function PixelAsWritten(s: Settings, sqrt: real -> real, g: Grids.Grid, col: int, row: int): (p: Word)
    requires IsSqrt(sqrt) && g.Valid() && 0 <= col < g.Cols() && 0 <= row < g.Rows()
    ensures p.alpha == 0xFF
  {
    Encode(s, sqrt, Colorizer.GradientAsWritten(g, col, row), Colorizer.NormalZ(g.cellSize, s.vertExaggeration))
  }

  /** The corrected stencil: every border case oriented like the central difference. */
  function Pixel(s: Settings, sqrt: real -> real, g: Grids.Grid, col: int, row: int): (p: Word)
    requires IsSqrt(sqrt) && g.Valid() && 0 <= col < g.Cols() && 0 <= row < g.Rows()
    ensures p.alpha == 0xFF
    ensures !(col == 0 && row == 0) ==> p == PixelAsWritten(s, sqrt, g, col, row)
  {
    Encode(s, sqrt, Colorizer.Gradient(g, col, row), Colorizer.NormalZ(g.cellSize, s.vertExaggeration))
  }

  /**
   * With a vertical exaggeration of 0 on a grid with positive cell size every cell with
   * valid neighbours encodes the flat normal (128, 128) with a zero z byte, whatever the
   * terrain.
   */
  lemma ZeroExaggerationEncodesFlat(s: Settings, sqrt: real -> real, g: Grids.Grid, col: int, row: int)
    requires IsSqrt(sqrt) && g.Valid() && 0 <= col < g.Cols() && 0 <= row < g.Rows()
    requires s.vertExaggeration == 0.0 && g.cellSize > 0.0
    requires Colorizer.Gradient(g, col, row).0.Val? && Colorizer.Gradient(g, col, row).1.Val?
    ensures forall ch :: Byte(Pixel(s, sqrt, g, col, row), ch) == Assigned(s, ch, 128, 128, 0)
  {
    var nz := Colorizer.NormalZ(g.cellSize, s.vertExaggeration);
    assert nz.Infinite?;
  }

  /** With the corrected stencil a tilted plane encodes to one pixel everywhere. */
  lemma PlaneEncodesUniformly(s: Settings, sqrt: real -> real, g: Grids.Grid, z0: real, a: real, b: real,
                              c1: int, r1: int, c2: int, r2: int)
    requires IsSqrt(sqrt) && Colorizer.IsPlane(g, z0, a, b)
    requires 0 <= c1 < g.Cols() && 0 <= r1 < g.Rows() && 0 <= c2 < g.Cols() && 0 <= r2 < g.Rows()
    ensures Pixel(s, sqrt, g, c1, r1) == Pixel(s, sqrt, g, c2, r2)
  {
    Colorizer.PlaneHasUniformGradient(g, z0, a, b, c1, r1);
    Colorizer.PlaneHasUniformGradient(g, z0, a, b, c2, r2);
  }

  /**
   * As written, a plane rising towards the east gets a top-left x byte on the other side of
   * the middle from the x byte of its neighbour on the top row.
   */
  lemma TopLeftCounterexample(s: Settings, sqrt: real -> real, g: Grids.Grid, z0: real, a: real, b: real)
    requires IsSqrt(sqrt) && Colorizer.IsPlane(g, z0, a, b) && s.vertExaggeration != 0.0
    requires Distinct(s) && a > 0.0 && !s.invertX
    ensures Byte(PixelAsWritten(s, sqrt, g, 0, 0), s.xChannel) >= 128
    ensures Byte(PixelAsWritten(s, sqrt, g, 1, 0), s.xChannel) <= 127
  {
    var nz := Colorizer.NormalZ(g.cellSize, s.vertExaggeration);
    var x, y := 2.0 * a, 2.0 * b;
    var mx := -x;
    PlaneCorners(g, z0, a, b);
    PixelAsWrittenEncodes(s, sqrt, g, 0, 0, (Val(x), Val(y)));
    PixelAsWrittenEncodes(s, sqrt, g, 1, 0, (Val(mx), Val(y)));
    OppositeXLevels(s, sqrt, x, mx, y, nz.v);
    XByteOfEncoded(s, sqrt, x, y, nz.v);
    XByteOfEncoded(s, sqrt, mx, y, nz.v);
  }

  lemma PixelAsWrittenEncodes(s: Settings, sqrt: real -> real, g: Grids.Grid, col: int, row: int, n: (Cell, Cell))
    requires IsSqrt(sqrt) && g.Valid() && 0 <= col < g.Cols() && 0 <= row < g.Rows()
    requires Colorizer.GradientAsWritten(g, col, row) == n
    ensures PixelAsWritten(s, sqrt, g, col, row) == Encode(s, sqrt, n, Colorizer.NormalZ(g.cellSize, s.vertExaggeration))
  {
  }

  /** The stencil as written on a plane: +2a in the top-left corner, -2a beside it. */
  lemma PlaneCorners(g: Grids.Grid, z0: real, a: real, b: real)
    requires Colorizer.IsPlane(g, z0, a, b)
    ensures Colorizer.GradientAsWritten(g, 0, 0) == (Val(2.0 * a), Val(2.0 * b))
    ensures Colorizer.GradientAsWritten(g, 1, 0) == (Val(-(2.0 * a)), Val(2.0 * b))
  {
    Colorizer.PlaneHasUniformGradient(g, z0, a, b, 0, 0);
    Colorizer.PlaneHasUniformGradient(g, z0, a, b, 1, 0);
    Colorizer.TopLeftSignFlipped(g);
  }

  /** With one channel per component, the x channel of an encoded normal holds its x level. */
  lemma XByteOfEncoded(s: Settings, sqrt: real -> real, nx: real, ny: real, nz: real)
    requires IsSqrt(sqrt) && Distinct(s)
    ensures Byte(Encode(s, sqrt, (Val(nx), Val(ny)), Colorizer.Finite(nz)), s.xChannel) == Components(s, sqrt, nx, ny, nz).0
  {
    var c := Components(s, sqrt, nx, ny, nz);
    CombineReadsBack(s, c.0, c.1, c.2);
  }

  /** Opposite positive and negative x components encode on opposite sides of the middle. */
  lemma OppositeXLevels(s: Settings, sqrt: real -> real, x: real, mx: real, y: real, nz: real)
    requires IsSqrt(sqrt) && x > 0.0 && mx == -x && !s.invertX
    ensures Components(s, sqrt, x, y, nz).0 >= 128
    ensures Components(s, sqrt, mx, y, nz).0 <= 127
  {
    SqPositive(x);
    SqNonNegative(y);
    SqNonNegative(nz);
    TimesNegated(x, x);
    assert Sq(mx) == Sq(x);
    var len := sqrt(Sq(x) + Sq(y) + Sq(nz));
    assert Sq(len) == Sq(x) + Sq(y) + Sq(nz);
    assert len > 0.0 by { TimesZero(len, len); }
    QuotientWithinOne(x, len);
    assert x / len > 0.0;
    assert mx / len == -(x / len);
    LevelAroundMiddle(x / len);
  }

  // ------------------------------------------------------------------------------------------
  // The operator

  ghost predicate Fits(image: seq<seq<Word>>, g: Grids.Grid)
    requires g.Valid()
  {
    |image| == g.Rows() && forall r :: 0 <= r < |image| ==> |image[r]| == g.Cols()
  }

  /**
   * The chunk operate(grid, ignore, startRow, endRow): every pixel of rows [startRow, endRow)
   * receives its encoded normal; the other rows are untouched.
   */
  method OperateChunk(s: Settings, sqrt: real -> real, g: Grids.Grid, image: seq<seq<Word>>, startRow: int, endRow: int)
    returns (out: seq<seq<Word>>)
    requires IsSqrt(sqrt) && g.Valid() && Fits(image, g)
    requires 0 <= startRow <= endRow <= g.Rows()
    ensures Fits(out, g)
    ensures forall r :: 0 <= r < g.Rows() && !(startRow <= r < endRow) ==> out[r] == image[r]
    ensures forall r, c :: startRow <= r < endRow && 0 <= c < g.Cols() ==> out[r][c] == Pixel(s, sqrt, g, c, r)
  {
    out := image;
    var row := startRow;
    while row < endRow
      invariant startRow <= row <= endRow && Fits(out, g)
      invariant forall r :: 0 <= r < g.Rows() && !(startRow <= r < row) ==> out[r] == image[r]
      invariant forall r, c :: startRow <= r < row && 0 <= c < g.Cols() ==> out[r][c] == Pixel(s, sqrt, g, c, r)
    {
      var line := out[row];
      var col := 0;
      while col < g.Cols()
        invariant 0 <= col <= g.Cols() && |line| == g.Cols()
        invariant forall c :: 0 <= c < col ==> line[c] == Pixel(s, sqrt, g, c, row)
      {
        line := line[col := Pixel(s, sqrt, g, col, row)];
        col := col + 1;
      }
      out := out[row := line];
      row := row + 1;
    }
  }

  /**
   * operate(grid, image, vertExaggeration): the whole image is encoded with the operator's own
   * exaggeration; the argument is ignored. A null image is dereferenced.
   */
  method Operate(s: Settings, sqrt: real -> real, g: Grids.Grid, image: Option<seq<seq<Word>>>, vertExaggeration: real)
    returns (r: Result<seq<seq<Word>>>)
    requires IsSqrt(sqrt) && g.Valid()
    requires image.Some? ==> Fits(image.value, g)
    ensures r.Failure? <==> image.None?
    ensures r.Failure? ==> r.error == NullPointer
    ensures r.Success? ==> Fits(r.value, g) && forall row, col :: 0 <= row < g.Rows() && 0 <= col < g.Cols() ==>
      r.value[row][col] == Pixel(s, sqrt, g, col, row)
  {
    if image.None? {
      return Failure(NullPointer);
    }
    var out := OperateChunk(s, sqrt, g, image.value, 0, g.Rows());
    return Success(out);
  }

  /** operate(Grid, Grid) is not supported. */
  function OperateGrids(src: Grids.Grid, dst: Grids.Grid): (r: Result<Grids.Grid>)
    ensures r.Failure? && r.error == UnsupportedOperation
  {
    Failure(UnsupportedOperation)
  }
}

=== FILE: numeric.dfy ===
/**
 * Real-valued stand-ins for the Java numeric primitives the renderer relies on:
 * the NaN "void" marker, the (int) cast, Math.round, the floating-point remainder,
 * and the constants shared by several operators.
 */
module Numeric {

  /** A raster value; the source marks missing data with NaN, here the constructor Void. */
  datatype Cell = Void | Val(v: real)

  /** Math.PI */
  const PI: real := 3.141592653589793
  /** Earth radius in metres used to turn degrees into metres. */
  const EARTH_RADIUS: real := 6371000.0
  /** Float.MAX_VALUE */
  const FLOAT_MAX: real := 340282346638528859811704183484516925440.0

  function Abs(x: real): (r: real)
    ensures r >= 0.0 && (r == x || r == -x)
  {
    if x < 0.0 then -x else x
  }

  function Min(a: real, b: real): (r: real)
    ensures r <= a && r <= b && (r == a || r == b)
  {
    if a <= b then a else b
  }

  function Max(a: real, b: real): (r: real)
    ensures r >= a && r >= b && (r == a || r == b)
  {
    if a >= b then a else b
  }

  /** Math.max(lo, Math.min(x, hi)) */
  function Clamp(x: real, lo: real, hi: real): (r: real)
    requires lo <= hi
    ensures lo <= r <= hi
    ensures lo <= x <= hi ==> r == x
    ensures x < lo ==> r == lo
    ensures x > hi ==> r == hi
  {
    if x < lo then lo else if x > hi then hi else x
  }

  /** Java's (int) cast of a double: truncation toward zero. */
  function Trunc(x: real): (n: int)
    ensures x >= 0.0 ==> n >= 0 && n as real <= x < n as real + 1.0
    ensures x < 0.0 ==> n <= 0 && n as real - 1.0 < x <= n as real
  {
    if x >= 0.0 then x.Floor else -((-x).Floor)
  }

  /** Math.round of a double: the integer nearest to x, halves rounded up. */
  function Round(x: real): (n: int)
    ensures n as real - 0.5 <= x < n as real + 0.5
  {
    (x + 0.5).Floor
  }

  /**
   * (int) Math.round(x): Math.round saturates at the bounds of a long and the cast to int
   * keeps the low 32 bits, read as two's complement.
   */
  function RoundToInt(x: real): (i: int)
    ensures -0x8000_0000 <= i < 0x8000_0000
    ensures -0x8000_0000 <= Round(x) < 0x8000_0000 ==> i == Round(x)
    ensures -0x8000_0000_0000_0000 <= Round(x) < 0x8000_0000_0000_0000 ==> (i - Round(x)) % 0x1_0000_0000 == 0
  {
    var n := Round(x);
    var l := if n >= 0x8000_0000_0000_0000 then 0x7FFF_FFFF_FFFF_FFFF
             else if n < -0x8000_0000_0000_0000 then -0x8000_0000_0000_0000 else n;
    (l + 0x8000_0000) % 0x1_0000_0000 - 0x8000_0000
  }

  /** Java's % on doubles: x - m * trunc(x / m), so the result carries the sign of x. */
  function FMod(x: real, m: real): (r: real)
    requires m > 0.0
    ensures x >= 0.0 ==> 0.0 <= r < m
    ensures x < 0.0 ==> -m < r <= 0.0
    ensures r == x - m * (Trunc(x / m) as real)
  {
    FModBounds(x, m);
    x - m * (Trunc(x / m) as real)
  }

  lemma FModBounds(x: real, m: real)
    requires m > 0.0
    ensures var r := x - m * (Trunc(x / m) as real);
      (x >= 0.0 ==> 0.0 <= r < m) && (x < 0.0 ==> -m < r <= 0.0)
  {
    var t := x / m;
    var q := Trunc(t) as real;
    QuotientSign(x, m, t);
    if x >= 0.0 {
      RemainderUp(x, m, t, q);
    } else {
      RemainderDown(x, m, t, q);
    }
  }

  /** With x == m * t, the remainder x - m * q is the fraction t - q scaled by m. */
  lemma RemainderUp(x: real, m: real, t: real, q: real)
    requires m > 0.0 && m * t == x && 0.0 <= t - q < 1.0
    ensures 0.0 <= x - m * q < m
  {
    var f := t - q;
    RemainderAsFraction(x, m, t, q, f);
    FractionScaledUp(m, f);
  }

  lemma RemainderDown(x: real, m: real, t: real, q: real)
    requires m > 0.0 && m * t == x && -1.0 < t - q <= 0.0
    ensures -m < x - m * q <= 0.0
  {
    var f := t - q;
    RemainderAsFraction(x, m, t, q, f);
    FractionScaledDown(m, f);
  }

  /** The quotient x / m by a positive m undoes the scaling and keeps the sign of x. */
  lemma QuotientSign(x: real, m: real, t: real)
    requires m > 0.0 && t == x / m
    ensures m * t == x
    ensures x >= 0.0 ==> t >= 0.0
    ensures x < 0.0 ==> t < 0.0
  {
    if x >= 0.0 && t < 0.0 { ScaleLt(m, t, 0.0); }
    if x < 0.0 && t >= 0.0 { ScaleLe(m, 0.0, t); }
  }

  lemma RemainderAsFraction(x: real, m: real, t: real, q: real, f: real)
    requires m * t == x && f == t - q
    ensures x - m * q == m * f
  {
    assert m * f == m * t - m * q;
  }

  lemma FractionScaledUp(m: real, f: real)
    requires m > 0.0 && 0.0 <= f < 1.0
    ensures 0.0 <= m * f < m
  {
    ScaleLe(m, 0.0, f);
    ScaleLt(m, f, 1.0);
  }

  lemma FractionScaledDown(m: real, f: real)
    requires m > 0.0 && -1.0 < f <= 0.0
    ensures -m < m * f <= 0.0
  {
    ScaleLe(m, f, 0.0);
    ScaleLt(m, -1.0, f);
  }

  lemma ScaleLe(m: real, a: real, b: real)
    requires m > 0.0 && a <= b
    ensures m * a <= m * b
  {
    assert m * b - m * a == m * (b - a);
  }

  lemma ScaleLt(m: real, a: real, b: real)
    requires m > 0.0 && a < b
    ensures m * a < m * b
  {
    assert m * b - m * a == m * (b - a);
  }

  lemma PositiveProduct(x: real, y: real)
    requires x > 0.0 && y > 0.0
    ensures x * y > 0.0
  {
  }

  /** A product with a non-zero factor vanishes only when the other factor does. */
  lemma ZeroFactor(x: real, u: real)
    requires u != 0.0 && x * u == 0.0
    ensures x == 0.0
  {
    if x > 0.0 && u > 0.0 { PositiveProduct(x, u); }
    if x > 0.0 && u < 0.0 { PositiveProduct(x, -u); }
    if x < 0.0 && u > 0.0 { PositiveProduct(-x, u); }
    if x < 0.0 && u < 0.0 { PositiveProduct(-x, -u); }
  }

  /**
   * Cell sizes below 0.1 are taken to be degrees and converted to metres on a sphere,
   * cellSize / 180 * PI * 6371000; larger cell sizes are already metres.
   */
  function MetricCellSize(cellSize: real): (m: real)
    ensures cellSize >= 0.1 ==> m == cellSize
    ensures cellSize < 0.1 ==> m == cellSize * (PI / 180.0 * EARTH_RADIUS)
    ensures cellSize > 0.0 ==> m > 0.0
  {
    if cellSize < 0.1 then cellSize / 180.0 * PI * EARTH_RADIUS else cellSize
  }

  /** The sum of a sequence of values. */
  function Sum(s: seq<real>): real
  {
    if |s| == 0 then 0.0 else Sum(s[..|s| - 1]) + s[|s| - 1]
  }

  /** Math.sqrt on non-negative arguments: the non-negative square root. */
  ghost predicate IsSqrt(sqrt: real -> real) {
    sqrt(0.0) == 0.0 && forall x :: x >= 0.0 ==> sqrt(x) >= 0.0 && sqrt(x) * sqrt(x) == x
  }

  /** Math.cos and Math.sin stay within [-1, 1]. */
  ghost predicate IsBounded(f: real -> real) {
    forall x :: -1.0 <= f(x) <= 1.0
  }

  /** Math.exp is positive and exp(0) = 1. */
  ghost predicate IsExp(exp: real -> real) {
    exp(0.0) == 1.0 && forall x :: exp(x) > 0.0
  }

  /** Math.pow with a positive base is positive. */
  ghost predicate IsPow(pow: (real, real) -> real) {
    forall x, p :: x > 0.0 ==> pow(x, p) > 0.0
  }

  /**
   * a * b and x^2 as named terms. Facts about products are proved once, about these terms,
   * so that the steps that combine them are linear.
   */
  function Times(a: real, b: real): real {
    a * b
  }

  function Sq(x: real): real {
    Times(x, x)
  }

  lemma TimesPositive(a: real, b: real)
    requires a > 0.0 && b > 0.0
    ensures Times(a, b) > 0.0
  {
  }

  lemma TimesZero(a: real, b: real)
    ensures a == 0.0 ==> Times(a, b) == 0.0
  {
  }

  lemma TimesNegatedLeft(a: real, b: real)
    ensures Times(-a, b) == -Times(a, b)
  {
  }

  lemma TimesNegated(a: real, b: real)
    ensures Times(-a, -b) == Times(a, b)
  {
  }

  /** (a * a) * (b * b) == (a * b) * (a * b) */
  lemma TimesSquares(a: real, b: real)
    ensures Times(Times(a, a), Times(b, b)) == Times(Times(a, b), Times(a, b))
  {
  }

  lemma TimesQuotient(x: real, len: real)
    requires len != 0.0
    ensures Times(x / len, len) == x
  {
  }

  lemma SqNonNegative(x: real)
    ensures Sq(x) >= 0.0
  {
    if x > 0.0 {
      TimesPositive(x, x);
    } else if x < 0.0 {
      TimesPositive(-x, -x);
      TimesNegated(x, x);
    } else {
      TimesZero(x, x);
    }
  }

  lemma SqPositive(x: real)
    requires x > 0.0
    ensures Sq(x) > 0.0
  {
    TimesPositive(x, x);
  }
}

=== FILE: paths.dfy ===
/**
 * File-name handling of the Shapefile and dBASE importers: replacing a path's
 * extension and locating a file of a shapefile set from the path of any of its
 * siblings. Whether a file exists is a parameter; a Java `null` path or result
 * is `None`. Java's `toLowerCase` is modelled on ASCII letters only.
 */
module Paths {
  import opened Wrappers

  function LowerChar(c: char): (r: char)
    ensures 'A' <= c <= 'Z' ==> 'a' <= r <= 'z'
    ensures !('A' <= c <= 'Z') ==> r == c
  {
    if 'A' <= c <= 'Z' then (c as int + 32) as char else c
  }

  /** `String.toLowerCase` over ASCII. */
  function ToLower(s: string): (r: string)
    ensures |r| == |s|
    ensures forall i :: 0 <= i < |s| ==> r[i] == LowerChar(s[i])
  {
    if |s| == 0 then [] else ToLower(s[..|s| - 1]) + [LowerChar(s[|s| - 1])]
  }

  predicate EndsWith(s: string, suffix: string) {
    |suffix| <= |s| && s[|s| - |suffix|..] == suffix
  }

  /** `String.lastIndexOf(c)`: the last index holding c, or -1. */
  function LastIndexOf(s: string, c: char): (r: int)
    ensures -1 <= r < |s|
    ensures r >= 0 ==> s[r] == c
    ensures forall i :: r < i < |s| ==> s[i] != c
  {
    if |s| == 0 then -1
    else if s[|s| - 1] == c then |s| - 1
    else LastIndexOf(s[..|s| - 1], c)
  }

  /**
   * Replaces everything after the last dot of a path by an extension, or
   * appends a dot and the extension when the path has no dot.
   */
  function ReplaceExtension(path: string, ext: string): (r: string)
    ensures EndsWith(r, "." + ext)
    ensures LastIndexOf(path, '.') == -1 ==> r == path + "." + ext
    ensures LastIndexOf(path, '.') >= 0 ==>
      |r| == LastIndexOf(path, '.') + 1 + |ext| && r[..LastIndexOf(path, '.')] == path[..LastIndexOf(path, '.')]
  {
    var dot := LastIndexOf(path, '.');
    if dot == -1 then path + "." + ext else path[..dot + 1] + ext
  }

  /** A dot-free extension becomes the extension of the replaced path. */
  lemma ReplacedExtensionIsLast(path: string, ext: string)
    requires '.' !in ext
    ensures LastIndexOf(ReplaceExtension(path, ext), '.') == |ReplaceExtension(path, ext)| - |ext| - 1
  {
    var r := ReplaceExtension(path, ext);
    var k := |r| - |ext| - 1;
    assert r[k] == '.';
    assert r[k + 1..] == ext;
    LastIndexOfFrom(r, '.', k);
  }

  lemma {:induction false} LastIndexOfFrom(s: string, c: char, k: int)
    requires 0 <= k < |s| && s[k] == c
    requires forall i :: k < i < |s| ==> s[i] != c
    ensures LastIndexOf(s, c) == k
  {
    if k < |s| - 1 {
      var t := s[..|s| - 1];
      assert s[|s| - 1] != c;
      assert forall i :: k < i < |t| ==> t[i] == s[i];
      LastIndexOfFrom(t, c, k);
    }
  }

  /** Replacing a dot-free extension twice is replacing it once with the second. */
  lemma {:induction false} ReplaceExtensionTwice(path: string, e1: string, e2: string)
    requires '.' !in e1
    ensures ReplaceExtension(ReplaceExtension(path, e1), e2) == ReplaceExtension(path, e2)
  {
    var r := ReplaceExtension(path, e1);
    ReplacedExtensionIsLast(path, e1);
    var dot := LastIndexOf(path, '.');
    if dot == -1 {
      assert r[..|path| + 1] == path + ".";
    } else {
      assert r[..dot + 1] == path[..dot + 1];
    }
  }

  /** The other files of a shapefile set, seen from the main .shp file. */
  const SHP_SIBLINGS: seq<string> := ["dbf", "prj", "sbn", "sbx", "shx"]

  /** The other files of a shapefile set, seen from the .dbf attribute file. */
  const DBF_SIBLINGS: seq<string> := ["shp", "prj", "sbn", "sbx", "shx"]

  /** Ends with a dot and the extension, ignoring ASCII case. */
  predicate HasExtension(path: string, ext: string) {
    EndsWith(ToLower(path), "." + ext)
  }

  /** Ends with a dot followed by one of the extensions, ignoring ASCII case. */
  predicate HasExtensionIn(path: string, exts: seq<string>) {
    exists i :: 0 <= i < |exts| && HasExtension(path, exts[i])
  }

  /**
   * The shared rule of `findDataFile` and `findDbfFileSibling`: a path with the
   * wanted extension is returned as is; a sibling's path is given the wanted
   * extension in lower and then in upper case, and kept if that file exists.
   */
  function FindSibling(path: Option<string>, lower: string, upper: string,
                       siblings: seq<string>, isFile: string -> bool): (r: Option<string>)
    requires '.' !in lower
    ensures path.None? || |path.value| < 5 ==> r.None?
    ensures path.Some? && |path.value| >= 5 && HasExtension(path.value, lower) ==>
      r == path
    ensures r.Some? && r != path ==>
      HasExtensionIn(path.value, siblings) && isFile(r.value) &&
      (r.value == ReplaceExtension(path.value, lower) || r.value == ReplaceExtension(path.value, upper))
  {
    if path.None? || |path.value| < 5 then None
    else
      var p := path.value;
      if HasExtension(p, lower) then Some(p)
      else if !HasExtensionIn(p, siblings) then None
      else
        var first := ReplaceExtension(p, lower);
        ReplaceExtensionTwice(p, lower, upper);
        if isFile(first) then Some(first)
        else
          var second := ReplaceExtension(first, upper);
          if isFile(second) then Some(second) else None
  }

  /** `ShapeGeometryImporter.findDataFile`: the .shp file of a shapefile set. */
  function FindDataFile(path: Option<string>, isFile: string -> bool): (r: Option<string>)
    ensures r.Some? && path.Some? && r != path ==> r.value == ReplaceExtension(path.value, "shp") || r.value == ReplaceExtension(path.value, "SHP")
  {
    FindSibling(path, "shp", "SHP", SHP_SIBLINGS, isFile)
  }

  /** `DBFShapeImporter.findDbfFileSibling`: the .dbf file of a shapefile set. */
  function FindDbfFileSibling(path: Option<string>, isFile: string -> bool): (r: Option<string>)
    ensures r.Some? && path.Some? && r != path ==> r.value == ReplaceExtension(path.value, "dbf") || r.value == ReplaceExtension(path.value, "DBF")
  {
    FindSibling(path, "dbf", "DBF", DBF_SIBLINGS, isFile)
  }

  /** `findSHXFilePath`: the index file next to the main file, lower case first. */
  function FindShxFilePath(path: Option<string>, isFile: string -> bool): (r: Option<string>)
    ensures path.None? || |path.value| < 5 ==> r.None?
    ensures r.Some? ==> isFile(r.value)
    ensures path.Some? && |path.value| >= 5 && isFile(ReplaceExtension(path.value, "shx")) ==>
      r == Some(ReplaceExtension(path.value, "shx"))
  {
    if path.None? || |path.value| < 5 then None
    else
      var p := ReplaceExtension(path.value, "shx");
      var q := if !isFile(p) then ReplaceExtension(p, "SHX") else p;
      if isFile(q) then Some(q) else None
  }

  /**
   * The whole decision of `FindSibling` for a sibling's path: it finds the
   * wanted file exactly when the lower- or upper-case name exists, and prefers
   * the lower-case one.
   */
  lemma FindSiblingFound(path: string, lower: string, upper: string,
                         siblings: seq<string>, isFile: string -> bool)
    requires '.' !in lower
    requires |path| >= 5 && !HasExtension(path, lower)
    requires HasExtensionIn(path, siblings)
    ensures FindSibling(Some(path), lower, upper, siblings, isFile) ==
      if isFile(ReplaceExtension(path, lower)) then Some(ReplaceExtension(path, lower))
      else if isFile(ReplaceExtension(path, upper)) then Some(ReplaceExtension(path, upper))
      else None
  {
    ReplaceExtensionTwice(path, lower, upper);
  }

  /** A path of another file type never yields a sibling. */
  lemma FindSiblingForeign(path: string, lower: string, upper: string,
                           siblings: seq<string>, isFile: string -> bool)
    requires '.' !in lower
    requires !HasExtension(path, lower)
    requires !HasExtensionIn(path, siblings)
    ensures FindSibling(Some(path), lower, upper, siblings, isFile) == None
  {
  }

  /**
   * `findDataFile` on the path of a .dbf, .prj, .sbn, .sbx or .shx file finds
   * the main file exactly when it exists under a lower- or upper-case extension.
   */
  lemma DataFileOfSibling(path: string, isFile: string -> bool)
    requires |path| >= 5 && !HasExtension(path, "shp")
    requires HasExtensionIn(path, SHP_SIBLINGS)
    ensures FindDataFile(Some(path), isFile).Some? <==>
      isFile(ReplaceExtension(path, "shp")) || isFile(ReplaceExtension(path, "SHP"))
  {
    ShpHasNoDot();
    FindSiblingFound(path, "shp", "SHP", SHP_SIBLINGS, isFile);
  }

  /**
   * `findDbfFileSibling` on the path of a .shp, .prj, .sbn, .sbx or .shx file
   * finds the attribute file exactly when it exists under a lower- or
   * upper-case extension.
   */
  lemma DbfFileOfSibling(path: string, isFile: string -> bool)
    requires |path| >= 5 && !HasExtension(path, "dbf")
    requires HasExtensionIn(path, DBF_SIBLINGS)
    ensures FindDbfFileSibling(Some(path), isFile).Some? <==>
      isFile(ReplaceExtension(path, "dbf")) || isFile(ReplaceExtension(path, "DBF"))
  {
    DbfHasNoDot();
    FindSiblingFound(path, "dbf", "DBF", DBF_SIBLINGS, isFile);
  }

  /** The index file is found exactly when it exists under a lower- or upper-case extension. */
  lemma ShxFilePathFound(path: string, isFile: string -> bool)
    requires |path| >= 5
    ensures FindShxFilePath(Some(path), isFile) ==
      if isFile(ReplaceExtension(path, "shx")) then Some(ReplaceExtension(path, "shx"))
      else if isFile(ReplaceExtension(path, "SHX")) then Some(ReplaceExtension(path, "SHX"))
      else None
  {
    ShxHasNoDot();
    ReplaceExtensionTwice(path, "shx", "SHX");
  }

  lemma ShpHasNoDot()
    ensures '.' !in "shp"
  {
  }

  lemma DbfHasNoDot()
    ensures '.' !in "dbf"
  {
  }

  lemma ShxHasNoDot()
    ensures '.' !in "shx"
  {
  }
}

=== FILE: planoblique.dfy ===
/**
 * PlanObliqueOperator: every column of the grid is sheared northwards by k times the height
 * above a reference elevation, and resampled at the original row positions. The scan walks a
 * column from the south (the last row) to the north (row 0), carrying the row, the sheared y
 * and the elevation of the last vertex that was not occluded.
 */
module PlanOblique {
  import opened Wrappers
  import opened Numeric
  import Grids

  /** What the scan of one column needs to know: its geometry and the shearing constants. */
  datatype Frame = Frame(north: real, cellSize: real, refElevation: real, scale: real)

  /** The shearing factor k, divided by the metres per degree when the cell size is in degrees. */
  function ElevationScale(k: real, cellSize: real): (s: real)
    ensures cellSize >= 0.1 ==> s == k
    ensures cellSize < 0.1 ==> s * (PI / 180.0 * EARTH_RADIUS) == k
  {
    if cellSize < 0.1 then k / (PI / 180.0 * EARTH_RADIUS) else k
  }

  /** The frame of a grid for an operator with factor k and reference elevation refElevation. */
  function FrameOf(g: Grids.Grid, k: real, refElevation: real): (f: Frame)
    requires g.Valid()
    ensures f.cellSize > 0.0
  {
    Frame(g.North(), g.cellSize, refElevation, ElevationScale(k, g.cellSize))
  }

  /** The y coordinate at which row `row` needs an elevation. */
  function TargetY(f: Frame, row: int): real {
    f.north - row as real * f.cellSize
  }

  /** The y coordinate of the vertex at row r with elevation z after shearing. */
  function ShearedY(f: Frame, r: int, z: real): real {
    f.north - r as real * f.cellSize + (z - f.refElevation) * f.scale
  }

  /** One row further north is one cell size further up. */
  lemma TargetStep(f: Frame, row: int)
    ensures TargetY(f, row - 1) == TargetY(f, row) + f.cellSize
  {
    assert (row - 1) as real * f.cellSize == row as real * f.cellSize - f.cellSize;
  }

  /** The scan's state: prevRow, prevShearedY and prevZ. */
  datatype Scan = Scan(prevRow: int, prevShearedY: real, prevZ: Cell)

  /**
   * Walking north from row i, the first row holding a value, or -1 when there is none: the
   * loop that skips a run of void cells.
   */
  function SkipVoids(c: seq<Cell>, i: int): (j: int)
    requires -1 <= i < |c|
    decreases i + 1
    ensures -1 <= j <= i
    ensures j >= 0 ==> c[j].Val?
    ensures forall k :: j < k <= i ==> c[k].Void?
  {
    if i < 0 then -1 else if c[i].Void? then SkipVoids(c, i - 1) else i
  }

  /**
   * w * z + (1 - w) * prevZ with w the position of targetY between the two sheared vertices;
   * a void prevZ (no vertex below yet) makes the result void. The value lies between the two
   * elevations.
   */
  function Interpolate(targetY: real, prevShearedY: real, shearedY: real, z: real, prevZ: Cell): (h: Cell)
    requires prevShearedY <= targetY < shearedY
    ensures h.Void? <==> prevZ.Void?
    ensures h.Val? ==> Min(z, prevZ.v) <= h.v <= Max(z, prevZ.v)
  {
    var w := (targetY - prevShearedY) / (shearedY - prevShearedY);
    FractionBelowOne(targetY - prevShearedY, shearedY - prevShearedY);
    if prevZ.Void? then Void
    else
      Convex(w, z, prevZ.v);
      Val(w * z + (1.0 - w) * prevZ.v)
  }

  lemma FractionBelowOne(a: real, b: real)
    requires 0.0 <= a < b
    ensures 0.0 <= a / b < 1.0
  {
    assert a / b * b == a;
  }

  /** A weighted mean with weights w and 1 - w lies between the two values. */
  lemma Convex(w: real, a: real, b: real)
    requires 0.0 <= w <= 1.0
    ensures Min(a, b) <= w * a + (1.0 - w) * b <= Max(a, b)
  {
    assert w * a + (1.0 - w) * b == b + w * (a - b);
    if a >= b {
      assert (a - b) - w * (a - b) == (1.0 - w) * (a - b);
      ProductNonNegative(w, a - b);
      ProductNonNegative(1.0 - w, a - b);
    } else {
      assert (b - a) - w * (b - a) == (1.0 - w) * (b - a);
      ProductNonNegative(w, b - a);
      ProductNonNegative(1.0 - w, b - a);
      assert w * (a - b) == -(w * (b - a));
    }
  }

  lemma ProductNonNegative(x: real, y: real)
    requires x >= 0.0 && y >= 0.0
    ensures x * y >= 0.0
  {
    if x > 0.0 && y > 0.0 { PositiveProduct(x, y); }
  }

  /**
   * The inner loop for one target: starting at row r (prevRow is r or r + 1), walk north to
   * the first vertex sheared above targetY and interpolate; a void vertex ends the search with
   * a void value, prevRow moved past the void run and prevZ void. A vertex that is not above
   * the target becomes prevRow, and becomes prevShearedY and prevZ only if it is not occluded.
   * prevShearedY never decreases and never passes the target.
   */
  function Seek(c: seq<Cell>, f: Frame, targetY: real, r: int, st: Scan): (res: (Cell, Scan))
    requires -1 <= r < |c| && r <= st.prevRow <= r + 1 && st.prevRow < |c|
    requires st.prevShearedY <= targetY
    decreases r + 1
    ensures st.prevShearedY <= res.1.prevShearedY <= targetY
    ensures -1 <= res.1.prevRow < |c|
  {
    if r < 0 then (Void, st)
    else if c[r].Void? then (Void, Scan(SkipVoids(c, st.prevRow - 1), st.prevShearedY, Void))
    else
      var y := ShearedY(f, r, c[r].v);
      if y > targetY then (Interpolate(targetY, st.prevShearedY, y, c[r].v, st.prevZ), st)
      else if y >= st.prevShearedY then Seek(c, f, targetY, r - 1, Scan(r, y, c[r]))
      else Seek(c, f, targetY, r - 1, st.(prevRow := r))
  }

  /** The outer loop: the values of rows row, row - 1, ..., 0, returned indexed by row. */
  function ScanRows(c: seq<Cell>, f: Frame, row: int, st: Scan): (out: seq<Cell>)
    requires -1 <= row < |c| && -1 <= st.prevRow < |c| && f.cellSize > 0.0
    requires st.prevShearedY <= TargetY(f, row)
    decreases row + 1
    ensures |out| == row + 1
  {
    if row < 0 then []
    else
      var next := Seek(c, f, TargetY(f, row), st.prevRow, st);
      TargetStep(f, row);
      ScanRows(c, f, row - 1, next.1) + [next.0]
  }

  /**
   * One column of the sheared grid. The void cells south of the southernmost value stay void;
   * every other row receives the value its scan finds.
   */
  function ShearColumn(c: seq<Cell>, f: Frame): (out: seq<Cell>)
    requires f.cellSize > 0.0
    ensures |out| == |c|
    ensures forall i :: SkipVoids(c, |c| - 1) < i < |c| ==> out[i] == Void
  {
    var p0 := SkipVoids(c, |c| - 1);
    ScanRows(c, f, p0, Scan(p0, TargetY(f, p0), Void)) + seq(|c| - 1 - p0, _ => Void)
  }

  /**
   * The scan of one column as operate runs it: the void cells at the south end are set void,
   * then each row from the southernmost value northwards is searched for, resuming at prevRow.
   * The result is ShearColumn: every row is written once.
   */
  method ScanColumn(c: seq<Cell>, f: Frame) returns (out: seq<Cell>)
    requires f.cellSize > 0.0
    ensures out == ShearColumn(c, f)
  {
    out := seq(|c|, _ => Val(0.0));
    var prevRow := |c| - 1;
    while prevRow >= 0 && c[prevRow].Void?
      invariant -1 <= prevRow < |c| && |out| == |c|
      invariant SkipVoids(c, |c| - 1) == SkipVoids(c, prevRow)
      invariant forall i :: prevRow < i < |c| ==> out[i] == Void
    {
      out := out[prevRow := Void];
      prevRow := prevRow - 1;
    }
    VoidTail(out, prevRow + 1);
    out := ScanRowsLoop(c, f, out, prevRow);
    Split(out, prevRow + 1);
  }

  /** Cells from k on that are all void make up a run of voids. */
  lemma VoidTail(s: seq<Cell>, k: nat)
    requires k <= |s| && forall i :: k <= i < |s| ==> s[i] == Void
    ensures s[k..] == seq(|s| - k, _ => Void)
  {
  }

  /** A sequence is its prefix up to k followed by the rest. */
  lemma Split<T>(s: seq<T>, k: nat)
    requires k <= |s|
    ensures s == s[..k] + s[k..]
  {
  }

  /** The outer loop of operate: rows p0 down to 0 receive the values ScanRows gives them. */
  method ScanRowsLoop(c: seq<Cell>, f: Frame, out0: seq<Cell>, p0: int) returns (out: seq<Cell>)
    requires -1 <= p0 < |c| && |out0| == |c| && f.cellSize > 0.0
    ensures |out| == |c|
    ensures out[..p0 + 1] == ScanRows(c, f, p0, Scan(p0, TargetY(f, p0), Void))
    ensures out[p0 + 1..] == out0[p0 + 1..]
  {
    out := out0;
    ghost var start := Scan(p0, TargetY(f, p0), Void);
    ghost var done: seq<Cell> := [];
    var prevRow, prevShearedY, prevZ := p0, TargetY(f, p0), Void;
    var row := p0;
    while row >= 0
      invariant -1 <= row <= p0 && |out| == |c| && -1 <= prevRow < |c|
      invariant prevShearedY <= TargetY(f, row)
      invariant |done| == p0 - row
      invariant ScanRows(c, f, p0, start) == ScanRows(c, f, row, Scan(prevRow, prevShearedY, prevZ)) + done
      invariant forall i :: 0 <= i < |done| ==> out[row + 1 + i] == done[i]
      invariant forall i :: p0 < i < |c| ==> out[i] == out0[i]
    {
      ScanRowsStep(c, f, row, Scan(prevRow, prevShearedY, prevZ));
      var interpolatedZ;
      interpolatedZ, prevRow, prevShearedY, prevZ := SeekLoop(c, f, TargetY(f, row), prevRow, prevShearedY, prevZ);
      Regroup(ScanRows(c, f, row - 1, Scan(prevRow, prevShearedY, prevZ)), interpolatedZ, done);
      done := [interpolatedZ] + done;
      out := out[row := interpolatedZ];
      row := row - 1;
    }
    Written(out, out0, done, p0);
  }

  /** The rows written so far, followed by the rest, in one piece. */
  lemma Regroup(a: seq<Cell>, z: Cell, d: seq<Cell>)
    ensures (a + [z]) + d == a + ([z] + d)
  {
  }

  /** Rows 0 to p0 holding done and the rest holding out0's cells: the two halves of out. */
  lemma Written(out: seq<Cell>, out0: seq<Cell>, done: seq<Cell>, p0: int)
    requires -1 <= p0 < |out| == |out0| && |done| == p0 + 1
    requires forall i :: 0 <= i < |done| ==> out[i] == done[i]
    requires forall i :: p0 < i < |out| ==> out[i] == out0[i]
    ensures out[..p0 + 1] == done && out[p0 + 1..] == out0[p0 + 1..]
  {
  }

  /** The scan from row on is the seek for row, then the scan from row - 1 on where the seek left off. */
  lemma ScanRowsStep(c: seq<Cell>, f: Frame, row: int, st: Scan)
    requires 0 <= row < |c| && -1 <= st.prevRow < |c| && f.cellSize > 0.0
    requires st.prevShearedY <= TargetY(f, row)
    ensures Seek(c, f, TargetY(f, row), st.prevRow, st).1.prevShearedY <= TargetY(f, row - 1)
    ensures ScanRows(c, f, row, st)
            == ScanRows(c, f, row - 1, Seek(c, f, TargetY(f, row), st.prevRow, st).1)
               + [Seek(c, f, TargetY(f, row), st.prevRow, st).0]
  {
    TargetStep(f, row);
  }

  /** Writing z at row puts it in front of the cells up to hi and leaves the cells from hi on alone. */
  lemma WriteBelow(out: seq<Cell>, row: int, z: Cell, hi: int)
    requires 0 <= row < hi <= |out|
    ensures out[row := z][row..hi] == [z] + out[row + 1..hi]
    ensures out[row := z][hi..] == out[hi..]
  {
  }

  /** The inner loop of operate for one target row, with its two breaks: the result is Seek. */
  method SeekLoop(c: seq<Cell>, f: Frame, targetY: real, prevRow0: int, prevShearedY0: real, prevZ0: Cell)
    returns (interpolatedZ: Cell, prevRow: int, prevShearedY: real, prevZ: Cell)
    requires -1 <= prevRow0 < |c| && prevShearedY0 <= targetY
    ensures (interpolatedZ, Scan(prevRow, prevShearedY, prevZ))
            == Seek(c, f, targetY, prevRow0, Scan(prevRow0, prevShearedY0, prevZ0))
  {
    ghost var before := Scan(prevRow0, prevShearedY0, prevZ0);
    prevRow, prevShearedY, prevZ := prevRow0, prevShearedY0, prevZ0;
    interpolatedZ := Void;
    var r := prevRow;
    while r >= 0
      invariant -1 <= r < |c| && r <= prevRow <= r + 1 && prevRow < |c|
      invariant prevShearedY <= targetY
      invariant Seek(c, f, targetY, prevRow0, before) == Seek(c, f, targetY, r, Scan(prevRow, prevShearedY, prevZ))
      invariant interpolatedZ == Void
    {
      var z := c[r];
      if z.Void? {
        prevRow := SkipVoidsLoop(c, prevRow - 1);
        interpolatedZ, prevZ := Void, Void;
        return;
      }
      var shearedY := ShearedY(f, r, z.v);
      if shearedY > targetY {
        interpolatedZ := Interpolate(targetY, prevShearedY, shearedY, z.v, prevZ);
        return;
      }
      prevRow := r;
      if shearedY >= prevShearedY {
        prevShearedY, prevZ := shearedY, z;
      }
      r := r - 1;
    }
  }

  /** while (--prevRow >= 0 && isNaN(value at prevRow)), entered with prevRow already decremented. */
  method SkipVoidsLoop(c: seq<Cell>, from: int) returns (prevRow: int)
    requires -1 <= from < |c|
    ensures prevRow == SkipVoids(c, from)
  {
    prevRow := from;
    while prevRow >= 0 && c[prevRow].Void?
      invariant -1 <= prevRow <= from && SkipVoids(c, from) == SkipVoids(c, prevRow)
    {
      prevRow := prevRow - 1;
    }
  }

  // ------------------------------------------------------------------------------------------
  // Properties of the scan

  ghost predicate InRange(h: Cell, lo: real, hi: real) {
    h.Val? ==> lo <= h.v <= hi
  }

  ghost predicate ColumnInRange(c: seq<Cell>, lo: real, hi: real) {
    forall i :: 0 <= i < |c| ==> InRange(c[i], lo, hi)
  }

  /** The search only ever carries and returns elevations of the column. */
  lemma {:induction false} SeekInRange(c: seq<Cell>, f: Frame, targetY: real, r: int, st: Scan, lo: real, hi: real)
    requires -1 <= r < |c| && r <= st.prevRow <= r + 1 && st.prevRow < |c|
    requires st.prevShearedY <= targetY
    requires ColumnInRange(c, lo, hi) && InRange(st.prevZ, lo, hi)
    decreases r + 1
    ensures InRange(Seek(c, f, targetY, r, st).0, lo, hi)
    ensures InRange(Seek(c, f, targetY, r, st).1.prevZ, lo, hi)
  {
    if r >= 0 && c[r].Val? {
      var y := ShearedY(f, r, c[r].v);
      assert InRange(c[r], lo, hi);
      if y > targetY {
      } else if y >= st.prevShearedY {
        SeekInRange(c, f, targetY, r - 1, Scan(r, y, c[r]), lo, hi);
      } else {
        SeekInRange(c, f, targetY, r - 1, st.(prevRow := r), lo, hi);
      }
    }
  }

  lemma {:induction false} ScanRowsInRange(c: seq<Cell>, f: Frame, row: int, st: Scan, lo: real, hi: real)
    requires -1 <= row < |c| && -1 <= st.prevRow < |c| && f.cellSize > 0.0
    requires st.prevShearedY <= TargetY(f, row)
    requires ColumnInRange(c, lo, hi) && InRange(st.prevZ, lo, hi)
    decreases row + 1
    ensures ColumnInRange(ScanRows(c, f, row, st), lo, hi)
  {
    if row >= 0 {
      var next := Seek(c, f, TargetY(f, row), st.prevRow, st);
      SeekInRange(c, f, TargetY(f, row), st.prevRow, st, lo, hi);
      TargetStep(f, row);
      ScanRowsInRange(c, f, row - 1, next.1, lo, hi);
    }
  }

  /** Shearing never leaves the range of the column's elevations: it only interpolates. */
  lemma ShearStaysInRange(c: seq<Cell>, f: Frame, lo: real, hi: real)
    requires f.cellSize > 0.0 && ColumnInRange(c, lo, hi)
    ensures ColumnInRange(ShearColumn(c, f), lo, hi)
  {
    var p0 := SkipVoids(c, |c| - 1);
    ScanRowsInRange(c, f, p0, Scan(p0, TargetY(f, p0), Void), lo, hi);
  }

  /**
   * With a positive shear, the southernmost value of a column above the reference elevation
   * is lifted off its row: nothing lies south of it to interpolate from, and the row is void.
   */
  lemma LowestVertexLiftsOff(c: seq<Cell>, f: Frame)
    requires f.cellSize > 0.0 && f.scale > 0.0
    requires SkipVoids(c, |c| - 1) >= 0 && c[SkipVoids(c, |c| - 1)].v > f.refElevation
    ensures ShearColumn(c, f)[SkipVoids(c, |c| - 1)] == Void
  {
    var p0 := SkipVoids(c, |c| - 1);
    var st := Scan(p0, TargetY(f, p0), Void);
    PositiveProduct(c[p0].v - f.refElevation, f.scale);
    assert ShearedY(f, p0, c[p0].v) > TargetY(f, p0);
    assert Seek(c, f, TargetY(f, p0), p0, st).0 == Void;
    TargetStep(f, p0);
    assert ScanRows(c, f, p0, st)[p0] == Void;
  }

  ghost predicate NoVoids(c: seq<Cell>) {
    forall i :: 0 <= i < |c| ==> c[i].Val?
  }

  /**
   * Without shear each search stops one vertex north of the target with weight 0 and returns
   * the target's own elevation; on row 0 there is no vertex further north and the value is void.
   */
  lemma {:induction false} UnshearedSeek(c: seq<Cell>, f: Frame, row: int, st: Scan)
    requires f.scale == 0.0 && f.cellSize > 0.0 && NoVoids(c)
    requires 0 <= row < |c| && (st.prevRow == row || st.prevRow == row + 1) && st.prevRow < |c|
    requires st.prevShearedY == TargetY(f, st.prevRow)
    ensures Seek(c, f, TargetY(f, row), st.prevRow, st).1 == Scan(row, TargetY(f, row), c[row])
    ensures row > 0 ==> Seek(c, f, TargetY(f, row), st.prevRow, st).0 == c[row]
    ensures row == 0 ==> Seek(c, f, TargetY(f, row), st.prevRow, st).0 == Void
  {
    var t := TargetY(f, row);
    TargetStep(f, row);
    TargetStep(f, row + 1);
    var at := Scan(row, t, c[row]);
    assert ShearedY(f, row, c[row].v) == t;
    if st.prevRow == row + 1 {
      assert ShearedY(f, row + 1, c[row + 1].v) == TargetY(f, row + 1);
      assert Seek(c, f, t, row + 1, st) == Seek(c, f, t, row, Scan(row + 1, TargetY(f, row + 1), c[row + 1]));
    }
    assert Seek(c, f, t, st.prevRow, st) == Seek(c, f, t, row - 1, at);
    if row > 0 {
      var y := ShearedY(f, row - 1, c[row - 1].v);
      assert y == TargetY(f, row - 1);
      assert (t - t) / (y - t) == 0.0;
      assert Seek(c, f, t, row - 1, at) == (Interpolate(t, t, y, c[row - 1].v, c[row]), at);
    }
  }

  lemma {:induction false} UnshearedRows(c: seq<Cell>, f: Frame, row: int, st: Scan)
    requires f.scale == 0.0 && f.cellSize > 0.0 && NoVoids(c)
    requires 0 <= row < |c| && (st.prevRow == row || st.prevRow == row + 1) && st.prevRow < |c|
    requires st.prevShearedY == TargetY(f, st.prevRow)
    decreases row
    ensures ScanRows(c, f, row, st)[0] == Void
    ensures forall i :: 0 < i <= row ==> ScanRows(c, f, row, st)[i] == c[i]
  {
    TargetStep(f, row + 1);
    UnshearedSeek(c, f, row, st);
    var next := Seek(c, f, TargetY(f, row), st.prevRow, st);
    TargetStep(f, row);
    if row > 0 {
      UnshearedRows(c, f, row - 1, next.1);
    }
  }

  /**
   * Without shear a column without voids comes back unchanged, except row 0: the target at
   * the northern edge coincides with the northernmost vertex, no vertex lies strictly above
   * it, and it is left void.
   */
  lemma UnshearedColumn(c: seq<Cell>, f: Frame)
    requires f.scale == 0.0 && f.cellSize > 0.0 && NoVoids(c) && |c| > 0
    ensures ShearColumn(c, f)[0] == Void
    ensures forall i :: 0 < i < |c| ==> ShearColumn(c, f)[i] == c[i]
  {
    var p0 := SkipVoids(c, |c| - 1);
    assert p0 == |c| - 1;
    UnshearedRows(c, f, p0, Scan(p0, TargetY(f, p0), Void));
  }

  /** A column without values stays void. */
  lemma VoidColumnStaysVoid(c: seq<Cell>, f: Frame)
    requires f.cellSize > 0.0 && forall i :: 0 <= i < |c| ==> c[i].Void?
    ensures forall i :: 0 <= i < |c| ==> ShearColumn(c, f)[i] == Void
  {
    assert SkipVoids(c, |c| - 1) == -1;
  }

  // ------------------------------------------------------------------------------------------
  // The operator

  /** The column col of a grid, indexed by row. */
  function Column(g: Grids.Grid, col: int): (c: seq<Cell>)
    requires g.Valid() && 0 <= col < g.Cols()
    ensures |c| == g.Rows() && forall row :: 0 <= row < g.Rows() ==> c[row] == g.Value(col, row)
  {
    seq(g.Rows(), row requires 0 <= row < g.Rows() => g.Value(col, row))
  }

  /**
   * operate(grid): a null grid gives null; otherwise a new grid of the same size, cell size,
   * south and west whose every column is the sheared source column.
   */
  function Operate(grid: Option<Grids.Grid>, k: real, refElevation: real): (r: Option<Grids.Grid>)
    requires grid.Some? ==> grid.value.Valid()
    ensures r.None? <==> grid.None?
    ensures r.Some? ==> r.value.Valid() && r.value.Rows() == grid.value.Rows() && r.value.Cols() == grid.value.Cols()
    ensures r.Some? ==> r.value.cellSize == grid.value.cellSize && r.value.south == grid.value.south
                        && r.value.west == grid.value.west
    ensures r.Some? ==> forall row, col :: 0 <= row < grid.value.Rows() && 0 <= col < grid.value.Cols() ==>
      r.value.cells[row][col] == ShearColumn(Column(grid.value, col), FrameOf(grid.value, k, refElevation))[row]
  {
    if grid.None? then None
    else
      var g := grid.value;
      var f := FrameOf(g, k, refElevation);
      var cells := seq(g.Rows(), row requires 0 <= row < g.Rows() =>
        seq(g.Cols(), col requires 0 <= col < g.Cols() => ShearColumn(Column(g, col), f)[row]));
      Some(Grids.Grid(cells, g.cellSize, g.west, g.south))
  }
}

=== FILE: pyramid.dfy ===
/**
 * The Laplacian pyramid of a grid, as the renderer uses it: a number of levels, the vector
 * of per-level weights createConstantWeights builds, and the weighted sum of the levels.
 * How the levels are computed (LaplacianPyramid.java) is not part of this model.
 */
module Pyramids {
  import opened CellOperators

  /** The pyramid's level count and its sumLevels(weights, true). */
  datatype Pyramid = Pyramid(levels: nat, sumLevels: seq<real> -> Raster)

  /** createConstantWeights(v): one weight per level, each equal to v. */
  function ConstantWeights(p: Pyramid, v: real): (w: seq<real>)
    ensures |w| == p.levels
    ensures forall i :: 0 <= i < |w| ==> w[i] == v
  {
    seq(p.levels, _ => v)
  }
}

=== FILE: shader.dfy ===
/**
 * ShaderOperator: shaded relief. Every cell gets a unit terrain normal from its four
 * neighbours (reflected across the border of the grid), and the gray value is the dot
 * product of that normal with the light vector, mapped from [-1, 1] to [0, 255].
 */
module Shader {
  import opened Numeric
  import opened CellOperators
  import Grids
  import Colorizer

  // ------------------------------------------------------------------------------------------
  // Vectors

  datatype Vec = Vec(x: real, y: real, z: real)

  function Dot(a: Vec, b: Vec): real {
    a.x * b.x + a.y * b.y + a.z * b.z
  }

  predicate IsUnit(v: Vec) {
    Dot(v, v) == 1.0
  }

  /** The dot product of two unit vectors lies in [-1, 1]. */
  lemma UnitDotBounds(a: Vec, b: Vec)
    requires IsUnit(a) && IsUnit(b)
    ensures -1.0 <= Dot(a, b) <= 1.0
  {
    var d := Vec(a.x - b.x, a.y - b.y, a.z - b.z);
    var s := Vec(a.x + b.x, a.y + b.y, a.z + b.z);
    SquaresNonNegative(d);
    SquaresNonNegative(s);
    assert Dot(d, d) == Dot(a, a) - 2.0 * Dot(a, b) + Dot(b, b);
    assert Dot(s, s) == Dot(a, a) + 2.0 * Dot(a, b) + Dot(b, b);
  }

  lemma SquaresNonNegative(v: Vec)
    ensures Dot(v, v) >= 0.0
  {
    assert v.x * v.x >= 0.0 && v.y * v.y >= 0.0 && v.z * v.z >= 0.0;
  }

  /**
   * The normalised vector (x, y, z) / sqrt(x^2 + y^2 + z^2). With z > 0 the length is
   * positive, and the result is the unit vector pointing the same way as (x, y, z).
   */
  function Normalized(sqrt: real -> real, x: real, y: real, z: real): (n: Vec)
    requires IsSqrt(sqrt) && z > 0.0
    ensures IsUnit(n)
    ensures n.z > 0.0 && n.x * z == x * n.z && n.y * z == y * n.z
  {
    var len := sqrt(Sq(x) + Sq(y) + Sq(z));
    LengthPositive(sqrt, x, y, z);
    UnitAfterScaling(x, y, z, len);
    CrossQuotient(x, z, len);
    CrossQuotient(y, z, len);
    Vec(x / len, y / len, z / len)
  }

  lemma LengthPositive(sqrt: real -> real, x: real, y: real, z: real)
    requires IsSqrt(sqrt) && z > 0.0
    ensures sqrt(Sq(x) + Sq(y) + Sq(z)) > 0.0
    ensures Sq(sqrt(Sq(x) + Sq(y) + Sq(z))) == Sq(x) + Sq(y) + Sq(z)
  {
    SqNonNegative(x);
    SqNonNegative(y);
    SqPositive(z);
    var len := sqrt(Sq(x) + Sq(y) + Sq(z));
    assert len >= 0.0 && Sq(len) == Sq(x) + Sq(y) + Sq(z);
    TimesZero(len, len);
  }

  lemma UnitAfterScaling(x: real, y: real, z: real, len: real)
    requires len > 0.0 && Sq(len) == Sq(x) + Sq(y) + Sq(z)
    ensures IsUnit(Vec(x / len, y / len, z / len))
    ensures z > 0.0 ==> z / len > 0.0
  {
    SqQuotient(x, len);
    SqQuotient(y, len);
    SqQuotient(z, len);
    SqPositive(len);
    UnitFactor(Sq(x / len), Sq(y / len), Sq(z / len), Sq(len));
    assert Dot(Vec(x / len, y / len, z / len), Vec(x / len, y / len, z / len)) == Sq(x / len) + Sq(y / len) + Sq(z / len);
  }

  /** (x / len)^2 * len^2 == x^2 */
  lemma SqQuotient(x: real, len: real)
    requires len > 0.0
    ensures Times(Sq(x / len), Sq(len)) == Sq(x)
  {
    TimesQuotient(x, len);
    TimesSquares(x / len, len);
  }

  /** Three parts that scale by m to m itself sum to one. */
  lemma UnitFactor(a: real, b: real, c: real, m: real)
    requires m > 0.0 && Times(a, m) + Times(b, m) + Times(c, m) == m
    ensures a + b + c == 1.0
  {
    assert (a + b + c - 1.0) * m == a * m + b * m + c * m - m;
    ZeroFactor(a + b + c - 1.0, m);
  }

  lemma CrossQuotient(x: real, z: real, len: real)
    requires len != 0.0
    ensures (x / len) * z == x * (z / len)
  {
    var u, w := x / len, z / len;
    assert x == u * len && z == w * len;
    assert u * z == u * (w * len) == (u * len) * w;
  }

  // ------------------------------------------------------------------------------------------
  // The gray value

  /** (dot + 1) / 2 * 255: the dot product of two unit vectors mapped onto the gray scale. */
  function Gray(dot: real): (gray: real)
    ensures -1.0 <= dot <= 1.0 ==> 0.0 <= gray <= 255.0
    ensures dot == -1.0 ==> gray == 0.0
    ensures dot == 1.0 ==> gray == 255.0
  {
    (dot + 1.0) / 2.0 * 255.0
  }

  /** A surface turned further towards the light is brighter. */
  lemma GrayIncreasing(d1: real, d2: real)
    requires d1 < d2
    ensures Gray(d1) < Gray(d2)
  {
  }

  // ------------------------------------------------------------------------------------------
  // The terrain normal

  /** (neighbour - centre) * s; a void operand gives a void difference. */
  function Rise(neighbour: Cell, centre: Cell, s: real): (d: Cell)
    ensures d.Val? <==> neighbour.Val? && centre.Val?
  {
    if neighbour.Val? && centre.Val? then Val((neighbour.v - centre.v) * s) else Void
  }

  function Neg(a: Cell): (d: Cell)
    ensures d.Val? <==> a.Val?
  {
    if a.Val? then Val(-a.v) else Void
  }

  /**
   * computeTerrainNormal's horizontal components (x, y) before normalisation, with
   * s = vertExaggeration * cellSize. The south and east rises use the neighbour below and to
   * the right, reflected from the neighbour above and to the left on the last row and
   * column; the north and west rises use the neighbour above and to the left, and on the first
   * row and column they are the negated south and east rises. x = west - east and
   * y = south - north. The pair is void exactly when the centre or an in-grid neighbour in
   * that direction is void.
   */
  function Horizontal(g: Grids.Grid, col: int, row: int, s: real): (xy: (Cell, Cell))
    requires g.Valid() && 0 <= col < g.Cols() && 0 <= row < g.Rows()
    ensures xy.0.Void? <==> (g.Value(col, row).Void? ||
      (col > 0 && g.Value(col - 1, row).Void?) || (col < g.Cols() - 1 && g.Value(col + 1, row).Void?))
    ensures xy.1.Void? <==> (g.Value(col, row).Void? ||
      (row > 0 && g.Value(col, row - 1).Void?) || (row < g.Rows() - 1 && g.Value(col, row + 1).Void?))
  {
    var c := g.Value(col, row);
    var elevS := if row == g.Rows() - 1 then Neg(Rise(g.Value(col, row - 1), c, s)) else Rise(g.Value(col, row + 1), c, s);
    var elevE := if col == g.Cols() - 1 then Neg(Rise(g.Value(col - 1, row), c, s)) else Rise(g.Value(col + 1, row), c, s);
    var elevN := if row == 0 then Neg(elevS) else Rise(g.Value(col, row - 1), c, s);
    var elevW := if col == 0 then Neg(elevE) else Rise(g.Value(col - 1, row), c, s);
    (Colorizer.Sub(elevW, elevE), Colorizer.Sub(elevS, elevN))
  }

  /** A cell's gray value is void when the centre or one of its in-grid four neighbours is. */
  ghost predicate StencilVoid(g: Grids.Grid, col: int, row: int)
    requires g.Valid() && 0 <= col < g.Cols() && 0 <= row < g.Rows()
  {
    g.Value(col, row).Void? ||
    (col > 0 && g.Value(col - 1, row).Void?) || (col < g.Cols() - 1 && g.Value(col + 1, row).Void?) ||
    (row > 0 && g.Value(col, row - 1).Void?) || (row < g.Rows() - 1 && g.Value(col, row + 1).Void?)
  }

  /**
   * The gray value of one cell: the unit normal (x, y, 2 * cellSize^2) / length, with the
   * cell size first converted from degrees to metres, dotted with the light and mapped to
   * [0, 255]. With a unit light vector the gray value stays within [0, 255].
   */
  function ShadeCell(sqrt: real -> real, light: Vec, vertExaggeration: real, g: Grids.Grid, col: int, row: int): (gray: Cell)
    requires IsSqrt(sqrt) && g.Valid() && 0 <= col < g.Cols() && 0 <= row < g.Rows()
    ensures gray.Void? <==> StencilVoid(g, col, row)
    ensures gray.Val? && IsUnit(light) ==> 0.0 <= gray.v <= 255.0
  {
    var cs := MetricCellSize(g.cellSize);
    LitGray(sqrt, light, cs, Horizontal(g, col, row, Exaggerated(vertExaggeration, cs)))
  }

  /** s = vertExaggeration * cellSize, the factor on every elevation difference. */
  function Exaggerated(vertExaggeration: real, cellSize: real): real {
    vertExaggeration * cellSize
  }

  /** The vertical component of the unnormalised normal, z = 2 * cellSize^2. */
  function NormalHeight(cellSize: real): (z: real)
    requires cellSize > 0.0
    ensures z > 0.0
  {
    SqPositive(cellSize);
    2.0 * Sq(cellSize)
  }

  /** The gray value for the horizontal components xy at a cell size of cs metres. */
  function LitGray(sqrt: real -> real, light: Vec, cs: real, xy: (Cell, Cell)): (gray: Cell)
    requires IsSqrt(sqrt) && cs > 0.0
    ensures gray.Void? <==> xy.0.Void? || xy.1.Void?
    ensures gray.Val? && IsUnit(light) ==> 0.0 <= gray.v <= 255.0
  {
    if xy.0.Void? || xy.1.Void? then Void
    else
      var n := Normalized(sqrt, xy.0.v, xy.1.v, NormalHeight(cs));
      if IsUnit(light) then UnitDotBounds(n, light); Val(Gray(Dot(n, light)))
      else Val(Gray(Dot(n, light)))
  }

  // ------------------------------------------------------------------------------------------
  // Planes are shaded uniformly

  /**
   * The reflection at the border keeps the normal consistent: on a tilted plane every one of
   * the nine border cases gives the central-difference normal (-2 a s, 2 b s).
   */
  lemma PlaneHasUniformNormal(g: Grids.Grid, z0: real, a: real, b: real, s: real, col: int, row: int)
    requires Colorizer.IsPlane(g, z0, a, b) && 0 <= col < g.Cols() && 0 <= row < g.Rows()
    ensures Horizontal(g, col, row, s) == (Val(-2.0 * (a * s)), Val(2.0 * (b * s)))
  {
    var c := g.Value(col, row);
    if col < g.Cols() - 1 { RiseAlongRow(g, z0, a, b, s, row, col, col + 1); }
    if col > 0 { RiseAlongRow(g, z0, a, b, s, row, col, col - 1); }
    if row < g.Rows() - 1 { RiseAlongColumn(g, z0, a, b, s, col, row, row + 1); }
    if row > 0 { RiseAlongColumn(g, z0, a, b, s, col, row, row - 1); }
  }

  lemma RiseAlongRow(g: Grids.Grid, z0: real, a: real, b: real, s: real, row: int, col: int, nb: int)
    requires Colorizer.IsPlane(g, z0, a, b) && 0 <= row < g.Rows() && 0 <= col < g.Cols() && 0 <= nb < g.Cols()
    requires nb == col + 1 || nb == col - 1
    ensures nb == col + 1 ==> Rise(g.Value(nb, row), g.Value(col, row), s) == Val(a * s)
    ensures nb == col - 1 ==> Rise(g.Value(nb, row), g.Value(col, row), s) == Val(-(a * s))
  {
    var base := z0 + b * row as real;
    assert g.Value(nb, row) == Val(base + a * nb as real);
    assert g.Value(col, row) == Val(base + a * col as real);
    var d := a * nb as real - a * col as real;
    assert d == a * (nb - col) as real;
    if nb == col + 1 { assert d == a; } else { assert d == -a; }
  }

  lemma RiseAlongColumn(g: Grids.Grid, z0: real, a: real, b: real, s: real, col: int, row: int, nb: int)
    requires Colorizer.IsPlane(g, z0, a, b) && 0 <= row < g.Rows() && 0 <= col < g.Cols() && 0 <= nb < g.Rows()
    requires nb == row + 1 || nb == row - 1
    ensures nb == row + 1 ==> Rise(g.Value(col, nb), g.Value(col, row), s) == Val(b * s)
    ensures nb == row - 1 ==> Rise(g.Value(col, nb), g.Value(col, row), s) == Val(-(b * s))
  {
    var base := z0 + a * col as real;
    assert g.Value(col, nb) == Val(base + b * nb as real);
    assert g.Value(col, row) == Val(base + b * row as real);
    var d := b * nb as real - b * row as real;
    assert d == b * (nb - row) as real;
    if nb == row + 1 { assert d == b; } else { assert d == -b; }
  }

  /** A tilted plane gets one gray value everywhere, border cells included. */
  lemma PlaneShadedUniformly(sqrt: real -> real, light: Vec, vertExaggeration: real, g: Grids.Grid,
                             z0: real, a: real, b: real, c1: int, r1: int, c2: int, r2: int)
    requires IsSqrt(sqrt) && Colorizer.IsPlane(g, z0, a, b)
    requires 0 <= c1 < g.Cols() && 0 <= r1 < g.Rows() && 0 <= c2 < g.Cols() && 0 <= r2 < g.Rows()
    ensures ShadeCell(sqrt, light, vertExaggeration, g, c1, r1).Val?
    ensures ShadeCell(sqrt, light, vertExaggeration, g, c1, r1) == ShadeCell(sqrt, light, vertExaggeration, g, c2, r2)
  {
    var s := Exaggerated(vertExaggeration, MetricCellSize(g.cellSize));
    PlaneHasUniformNormal(g, z0, a, b, s, c1, r1);
    PlaneHasUniformNormal(g, z0, a, b, s, c2, r2);
    ShadeCellFactors(sqrt, light, vertExaggeration, g, c1, r1);
    ShadeCellFactors(sqrt, light, vertExaggeration, g, c2, r2);
  }

  /** A cell's gray value depends on the grid only through its horizontal components. */
  lemma ShadeCellFactors(sqrt: real -> real, light: Vec, vertExaggeration: real, g: Grids.Grid, col: int, row: int)
    requires IsSqrt(sqrt) && g.Valid() && 0 <= col < g.Cols() && 0 <= row < g.Rows()
    ensures ShadeCell(sqrt, light, vertExaggeration, g, col, row)
         == LitGray(sqrt, light, MetricCellSize(g.cellSize), Horizontal(g, col, row, Exaggerated(vertExaggeration, MetricCellSize(g.cellSize))))
  {
  }

  // ------------------------------------------------------------------------------------------
  // The operator

  /** The operator's three settings; a new operator has 1, 315 and 45. */
  datatype ShaderSettings = ShaderSettings(vertExaggeration: real, illuminationAzimuth: int, illuminationZenith: int)

  function DefaultSettings(): (s: ShaderSettings)
    ensures s.vertExaggeration == 1.0 && s.illuminationAzimuth == 315 && s.illuminationZenith == 45
  {
    ShaderSettings(1.0, 315, 45)
  }

  /**
   * operate(src, dst, startRow, endRow): every column of the rows [startRow, endRow) of dst
   * receives the gray value of the corresponding source cell; the other rows are untouched.
   * The light vector is a parameter: the operator builds it from the settings' azimuth and
   * zenith with Vector3D, whose trigonometry is not part of this model.
   */
  method ShadeChunk(sqrt: real -> real, light: Vec, settings: ShaderSettings, src: Grids.Grid, dst: Raster,
                    startRow: int, endRow: int) returns (out: Raster)
    requires IsSqrt(sqrt) && src.Valid() && SameShape(src.cells, dst) && 0 <= startRow <= endRow <= src.Rows()
    ensures SameShape(out, dst) && OtherRowsKept(out, dst, startRow, endRow)
    ensures forall r, c :: startRow <= r < endRow && 0 <= c < src.Cols() ==>
      out[r][c] == ShadeCell(sqrt, light, settings.vertExaggeration, src, c, r)
  {
    var ve := settings.vertExaggeration;
    out := dst;
    var row := startRow;
    while row < endRow
      invariant startRow <= row <= endRow
      invariant SameShape(out, dst) && OtherRowsKept(out, dst, startRow, row)
      invariant forall r, c :: startRow <= r < row && 0 <= c < src.Cols() ==> out[r][c] == ShadeCell(sqrt, light, ve, src, c, r)
    {
      var line := dst[row];
      var col := 0;
      while col < src.Cols()
        invariant 0 <= col <= src.Cols() && |line| == |dst[row]| == src.Cols()
        invariant forall c :: 0 <= c < col ==> line[c] == ShadeCell(sqrt, light, ve, src, c, row)
      {
        line := line[col := ShadeCell(sqrt, light, ve, src, col, row)];
        col := col + 1;
      }
      out := out[row := line];
      row := row + 1;
    }
  }
}

=== FILE: shapeexport.dfy ===
/**
 * The ESRI Shapefile writer (ShapeGeometryExporter): every non-empty line of a
 * geometry collection, at any depth, becomes one single-part polyline or
 * polygon record; the .shx index lists where each record starts. Doubles are
 * written through an encoder parameter, the eight-byte little-endian IEEE 754
 * image of the value.
 */
module ShapeExport {
  import opened Wrappers
  import opened Bytes
  import opened Features
  import opened Collections

  const POINT_SHAPE_TYPE: int := 1
  const POLYLINE_SHAPE_TYPE: int := 3
  const POLYGON_SHAPE_TYPE: int := 5

  /** The shape type a new exporter writes. */
  const DEFAULT_SHAPE_TYPE: int := POLYLINE_SHAPE_TYPE

  /** `setShapeType`: only point, polyline and polygon files can be asked for. */
  function SetShapeType(shapeType: int): (r: Result<int>)
    ensures r.Success? <==> shapeType == POINT_SHAPE_TYPE || shapeType == POLYLINE_SHAPE_TYPE || shapeType == POLYGON_SHAPE_TYPE
    ensures r.Success? ==> r.value == shapeType
    ensures r.Failure? ==> r.error == IllegalArgument
  {
    if shapeType != POINT_SHAPE_TYPE && shapeType != POLYLINE_SHAPE_TYPE && shapeType != POLYGON_SHAPE_TYPE then
      Failure(IllegalArgument)
    else Success(shapeType)
  }

  /** Lines are written for polyline and polygon files; nothing else is ever written. */
  predicate WritesLines(shapeType: int) {
    shapeType == POLYGON_SHAPE_TYPE || shapeType == POLYLINE_SHAPE_TYPE
  }

  /**
   * The point lists `writeGeometryCollection` turns into records, in order,
   * from member k of collection c on: non-empty lines when lines are written,
   * the contents of nested collections, and no points.
   */
  function WrittenLines(shapeType: int, c: Geometry, k: nat): (r: seq<seq<Point>>)
    requires c.GeometryCollection? && k <= |c.members|
    ensures forall i :: 0 <= i < |r| ==> |r[i]| > 0
    ensures !WritesLines(shapeType) ==> r == []
    decreases c, |c.members| - k
  {
    if k == |c.members| then []
    else
      var m := c.members[k];
      var here := match m
        case LineString(ps, _) => if WritesLines(shapeType) && |ps| > 0 then [ps] else []
        case PointGeometry(_) => []
        case GeometryCollection(_, _) => WrittenLines(shapeType, m, 0);
      here + WrittenLines(shapeType, c, k + 1)
  }

  /** The coordinates of the points, x then y, as little-endian doubles. */
  function PointsBytes(enc: real -> seq<byte>, ps: seq<Point>): (r: seq<byte>)
    ensures Width8(enc) ==> |r| == 16 * |ps|
  {
    if |ps| == 0 then [] else enc(ps[0].x) + (enc(ps[0].y) + PointsBytes(enc, ps[1..]))
  }

  /** Every encoded double takes eight bytes. */
  ghost predicate Width8(enc: real -> seq<byte>) {
    forall x :: |enc(x)| == 8
  }

  /**
   * The content of a polyline record as `writePolyline` assembles it: shape
   * type, the line's box, one part, the point count, the part's first index 0,
   * and the points. Each field is followed by the rest, so that readers can
   * peel the fields off one at a time.
   */
  function Content(enc: real -> seq<byte>, shapeType: int, ps: seq<Point>): (r: seq<byte>)
    requires IsInt32(shapeType) && |ps| > 0 && IsInt32(|ps|)
    ensures Width8(enc) ==> |r| == 48 + 16 * |ps|
  {
    var box := Extent(ps);
    IntLE(shapeType) + (enc(box.minX) + (enc(box.minY) + (enc(box.maxX) + (enc(box.maxY) +
      (IntLE(1) + (IntLE(|ps|) + (IntLE(0) + PointsBytes(enc, ps))))))))
  }

  /** `writeRecordHeader` and the content: the record number, the content length in words. */
  function Record(enc: real -> seq<byte>, shapeType: int, number: int, ps: seq<Point>): (r: seq<byte>)
    requires IsInt32(shapeType) && |ps| > 0 && IsInt32(|ps|)
    ensures Width8(enc) ==> |r| == 56 + 16 * |ps|
  {
    var content := Content(enc, shapeType, ps);
    IntBE(Wrap32(number)) + (IntBE(Wrap32(|content| / 2)) + content)
  }

  /** Lines small enough that their point counts are Java `int`s. */
  predicate Countable(lines: seq<seq<Point>>) {
    forall i :: 0 <= i < |lines| ==> |lines[i]| > 0 && IsInt32(|lines[i]|)
  }

  /** The record of each line in turn; the counter gives line i the record number i + 1. */
  function RecordList(enc: real -> seq<byte>, shapeType: int, lines: seq<seq<Point>>): (r: seq<seq<byte>>)
    requires IsInt32(shapeType) && Countable(lines)
    ensures |r| == |lines|
    ensures Width8(enc) ==> forall i :: 0 <= i < |r| ==> |r[i]| == 56 + 16 * |lines[i]|
  {
    seq(|lines|, i requires 0 <= i < |lines| => Record(enc, shapeType, i + 1, lines[i]))
  }

  /**
   * `writeHeader`: file code 9994, five unused ints, the file length in words
   * (data plus the 100 header bytes), version 1000 and the shape type, the
   * collection's box, and four zero doubles for the z and m ranges.
   */
  function Header(enc: real -> seq<byte>, shapeType: int, box: Rect, dataSize: int): (r: seq<byte>)
    requires IsInt32(shapeType) && IsInt32(dataSize)
    ensures Width8(enc) ==> |r| == 100
  {
    IntBE(SHAPE_FILE_CODE) + (Unused() + (IntBE(FileLength(dataSize)) + (IntLE(VERSION) + (IntLE(shapeType) + Ranges(enc, box)))))
  }

  const SHAPE_FILE_CODE: int := 9994
  const VERSION: int := 1000

  /** The five unused header ints, written as zeros. */
  function Unused(): (r: seq<byte>)
    ensures |r| == 20
  {
    IntBE(0) + IntBE(0) + IntBE(0) + IntBE(0) + IntBE(0)
  }

  /** The file length field: data and header size in 16-bit words, as a Java `int`. */
  function FileLength(dataSize: int): (n: int)
    requires IsInt32(dataSize)
    ensures IsInt32(n)
    ensures 0 <= dataSize < TWO_31 - 100 ==> 2 * n == dataSize + 100 - dataSize % 2
  {
    Wrap32(JavaDiv(dataSize, 2) + 50)
  }

  /** The box, then zero z and m ranges. */
  function Ranges(enc: real -> seq<byte>, box: Rect): (r: seq<byte>)
    ensures Width8(enc) ==> |r| == 64
  {
    enc(box.minX) + enc(box.minY) + enc(box.maxX) + enc(box.maxY) + enc(0.0) + enc(0.0) + enc(0.0) + enc(0.0)
  }

  /** The entries of `writeSHXFile`: per record its offset and content length, in words. */
  function IndexEntries(starts: seq<int>, k: nat): (r: seq<byte>)
    requires k < |starts|
    ensures |r| == 8 * (|starts| - 1 - k)
    decreases |starts| - k
  {
    if k == |starts| - 1 then []
    else
      var offset := Wrap32(starts[k]);
      var contentLength := Wrap32(Wrap32(starts[k + 1]) - offset);
      IntBE(Wrap32(JavaDiv(offset, 2) + 50)) + IntBE(Wrap32(JavaDiv(contentLength, 2) - 4)) + IndexEntries(starts, k + 1)
  }

  /** The .shp and .shx files written for a collection, and `getWrittenRecordCount`. */
  datatype ShapeFiles = ShapeFiles(shp: seq<byte>, shx: seq<byte>, recordCount: int)

  /**
   * `write` followed by `writeSHXFile`. The record counter restarts at 1 and
   * the offsets list is cleared. The header needs the collection's box, whose
   * computation throws for a collection with an empty part or without members.
   */
  function Write(enc: real -> seq<byte>, shapeType: int, c: Geometry): (r: Result<ShapeFiles>)
    requires c.GeometryCollection? && IsInt32(shapeType)
    requires Countable(WrittenLines(shapeType, c, 0))
    ensures r.Failure? <==> !(GeometryBox(c).Success? && GeometryBox(c).value.Some?)
    ensures r.Failure? ==> r.error == NullPointer
    ensures r.Success? ==> r.value.recordCount == |WrittenLines(shapeType, c, 0)|
  {
    var lines := WrittenLines(shapeType, c, 0);
    var records := RecordList(enc, shapeType, lines);
    var data := Concat(records, 0);
    // shxRecords: the size written before each record, then the size of all of them
    var starts := Offsets(records);
    match GeometryBox(c)
    case Failure(e) => Failure(e)
    case Success(None) => Failure(NullPointer)
    case Success(Some(box)) =>
      var shp := Header(enc, shapeType, box, Wrap32(|data|)) + data;
      var shx := Header(enc, shapeType, box, Wrap32((|starts| - 1) * 8)) + IndexEntries(starts, 0);
      Success(ShapeFiles(shp, shx, (1 + |lines|) - 1))
  }
}

=== FILE: shapefiles.dfy ===
/**
 * Whole files: what `importData` makes of a .shp and .shx pair as `write` and
 * `writeSHXFile` produce it. The header reads back, the index announces one
 * entry per record and points at each record's start, and the record loop
 * gives back every written line, with or without the index.
 */
module ShapeFileRoundTrip {
  import opened Wrappers
  import opened Bytes
  import opened Features
  import opened Collections
  import opened ShapeImport
  import opened ShapeExport
  import opened ShapeRoundTrip

  /** The fields of a written header sit where the reader looks for them. */
  lemma HeaderFields(enc: real -> seq<byte>, shapeType: int, box: Rect, dataSize: int, tail: seq<byte>, bs: seq<byte>)
    requires IsInt32(shapeType) && IsInt32(dataSize) && Width8(enc)
    requires bs == Header(enc, shapeType, box, dataSize) + tail
    ensures |bs| == 100 + |tail| && bs[100..] == tail && HoldsAt(bs, 100, tail)
    ensures bs[..4] == IntBE(SHAPE_FILE_CODE)
    ensures bs[24..28] == IntBE(FileLength(dataSize))
  {
    var rest := IntLE(VERSION) + (IntLE(shapeType) + Ranges(enc, box));
    LeadingFields(IntBE(SHAPE_FILE_CODE), Unused(), IntBE(FileLength(dataSize)), rest, tail, bs);
    assert bs[100..100 + |tail|] == bs[100..];
  }

  /** In a + (u + (c + rest)) + tail, a leads and c follows the |u| bytes after it. */
  lemma LeadingFields(a: seq<byte>, u: seq<byte>, c: seq<byte>, rest: seq<byte>, tail: seq<byte>, bs: seq<byte>)
    requires bs == a + (u + (c + rest)) + tail
    ensures bs[..|a|] == a
    ensures bs[|a| + |u|..|a| + |u| + |c|] == c
    ensures bs[|a| + |u| + |c| + |rest|..] == tail
  {
    var h := a + (u + (c + rest));
    assert bs[..|a|] == h[..|a|];
    assert bs[|a| + |u|..|a| + |u| + |c|] == h[|a| + |u|..|a| + |u| + |c|];
  }

  /** A written header reads back, leaving the reader at byte 100. */
  lemma HeaderReadBack(enc: real -> seq<byte>, dec: seq<byte> -> real, shapeType: int, box: Rect, dataSize: int,
                       tail: seq<byte>, bs: seq<byte>)
    requires IsDoubleCodec(enc, dec) && IsInt32(shapeType) && IsInt32(dataSize)
    requires bs == Header(enc, shapeType, box, dataSize) + tail
    ensures ReadHeader(bs) == Success(100)
    ensures bs[100..] == tail
  {
    CodecWidth(enc, dec);
    HeaderFields(enc, shapeType, box, dataSize, tail, bs);
    IntBERoundTrip(SHAPE_FILE_CODE);
  }

  /**
   * The length of an index of m entries, written as a word count, gives back
   * m through the reader's arithmetic.
   */
  lemma CountArithmetic(m: int)
    requires 0 <= m && 8 * m + 100 < TWO_31
    ensures FileLength(8 * m) == 4 * m + 50
    ensures JavaDiv(Wrap32(Wrap32(FileLength(8 * m) * 2) - 100), 8) == m
  {
    assert Wrap32((4 * m + 50) * 2) == 8 * m + 100;
  }

  /** An index written for m records announces m records. */
  lemma IndexCountReadBack(enc: real -> seq<byte>, dec: seq<byte> -> real, shapeType: int, box: Rect, m: int,
                           tail: seq<byte>, shx: seq<byte>)
    requires IsDoubleCodec(enc, dec) && IsInt32(shapeType)
    requires 0 <= m && 8 * m + 100 < TWO_31
    requires shx == Header(enc, shapeType, box, 8 * m) + tail
    ensures IndexCount(shx) == Some(m)
    ensures RecordCount(Some(shx)) == m
  {
    CodecWidth(enc, dec);
    HeaderFields(enc, shapeType, box, 8 * m, tail, shx);
    IntBERoundTrip(FileLength(8 * m));
    CountArithmetic(m);
  }

  /** Start positions the index can hold: even, and small enough for a word offset past the header. */
  predicate IndexableFrom(starts: seq<int>, k: nat) {
    forall j :: k <= j < |starts| ==> 0 <= starts[j] < TWO_31 - 100 && starts[j] % 2 == 0
  }

  /** The offset word of an entry reads back as the byte offset of its record in the main file. */
  lemma OffsetWord(s: int, a: int)
    requires 0 <= s < TWO_31 - 100 && s % 2 == 0
    requires a == Wrap32(JavaDiv(Wrap32(s), 2) + 50)
    ensures a == s / 2 + 50
    ensures Wrap32(a * 2) == s + 100
  {
  }

  /** Starts k and later, moved past the 100-byte header, without the final end position. */
  function Moved(starts: seq<int>, k: nat): (r: seq<int>)
    requires k < |starts|
    ensures |r| == |starts| - 1 - k
    ensures forall i :: 0 <= i < |r| ==> r[i] == starts[k + i] + 100
    decreases |starts| - k
  {
    if k == |starts| - 1 then [] else [starts[k] + 100] + Moved(starts, k + 1)
  }

  /**
   * The entries `writeSHXFile` writes for starts k and later read back as
   * those starts moved past the 100-byte header.
   */
  lemma {:induction false} EntriesRead(shx: seq<byte>, pos: int, starts: seq<int>, k: nat)
    requires k < |starts| && IndexableFrom(starts, k)
    requires HoldsAt(shx, pos, IndexEntries(starts, k))
    ensures ReadOffsets(shx, pos, |starts| - 1 - k) == Success(Moved(starts, k))
    decreases |starts| - k
  {
    if k < |starts| - 1 {
      EntryRest(shx, pos, starts, k);
      EntriesRead(shx, pos + 8, starts, k + 1);
      EntryStep(shx, pos, starts, k);
    } else {
      assert Moved(starts, k) == [];
    }
  }

  /** After the first entry for starts k and later come the entries for the later starts. */
  lemma EntryRest(shx: seq<byte>, pos: int, starts: seq<int>, k: nat)
    requires k < |starts| - 1 && IndexableFrom(starts, k)
    requires HoldsAt(shx, pos, IndexEntries(starts, k))
    ensures HoldsAt(shx, pos + 8, IndexEntries(starts, k + 1)) && IndexableFrom(starts, k + 1)
    ensures At(shx, pos + 8)
  {
    var _ := EntryAt(shx, pos, starts, k);
  }

  /** The first entry read in front of the later starts gives the starts from k on. */
  lemma EntryStep(shx: seq<byte>, pos: int, starts: seq<int>, k: nat)
    requires k < |starts| - 1 && IndexableFrom(starts, k)
    requires HoldsAt(shx, pos, IndexEntries(starts, k)) && At(shx, pos + 8)
    requires ReadOffsets(shx, pos + 8, |starts| - 1 - (k + 1)) == Success(Moved(starts, k + 1))
    ensures ReadOffsets(shx, pos, |starts| - 1 - k) == Success(Moved(starts, k))
  {
    var b := EntryAt(shx, pos, starts, k);
    EntryRead(shx, pos, starts, k, b);
  }

  /**
   * The first entry of those for starts k and later: the offset word of start
   * k, then a length word, then the entries for the later starts.
   */
  lemma EntryAt(shx: seq<byte>, pos: int, starts: seq<int>, k: nat) returns (b: int)
    requires k < |starts| - 1 && IndexableFrom(starts, k)
    requires HoldsAt(shx, pos, IndexEntries(starts, k))
    ensures ReadIntBE(shx, pos) == Success((starts[k] / 2 + 50, pos + 4))
    ensures ReadIntBE(shx, pos + 4) == Success((b, pos + 8))
    ensures HoldsAt(shx, pos + 8, IndexEntries(starts, k + 1)) && IndexableFrom(starts, k + 1)
    ensures Wrap32((starts[k] / 2 + 50) * 2) == starts[k] + 100
  {
    var offset := Wrap32(starts[k]);
    var contentLength := Wrap32(Wrap32(starts[k + 1]) - offset);
    var a := Wrap32(JavaDiv(offset, 2) + 50);
    b := Wrap32(JavaDiv(contentLength, 2) - 4);
    var rest := IndexEntries(starts, k + 1);
    var entry := IntBE(a) + IntBE(b);
    assert IndexEntries(starts, k) == entry + rest;
    Peel(shx, pos, pos + 8, entry, rest);
    Peel(shx, pos, pos + 4, IntBE(a), IntBE(b));
    IntBEAt(shx, pos, a);
    IntBEAt(shx, pos + 4, b);
    OffsetWord(starts[k], a);
  }

  /** An entry's two words followed by the entries of the later starts read as the starts from k on. */
  lemma EntryRead(shx: seq<byte>, pos: int, starts: seq<int>, k: nat, b: int)
    requires k < |starts| - 1 && At(shx, pos) && At(shx, pos + 8)
    requires ReadIntBE(shx, pos) == Success((starts[k] / 2 + 50, pos + 4))
    requires ReadIntBE(shx, pos + 4) == Success((b, pos + 8))
    requires Wrap32((starts[k] / 2 + 50) * 2) == starts[k] + 100
    requires ReadOffsets(shx, pos + 8, |starts| - 1 - (k + 1)) == Success(Moved(starts, k + 1))
    ensures ReadOffsets(shx, pos, |starts| - 1 - k) == Success(Moved(starts, k))
  {
    assert Moved(starts, k) == [starts[k] + 100] + Moved(starts, k + 1);
  }

  /**
   * One turn of the indexed record loop: at record k the loop believes it is
   * where the record starts, so it skips nothing, reads the record, and
   * believes itself at the next record's start.
   */
  lemma IndexedStep(mode: Reading, dec: seq<byte> -> real, bs: seq<byte>, offsets: seq<int>, k: nat,
                    p: int, q: int, g: Geometry, rest: seq<Geometry>)
    requires StepAt(mode, dec, bs, p, q, g) && At(bs, q) && IsInt32(q)
    requires k + 1 < |offsets| && offsets[k] == p
    requires IndexedRecords(mode, dec, bs, offsets, k + 1, q, q) == Success(rest)
    ensures IndexedRecords(mode, dec, bs, offsets, k, p, p) == Success([g] + rest)
  {
    assert Skip(bs, p, Wrap32(offsets[k] - p)) == p;
    assert Wrap32(offsets[k] + (q - p)) == q;
  }

  /** The last turn of the indexed record loop reads the record and stops. */
  lemma IndexedLast(mode: Reading, dec: seq<byte> -> real, bs: seq<byte>, offsets: seq<int>, k: nat,
                    p: int, q: int, g: Geometry)
    requires StepAt(mode, dec, bs, p, q, g)
    requires k + 1 == |offsets| && offsets[k] == p
    ensures IndexedRecords(mode, dec, bs, offsets, k, p, p) == Success([g])
  {
    assert Skip(bs, p, Wrap32(offsets[k] - p)) == p;
  }

  /**
   * Where every record reads whole from its start to the next, the indexed
   * loop started at record k, at that record's start, reads the rest of them.
   */
  lemma {:induction false} IndexedSteps(mode: Reading, dec: seq<byte> -> real, bs: seq<byte>,
                                        starts: seq<int>, offsets: seq<int>, out: seq<Geometry>, k: nat)
    requires |starts| == |out| + 1 && |offsets| == |out| && k < |out|
    requires forall j :: 0 <= j < |out| ==> offsets[j] == starts[j]
    requires forall j :: 0 <= j < |starts| ==> At(bs, starts[j]) && IsInt32(starts[j])
    requires Steps(mode, dec, bs, starts, out)
    ensures IndexedRecords(mode, dec, bs, offsets, k, starts[k], starts[k]) == Success(out[k..])
    decreases |out| - k
  {
    assert StepAt(mode, dec, bs, starts[k], starts[k + 1], out[k]);
    if k + 1 < |out| {
      IndexedSteps(mode, dec, bs, starts, offsets, out, k + 1);
      Uncons(out, k);
      IndexedStep(mode, dec, bs, offsets, k, starts[k], starts[k + 1], out[k], out[k + 1..]);
    } else {
      assert out[k..] == [out[k]];
      IndexedLast(mode, dec, bs, offsets, k, starts[k], starts[k + 1], out[k]);
    }
  }

  /**
   * The files `write` and `writeSHXFile` produce from the records of the
   * lines, under the box: the main file is a header and the records one
   * after the other; the index is a header and one entry per record.
   */
  predicate Laid(enc: real -> seq<byte>, shapeType: int, box: Rect, records: seq<seq<byte>>, shp: seq<byte>, shx: seq<byte>)
    requires IsInt32(shapeType)
  {
    && shp == Header(enc, shapeType, box, Wrap32(|Concat(records, 0)|)) + Concat(records, 0)
    && shx == Header(enc, shapeType, box, Wrap32((|Offsets(records)| - 1) * 8)) + IndexEntries(Offsets(records), 0)
  }

  /** What `write` returns is laid out from the records of the lines it writes, under the collection's box. */
  lemma WriteLayout(enc: real -> seq<byte>, shapeType: int, c: Geometry, files: ShapeFiles)
    requires c.GeometryCollection? && IsInt32(shapeType) && Countable(WrittenLines(shapeType, c, 0))
    requires Write(enc, shapeType, c) == Success(files)
    ensures GeometryBox(c).Success? && GeometryBox(c).value.Some?
    ensures Laid(enc, shapeType, GeometryBox(c).value.value, RecordList(enc, shapeType, WrittenLines(shapeType, c, 0)),
                 files.shp, files.shx)
  {
  }

  /** Lines whose records fit a Java `int` are lines the writer can count. */
  lemma FitsCountable(lines: seq<seq<Point>>)
    requires Fits(lines)
    ensures Countable(lines)
  {
    forall i | 0 <= i < |lines| ensures |lines[i]| > 0 && IsInt32(|lines[i]|) {
      assert Sized(|lines[i]|);
    }
  }

  /** Records of even length, eight bytes or more each: what the index can point at. */
  predicate Indexable(records: seq<seq<byte>>) {
    forall i :: 0 <= i < |records| ==> |records[i]| % 2 == 0 && |records[i]| >= 8
  }

  /** The records of path lines are 56 + 16n bytes long, so the index can point at them. */
  lemma RecordsIndexable(enc: real -> seq<byte>, dec: seq<byte> -> real, shapeType: int, lines: seq<seq<Point>>)
    requires IsDoubleCodec(enc, dec) && PathType(shapeType) && Fits(lines) && Countable(lines)
    ensures Indexable(RecordList(enc, shapeType, lines))
  {
    CodecWidth(enc, dec);
    PathLengthsIndexable(RecordList(enc, shapeType, lines), lines);
  }

  /** Records of 56 + 16n bytes each are even and at least eight bytes long. */
  lemma PathLengthsIndexable(records: seq<seq<byte>>, lines: seq<seq<Point>>)
    requires |records| == |lines|
    requires forall i :: 0 <= i < |records| ==> |records[i]| == 56 + 16 * |lines[i]|
    ensures Indexable(records)
  {
    forall i | 0 <= i < |records| ensures |records[i]| % 2 == 0 && |records[i]| >= 8 {
      assert |records[i]| == 2 * (28 + 8 * |lines[i]|);
    }
  }

  /**
   * Each record starts at an even offset no further in than the end of the
   * data, which is at least eight bytes per record.
   */
  lemma RecordOffsets(records: seq<seq<byte>>, j: nat)
    requires Indexable(records) && j <= |records|
    ensures Offset(records, j) % 2 == 0
    ensures Offset(records, j) <= |Concat(records, 0)|
    ensures 8 * |records| <= |Concat(records, 0)|
  {
    OffsetEven(records, j);
    OffsetMono(records, j, |records|);
    ConcatLength(records, 0);
    OffsetAtLeast(records, |records|, 8);
  }

  /** The records of a main file under 2^31 bytes start where the index can point. */
  lemma StartsIndexable(records: seq<seq<byte>>)
    requires Indexable(records) && 100 + |Concat(records, 0)| < TWO_31
    ensures IndexableFrom(Offsets(records), 0)
    ensures 8 * |records| + 100 < TWO_31
  {
    var starts := Offsets(records);
    RecordOffsets(records, 0);
    forall j | 0 <= j < |starts| ensures 0 <= starts[j] < TWO_31 - 100 && starts[j] % 2 == 0 {
      RecordOffsets(records, j);
    }
  }

  /** The index of a main file under 2^31 bytes reads back as the start of every record in the main file. */
  lemma IndexReadBack(enc: real -> seq<byte>, dec: seq<byte> -> real, shapeType: int, box: Rect,
                      records: seq<seq<byte>>, shp: seq<byte>, shx: seq<byte>)
    requires IsDoubleCodec(enc, dec) && IsInt32(shapeType) && Indexable(records)
    requires Laid(enc, shapeType, box, records, shp, shx) && |shp| < TWO_31
    ensures ReadIndex(Some(shx)) == Success(Some(Moved(Offsets(records), 0)))
  {
    IndexLayout(enc, dec, shapeType, box, records, shp, shx);
    IndexRead(enc, dec, shapeType, box, Offsets(records), |records|, shx);
  }

  /** An index of m entries for the given starts reads back as the starts moved past the header. */
  lemma IndexRead(enc: real -> seq<byte>, dec: seq<byte> -> real, shapeType: int, box: Rect,
                  starts: seq<int>, m: int, shx: seq<byte>)
    requires IsDoubleCodec(enc, dec) && IsInt32(shapeType)
    requires |starts| == m + 1 && IndexableFrom(starts, 0) && 0 <= 8 * m && 8 * m + 100 < TWO_31
    requires shx == Header(enc, shapeType, box, 8 * m) + IndexEntries(starts, 0)
    ensures ReadIndex(Some(shx)) == Success(Some(Moved(starts, 0)))
  {
    var entries := IndexEntries(starts, 0);
    IndexCountReadBack(enc, dec, shapeType, box, m, entries, shx);
    CodecWidth(enc, dec);
    HeaderFields(enc, shapeType, box, 8 * m, entries, shx);
    EntriesRead(shx, 100, starts, 0);
    IndexOf(shx, m, Moved(starts, 0));
  }

  /** An index announcing m records whose entries after the header read as the offsets gives back those offsets. */
  lemma IndexOf(shx: seq<byte>, m: int, offsets: seq<int>)
    requires IndexCount(shx) == Some(m) && 0 <= m && 100 <= |shx|
    requires ReadOffsets(shx, 100, m) == Success(offsets)
    ensures ReadIndex(Some(shx)) == Success(Some(offsets))
  {
    assert Skip(shx, 28, 72) == 100;
  }

  /** The index of a main file under 2^31 bytes is a header for m entries followed by entries the reader accepts. */
  lemma IndexLayout(enc: real -> seq<byte>, dec: seq<byte> -> real, shapeType: int, box: Rect,
                    records: seq<seq<byte>>, shp: seq<byte>, shx: seq<byte>)
    requires IsDoubleCodec(enc, dec) && IsInt32(shapeType) && Indexable(records)
    requires Laid(enc, shapeType, box, records, shp, shx) && |shp| < TWO_31
    ensures |Offsets(records)| == |records| + 1
    ensures IndexableFrom(Offsets(records), 0) && 0 <= 8 * |records| && 8 * |records| + 100 < TWO_31
    ensures shx == Header(enc, shapeType, box, 8 * |records|) + IndexEntries(Offsets(records), 0)
  {
    var data := Concat(records, 0);
    var starts := Offsets(records);
    CodecWidth(enc, dec);
    HeaderFields(enc, shapeType, box, Wrap32(|data|), data, shp);
    StartsIndexable(records);
    assert (|starts| - 1) * 8 == 8 * |records|;
  }

  /** Read record by record to its end, a written main file gives back its lines. */
  lemma MainReadBack(mode: Reading, enc: real -> seq<byte>, dec: seq<byte> -> real, shapeType: int,
                     lines: seq<seq<Point>>, box: Rect, shp: seq<byte>, shx: seq<byte>)
    requires IsDoubleCodec(enc, dec) && PathType(shapeType) && Fits(lines) && Countable(lines)
    requires Laid(enc, shapeType, box, RecordList(enc, shapeType, lines), shp, shx)
    ensures ReadHeader(shp) == Success(100)
    ensures SequentialRecords(mode, dec, shp, 100) == Success(ReadBacks(mode, shapeType, lines))
  {
    var data := Concat(RecordList(enc, shapeType, lines), 0);
    HeaderReadBack(enc, dec, shapeType, box, Wrap32(|data|), data, shp);
    SequentialRead(mode, enc, dec, shp, 100, shapeType, lines);
  }

  /**
   * Read through its index, a written main file of at least one record gives
   * back its lines: every offset is where the loop already stands.
   */
  lemma IndexedReadBack(mode: Reading, enc: real -> seq<byte>, dec: seq<byte> -> real, shapeType: int,
                        lines: seq<seq<Point>>, box: Rect, shp: seq<byte>, shx: seq<byte>)
    requires IsDoubleCodec(enc, dec) && PathType(shapeType) && Fits(lines) && Countable(lines) && |lines| > 0
    requires Laid(enc, shapeType, box, RecordList(enc, shapeType, lines), shp, shx) && |shp| < TWO_31
    ensures IndexedRecords(mode, dec, shp, Moved(Offsets(RecordList(enc, shapeType, lines)), 0), 0, 100, 100)
            == Success(ReadBacks(mode, shapeType, lines))
  {
    var records := RecordList(enc, shapeType, lines);
    var data := Concat(records, 0);
    HeaderReadBack(enc, dec, shapeType, box, Wrap32(|data|), data, shp);
    RecordSteps(mode, enc, dec, shp, 100, shapeType, lines);
    IndexedFromSteps(mode, dec, shp, records, ReadBacks(mode, shapeType, lines));
  }

  /**
   * Where each of the records, laid out from byte 100 to the end of a file
   * under 2^31 bytes, reads whole as its geometry, the indexed loop over their
   * offsets reads them all.
   */
  lemma IndexedFromSteps(mode: Reading, dec: seq<byte> -> real, bs: seq<byte>, records: seq<seq<byte>>, out: seq<Geometry>)
    requires |out| == |records| > 0 && |bs| < TWO_31
    requires Starts(records, 100)[|records|] == |bs|
    requires Steps(mode, dec, bs, Starts(records, 100), out)
    ensures IndexedRecords(mode, dec, bs, Moved(Offsets(records), 0), 0, 100, 100) == Success(out)
  {
    var starts := Starts(records, 100);
    var offsets := Moved(Offsets(records), 0);
    forall j | 0 <= j < |starts| ensures At(bs, starts[j]) && IsInt32(starts[j]) {
      OffsetMono(records, j, |records|);
    }
    IndexedSteps(mode, dec, bs, starts, offsets, out, 0);
    assert out[0..] == out;
  }

  /** In a main file under 2^31 bytes, every record's size is a Java `int`. */
  lemma SmallFileFits(enc: real -> seq<byte>, dec: seq<byte> -> real, shapeType: int, lines: seq<seq<Point>>)
    requires IsDoubleCodec(enc, dec) && PathType(shapeType) && Countable(lines)
    requires 100 + |Concat(RecordList(enc, shapeType, lines), 0)| < TWO_31
    ensures Fits(lines)
  {
    var records := RecordList(enc, shapeType, lines);
    CodecWidth(enc, dec);
    forall i | 0 <= i < |lines| ensures Sized(|lines[i]|) {
      PartWithin(records, i);
    }
  }

  /**
   * Written files read with their index give back the written lines in
   * order, and so does the main file read alone to its end; an index of no
   * records gives an empty collection.
   */
  lemma ImportOfLaid(enc: real -> seq<byte>, dec: seq<byte> -> real, shapeType: int, lines: seq<seq<Point>>,
                     box: Rect, shp: seq<byte>, shx: seq<byte>)
    requires IsDoubleCodec(enc, dec) && PathType(shapeType) && Countable(lines)
    requires Laid(enc, shapeType, box, RecordList(enc, shapeType, lines), shp, shx) && |shp| < TWO_31
    ensures Import(dec, shp, Some(shx)) == Success(ReadBacks(Corrected, shapeType, lines))
    ensures Import(dec, shp, None) == Success(ReadBacks(Corrected, shapeType, lines))
  {
    var offsets := Moved(Offsets(RecordList(enc, shapeType, lines)), 0);
    Opened(enc, dec, shapeType, lines, box, shp, shx);
    RecordsIndexable(enc, dec, shapeType, lines);
    IndexReadBack(enc, dec, shapeType, box, RecordList(enc, shapeType, lines), shp, shx);
    if |lines| > 0 {
      IndexedReadBack(Corrected, enc, dec, shapeType, lines, box, shp, shx);
    }
    ImportReads(dec, shp, shx, offsets, ReadBacks(Corrected, shapeType, lines));
  }

  /**
   * `importData` as written on written files: with the index it gives back
   * the lines under its polygon rule, but an index of no records makes it
   * read past the end of the offsets array; without the index it
   * dereferences the null offsets array.
   */
  lemma ImportAsWrittenOfLaid(enc: real -> seq<byte>, dec: seq<byte> -> real, shapeType: int, lines: seq<seq<Point>>,
                              box: Rect, shp: seq<byte>, shx: seq<byte>)
    requires IsDoubleCodec(enc, dec) && PathType(shapeType) && Countable(lines)
    requires Laid(enc, shapeType, box, RecordList(enc, shapeType, lines), shp, shx) && |shp| < TWO_31
    ensures |lines| > 0 ==> ImportAsWritten(dec, shp, Some(shx)) == Success(ReadBacks(AsWritten, shapeType, lines))
    ensures |lines| == 0 ==> ImportAsWritten(dec, shp, Some(shx)) == Failure(IndexOutOfBounds)
    ensures ImportAsWritten(dec, shp, None) == Failure(NullPointer)
  {
    var offsets := Moved(Offsets(RecordList(enc, shapeType, lines)), 0);
    Opened(enc, dec, shapeType, lines, box, shp, shx);
    RecordsIndexable(enc, dec, shapeType, lines);
    IndexReadBack(enc, dec, shapeType, box, RecordList(enc, shapeType, lines), shp, shx);
    if |lines| > 0 {
      IndexedReadBack(AsWritten, enc, dec, shapeType, lines, box, shp, shx);
    }
    ImportAsWrittenReads(dec, shp, shx, offsets, ReadBacks(AsWritten, shapeType, lines));
  }

  /** The import decisions, given what the header, the index and the record loops read. */
  lemma ImportReads(dec: seq<byte> -> real, shp: seq<byte>, shx: seq<byte>, offsets: seq<int>, out: seq<Geometry>)
    requires ReadHeader(shp) == Success(100) && ReadIndex(Some(shx)) == Success(Some(offsets))
    requires SequentialRecords(Corrected, dec, shp, 100) == Success(out)
    requires |offsets| > 0 ==> IndexedRecords(Corrected, dec, shp, offsets, 0, 100, 100) == Success(out)
    requires |offsets| == 0 ==> out == []
    ensures Import(dec, shp, Some(shx)) == Success(out)
    ensures Import(dec, shp, None) == Success(out)
  {
  }

  /** The decisions of `importData` as written, given what the header, the index and the record loop read. */
  lemma ImportAsWrittenReads(dec: seq<byte> -> real, shp: seq<byte>, shx: seq<byte>, offsets: seq<int>, out: seq<Geometry>)
    requires ReadHeader(shp) == Success(100) && ReadIndex(Some(shx)) == Success(Some(offsets))
    requires |offsets| > 0 ==> IndexedRecords(AsWritten, dec, shp, offsets, 0, 100, 100) == Success(out)
    ensures |offsets| > 0 ==> ImportAsWritten(dec, shp, Some(shx)) == Success(out)
    ensures |offsets| == 0 ==> ImportAsWritten(dec, shp, Some(shx)) == Failure(IndexOutOfBounds)
    ensures ImportAsWritten(dec, shp, None) == Failure(NullPointer)
  {
  }

  /**
   * What `write` and `writeSHXFile` produce for a collection, while the main
   * file stays under 2^31 bytes, `importData` reads back: every non-empty
   * line of the collection, in order, as a line of the same coordinates (a
   * polygon's ring without its repeated first point). As written, the import
   * loses each polygon's last vertex, fails on an empty index, and needs the
   * index at all.
   */
  lemma WriteThenImport(enc: real -> seq<byte>, dec: seq<byte> -> real, shapeType: int, c: Geometry, files: ShapeFiles)
    requires IsDoubleCodec(enc, dec) && PathType(shapeType) && c.GeometryCollection?
    requires Countable(WrittenLines(shapeType, c, 0))
    requires Write(enc, shapeType, c) == Success(files) && |files.shp| < TWO_31
    ensures Import(dec, files.shp, Some(files.shx)) == Success(ReadBacks(Corrected, shapeType, WrittenLines(shapeType, c, 0)))
    ensures Import(dec, files.shp, None) == Success(ReadBacks(Corrected, shapeType, WrittenLines(shapeType, c, 0)))
    ensures |WrittenLines(shapeType, c, 0)| > 0 ==>
      ImportAsWritten(dec, files.shp, Some(files.shx)) == Success(ReadBacks(AsWritten, shapeType, WrittenLines(shapeType, c, 0)))
    ensures |WrittenLines(shapeType, c, 0)| == 0 ==> ImportAsWritten(dec, files.shp, Some(files.shx)) == Failure(IndexOutOfBounds)
    ensures ImportAsWritten(dec, files.shp, None) == Failure(NullPointer)
  {
    var lines := WrittenLines(shapeType, c, 0);
    WriteLayout(enc, shapeType, c, files);
    var box := GeometryBox(c).value.value;
    ImportOfLaid(enc, dec, shapeType, lines, box, files.shp, files.shx);
    ImportAsWrittenOfLaid(enc, dec, shapeType, lines, box, files.shp, files.shx);
  }

  /**
   * Opening written files: the header reads back, the records fit, and read
   * to the end of the file they give back the lines.
   */
  lemma Opened(enc: real -> seq<byte>, dec: seq<byte> -> real, shapeType: int, lines: seq<seq<Point>>,
               box: Rect, shp: seq<byte>, shx: seq<byte>)
    requires IsDoubleCodec(enc, dec) && PathType(shapeType) && Countable(lines)
    requires Laid(enc, shapeType, box, RecordList(enc, shapeType, lines), shp, shx) && |shp| < TWO_31
    ensures Fits(lines)
    ensures ReadHeader(shp) == Success(100)
    ensures SequentialRecords(Corrected, dec, shp, 100) == Success(ReadBacks(Corrected, shapeType, lines))
  {
    var data := Concat(RecordList(enc, shapeType, lines), 0);
    CodecWidth(enc, dec);
    HeaderFields(enc, shapeType, box, Wrap32(|data|), data, shp);
    SmallFileFits(enc, dec, shapeType, lines);
    MainReadBack(Corrected, enc, dec, shapeType, lines, box, shp, shx);
  }

  /**
   * A written polygon ring of n >= 3 points comes back from the reader as
   * written with n - 2 points: the first is dropped as the ring's repeated
   * closing point and the last one is lost too. Read to its end, the ring
   * keeps n - 1 points, every point after the first.
   */
  lemma PolygonRingRead(ps: seq<Point>)
    requires |ps| >= 3
    ensures ReadBack(AsWritten, POLYGON_SHAPE_TYPE, ps).points == Plain(ps)[1..|ps| - 1]
    ensures ReadBack(Corrected, POLYGON_SHAPE_TYPE, ps).points == Plain(ps)[1..]
    ensures ReadBack(Corrected, POLYGON_SHAPE_TYPE, ps).points
            == ReadBack(AsWritten, POLYGON_SHAPE_TYPE, ps).points + [NewPoint(ps[|ps| - 1].x, ps[|ps| - 1].y)]
  {
    PlainLast(ps);
    PolygonReadBack(AsWritten, ps);
    PolygonReadBack(Corrected, ps);
    RingSlices(Plain(ps));
  }

  /** The last plain point is the last point without its attributes. */
  lemma PlainLast(ps: seq<Point>)
    requires |ps| > 0
    ensures |Plain(ps)| == |ps| && Plain(ps)[|ps| - 1] == NewPoint(ps[|ps| - 1].x, ps[|ps| - 1].y)
  {
  }

  /** A polygon record reads back as the ring of its plain points. */
  lemma PolygonReadBack(mode: Reading, ps: seq<Point>)
    ensures ReadBack(mode, POLYGON_SHAPE_TYPE, ps).points == Ring(mode, Plain(ps))
  {
  }

  /** Of a ring of three or more points, the corrected reader keeps one more point, the last. */
  lemma RingSlices(qs: seq<Point>)
    requires |qs| >= 3
    ensures Ring(AsWritten, qs) == qs[1..|qs| - 1] && Ring(Corrected, qs) == qs[1..]
    ensures Ring(Corrected, qs) == Ring(AsWritten, qs) + [qs[|qs| - 1]]
  {
    Snoc(qs, 1);
  }

  /** A slice running to the end is the slice that stops one short, and the last element. */
  lemma Snoc<T>(s: seq<T>, k: nat)
    requires k < |s|
    ensures s[k..] == s[k..|s| - 1] + [s[|s| - 1]]
  {
  }
}

=== FILE: shapeimport.dfy ===
/**
 * The ESRI Shapefile main-file reader (ShapeGeometryImporter): the 100-byte
 * header, one record per feature, and the .shx index whose offsets say where
 * each record starts. Files are byte sequences; a missing .shx file is `None`.
 * Readers report what they appended to the collection before they stopped,
 * because an `EOFException` ends the import normally and keeps those
 * geometries, while any other exception aborts it.
 */
module ShapeImport {
  import opened Wrappers
  import opened Bytes
  import opened Features

  const FILE_CODE: int := 9994

  const NULL_SHAPE: int := 0
  const POINT: int := 1
  const POLYLINE: int := 3
  const POLYGON: int := 5
  const MULTIPOINT: int := 8
  const POINT_Z: int := 11
  const POLYLINE_Z: int := 13
  const POLYGON_Z: int := 15
  const MULTIPOINT_Z: int := 18
  const POINT_M: int := 21
  const POLYLINE_M: int := 23
  const POLYGON_M: int := 25
  const MULTIPOINT_M: int := 28
  const MULTIPATCH: int := 31

  /** How the reader treats a record's shape type: Z and M variants read like the plain type. */
  datatype Kind = NullKind | PointKind | MultipointKind | PolylineKind | PolygonKind | MultipatchKind | UnknownKind

  function KindOf(shapeType: int): (k: Kind)
    ensures k == PointKind <==> shapeType in {POINT, POINT_Z, POINT_M}
    ensures k == MultipointKind <==> shapeType in {MULTIPOINT, MULTIPOINT_Z, MULTIPOINT_M}
    ensures k == PolylineKind <==> shapeType in {POLYLINE, POLYLINE_Z, POLYLINE_M}
    ensures k == PolygonKind <==> shapeType in {POLYGON, POLYGON_Z, POLYGON_M}
    ensures k == NullKind <==> shapeType == NULL_SHAPE
    ensures k == MultipatchKind <==> shapeType == MULTIPATCH
  {
    if shapeType == NULL_SHAPE then NullKind
    else if shapeType in {POINT, POINT_Z, POINT_M} then PointKind
    else if shapeType in {MULTIPOINT, MULTIPOINT_Z, MULTIPOINT_M} then MultipointKind
    else if shapeType in {POLYLINE, POLYLINE_Z, POLYLINE_M} then PolylineKind
    else if shapeType in {POLYGON, POLYGON_Z, POLYGON_M} then PolygonKind
    else if shapeType == MULTIPATCH then MultipatchKind
    else UnknownKind
  }

  /**
   * The outcome of a reader: the geometries it appended to the collection
   * and, unless it threw, the byte count it reports and the stream position.
   */
  datatype Step = Step(added: seq<Geometry>, status: Result<(int, int)>)

  /** A new line string built from the points, without attributes. */
  function Line(ps: seq<Point>): Geometry {
    LineString(ps, map[])
  }

  /** Two little-endian doubles, x then y, as a new point. */
  function ReadPoint(dec: seq<byte> -> real, bs: seq<byte>, pos: int): (r: Result<(Point, int)>)
    requires At(bs, pos)
    ensures r.Failure? <==> pos + 16 > |bs|
    ensures r.Failure? ==> r.error == EndOfFile
    ensures r.Success? ==> r.value.1 == pos + 16 && r.value.0.attributes == map[]
  {
    var x :- ReadDoubleLE(dec, bs, pos);
    var y :- ReadDoubleLE(dec, bs, x.1);
    Success((NewPoint(x.0, y.0), y.1))
  }

  /** The points read so far and, unless the file ended, the position after the last. */
  datatype Points = Points(points: seq<Point>, status: Result<int>)

  /**
   * n consecutive points. At the end of the file the points completed before
   * it are kept: the multipoint reader has already appended them.
   */
  function ReadPoints(dec: seq<byte> -> real, bs: seq<byte>, pos: int, n: nat): (r: Points)
    requires At(bs, pos)
    ensures r.status.Success? <==> pos + 16 * n <= |bs|
    ensures r.status.Success? ==> |r.points| == n && r.status.value == pos + 16 * n
    ensures r.status.Failure? ==> r.status.error == EndOfFile && |r.points| == (|bs| - pos) / 16
    ensures forall i :: 0 <= i < |r.points| ==> r.points[i].attributes == map[]
    decreases n
  {
    if n == 0 then Points([], Success(pos))
    else
      match ReadPoint(dec, bs, pos)
      case Failure(e) => Points([], Failure(e))
      case Success(pq) =>
        var rest := ReadPoints(dec, bs, pq.1, n - 1);
        Points([pq.0] + rest.points, rest.status)
  }

  /** n consecutive little-endian ints. */
  function ReadInts(bs: seq<byte>, pos: int, n: nat): (r: Result<(seq<int>, int)>)
    requires At(bs, pos)
    ensures r.Success? <==> pos + 4 * n <= |bs|
    ensures r.Failure? ==> r.error == EndOfFile
    ensures r.Success? ==> |r.value.0| == n && r.value.1 == pos + 4 * n
    decreases n
  {
    if n == 0 then Success(([], pos))
    else
      var v :- ReadIntLE(bs, pos);
      var rest :- ReadInts(bs, v.1, n - 1);
      Success(([v.0] + rest.0, rest.1))
  }

  /** The line a polyline part yields and the exception, if any, its index checks throw. */
  datatype Part = Part(line: Geometry, error: Option<Exception>)

  /**
   * The first part of a polyline, the only one converted: the points from its
   * first index up to the second part's first index, or to the end of the
   * point array. A part of fewer than two points gives an empty line; the line
   * is appended before any index is checked.
   */
  function FirstPart(ids: seq<int>, pts: seq<Point>): (r: Part)
    requires forall i :: 0 <= i < |ids| ==> IsInt32(ids[i])
    requires IsInt32(|pts|)
    ensures r.line.LineString? && r.line.attributes == map[]
    ensures r.error.Some? ==> r.error.value == IndexOutOfBounds
    ensures |ids| == 0 ==> r.error.Some?
    ensures r.error.None? && |r.line.points| > 0 ==>
      |ids| > 0 && 0 <= ids[0] && ids[0] + |r.line.points| <= |pts| && |r.line.points| >= 2
    ensures r.error.None? && |r.line.points| > 0 ==>
      r.line.points == pts[ids[0]..ids[0] + |r.line.points|]
  {
    if |ids| == 0 then Part(Line([]), Some(IndexOutOfBounds))
    else
      var first := ids[0];
      var last := if 1 < |ids| then ids[1] else |pts|;
      if Wrap32(last - first) < 2 || first >= last then Part(Line([]), None)
      else if first < 0 || first >= |pts| then Part(Line([]), Some(IndexOutOfBounds))
      else if last > |pts| then Part(Line(pts[first..]), Some(IndexOutOfBounds))
      else Part(Line(pts[first..last]), None)
  }

  /**
   * The points one polygon part contributes: all but the part's first point,
   * up to the next part's first index; the last part ends at `end`.
   */
  function RingPoints(ids: seq<int>, pts: seq<Point>, end: int, k: nat): (r: Result<seq<Point>>)
    requires k < |ids|
    ensures r.Failure? ==> r.error == IndexOutOfBounds
  {
    var first := ids[k];
    var last := if k + 1 < |ids| then ids[k + 1] else end;
    if Wrap32(last - first) < 2 then Success([])
    else
      var start := Wrap32(first + 1);
      if start >= last then Success([])
      else if start < 0 || last > |pts| then Failure(IndexOutOfBounds)
      else Success(pts[start..last])
  }

  /** The points of parts k and later, merged into one line. */
  function PolygonPoints(ids: seq<int>, pts: seq<Point>, end: int, k: nat): (r: Result<seq<Point>>)
    requires k <= |ids|
    ensures r.Failure? ==> r.error == IndexOutOfBounds
    ensures r.Success? ==> forall i :: k <= i < |ids| ==> RingPoints(ids, pts, end, i).Success?
    decreases |ids| - k
  {
    if k == |ids| then Success([])
    else
      var ring :- RingPoints(ids, pts, end, k);
      var rest :- PolygonPoints(ids, pts, end, k + 1);
      Success(ring + rest)
  }

  /**
   * A polygon as read: all parts merged into one line, the last part stopping
   * one point before the end of the point array.
   */
  function PolygonAsWritten(ids: seq<int>, pts: seq<Point>): (r: Result<seq<Point>>)
    ensures r.Failure? ==> r.error == IndexOutOfBounds
  {
    PolygonPoints(ids, pts, |pts| - 1, 0)
  }

  /** A polygon with every part read to its end, the last part included. */
  function Polygon(ids: seq<int>, pts: seq<Point>): (r: Result<seq<Point>>)
    ensures r.Failure? ==> r.error == IndexOutOfBounds
  {
    PolygonPoints(ids, pts, |pts|, 0)
  }

  /** The polygon rule of the reading mode. */
  function Merge(mode: Reading, ids: seq<int>, pts: seq<Point>): (r: Result<seq<Point>>)
    ensures r.Failure? ==> r.error == IndexOutOfBounds
  {
    if mode == AsWritten then PolygonAsWritten(ids, pts) else Polygon(ids, pts)
  }

  /** The bytes a polyline or polygon record's body reports: box, counts, indices, points. */
  function PathBytes(numParts: int, numPoints: int): int {
    Wrap32(4 * 8 + 4 + 4 + numParts * 4 + numPoints * 2 * 8)
  }

  /** The counts and arrays shared by polyline and polygon records. */
  datatype Arrays = Arrays(ids: seq<int>, pts: seq<Point>, pos: int)

  /**
   * Skips the bounding box, then reads the part and point counts, the part
   * indices and the points; a negative count fails to allocate its array.
   */
  function ReadArrays(dec: seq<byte> -> real, bs: seq<byte>, pos: int): (r: Result<Arrays>)
    requires At(bs, pos)
    ensures r.Failure? ==> r.error in {EndOfFile, NegativeArraySize}
    ensures r.Success? ==> At(bs, r.value.pos)
    ensures r.Success? ==> r.value.pos == pos + 32 + 8 + 4 * |r.value.ids| + 16 * |r.value.pts|
    ensures r.Success? ==> IsInt32(|r.value.pts|) && forall i :: 0 <= i < |r.value.ids| ==> IsInt32(r.value.ids[i])
  {
    var p := Skip(bs, pos, 32);
    var parts :- ReadIntLE(bs, p);
    var points :- ReadIntLE(bs, parts.1);
    if parts.0 < 0 then Failure(NegativeArraySize)
    else
      var ids :- ReadInts(bs, points.1, parts.0);
      if points.0 < 0 then Failure(NegativeArraySize)
      else
        var read := ReadPoints(dec, bs, ids.1, points.0);
        if read.status.Failure? then Failure(EndOfFile)
        else
          assert p == pos + 32;
          IntsAreInt32(bs, points.1, parts.0);
          Success(Arrays(ids.0, read.points, read.status.value))
  }

  lemma {:induction false} IntsAreInt32(bs: seq<byte>, pos: int, n: nat)
    requires At(bs, pos)
    ensures ReadInts(bs, pos, n).Success? ==>
      forall i :: 0 <= i < |ReadInts(bs, pos, n).value.0| ==> IsInt32(ReadInts(bs, pos, n).value.0[i])
    decreases n
  {
    if n > 0 && ReadIntLE(bs, pos).Success? {
      IntsAreInt32(bs, pos + 4, n - 1);
    }
  }

  /** Which polygon rule a reader applies: the code's, or every ring read to its end. */
  datatype Reading = AsWritten | Corrected

  /**
   * A record header: the record number, then the content length in 16-bit
   * words, which must cover at least the shape type; then the shape type.
   * A too short content length ends the file like a real end of file.
   */
  function RecordHeader(bs: seq<byte>, pos: int): (r: Result<(int, int)>)
    requires At(bs, pos)
    ensures r.Failure? ==> r.error == EndOfFile
    ensures r.Success? ==> r.value.1 == pos + 12 && At(bs, r.value.1)
    ensures pos + 12 > |bs| ==> r.Failure?
  {
    var number :- ReadIntBE(bs, pos);
    var words :- ReadIntBE(bs, number.1);
    if Wrap32(words.0 * 2) < 4 then Failure(EndOfFile)
    else ReadIntLE(bs, words.1)
  }

  /** The points of a multipoint, one point geometry each. */
  function PointGeometries(ps: seq<Point>): (r: seq<Geometry>)
    ensures |r| == |ps|
    ensures forall i :: 0 <= i < |ps| ==> r[i] == PointGeometry(ps[i])
  {
    seq(|ps|, i requires 0 <= i < |ps| => PointGeometry(ps[i]))
  }

  /**
   * A multipoint body: the box is skipped, then each point is appended as it
   * is read. A negative count reads nothing but still enters the reported size.
   */
  function ReadMultipoint(dec: seq<byte> -> real, bs: seq<byte>, pos: int): (r: Step)
    requires At(bs, pos)
    ensures r.status.Failure? ==> r.status.error == EndOfFile
    ensures r.status.Success? ==> At(bs, r.status.value.1) && r.status.value.1 >= pos + 36
    ensures r.status.Success? ==> r.status.value.1 == pos + 36 + 16 * |r.added|
    ensures forall i :: 0 <= i < |r.added| ==> r.added[i].PointGeometry?
  {
    var p := Skip(bs, pos, 32);
    match ReadIntLE(bs, p)
    case Failure(e) => Step([], Failure(e))
    case Success(n) =>
      var size := Wrap32(12 + Wrap32(4 * 8 + 4 + n.0 * 2 * 8));
      if n.0 < 0 then Step([], Success((size, n.1)))
      else
        var read := ReadPoints(dec, bs, n.1, n.0);
        var added := PointGeometries(read.points);
        match read.status
        case Failure(e) => Step(added, Failure(e))
        case Success(q) => Step(added, Success((size, q)))
  }

  /** The exceptions a record body throws besides `IOException`. */
  predicate BodyError(e: Exception) {
    e == EndOfFile || e == NegativeArraySize || e == IndexOutOfBounds
  }

  /** A polyline body: only its first part becomes a line. */
  function ReadPolyline(dec: seq<byte> -> real, bs: seq<byte>, pos: int): (r: Step)
    requires At(bs, pos)
    ensures r.status.Failure? ==> BodyError(r.status.error)
    ensures r.status.Success? ==> At(bs, r.status.value.1) && r.status.value.1 >= pos + 40
    ensures r.status.Success? ==> Consumed(r.status.value.0, pos, r.status.value.1)
    ensures r.status.Success? ==> |r.added| == 1 && r.added[0].LineString?
    ensures r.status.Failure? && r.status.error != IndexOutOfBounds ==> r.added == []
  {
    match ReadArrays(dec, bs, pos)
    case Failure(e) => Step([], Failure(e))
    case Success(a) =>
      var size := ReportedSize(a, pos);
      var part := FirstPart(a.ids, a.pts);
      match part.error
      case Some(e) => Step([part.line], Failure(e))
      case None => Step([part.line], Success((size, a.pos)))
  }

  /** A polygon body: all parts merged into one line, appended once all are read. */
  function ReadPolygon(mode: Reading, dec: seq<byte> -> real, bs: seq<byte>, pos: int): (r: Step)
    requires At(bs, pos)
    ensures r.status.Failure? ==> BodyError(r.status.error) && r.added == []
    ensures r.status.Success? ==> At(bs, r.status.value.1) && r.status.value.1 >= pos + 40
    ensures r.status.Success? ==> Consumed(r.status.value.0, pos, r.status.value.1)
    ensures r.status.Success? ==> |r.added| == 1 && r.added[0].LineString?
  {
    match ReadArrays(dec, bs, pos)
    case Failure(e) => Step([], Failure(e))
    case Success(a) =>
      var size := ReportedSize(a, pos);
      match Merge(mode, a.ids, a.pts)
      case Failure(e) => Step([], Failure(e))
      case Success(ps) => Step([Line(ps)], Success((size, a.pos)))
  }

  /**
   * A reported record size agrees with the bytes from the record's start,
   * 12 header bytes before the body position `from`, to the position `to`.
   */
  predicate Consumed(size: int, from: int, to: int) {
    size == Wrap32(to - from + 12)
  }

  /**
   * The size a polyline or polygon record reports, 12 plus the body's size in
   * Java `int` arithmetic, is the number of bytes the reader consumed.
   */
  function ReportedSize(a: Arrays, pos: int): (n: int)
    requires a.pos == pos + 32 + 8 + 4 * |a.ids| + 16 * |a.pts|
    ensures Consumed(n, pos, a.pos)
  {
    ArraysSize(a, pos);
    Wrap32(12 + PathBytes(|a.ids|, |a.pts|))
  }

  /** The size a path record reports is, in Java `int`, the bytes its arrays took. */
  lemma ArraysSize(a: Arrays, pos: int)
    requires a.pos == pos + 32 + 8 + 4 * |a.ids| + 16 * |a.pts|
    ensures Wrap32(12 + PathBytes(|a.ids|, |a.pts|)) == Wrap32(a.pos - pos + 12)
  {
    var parts, points := |a.ids|, |a.pts|;
    var b := 4 * 8 + 4 + 4 + parts * 4 + points * 2 * 8;
    WrapResidue(b);
    assert (PathBytes(parts, points) - b) % TWO_32 == 0;
    WrapCongruent(12 + PathBytes(parts, points), a.pos - pos + 12);
  }


  /**
   * `readRecord`: header, then a body chosen by the shape type. The reported
   * size is 12 plus the body's size. Multipatch and unknown types throw an
   * `IOException`.
   */
  function ReadRecord(mode: Reading, dec: seq<byte> -> real, bs: seq<byte>, pos: int): (r: Step)
    requires At(bs, pos)
    ensures r.status.Failure? ==> BodyError(r.status.error) || r.status.error.IOError?
    ensures r.status.Success? ==> At(bs, r.status.value.1) && r.status.value.1 >= pos + 12
    ensures pos + 12 > |bs| ==> r == Step([], Failure(EndOfFile))
  {
    match RecordHeader(bs, pos)
    case Failure(e) => Step([], Failure(e))
    case Success(h) =>
      var q := h.1;
      match KindOf(h.0)
      case NullKind => Step([], Success((12, q)))
      case PointKind =>
        (match ReadPoint(dec, bs, q)
         case Failure(e) => Step([], Failure(e))
         case Success(pt) => Step([PointGeometry(pt.0)], Success((12 + 16, pt.1))))
      case MultipointKind => ReadMultipoint(dec, bs, q)
      case PolylineKind => ReadPolyline(dec, bs, q)
      case PolygonKind => ReadPolygon(mode, dec, bs, q)
      case MultipatchKind => Step([], Failure(IOError("Multipatch Shape files are not supported.")))
      case UnknownKind => Step([], Failure(IOError("Shapefile contains unsupported geometry type")))
  }

  /**
   * The main-file header: the big-endian file code, five unused ints, the
   * file length, then little-endian version and shape type, and a skipped
   * bounding box. Gives the stream position after the header.
   */
  function ReadHeader(bs: seq<byte>): (r: Result<int>)
    ensures r.Success? ==> |bs| >= 36 && r.value == (if |bs| >= 100 then 100 else |bs|)
    ensures r.Success? ==> DecodeIntBE(bs[..4]) == FILE_CODE
    ensures |bs| >= 36 ==> (r.Success? <==> DecodeIntBE(bs[..4]) == FILE_CODE)
    ensures |bs| >= 4 && DecodeIntBE(bs[..4]) != FILE_CODE ==> r.Failure? && r.error.IOError?
    ensures |bs| < 36 ==> r.Failure?
  {
    var code :- ReadIntBE(bs, 0);
    if code.0 != FILE_CODE then Failure(IOError("File is not an ESRI Shape file."))
    else
      var p := Skip(bs, code.1, 5 * 4);
      var fileLength :- ReadIntBE(bs, p);
      var version :- ReadIntLE(bs, fileLength.1);
      var shapeType :- ReadIntLE(bs, version.1);
      Success(Skip(bs, shapeType.1, 8 * 8))
  }

  /**
   * The number of records an index file announces: its length in 16-bit
   * words, at byte 24, less the 100-byte header, in 8-byte entries, with
   * Java's truncating division. `None` when the file is too short.
   */
  function IndexCount(shx: seq<byte>): (r: Option<int>)
    ensures r.Some? <==> |shx| >= 28
    ensures r.Some? ==> r.value == JavaDiv(Wrap32(Wrap32(DecodeIntBE(shx[24..28]) * 2) - 100), 8)
  {
    var p := Skip(shx, 0, 24);
    match ReadIntBE(shx, p)
    case Failure(_) => None
    case Success(w) => Some(JavaDiv(Wrap32(Wrap32(w.0 * 2) - 100), 8))
  }

  /** `readRecordCountFromSHXFile`: the announced count, or -1 without a readable index. */
  function RecordCount(shx: Option<seq<byte>>): (n: int)
    ensures shx.None? ==> n == -1
    ensures shx.Some? && |shx.value| < 28 ==> n == -1
  {
    match shx
    case None => -1
    case Some(s) => IndexCount(s).GetOr(-1)
  }

  /** n index entries: each a record offset and a content length, in words; the lengths are unused. */
  function ReadOffsets(shx: seq<byte>, pos: int, n: nat): (r: Result<seq<int>>)
    requires At(shx, pos)
    ensures r.Success? <==> pos + 8 * n <= |shx|
    ensures r.Failure? ==> r.error == EndOfFile
    ensures r.Success? ==> |r.value| == n
    decreases n
  {
    if n == 0 then Success([])
    else
      var offset :- ReadIntBE(shx, pos);
      var length :- ReadIntBE(shx, offset.1);
      var rest :- ReadOffsets(shx, length.1, n - 1);
      Success([Wrap32(offset.0 * 2)] + rest)
  }

  /**
   * `readSHXFile`: the byte offset of every record, or `None` (a Java null)
   * without a readable index. A negative count fails to allocate the array,
   * which is not an `IOException` and so is not caught.
   */
  function ReadIndex(shx: Option<seq<byte>>): (r: Result<Option<seq<int>>>)
    ensures r.Failure? ==> r.error == NegativeArraySize && RecordCount(shx) < 0
    ensures r.Success? && r.value.Some? ==> |r.value.value| == RecordCount(shx)
    ensures shx.None? ==> r == Success(None)
  {
    match shx
    case None => Success(None)
    case Some(s) =>
      match IndexCount(s)
      case None => Success(None)
      case Some(count) =>
        if count < 0 then Failure(NegativeArraySize)
        else
          match ReadOffsets(s, Skip(s, 28, 72), count)
          case Failure(_) => Success(None)
          case Success(offsets) => Success(Some(offsets))
  }

  /**
   * The record loop of `importData` from record k on: skip from the position
   * the loop believes it is at to the record's offset, read the record, and
   * stop after the last indexed record. An end of file ends the loop and keeps
   * what was read; any other exception aborts the import. The result holds
   * the geometries records k and later append.
   */
  function IndexedRecords(mode: Reading, dec: seq<byte> -> real, bs: seq<byte>, offsets: seq<int>,
                          k: nat, believed: int, pos: int): (r: Result<seq<Geometry>>)
    requires At(bs, pos)
    ensures k >= |offsets| ==> r == Failure(IndexOutOfBounds)
    ensures r.Failure? ==> BodyError(r.error) || r.error.IOError?
    decreases |offsets| - k
  {
    if k >= |offsets| then Failure(IndexOutOfBounds)
    else
      var start := Skip(bs, pos, Wrap32(offsets[k] - believed));
      var step := ReadRecord(mode, dec, bs, start);
      match step.status
      case Failure(e) => if e == EndOfFile then Success(step.added) else Failure(e)
      case Success(sizeAndPos) =>
        if k + 1 == |offsets| then Success(step.added)
        else
          var rest :- IndexedRecords(mode, dec, bs, offsets, k + 1, Wrap32(offsets[k] + sizeAndPos.0), sizeAndPos.1);
          Success(step.added + rest)
  }

  /**
   * Records read back to back from pos until the end of the file: how the
   * loop reads when there is no index to say where records start.
   */
  function SequentialRecords(mode: Reading, dec: seq<byte> -> real, bs: seq<byte>, pos: int): (r: Result<seq<Geometry>>)
    requires At(bs, pos)
    ensures pos + 12 > |bs| ==> r == Success([])
    ensures r.Failure? ==> BodyError(r.error) || r.error.IOError?
    decreases |bs| - pos
  {
    var step := ReadRecord(mode, dec, bs, pos);
    match step.status
    case Failure(e) => if e == EndOfFile then Success(step.added) else Failure(e)
    case Success(sizeAndPos) =>
      var rest :- SequentialRecords(mode, dec, bs, sizeAndPos.1);
      Success(step.added + rest)
  }

  /**
   * `importData` on the bytes of a .shp file and, when one was found, of its
   * .shx file: the geometries of the collection it returns. Without an index
   * the offsets array is null and the loop throws a `NullPointerException`;
   * with an index of no records the loop reads offset 0 of an empty array.
   */
  function ImportAsWritten(dec: seq<byte> -> real, shp: seq<byte>, shx: Option<seq<byte>>): (r: Result<seq<Geometry>>)
    ensures ReadHeader(shp).Failure? ==> r.Failure?
    ensures ReadHeader(shp).Success? && shx.None? ==> r == Failure(NullPointer)
    ensures ReadHeader(shp).Success? && ReadIndex(shx) == Success(Some([])) ==> r == Failure(IndexOutOfBounds)
  {
    var start :- ReadHeader(shp);
    var offsets :- ReadIndex(shx);
    match offsets
    case None => Failure(NullPointer)
    case Some(offs) => IndexedRecords(AsWritten, dec, shp, offs, 0, 100, start)
  }

  /**
   * The import as its comments describe it: without a readable index the
   * records are read one after another to the end of the file, an index of no
   * records gives an empty collection, and polygon rings are read to their end.
   */
  function Import(dec: seq<byte> -> real, shp: seq<byte>, shx: Option<seq<byte>>): (r: Result<seq<Geometry>>)
    ensures ReadHeader(shp).Failure? ==> r.Failure?
    ensures r.Failure? ==> r.error != NullPointer
    ensures ReadHeader(shp).Success? && ReadIndex(shx) == Success(Some([])) ==> r == Success([])
  {
    var start :- ReadHeader(shp);
    var offsets :- ReadIndex(shx);
    match offsets
    case None => SequentialRecords(Corrected, dec, shp, start)
    case Some(offs) =>
      if |offs| == 0 then Success([])
      else IndexedRecords(Corrected, dec, shp, offs, 0, 100, start)
  }
}

=== FILE: shaperoundtrip.dfy ===
/**
 * What the Shapefile reader makes of the files the Shapefile writer produces:
 * every written line comes back, in order, as a line of new points with the
 * same coordinates, from the main file alone or through its index. Polygon
 * records come back under the ring rule of the reading mode, which is where
 * the reader as written loses a vertex.
 */
module ShapeRoundTrip {
  import opened Wrappers
  import opened Bytes
  import opened Features
  import opened Collections
  import opened ShapeImport
  import opened ShapeExport

  /** The points as the reader rebuilds them: same coordinates, no attributes. */
  function Plain(ps: seq<Point>): (r: seq<Point>)
    ensures |r| == |ps|
    ensures forall i :: 0 <= i < |ps| ==> r[i] == NewPoint(ps[i].x, ps[i].y)
  {
    if |ps| == 0 then [] else [NewPoint(ps[0].x, ps[0].y)] + Plain(ps[1..])
  }

  /** The points written by `PointsBytes` read back as the plain points. */
  lemma {:induction false} PointsRead(enc: real -> seq<byte>, dec: seq<byte> -> real, bs: seq<byte>, p: int, ps: seq<Point>)
    requires IsDoubleCodec(enc, dec) && HoldsAt(bs, p, PointsBytes(enc, ps))
    ensures ReadPoints(dec, bs, p, |ps|).points == Plain(ps)
    ensures ReadPoints(dec, bs, p, |ps|).status.Success?
    ensures ReadPoints(dec, bs, p, |ps|).status.value == p + 16 * |ps|
    decreases |ps|
  {
    CodecWidth(enc, dec);
    if |ps| == 0 {
      assert Plain(ps) == [];
    } else {
      var x, y := ps[0].x, ps[0].y;
      var tail := PointsBytes(enc, ps[1..]);
      assert |enc(x)| == 8 && |enc(y)| == 8;
      Peel(bs, p, p + 8, enc(x), enc(y) + tail);
      Peel(bs, p + 8, p + 16, enc(y), tail);
      DoubleAt(enc, dec, bs, p, x);
      DoubleAt(enc, dec, bs, p + 8, y);
      assert ReadPoint(dec, bs, p) == Success((NewPoint(x, y), p + 16));
      PointsRead(enc, dec, bs, p + 16, ps[1..]);
      var rest := ReadPoints(dec, bs, p + 16, |ps| - 1);
      assert ReadPoints(dec, bs, p, |ps|).points == [NewPoint(x, y)] + rest.points;
      assert Plain(ps) == [NewPoint(x, y)] + Plain(ps[1..]);
    }
  }

  /** A record of n points is 56 + 16n bytes long; such records are what the reader can size. */
  predicate Sized(n: int) {
    0 < n && 56 + 16 * n < TWO_31
  }

  /** Where a record stands, its number, its length in words and its content follow each other. */
  lemma RecordFields(enc: real -> seq<byte>, dec: seq<byte> -> real, bs: seq<byte>, p: int,
                     shapeType: int, number: int, ps: seq<Point>)
    requires IsDoubleCodec(enc, dec) && IsInt32(shapeType) && Sized(|ps|)
    requires HoldsAt(bs, p, Record(enc, shapeType, number, ps))
    ensures HoldsAt(bs, p, IntBE(Wrap32(number)))
    ensures HoldsAt(bs, p + 4, IntBE(24 + 8 * |ps|))
    ensures HoldsAt(bs, p + 8, Content(enc, shapeType, ps))
  {
    CodecWidth(enc, dec);
    var content := Content(enc, shapeType, ps);
    var words := 24 + 8 * |ps|;
    assert Wrap32(|content| / 2) == words;
    Peel(bs, p, p + 4, IntBE(Wrap32(number)), IntBE(words) + content);
    Peel(bs, p + 4, p + 8, IntBE(words), content);
  }

  /** A lawful codec writes eight bytes per double. */
  lemma CodecWidth(enc: real -> seq<byte>, dec: seq<byte> -> real)
    requires IsDoubleCodec(enc, dec)
    ensures Width8(enc)
  {
    forall x ensures |enc(x)| == 8 { }
  }

  /** Where a record's content stands, each of its fields stands at its offset. */
  lemma ContentFields(enc: real -> seq<byte>, dec: seq<byte> -> real, bs: seq<byte>, q: int,
                      shapeType: int, ps: seq<Point>)
    requires IsDoubleCodec(enc, dec) && IsInt32(shapeType) && Sized(|ps|)
    requires HoldsAt(bs, q, Content(enc, shapeType, ps))
    ensures HoldsAt(bs, q, IntLE(shapeType))
    ensures HoldsAt(bs, q + 36, IntLE(1))
    ensures HoldsAt(bs, q + 40, IntLE(|ps|))
    ensures HoldsAt(bs, q + 44, IntLE(0))
    ensures HoldsAt(bs, q + 48, PointsBytes(enc, ps))
  {
    CodecWidth(enc, dec);
    var box := Extent(ps);
    var pts := PointsBytes(enc, ps);
    var c7 := IntLE(0) + pts;
    var c6 := IntLE(|ps|) + c7;
    var c5 := IntLE(1) + c6;
    var c4 := enc(box.maxY) + c5;
    var c3 := enc(box.maxX) + c4;
    var c2 := enc(box.minY) + c3;
    var c1 := enc(box.minX) + c2;
    Peel(bs, q, q + 4, IntLE(shapeType), c1);
    Peel(bs, q + 4, q + 12, enc(box.minX), c2);
    Peel(bs, q + 12, q + 20, enc(box.minY), c3);
    Peel(bs, q + 20, q + 28, enc(box.maxX), c4);
    Peel(bs, q + 28, q + 36, enc(box.maxY), c5);
    Peel(bs, q + 36, q + 40, IntLE(1), c6);
    Peel(bs, q + 40, q + 44, IntLE(|ps|), c7);
    Peel(bs, q + 44, q + 48, IntLE(0), pts);
  }

  /**
   * The fields of a record of the points, as the reader looks for them: the
   * length in words at 4, the shape type at 8, one part at 44, the point
   * count at 48, the part's first index at 52 and the points from 56 on.
   */
  predicate RecordAt(enc: real -> seq<byte>, bs: seq<byte>, p: int, shapeType: int, ps: seq<Point>)
    requires IsInt32(shapeType) && Sized(|ps|)
  {
    && HoldsAt(bs, p + 4, IntBE(24 + 8 * |ps|))
    && HoldsAt(bs, p + 8, IntLE(shapeType))
    && HoldsAt(bs, p + 44, IntLE(1))
    && HoldsAt(bs, p + 48, IntLE(|ps|))
    && HoldsAt(bs, p + 52, IntLE(0))
    && HoldsAt(bs, p + 56, PointsBytes(enc, ps))
  }

  /** A written record lays its fields out where the reader looks for them. */
  lemma RecordLaidOut(enc: real -> seq<byte>, dec: seq<byte> -> real, bs: seq<byte>, p: int,
                      shapeType: int, number: int, ps: seq<Point>)
    requires IsDoubleCodec(enc, dec) && IsInt32(shapeType) && Sized(|ps|)
    requires HoldsAt(bs, p, Record(enc, shapeType, number, ps))
    ensures RecordAt(enc, bs, p, shapeType, ps)
  {
    RecordFields(enc, dec, bs, p, shapeType, number, ps);
    ContentFields(enc, dec, bs, p + 8, shapeType, ps);
  }

  /** A record header laid out for the points reads back its shape type. */
  lemma HeaderRead(enc: real -> seq<byte>, bs: seq<byte>, p: int, shapeType: int, ps: seq<Point>)
    requires IsInt32(shapeType) && Sized(|ps|) && 0 <= p
    requires RecordAt(enc, bs, p, shapeType, ps)
    ensures RecordHeader(bs, p).Success?
    ensures RecordHeader(bs, p).value.0 == shapeType
  {
    IntBEAt(bs, p + 4, 24 + 8 * |ps|);
    assert Wrap32((24 + 8 * |ps|) * 2) == 48 + 16 * |ps|;
    IntLEAt(bs, p + 8, shapeType);
  }

  /** A record body laid out for the points reads back one part starting at index 0, and the plain points. */
  lemma ArraysRead(enc: real -> seq<byte>, dec: seq<byte> -> real, bs: seq<byte>, p: int,
                   shapeType: int, ps: seq<Point>)
    requires IsDoubleCodec(enc, dec) && IsInt32(shapeType) && Sized(|ps|) && 0 <= p
    requires RecordAt(enc, bs, p, shapeType, ps)
    ensures ReadArrays(dec, bs, p + 12).Success?
    ensures ReadArrays(dec, bs, p + 12).value == Arrays([0], Plain(ps), p + 56 + 16 * |ps|)
  {
    IntLEAt(bs, p + 44, 1);
    IntLEAt(bs, p + 48, |ps|);
    IntLEAt(bs, p + 52, 0);
    OneIntRead(bs, p + 52, 0);
    PointsRead(enc, dec, bs, p + 56, ps);
    ArraysOf(dec, bs, p + 12, |ps|, Plain(ps));
  }

  /** One part starting at index 0, then n points read whole: the arrays after a bounding box at q. */
  lemma ArraysOf(dec: seq<byte> -> real, bs: seq<byte>, q: int, n: nat, pts: seq<Point>)
    requires 0 <= q && q + 44 <= |bs|
    requires ReadIntLE(bs, q + 32) == Success((1, q + 36))
    requires ReadIntLE(bs, q + 36) == Success((n, q + 40))
    requires ReadInts(bs, q + 40, 1).Success? && ReadInts(bs, q + 40, 1).value.0 == [0]
    requires ReadPoints(dec, bs, q + 44, n).status.Success?
    requires ReadPoints(dec, bs, q + 44, n).points == pts
    ensures ReadArrays(dec, bs, q).Success?
    ensures ReadArrays(dec, bs, q).value == Arrays([0], pts, q + 44 + 16 * n)
  {
    assert Skip(bs, q, 32) == q + 32;
  }

  /** An index array of one element reads back that element. */
  lemma OneIntRead(bs: seq<byte>, q: int, v: int)
    requires IsInt32(v) && HoldsAt(bs, q, IntLE(v))
    ensures ReadInts(bs, q, 1).Success?
    ensures ReadInts(bs, q, 1).value.0 == [v]
  {
    IntLEAt(bs, q, v);
    var rest := ReadInts(bs, q + 4, 0);
    assert rest.Success? && rest.value.0 == [];
    assert [v] + rest.value.0 == [v];
  }

  /**
   * The points a single-part polygon reader keeps of a ring: all but the
   * first, which a closed ring repeats at its end; as written, the last
   * point is lost too.
   */
  function Ring(mode: Reading, qs: seq<Point>): (r: seq<Point>)
    ensures mode == Corrected && |qs| >= 2 ==> qs == qs[..1] + r
    ensures mode == AsWritten && |qs| >= 3 ==> qs == qs[..1] + r + qs[|qs| - 1..]
    ensures |r| == if mode == Corrected then Max0(|qs| - 1) else Max0(|qs| - 2)
  {
    if mode == Corrected then (if |qs| >= 2 then qs[1..] else [])
    else if |qs| >= 3 then (Trisect(qs, 1, |qs| - 1); qs[1..|qs| - 1]) else []
  }

  /** A sequence is its slices before i, from i to j, and from j on. */
  lemma Trisect<T>(s: seq<T>, i: nat, j: nat)
    requires i <= j <= |s|
    ensures s == s[..i] + s[i..j] + s[j..]
  {
  }

  function Max0(n: int): nat {
    if n < 0 then 0 else n
  }

  /** A path record's shape type: the only ones the writer produces. */
  predicate PathType(shapeType: int) {
    shapeType == POLYLINE_SHAPE_TYPE || shapeType == POLYGON_SHAPE_TYPE
  }

  /**
   * The line the reader appends for a record written from the points: a
   * polyline of fewer than two points comes back empty, and a polygon comes
   * back as its ring under the mode's rule.
   */
  function ReadBack(mode: Reading, shapeType: int, ps: seq<Point>): (g: Geometry)
    ensures g.LineString? && g.attributes == map[]
    ensures shapeType == POLYLINE_SHAPE_TYPE && |ps| >= 2 ==> g.points == Plain(ps)
  {
    if shapeType == POLYGON_SHAPE_TYPE then Line(Ring(mode, Plain(ps)))
    else Line(if |ps| >= 2 then Plain(ps) else [])
  }

  /** A polyline body laid out for the points reads back as the points' line. */
  lemma PolylineBodyRead(enc: real -> seq<byte>, dec: seq<byte> -> real, bs: seq<byte>, p: int, ps: seq<Point>)
    requires IsDoubleCodec(enc, dec) && Sized(|ps|) && 0 <= p
    requires RecordAt(enc, bs, p, POLYLINE_SHAPE_TYPE, ps)
    ensures ReadPolyline(dec, bs, p + 12).added == [ReadBack(AsWritten, POLYLINE_SHAPE_TYPE, ps)]
    ensures ReadPolyline(dec, bs, p + 12).status.Success?
    ensures ReadPolyline(dec, bs, p + 12).status.value.0 == 56 + 16 * |ps|
    ensures ReadPolyline(dec, bs, p + 12).status.value.1 == p + 56 + 16 * |ps|
  {
    ArraysRead(enc, dec, bs, p, POLYLINE_SHAPE_TYPE, ps);
    PolylineOfOnePart(dec, bs, p + 12, Plain(ps), p + 56 + 16 * |ps|);
  }

  /** A polyline body of one part starting at index 0 is read as one line of all its points. */
  lemma PolylineOfOnePart(dec: seq<byte> -> real, bs: seq<byte>, pos: int, qs: seq<Point>, end: int)
    requires At(bs, pos) && IsInt32(|qs|) && end == pos + 44 + 16 * |qs|
    requires ReadArrays(dec, bs, pos).Success? && ReadArrays(dec, bs, pos).value == Arrays([0], qs, end)
    ensures ReadPolyline(dec, bs, pos).added == [Line(if |qs| >= 2 then qs else [])]
    ensures ReadPolyline(dec, bs, pos).status.Success?
    ensures ReadPolyline(dec, bs, pos).status.value.1 == end
  {
    WholePart(qs);
  }

  /** A polyline of one part starting at index 0 is read as the whole point array. */
  lemma WholePart(qs: seq<Point>)
    requires IsInt32(|qs|)
    ensures FirstPart([0], qs) == Part(Line(if |qs| >= 2 then qs else []), None)
  {
    assert qs[0..|qs|] == qs;
  }

  /** A polygon body laid out for the points reads back as the ring under the mode's rule. */
  lemma PolygonBodyRead(mode: Reading, enc: real -> seq<byte>, dec: seq<byte> -> real, bs: seq<byte>, p: int, ps: seq<Point>)
    requires IsDoubleCodec(enc, dec) && Sized(|ps|) && 0 <= p
    requires RecordAt(enc, bs, p, POLYGON_SHAPE_TYPE, ps)
    ensures ReadPolygon(mode, dec, bs, p + 12).added == [ReadBack(mode, POLYGON_SHAPE_TYPE, ps)]
    ensures ReadPolygon(mode, dec, bs, p + 12).status.Success?
    ensures ReadPolygon(mode, dec, bs, p + 12).status.value.0 == 56 + 16 * |ps|
    ensures ReadPolygon(mode, dec, bs, p + 12).status.value.1 == p + 56 + 16 * |ps|
  {
    ArraysRead(enc, dec, bs, p, POLYGON_SHAPE_TYPE, ps);
    PolygonOfOnePart(mode, dec, bs, p + 12, Plain(ps), p + 56 + 16 * |ps|);
  }

  /** A polygon body of one part starting at index 0 is read as that part's ring. */
  lemma PolygonOfOnePart(mode: Reading, dec: seq<byte> -> real, bs: seq<byte>, pos: int, qs: seq<Point>, end: int)
    requires At(bs, pos) && IsInt32(|qs|) && end == pos + 44 + 16 * |qs|
    requires ReadArrays(dec, bs, pos).Success? && ReadArrays(dec, bs, pos).value == Arrays([0], qs, end)
    ensures ReadPolygon(mode, dec, bs, pos).added == [Line(Ring(mode, qs))]
    ensures ReadPolygon(mode, dec, bs, pos).status.Success?
    ensures ReadPolygon(mode, dec, bs, pos).status.value.1 == end
  {
    SinglePart(mode, qs);
  }

  /** A polygon of one part starting at index 0 is merged into that part's ring. */
  lemma SinglePart(mode: Reading, qs: seq<Point>)
    requires IsInt32(|qs|)
    ensures Merge(mode, [0], qs).Success?
    ensures Merge(mode, [0], qs).value == Ring(mode, qs)
  {
    var end := if mode == AsWritten then |qs| - 1 else |qs|;
    var ring := RingPoints([0], qs, end, 0);
    assert ring.Success? && ring.value == Ring(mode, qs);
    assert PolygonPoints([0], qs, end, 1) == Success([]);
    assert ring.value + [] == ring.value;
  }

  /** A path record laid out for the points is read as one line, and its size as its length. */
  lemma RecordRead(mode: Reading, enc: real -> seq<byte>, dec: seq<byte> -> real, bs: seq<byte>, p: int,
                   shapeType: int, ps: seq<Point>)
    requires IsDoubleCodec(enc, dec) && PathType(shapeType) && Sized(|ps|) && 0 <= p
    requires RecordAt(enc, bs, p, shapeType, ps)
    ensures ReadRecord(mode, dec, bs, p).added == [ReadBack(mode, shapeType, ps)]
    ensures ReadRecord(mode, dec, bs, p).status.Success?
    ensures ReadRecord(mode, dec, bs, p).status.value.0 == 56 + 16 * |ps|
    ensures ReadRecord(mode, dec, bs, p).status.value.1 == p + 56 + 16 * |ps|
  {
    HeaderRead(enc, bs, p, shapeType, ps);
    if shapeType == POLYLINE_SHAPE_TYPE {
      PolylineDispatch(mode, dec, bs, p);
      PolylineBodyRead(enc, dec, bs, p, ps);
    } else {
      PolygonDispatch(mode, dec, bs, p);
      PolygonBodyRead(mode, enc, dec, bs, p, ps);
    }
  }

  /** A record whose header gives the polyline type has a polyline body. */
  lemma PolylineDispatch(mode: Reading, dec: seq<byte> -> real, bs: seq<byte>, p: int)
    requires At(bs, p) && RecordHeader(bs, p).Success? && RecordHeader(bs, p).value.0 == POLYLINE
    ensures ReadRecord(mode, dec, bs, p) == ReadPolyline(dec, bs, p + 12)
  {
    assert KindOf(POLYLINE) == PolylineKind;
  }

  /** A record whose header gives the polygon type has a polygon body. */
  lemma PolygonDispatch(mode: Reading, dec: seq<byte> -> real, bs: seq<byte>, p: int)
    requires At(bs, p) && RecordHeader(bs, p).Success? && RecordHeader(bs, p).value.0 == POLYGON
    ensures ReadRecord(mode, dec, bs, p) == ReadPolygon(mode, dec, bs, p + 12)
  {
    assert KindOf(POLYGON) == PolygonKind;
  }

  /** Lines whose records the reader can size. */
  predicate Fits(lines: seq<seq<Point>>) {
    forall i :: 0 <= i < |lines| ==> Sized(|lines[i]|)
  }

  /** The lines the reader appends for the records of lines k and later, in order. */
  function ReadBacks(mode: Reading, shapeType: int, lines: seq<seq<Point>>): (r: seq<Geometry>)
    ensures |r| == |lines|
    ensures forall i :: 0 <= i < |lines| ==> r[i] == ReadBack(mode, shapeType, lines[i])
  {
    seq(|lines|, i requires 0 <= i < |lines| => ReadBack(mode, shapeType, lines[i]))
  }

  /** The record at p is read whole as the line g and ends at q. */
  predicate StepAt(mode: Reading, dec: seq<byte> -> real, bs: seq<byte>, p: int, q: int, g: Geometry) {
    At(bs, p) && ReadRecord(mode, dec, bs, p).added == [g] && ReadRecord(mode, dec, bs, p).status.Success? &&
    ReadRecord(mode, dec, bs, p).status.value.0 == q - p && ReadRecord(mode, dec, bs, p).status.value.1 == q
  }

  /** Each record from start j reads whole as geometry j and ends at start j + 1. */
  predicate Steps(mode: Reading, dec: seq<byte> -> real, bs: seq<byte>, starts: seq<int>, out: seq<Geometry>)
    requires |starts| == |out| + 1
  {
    forall j :: 0 <= j < |out| ==> StepAt(mode, dec, bs, starts[j], starts[j + 1], out[j])
  }

  /**
   * Read back to back from start k up to the end of the file, records that
   * each read whole give the geometries k and later.
   */
  lemma {:induction false} SequentialSteps(mode: Reading, dec: seq<byte> -> real, bs: seq<byte>,
                                           starts: seq<int>, out: seq<Geometry>, k: nat)
    requires |starts| == |out| + 1 && k <= |out| && starts[|out|] == |bs| && At(bs, starts[k])
    requires Steps(mode, dec, bs, starts, out)
    ensures SequentialRecords(mode, dec, bs, starts[k]).Success?
    ensures SequentialRecords(mode, dec, bs, starts[k]).value == out[k..]
    decreases |out| - k
  {
    if k < |out| {
      assert StepAt(mode, dec, bs, starts[k], starts[k + 1], out[k]);
      SequentialSteps(mode, dec, bs, starts, out, k + 1);
      Uncons(out, k);
      SequentialStep(mode, dec, bs, starts[k], starts[k + 1], out[k], out[k + 1..]);
    }
  }

  lemma Uncons<T>(s: seq<T>, k: nat)
    requires k < |s|
    ensures s[k..] == [s[k]] + s[k + 1..]
  {
  }

  /** Where each part starts when the parts are written from p on, and where the last ends. */
  function Starts(parts: seq<seq<byte>>, p: int): (r: seq<int>)
    ensures |r| == |parts| + 1
    ensures forall j :: 0 <= j <= |parts| ==> r[j] == p + Offset(parts, j)
  {
    seq(|parts| + 1, j requires 0 <= j <= |parts| => p + Offset(parts, j))
  }

  /** Where the records of lines make up the file from p on, the record of line j reads whole as that line. */
  lemma RecordStep(mode: Reading, enc: real -> seq<byte>, dec: seq<byte> -> real, bs: seq<byte>, p: int,
                   shapeType: int, lines: seq<seq<Point>>, j: nat, q: int, q2: int, g: Geometry)
    requires IsDoubleCodec(enc, dec) && PathType(shapeType) && Fits(lines) && j < |lines|
    requires 0 <= p <= |bs| && bs[p..] == Concat(RecordList(enc, shapeType, lines), 0)
    requires q == p + Offset(RecordList(enc, shapeType, lines), j)
    requires q2 == p + Offset(RecordList(enc, shapeType, lines), j + 1)
    requires g == ReadBack(mode, shapeType, lines[j])
    ensures StepAt(mode, dec, bs, q, q2, g)
  {
    var records := RecordList(enc, shapeType, lines);
    PartAt(bs, p, records, j, q);
    ListedStep(mode, enc, dec, bs, q, q2, shapeType, lines, j, g);
  }

  /** Record j of the list, standing at q and ending at q2, reads whole as line j. */
  lemma ListedStep(mode: Reading, enc: real -> seq<byte>, dec: seq<byte> -> real, bs: seq<byte>, q: int, q2: int,
                   shapeType: int, lines: seq<seq<Point>>, j: nat, g: Geometry)
    requires IsDoubleCodec(enc, dec) && PathType(shapeType) && Fits(lines) && j < |lines|
    requires HoldsAt(bs, q, RecordList(enc, shapeType, lines)[j])
    requires q2 == q + |RecordList(enc, shapeType, lines)[j]| && g == ReadBack(mode, shapeType, lines[j])
    ensures StepAt(mode, dec, bs, q, q2, g)
  {
    ListedRecordLaidOut(enc, dec, bs, q, shapeType, lines, j);
    CodecWidth(enc, dec);
    RecordAtStep(mode, enc, dec, bs, q, q2, shapeType, lines[j]);
  }

  /** A record laid out at q is one reading step to q2, the position right after it. */
  lemma RecordAtStep(mode: Reading, enc: real -> seq<byte>, dec: seq<byte> -> real, bs: seq<byte>, q: int, q2: int,
                     shapeType: int, ps: seq<Point>)
    requires IsDoubleCodec(enc, dec) && PathType(shapeType) && Sized(|ps|) && 0 <= q
    requires RecordAt(enc, bs, q, shapeType, ps) && q2 == q + 56 + 16 * |ps|
    ensures StepAt(mode, dec, bs, q, q2, ReadBack(mode, shapeType, ps))
  {
    RecordRead(mode, enc, dec, bs, q, shapeType, ps);
  }

  /** Record j of the list, standing at q, lays its fields out for line j. */
  lemma ListedRecordLaidOut(enc: real -> seq<byte>, dec: seq<byte> -> real, bs: seq<byte>, q: int,
                            shapeType: int, lines: seq<seq<Point>>, j: nat)
    requires IsDoubleCodec(enc, dec) && PathType(shapeType) && Fits(lines) && j < |lines|
    requires HoldsAt(bs, q, RecordList(enc, shapeType, lines)[j])
    ensures RecordAt(enc, bs, q, shapeType, lines[j])
  {
    RecordLaidOut(enc, dec, bs, q, shapeType, j + 1, lines[j]);
  }

  /** The records of lines that make up the file from p on each read whole as their line. */
  lemma RecordSteps(mode: Reading, enc: real -> seq<byte>, dec: seq<byte> -> real, bs: seq<byte>, p: int,
                    shapeType: int, lines: seq<seq<Point>>)
    requires IsDoubleCodec(enc, dec) && PathType(shapeType) && Fits(lines)
    requires 0 <= p <= |bs| && bs[p..] == Concat(RecordList(enc, shapeType, lines), 0)
    ensures Starts(RecordList(enc, shapeType, lines), p)[|lines|] == |bs|
    ensures Steps(mode, dec, bs, Starts(RecordList(enc, shapeType, lines), p), ReadBacks(mode, shapeType, lines))
  {
    var records := RecordList(enc, shapeType, lines);
    var starts := Starts(records, p);
    var out := ReadBacks(mode, shapeType, lines);
    ConcatLength(records, 0);
    forall j | 0 <= j < |lines|
      ensures StepAt(mode, dec, bs, starts[j], starts[j + 1], out[j])
    {
      RecordStep(mode, enc, dec, bs, p, shapeType, lines, j, starts[j], starts[j + 1], out[j]);
    }
  }

  /**
   * Read back to back up to the end of the file, the records of lines give
   * back those lines.
   */
  lemma SequentialRead(mode: Reading, enc: real -> seq<byte>, dec: seq<byte> -> real, bs: seq<byte>, p: int,
                       shapeType: int, lines: seq<seq<Point>>)
    requires IsDoubleCodec(enc, dec) && PathType(shapeType) && Fits(lines)
    requires 0 <= p <= |bs| && bs[p..] == Concat(RecordList(enc, shapeType, lines), 0)
    ensures SequentialRecords(mode, dec, bs, p).Success?
    ensures SequentialRecords(mode, dec, bs, p).value == ReadBacks(mode, shapeType, lines)
  {
    var starts := Starts(RecordList(enc, shapeType, lines), p);
    RecordSteps(mode, enc, dec, bs, p, shapeType, lines);
    SequentialSteps(mode, dec, bs, starts, ReadBacks(mode, shapeType, lines), 0);
  }

  /** A record read whole is followed by the records read from where it ends. */
  lemma SequentialStep(mode: Reading, dec: seq<byte> -> real, bs: seq<byte>, p: int, q: int, g: Geometry, rest: seq<Geometry>)
    requires StepAt(mode, dec, bs, p, q, g) && At(bs, q)
    requires SequentialRecords(mode, dec, bs, q).Success? && SequentialRecords(mode, dec, bs, q).value == rest
    ensures SequentialRecords(mode, dec, bs, p).Success?
    ensures SequentialRecords(mode, dec, bs, p).value == [g] + rest
  {
  }
}

=== FILE: shearing.dfy ===
/**
 * PlanObliqueShearing: plan oblique relief for vector lines. Every point is clamped to the
 * grid, lifted north by its interpolated elevation above a reference level times the
 * shearing factor k = 1 / tan(inclination), and dropped when the elevation is void.
 */
module Shearing {
  import opened Wrappers
  import opened Numeric
  import opened Grids
  import opened Features

  /**
   * The shearing factor 1 / tan(inclination) of an inclination angle in degrees, with
   * Math.tan as a parameter. A tangent of 0 makes the Java factor infinite, which is None
   * here.
   */
  function ShearFactor(tan: real -> real, inclinationDeg: real): (k: Option<real>)
    ensures k.None? <==> tan(inclinationDeg * PI / 180.0) == 0.0
    ensures k.Some? ==> k.value * tan(inclinationDeg * PI / 180.0) == 1.0
  {
    var t := tan(inclinationDeg * PI / 180.0);
    if t == 0.0 then None else Some(1.0 / t)
  }

  /** The point clamped into the grid bounds, west to east and south to north. */
  function ClampToGrid(g: Grid, p: Point): (q: Point)
    requires g.Valid()
    ensures g.west <= q.x <= g.East() && g.south <= q.y <= g.North()
    ensures g.west <= p.x <= g.East() && g.south <= p.y <= g.North() ==> SameLocation(q, p)
  {
    NewPoint(Clamp(p.x, g.west, g.East()), Clamp(p.y, g.south, g.North()))
  }

  /**
   * One point of shear(line, grid, refLevel): the clamped point moved north by
   * (z - refLevel) k, or nothing when the elevation z there is void. The elevation comes from
   * getBilinearInterpol as written, border branches included: clamping puts every point
   * outside the grid on a border, and the bounding line runs along the east column.
   */
  function ShearPoint(g: Grid, k: real, refLevel: real, p: Point): (r: Option<Point>)
    requires g.Valid()
    ensures r.None? <==> BilinearAsWritten(g, ClampToGrid(g, p).x, ClampToGrid(g, p).y).Void?
    ensures r.Some? ==> r.value.x == ClampToGrid(g, p).x && r.value.attributes == map[]
    ensures r.Some? ==>
      r.value.y - ClampToGrid(g, p).y == Times(BilinearAsWritten(g, ClampToGrid(g, p).x, ClampToGrid(g, p).y).v - refLevel, k)
  {
    var c := ClampToGrid(g, p);
    match BilinearAsWritten(g, c.x, c.y)
    case Void => None
    case Val(z) => Some(NewPoint(c.x, c.y + Times(z - refLevel, k)))
  }

  /** shear(line, grid, refLevel): the sheared points that are not NaN, in line order. */
  function ShearLine(g: Grid, k: real, refLevel: real, ps: seq<Point>): (r: seq<Point>)
    requires g.Valid()
    ensures |r| <= |ps|
    ensures forall i :: 0 <= i < |r| ==> g.west <= r[i].x <= g.East()
    ensures (forall i :: 0 <= i < |ps| ==> ShearPoint(g, k, refLevel, ps[i]).Some?) ==> |r| == |ps|
    decreases |ps|
  {
    if |ps| == 0 then []
    else
      var init := ps[..|ps| - 1];
      assert forall i :: 0 <= i < |init| ==> init[i] == ps[i];
      var front := ShearLine(g, k, refLevel, init);
      match ShearPoint(g, k, refLevel, ps[|ps| - 1])
      case None => front
      case Some(q) => front + [q]
  }

  /** Where no elevation is void, point i of the sheared line is the sheared point i. */
  lemma {:induction false} ShearLineAt(g: Grid, k: real, refLevel: real, ps: seq<Point>, i: int)
    requires g.Valid() && 0 <= i < |ps|
    requires forall j :: 0 <= j < |ps| ==> ShearPoint(g, k, refLevel, ps[j]).Some?
    ensures i < |ShearLine(g, k, refLevel, ps)|
    ensures ShearLine(g, k, refLevel, ps)[i] == ShearPoint(g, k, refLevel, ps[i]).value
    decreases |ps|
  {
    var init := ps[..|ps| - 1];
    assert forall j :: 0 <= j < |init| ==> init[j] == ps[j];
    if i < |ps| - 1 {
      ShearLineAt(g, k, refLevel, init, i);
    }
  }

  /** A point inside the grid whose elevation equals the reference level does not move. */
  lemma ReferenceLevelFixed(g: Grid, k: real, refLevel: real, p: Point)
    requires g.Valid() && g.west <= p.x <= g.East() && g.south <= p.y <= g.North()
    requires BilinearAsWritten(g, p.x, p.y) == Val(refLevel)
    ensures ShearPoint(g, k, refLevel, p).Some?
    ensures SameLocation(ShearPoint(g, k, refLevel, p).value, p)
  {
    var c := ClampToGrid(g, p);
    SameHeight(g, c, p);
    TimesZero(BilinearAsWritten(g, c.x, c.y).v - refLevel, k);
  }

  /** Two points at the same location have the same interpolated elevation. */
  lemma SameHeight(g: Grid, p: Point, q: Point)
    requires g.Valid() && SameLocation(p, q)
    ensures BilinearAsWritten(g, p.x, p.y) == BilinearAsWritten(g, q.x, q.y)
  {
  }

  /** With a positive factor, a point above the reference level moves north and one below moves south. */
  lemma ShearDirection(g: Grid, k: real, refLevel: real, p: Point)
    requires g.Valid() && k > 0.0 && ShearPoint(g, k, refLevel, p).Some?
    ensures var z := BilinearAsWritten(g, ClampToGrid(g, p).x, ClampToGrid(g, p).y).v;
      var dy := ShearPoint(g, k, refLevel, p).value.y - ClampToGrid(g, p).y;
      (z > refLevel ==> dy > 0.0) && (z < refLevel ==> dy < 0.0) && (z == refLevel ==> dy == 0.0)
  {
    var z := BilinearAsWritten(g, ClampToGrid(g, p).x, ClampToGrid(g, p).y).v;
    TimesZero(z - refLevel, k);
    if z > refLevel {
      TimesPositive(z - refLevel, k);
    } else if z < refLevel {
      var d := refLevel - z;
      TimesPositive(d, k);
      assert z - refLevel == -d;
      TimesNegatedLeft(d, k);
    }
  }

  /** On a grid without void cells the interpolated elevation inside the bounds is never void. */
  lemma InsideNeverVoid(g: Grid, x: real, y: real)
    requires g.Valid() && NoVoid(g)
    requires g.west <= x <= g.East() && g.south <= y <= g.North()
    ensures BilinearAsWritten(g, x, y).Val?
  {
    InsideFraction(g, x, y);
    var col, row := ColOf(g, x), RowOf(g, y);
    assert g.cells[row][col].Val?;
    if col < g.Cols() - 1 {
      assert g.cells[row][col + 1].Val?;
    }
    if row < g.Rows() - 1 {
      assert g.cells[row + 1][col].Val?;
      if col < g.Cols() - 1 {
        assert g.cells[row + 1][col + 1].Val?;
      }
    }
  }

  /**
   * Point i of boundingLine: one point per column along the lower border (one cell inside
   * it) from west to east, the upper-right corner, one point per column along the upper
   * border (one cell inside it) from east to west, and the lower-left corner again.
   */
  function BoundingPoint(g: Grid, i: int): (p: Point)
    requires g.Valid()
  {
    var cols, cs := g.Cols(), g.cellSize;
    if i < cols then NewPoint(NodeX(g, i), g.south + cs)
    else if i == cols then NewPoint(g.East(), g.North() - cs)
    else if i < 2 * cols + 1 then NewPoint(NodeX(g, 2 * cols - i), g.North() - cs)
    else NewPoint(g.west, g.south + cs)
  }

  /** boundingLine: a closed ring of 2 cols + 2 points that visits the upper-right corner twice. */
  function BoundingLine(g: Grid): (r: seq<Point>)
    requires g.Valid()
    ensures |r| == 2 * g.Cols() + 2
    ensures SameLocation(r[0], r[|r| - 1])
    ensures SameLocation(r[g.Cols()], r[g.Cols() + 1])
  {
    var n := 2 * g.Cols() + 2;
    var r := seq(n, i requires 0 <= i < n => BoundingPoint(g, i));
    assert NodeX(g, 0) == g.west;
    assert NodeX(g, g.Cols() - 1) == g.East();
    r
  }

  /** Every point of the bounding line lies inside the grid, so shearing does not clamp it. */
  lemma BoundingLineInside(g: Grid, i: int)
    requires g.Valid() && 0 <= i < 2 * g.Cols() + 2
    ensures var p := BoundingLine(g)[i];
      g.west <= p.x <= g.East() && g.south <= p.y <= g.North()
  {
    var cols := g.Cols();
    InnerBand(g);
    var p := BoundingLine(g)[i];
    assert p == BoundingPoint(g, i);
    if i < cols {
      NodeInside(g, i, 0);
    } else if cols < i < 2 * cols + 1 {
      var c := 2 * cols - i;
      assert p.x == NodeX(g, c);
      NodeInside(g, c, 0);
    }
  }

  /** The lines one cell inside the lower and upper borders lie between them. */
  lemma InnerBand(g: Grid)
    requires g.Valid()
    ensures g.south < g.south + g.cellSize <= g.North() - g.cellSize < g.North()
  {
    var h := (g.Rows() - 1) as real;
    ScaleLe(g.cellSize, 2.0, h);
    assert g.cellSize * h == h * g.cellSize;
  }

  /** On a grid without void cells the sheared bounding line keeps all its points and columns. */
  lemma ShearedBoundingLine(g: Grid, k: real, refLevel: real, i: int)
    requires g.Valid() && NoVoid(g) && 0 <= i < 2 * g.Cols() + 2
    ensures |ShearLine(g, k, refLevel, BoundingLine(g))| == 2 * g.Cols() + 2
    ensures ShearLine(g, k, refLevel, BoundingLine(g))[i].x == BoundingLine(g)[i].x
  {
    var b := BoundingLine(g);
    forall j | 0 <= j < |b|
      ensures ShearPoint(g, k, refLevel, b[j]).Some?
    {
      BoundingLineInside(g, j);
      InsideNeverVoid(g, b[j].x, b[j].y);
    }
    ShearLineAt(g, k, refLevel, b, i);
    BoundingLineInside(g, i);
  }

  /** A member that shear(collection, grid) keeps: a line with more than one point. */
  predicate LongLine(m: Geometry) {
    m.LineString? && |m.points| > 1
  }

  /**
   * The loop of shear(collection, grid): every member is cast to a line (ClassCastException
   * otherwise), sheared, and kept when more than one point remains.
   */
  function ShearMembers(g: Grid, k: real, refLevel: real, ms: seq<Geometry>): (r: Result<seq<Geometry>>)
    requires g.Valid()
    ensures r.Failure? <==> exists i :: 0 <= i < |ms| && !ms[i].LineString?
    ensures r.Failure? ==> r.error == ClassCast
    ensures r.Success? ==> |r.value| <= |ms| && forall j :: 0 <= j < |r.value| ==> LongLine(r.value[j])
    decreases |ms|
  {
    if |ms| == 0 then Success([])
    else
      var init := ms[..|ms| - 1];
      assert forall i :: 0 <= i < |init| ==> init[i] == ms[i];
      match ShearMembers(g, k, refLevel, init)
      case Failure(e) =>
        var i :| 0 <= i < |init| && !init[i].LineString?;
        assert !ms[i].LineString?;
        Failure(e)
      case Success(front) =>
        match ms[|ms| - 1]
        case LineString(ps, _) =>
          assert forall i :: 0 <= i < |ms| ==> ms[i].LineString?;
          var sheared := ShearLine(g, k, refLevel, ps);
          if |sheared| > 1 then Success(front + [LineString(sheared, map[])]) else Success(front)
        case _ => Failure(ClassCast)
  }

  /**
   * shear(collection, grid): the reference level is the grid minimum; the kept sheared lines
   * are followed by the sheared bounding line of the grid.
   */
  function ShearCollection(g: Grid, k: real, lines: Geometry): (r: Result<Geometry>)
    requires g.Valid() && lines.GeometryCollection?
    ensures r.Failure? <==> exists i :: 0 <= i < |lines.members| && !lines.members[i].LineString?
    ensures r.Failure? ==> r.error == ClassCast
    ensures r.Success? ==> r.value.GeometryCollection? && 1 <= |r.value.members| <= |lines.members| + 1
    ensures r.Success? ==> var ms := r.value.members;
      ms[|ms| - 1] == LineString(ShearLine(g, k, MinMax(g).0, BoundingLine(g)), map[]) &&
      forall j :: 0 <= j < |ms| - 1 ==> LongLine(ms[j])
  {
    var refLevel := MinMax(g).0;
    match ShearMembers(g, k, refLevel, lines.members)
    case Failure(e) => Failure(e)
    case Success(kept) =>
      Success(GeometryCollection(kept + [LineString(ShearLine(g, k, refLevel, BoundingLine(g)), map[])], map[]))
  }

  /** Member j is a line that keeps more than one point after shearing. */
  predicate StaysLong(g: Grid, k: real, refLevel: real, ms: seq<Geometry>, j: int)
    requires g.Valid() && 0 <= j < |ms|
  {
    ms[j].LineString? && |ShearLine(g, k, refLevel, ms[j].points)| > 1
  }

  /** When every member stays long, member i of the result is the sheared member i. */
  lemma {:induction false} ShearMembersKeepsAll(g: Grid, k: real, refLevel: real, ms: seq<Geometry>, i: int)
    requires g.Valid() && 0 <= i < |ms|
    requires forall j :: 0 <= j < |ms| ==> StaysLong(g, k, refLevel, ms, j)
    ensures ShearMembers(g, k, refLevel, ms).Success?
    ensures |ShearMembers(g, k, refLevel, ms).value| == |ms|
    ensures ShearMembers(g, k, refLevel, ms).value[i] == LineString(ShearLine(g, k, refLevel, ms[i].points), map[])
    decreases |ms|
  {
    var init := ms[..|ms| - 1];
    assert StaysLong(g, k, refLevel, ms, |ms| - 1);
    if |ms| > 1 {
      forall j | 0 <= j < |init|
        ensures StaysLong(g, k, refLevel, init, j)
      {
        assert init[j] == ms[j];
        assert StaysLong(g, k, refLevel, ms, j);
      }
      ShearMembersKeepsAll(g, k, refLevel, init, if i < |ms| - 1 then i else 0);
    }
  }
}

=== FILE: smoothing.dfy ===
/**
 * LineString.smoothPointAttribute: a moving average of one numeric point attribute along a
 * line, written into another attribute of every point. The Java method updates the points
 * in place, one after the other, so when source and target are the same attribute later
 * windows read values that earlier steps already smoothed; the model keeps that order.
 */
module Smoothing {
  import opened Wrappers
  import opened Features

  /** Every point holds a non-null value for the attribute. */
  predicate Present(ps: seq<Point>, name: string) {
    forall k :: 0 <= k < |ps| ==> GetAttribute(ps[k].attributes, name).Some?
  }

  /** The attribute values of all points, in line order. */
  function Values(ps: seq<Point>, name: string): (vals: seq<real>)
    requires Present(ps, name)
    ensures |vals| == |ps|
    ensures forall k :: 0 <= k < |ps| ==> GetAttribute(ps[k].attributes, name) == Some(vals[k])
  {
    seq(|ps|, k requires 0 <= k < |ps| => GetAttribute(ps[k].attributes, name).value)
  }

  /** The first index of the window of half width h around point i. */
  function Lo(h: int, i: int): (lo: int)
    requires 0 <= h && 0 <= i
    ensures 0 <= lo <= i && (lo == 0 || lo == i - h) && lo >= i - h
  {
    if i - h < 0 then 0 else i - h
  }

  /** One past the last index of the window of half width h around point i of n. */
  function Hi(n: int, h: int, i: int): (hi: int)
    requires 0 <= h && 0 <= i < n
    ensures i < hi <= n && (hi == n || hi == i + h + 1) && hi <= i + h + 1
  {
    if i + h + 1 > n then n else i + h + 1
  }

  /** The sum of the attribute over points lo .. hi - 1; a null value throws. */
  function WindowTotal(ps: seq<Point>, name: string, lo: int, hi: int): (r: Result<real>)
    requires 0 <= lo <= hi <= |ps|
    ensures r.Failure? ==> r.error == NullPointer
    decreases hi - lo
  {
    if hi == lo then Success(0.0)
    else
      match WindowTotal(ps, name, lo, hi - 1)
      case Failure(e) => Failure(e)
      case Success(t) =>
        match GetAttribute(ps[hi - 1].attributes, name)
        case None => Failure(NullPointer)
        case Some(v) => Success(t + v)
  }

  /** With every value present, the window total is the sum of the window's values. */
  lemma {:induction false} WindowTotalSum(ps: seq<Point>, name: string, lo: int, hi: int)
    requires Present(ps, name) && 0 <= lo <= hi <= |ps|
    ensures WindowTotal(ps, name, lo, hi) == Success(Numeric.Sum(Values(ps, name)[lo..hi]))
    decreases hi - lo
  {
    if hi > lo {
      WindowTotalSum(ps, name, lo, hi - 1);
      var vals := Values(ps, name);
      assert vals[lo..hi][..hi - lo - 1] == vals[lo..hi - 1];
      assert GetAttribute(ps[hi - 1].attributes, name) == Some(vals[hi - 1]);
    }
  }

  /** A null value anywhere in the window makes the total throw. */
  lemma {:induction false} WindowTotalFails(ps: seq<Point>, name: string, lo: int, hi: int, k: int)
    requires 0 <= lo <= k < hi <= |ps| && GetAttribute(ps[k].attributes, name).None?
    ensures WindowTotal(ps, name, lo, hi) == Failure(NullPointer)
    decreases hi - lo
  {
    if k < hi - 1 {
      WindowTotalFails(ps, name, lo, hi - 1, k);
    }
  }

  /** A window whose values all equal c totals c times its size. */
  lemma {:induction false} WindowTotalConstant(ps: seq<Point>, name: string, lo: int, hi: int, c: real)
    requires 0 <= lo <= hi <= |ps|
    requires forall k :: 0 <= k < |ps| ==> GetAttribute(ps[k].attributes, name) == Some(c)
    ensures WindowTotal(ps, name, lo, hi).Success?
    ensures WindowTotal(ps, name, lo, hi).value == (hi - lo) as real * c
    decreases hi - lo
  {
    if hi > lo {
      WindowTotalConstant(ps, name, lo, hi - 1, c);
      assert GetAttribute(ps[hi - 1].attributes, name) == Some(c);
      var m := (hi - 1 - lo) as real;
      assert (hi - lo) as real * c == (m + 1.0) * c == m * c + c;
    }
  }

  /** The mean of the values in the window of half width h around point i. */
  function WindowMean(vals: seq<real>, h: int, i: int): real
    requires 0 <= h && 0 <= i < |vals|
  {
    var lo, hi := Lo(h, i), Hi(|vals|, h, i);
    Numeric.Sum(vals[lo..hi]) / (hi - lo) as real
  }

  /** Step i: total the window as it stands now and store the mean in the target attribute. */
  function SmoothAt(s: seq<Point>, src: string, tgt: string, h: int, i: int): (r: Result<seq<Point>>)
    requires 0 <= h && 0 <= i < |s|
    ensures r.Failure? ==> r.error == NullPointer
    ensures r.Success? ==> |r.value| == |s| && r.value[..i] == s[..i] && r.value[i + 1..] == s[i + 1..]
    ensures r.Success? ==> SameLocation(r.value[i], s[i]) && HasAttribute(r.value[i].attributes, tgt)
  {
    var lo, hi := Lo(h, i), Hi(|s|, h, i);
    match WindowTotal(s, src, lo, hi)
    case Failure(e) => Failure(e)
    case Success(total) =>
      var p := s[i];
      Success(s[i := p.(attributes := SetAttribute(p.attributes, tgt, Some(total / (hi - lo) as real)))])
  }

  /** Steps i, i + 1, ... to the end of the line, each on the state the previous one left. */
  function SmoothFrom(s: seq<Point>, src: string, tgt: string, h: int, i: int): (r: Result<seq<Point>>)
    requires 0 <= h && 0 <= i <= |s|
    ensures r.Failure? ==> r.error == NullPointer
    ensures r.Success? ==> |r.value| == |s| && r.value[..i] == s[..i]
    ensures r.Success? ==> forall k :: 0 <= k < |s| ==> SameLocation(r.value[k], s[k])
    decreases |s| - i
  {
    if i == |s| then Success(s)
    else
      match SmoothAt(s, src, tgt, h, i)
      case Failure(e) => Failure(e)
      case Success(next) =>
        var r := SmoothFrom(next, src, tgt, h, i + 1);
        if r.Success? then
          forall k | 0 <= k < |s| ensures SameLocation(r.value[k], s[k]) {
            assert SameLocation(r.value[k], next[k]);
            if k != i { assert next[k] == (if k < i then next[..i][k] else next[i + 1..][k - i - 1]); }
          }
          assert r.value[..i] == r.value[..i + 1][..i];
          r
        else r
  }

  /**
   * smoothPointAttribute: the filter size must be a positive odd number; an empty line or a
   * filter of one point leaves everything as it is (the target attribute is not set). When
   * a window reaches a point that lacks the source attribute the Java loop fails part-way,
   * with the earlier points already updated in place; the failure result does not carry
   * those points.
   */
  function SmoothPointAttribute(ps: seq<Point>, filterSize: int, src: string, tgt: string): (r: Result<seq<Point>>)
    ensures r == Failure(IllegalArgument) <==> filterSize <= 0 || filterSize % 2 == 0
    ensures r.Failure? ==> r.error == IllegalArgument || r.error == NullPointer
    ensures filterSize > 0 && filterSize % 2 == 1 && (|ps| == 0 || filterSize == 1) ==> r == Success(ps)
    ensures r.Success? ==> |r.value| == |ps| && forall k :: 0 <= k < |ps| ==> SameLocation(r.value[k], ps[k])
  {
    // Java's filterSize % 2 truncates, but every negative size is rejected by the second test too
    if filterSize % 2 != 1 || filterSize <= 0 then Failure(IllegalArgument)
    else if |ps| == 0 || filterSize == 1 then Success(ps)
    else SmoothFrom(ps, src, tgt, filterSize / 2, 0)
  }

  /** With every source value present, every step succeeds, and the values stay present. */
  lemma {:induction false} SmoothFromSucceeds(s: seq<Point>, src: string, tgt: string, h: int, i: int)
    requires 0 <= h && 0 <= i <= |s| && Present(s, src)
    ensures SmoothFrom(s, src, tgt, h, i).Success?
    decreases |s| - i
  {
    if i < |s| {
      var next := StepSucceeds(s, src, tgt, h, i);
      SmoothFromSucceeds(next, src, tgt, h, i + 1);
    }
  }

  /** A step on a line where every point has the source value succeeds and keeps the values present. */
  lemma StepSucceeds(s: seq<Point>, src: string, tgt: string, h: int, i: int) returns (next: seq<Point>)
    requires 0 <= h && 0 <= i < |s| && Present(s, src)
    ensures SmoothAt(s, src, tgt, h, i) == Success(next)
    ensures |next| == |s| && Present(next, src)
  {
    var lo, hi := Lo(h, i), Hi(|s|, h, i);
    WindowTotalSum(s, src, lo, hi);
    next := SmoothAt(s, src, tgt, h, i).value;
    forall k | 0 <= k < |next|
      ensures GetAttribute(next[k].attributes, src).Some?
    {
      if k != i {
        assert next[k] == s[k];
      }
    }
  }

  /** A point not yet reached whose source value is null makes the remaining steps throw. */
  lemma {:induction false} SmoothFromFails(s: seq<Point>, src: string, tgt: string, h: int, i: int, k: int)
    requires 0 <= h && 0 <= i <= k < |s| && GetAttribute(s[k].attributes, src).None?
    ensures SmoothFrom(s, src, tgt, h, i) == Failure(NullPointer)
    decreases |s| - i
  {
    var lo, hi := Lo(h, i), Hi(|s|, h, i);
    if k == i {
      WindowTotalFails(s, src, lo, hi, k);
    } else {
      var step := SmoothAt(s, src, tgt, h, i);
      if step.Success? {
        StepKeepsLater(s, src, tgt, h, i, k);
        SmoothFromFails(step.value, src, tgt, h, i + 1, k);
      }
    }
  }

  /** A step leaves the points after it as they were. */
  lemma StepKeepsLater(s: seq<Point>, src: string, tgt: string, h: int, i: int, k: int)
    requires 0 <= h && 0 <= i < k < |s| && SmoothAt(s, src, tgt, h, i).Success?
    ensures SmoothAt(s, src, tgt, h, i).value[k] == s[k]
  {
    var next := SmoothAt(s, src, tgt, h, i).value;
    assert next[k] == next[i + 1..][k - i - 1];
  }

  /** The target attribute of p holds the mean of the window around point k. */
  predicate Averaged(vals: seq<real>, p: Point, tgt: string, h: int, k: int)
    requires 0 <= h && 0 <= k < |vals|
  {
    GetAttribute(p.attributes, tgt).Some? && GetAttribute(p.attributes, tgt).value == WindowMean(vals, h, k)
  }

  /** One step with a target distinct from the source: it sets the mean at i and touches nothing else. */
  lemma SmoothAtAverages(s: seq<Point>, src: string, tgt: string, h: int, i: int)
    requires src != tgt && 0 <= h && 0 <= i < |s| && Present(s, src)
    ensures SmoothAt(s, src, tgt, h, i).Success?
    ensures var next := SmoothAt(s, src, tgt, h, i).value;
      Present(next, src) && Values(next, src) == Values(s, src) &&
      Averaged(Values(s, src), next[i], tgt, h, i) &&
      forall k :: 0 <= k < |s| && k != i ==> next[k] == s[k]
  {
    var lo, hi := Lo(h, i), Hi(|s|, h, i);
    WindowTotalSum(s, src, lo, hi);
    var next := SmoothAt(s, src, tgt, h, i).value;
    assert GetAttribute(next[i].attributes, src) == GetAttribute(s[i].attributes, src);
    forall k | 0 <= k < |s| && k != i
      ensures next[k] == s[k]
    {
      if k < i {
        assert next[k] == next[..i][k];
      } else {
        assert next[k] == next[i + 1..][k - i - 1];
      }
    }
  }

  /**
   * With a target distinct from the source, the steps never disturb the source values, so
   * every point receives the mean of the original values around it.
   */
  /**
   * The state before step i with a distinct target: the source values are the original
   * ones and every point before i holds the mean of its window.
   */
  predicate AveragedBefore(vals: seq<real>, s: seq<Point>, src: string, tgt: string, h: int, i: int) {
    src != tgt && 0 <= h && 0 <= i <= |s| && Present(s, src) && Values(s, src) == vals &&
    forall k :: 0 <= k < i ==> Averaged(vals, s[k], tgt, h, k)
  }

  /**
   * With a target distinct from the source, the steps never disturb the source values, so
   * every point receives the mean of the original values around it.
   */
  lemma {:induction false} SmoothFromAverages(vals: seq<real>, s: seq<Point>, src: string, tgt: string, h: int, i: int)
    returns (r: seq<Point>)
    requires AveragedBefore(vals, s, src, tgt, h, i)
    ensures SmoothFrom(s, src, tgt, h, i) == Success(r) && AveragedBefore(vals, r, src, tgt, h, |r|) && |r| == |s|
    decreases |s| - i
  {
    if i < |s| {
      var next := StepAverages(vals, s, src, tgt, h, i);
      r := SmoothFromAverages(vals, next, src, tgt, h, i + 1);
      SmoothFromStep(s, src, tgt, h, i, next);
    } else {
      r := s;
    }
  }

  /** After a successful step i the remaining steps start from its result. */
  lemma SmoothFromStep(s: seq<Point>, src: string, tgt: string, h: int, i: int, next: seq<Point>)
    requires 0 <= h && 0 <= i < |s| && SmoothAt(s, src, tgt, h, i) == Success(next)
    ensures |next| == |s|
    ensures SmoothFrom(s, src, tgt, h, i) == SmoothFrom(next, src, tgt, h, i + 1)
  {
  }

  /** Step i with a distinct target keeps the source values and adds the mean at i to those before it. */
  lemma StepAverages(vals: seq<real>, s: seq<Point>, src: string, tgt: string, h: int, i: int) returns (next: seq<Point>)
    requires AveragedBefore(vals, s, src, tgt, h, i) && i < |s|
    ensures SmoothAt(s, src, tgt, h, i) == Success(next)
    ensures |next| == |s| && AveragedBefore(vals, next, src, tgt, h, i + 1)
  {
    SmoothAtAverages(s, src, tgt, h, i);
    next := SmoothAt(s, src, tgt, h, i).value;
    forall k | 0 <= k < i + 1
      ensures Averaged(vals, next[k], tgt, h, k)
    {
      if k < i {
        assert next[k] == s[k];
      }
    }
  }

  /** When source and target coincide and every point holds the same value, nothing changes. */
  lemma {:induction false} SmoothFromConstant(s: seq<Point>, name: string, h: int, i: int, c: real)
    requires 0 <= h && 0 <= i <= |s|
    requires forall k :: 0 <= k < |s| ==> GetAttribute(s[k].attributes, name) == Some(c)
    ensures SmoothFrom(s, name, name, h, i) == Success(s)
    decreases |s| - i
  {
    if i < |s| {
      StepConstant(s, name, h, i, c);
      SmoothFromConstant(s, name, h, i + 1, c);
    }
  }

  /** A step on a line of equal values stores the value the point already holds. */
  lemma StepConstant(s: seq<Point>, name: string, h: int, i: int, c: real)
    requires 0 <= h && 0 <= i < |s|
    requires forall k :: 0 <= k < |s| ==> GetAttribute(s[k].attributes, name) == Some(c)
    ensures SmoothAt(s, name, name, h, i) == Success(s)
  {
    var lo, hi := Lo(h, i), Hi(|s|, h, i);
    WindowTotalConstant(s, name, lo, hi, c);
    var total := WindowTotal(s, name, lo, hi).value;
    MeanOfEqual((hi - lo) as real, c, total);
    var p := s[i];
    assert p.attributes[name] == Some(c);
    var a := SetAttribute(p.attributes, name, Some(total / (hi - lo) as real));
    assert a == p.attributes;
    assert s[i := p.(attributes := a)] == s;
  }

  /** n equal values c total n * c, and their mean is c again. */
  lemma MeanOfEqual(n: real, c: real, total: real)
    requires n > 0.0 && total == n * c
    ensures total / n == c
  {
  }

  /** Beyond a bad filter size, the method throws exactly when some point lacks the source value. */
  lemma SmoothFailsIffMissing(ps: seq<Point>, filterSize: int, src: string, tgt: string)
    ensures SmoothPointAttribute(ps, filterSize, src, tgt) == Failure(NullPointer) <==>
      filterSize > 1 && filterSize % 2 == 1 && !Present(ps, src)
  {
    if filterSize > 1 && filterSize % 2 == 1 && |ps| > 0 {
      if Present(ps, src) {
        SmoothFromSucceeds(ps, src, tgt, filterSize / 2, 0);
      } else {
        var k :| 0 <= k < |ps| && GetAttribute(ps[k].attributes, src).None?;
        SmoothFromFails(ps, src, tgt, filterSize / 2, 0, k);
      }
    }
  }

  /** With a separate target, every point's target holds the mean of the source values in its window. */
  lemma SmoothAverages(ps: seq<Point>, filterSize: int, src: string, tgt: string)
    requires filterSize > 1 && filterSize % 2 == 1 && src != tgt && Present(ps, src)
    ensures var r := SmoothPointAttribute(ps, filterSize, src, tgt);
      r.Success? && |r.value| == |ps| &&
      forall k :: 0 <= k < |ps| ==> Averaged(Values(ps, src), r.value[k], tgt, filterSize / 2, k)
  {
    if |ps| > 0 {
      var r := SmoothFromAverages(Values(ps, src), ps, src, tgt, filterSize / 2, 0);
      assert forall k :: 0 <= k < |ps| ==> Averaged(Values(ps, src), r[k], tgt, filterSize / 2, k);
    }
  }

  /** Smoothing an attribute onto itself leaves a constant attribute as it is. */
  lemma SmoothConstant(ps: seq<Point>, filterSize: int, name: string, c: real)
    requires filterSize > 0 && filterSize % 2 == 1
    requires forall k :: 0 <= k < |ps| ==> GetAttribute(ps[k].attributes, name) == Some(c)
    ensures SmoothPointAttribute(ps, filterSize, name, name) == Success(ps)
  {
    if |ps| > 0 && filterSize > 1 {
      SmoothFromConstant(ps, name, filterSize / 2, 0, c);
    }
  }
}

=== FILE: stddev.dfy ===
/**
 * GridStandardDeviationOperator: the local standard deviation of a grid, estimated from the
 * high-pass band of its Laplacian pyramid over a square window of levels * 16 + 1 cells.
 * Border cells use a clipped window that skips void source cells but still divides by the
 * full window's cell count; interior cells sum the whole window.
 *
 * The operator reads the border window from row 1 and column 1 on: that rule is
 * BorderAsWritten, and Border is the evident rule, which starts at row 0 and column 0. The
 * chunk computation takes the border rule as a parameter.
 */
module StandardDeviation {
  import opened Wrappers
  import opened Numeric
  import opened CellOperators
  import opened Pyramids
  import Grids

  const FILTER_SIZE_SCALE: int := 16

  /** filterSize(): levels * 16 + 1, odd for every level count. */
  function FilterSize(levels: int): (n: int)
    ensures n % 2 == 1
    ensures levels >= 0 ==> n >= 1
  {
    levels * FILTER_SIZE_SCALE + 1
  }

  /** filterSize / 2 with Java's division, which truncates toward zero. */
  function HalfFilterSize(levels: int): (h: int)
    ensures levels >= 0 ==> h == 8 * levels && 2 * h + 1 == FilterSize(levels)
    ensures levels < 0 ==> h < 0 && 2 * h - 1 == FilterSize(levels)
  {
    var n := FilterSize(levels);
    if n >= 0 then n / 2 else -((-n) / 2)
  }

  /** The weights that extract the high-pass band: 1 for the first `levels` levels, 0 above. */
  function HighPassWeights(levels: int, p: Pyramid): (w: seq<real>)
    ensures |w| == p.levels
    ensures forall i :: 0 <= i < |w| ==> w[i] == (if i < levels then 1.0 else 0.0)
  {
    var w := ConstantWeights(p, 0.0);
    seq(|w|, i requires 0 <= i < |w| => if i < levels then 1.0 else w[i])
  }

  /** The band keeps exactly min(levels, pyramid levels) levels at full weight, and no other. */
  lemma {:induction false} HighPassWeightSum(levels: int, p: Pyramid)
    ensures Sum(HighPassWeights(levels, p)) == (if levels <= 0 then 0 else if levels < p.levels then levels else p.levels) as real
  {
    var w := HighPassWeights(levels, p);
    PrefixSum(w, levels, |w|);
    assert w[..|w|] == w;
  }

  /** A weight vector that is 1 below `levels` and 0 from there sums to min(levels, k) over its first k entries. */
  lemma {:induction false} PrefixSum(w: seq<real>, levels: int, k: nat)
    requires k <= |w|
    requires forall i :: 0 <= i < |w| ==> w[i] == (if i < levels then 1.0 else 0.0)
    ensures Sum(w[..k]) == (if levels <= 0 then 0 else if levels < k then levels else k) as real
  {
    if k > 0 {
      assert w[..k][..k - 1] == w[..k - 1];
      PrefixSum(w, levels, k - 1);
    }
  }

  // ------------------------------------------------------------------------------------------
  // Window sums

  /** Which cells a window counts. */
  datatype Rule =
    | Interior          // every cell of the window, which lies inside the grid
    | BorderAsWritten   // rows and columns from 1 on, non-void source cells only
    | Border            // rows and columns from 0 on, non-void source cells only

  /** The cells of the grid a rule counts. */
  predicate Counted(cells: seq<seq<Cell>>, rule: Rule, r: int, c: int) {
    match rule
    case Interior => 0 <= r < |cells| && 0 <= c < |cells[r]|
    case BorderAsWritten => 0 < r < |cells| && 0 < c < |cells[r]| && cells[r][c].Val?
    case Border => 0 <= r < |cells| && 0 <= c < |cells[r]| && cells[r][c].Val?
  }

  /**
   * What cell (r, c) adds to a window sum: its squared band value where counted, 0 elsewhere.
   * A void band value stays void, so that it poisons the sum as NaN does.
   */
  function Term(src: Grids.Grid, hp: Raster, rule: Rule, r: int, c: int): (t: Cell)
    ensures t.Val? ==> t.v >= 0.0
    ensures !Counted(src.cells, rule, r, c) ==> t == Val(0.0)
    ensures Counted(src.cells, rule, r, c) && r < |hp| && c < |hp[r]| ==> (t.Void? <==> hp[r][c].Void?)
  {
    if Counted(src.cells, rule, r, c) && r < |hp| && c < |hp[r]| then
      match hp[r][c]
      case Void => Void
      case Val(v) => Val(v * v)
    else Val(0.0)
  }

  /** The terms of a window, indexed by row and column. */
  type Summand = (int, int) -> Cell

  function Summands(src: Grids.Grid, hp: Raster, rule: Rule): Summand {
    (r, c) => Term(src, hp, rule, r, c)
  }

  /** The sum of the terms of row r over columns [c0, c1); a void term poisons the sum as NaN does. */
  function SumRow(t: Summand, r: int, c0: int, c1: int): Cell
    decreases c1 - c0
  {
    if c1 <= c0 then Val(0.0)
    else
      var (s, x) := (SumRow(t, r, c0, c1 - 1), t(r, c1 - 1));
      if s.Void? || x.Void? then Void else Val(s.v + x.v)
  }

  /** The sum of the terms of rows [r0, r1) over columns [c0, c1). */
  function SumWindow(t: Summand, r0: int, r1: int, c0: int, c1: int): Cell
    decreases r1 - r0
  {
    if r1 <= r0 then Val(0.0)
    else
      var (s, x) := (SumWindow(t, r0, r1 - 1, c0, c1), SumRow(t, r1 - 1, c0, c1));
      if s.Void? || x.Void? then Void else Val(s.v + x.v)
  }

  /** No term is negative. */
  ghost predicate NonNegative(t: Summand) {
    forall r, c :: t(r, c).Val? ==> t(r, c).v >= 0.0
  }

  /** Every term is a number, and none is negative. */
  ghost predicate Numbers(t: Summand) {
    forall r, c :: t(r, c).Val? && t(r, c).v >= 0.0
  }

  lemma SummandsNonNegative(src: Grids.Grid, hp: Raster, rule: Rule)
    ensures NonNegative(Summands(src, hp, rule))
  {
  }

  /** A sum of non-negative terms is non-negative. */
  lemma {:induction false} RowNonNegative(t: Summand, r: int, c0: int, c1: int)
    requires NonNegative(t)
    ensures SumRow(t, r, c0, c1).Val? ==> SumRow(t, r, c0, c1).v >= 0.0
    decreases c1 - c0
  {
    if c1 > c0 {
      RowNonNegative(t, r, c0, c1 - 1);
    }
  }

  lemma {:induction false} WindowNonNegative(t: Summand, r0: int, r1: int, c0: int, c1: int)
    requires NonNegative(t)
    ensures SumWindow(t, r0, r1, c0, c1).Val? ==> SumWindow(t, r0, r1, c0, c1).v >= 0.0
    decreases r1 - r0
  {
    if r1 > r0 {
      WindowNonNegative(t, r0, r1 - 1, c0, c1);
      RowNonNegative(t, r1 - 1, c0, c1);
    }
  }

  /** A row sum is void exactly when one of its terms is: NaN propagates through the sum. */
  lemma {:induction false} RowVoid(t: Summand, r: int, c0: int, c1: int)
    ensures SumRow(t, r, c0, c1).Void? <==> exists c :: c0 <= c < c1 && t(r, c).Void?
    decreases c1 - c0
  {
    if c1 > c0 {
      RowVoid(t, r, c0, c1 - 1);
      if t(r, c1 - 1).Void? {
        assert c0 <= c1 - 1 < c1;
      }
    }
  }

  /** A window sum is void exactly when one of its terms is. */
  lemma {:induction false} WindowVoid(t: Summand, r0: int, r1: int, c0: int, c1: int)
    ensures SumWindow(t, r0, r1, c0, c1).Void? <==> exists r, c :: r0 <= r < r1 && c0 <= c < c1 && t(r, c).Void?
    decreases r1 - r0
  {
    if r1 > r0 {
      WindowVoid(t, r0, r1 - 1, c0, c1);
      RowVoid(t, r1 - 1, c0, c1);
      if SumRow(t, r1 - 1, c0, c1).Void? {
        var c :| c0 <= c < c1 && t(r1 - 1, c).Void?;
        assert r0 <= r1 - 1 < r1;
      }
    }
  }

  /** A window whose every term is zero sums to zero. */
  lemma {:induction false} SumOfZeros(t: Summand, r0: int, r1: int, c0: int, c1: int)
    requires forall r, c :: r0 <= r < r1 && c0 <= c < c1 ==> t(r, c) == Val(0.0)
    ensures SumWindow(t, r0, r1, c0, c1) == Val(0.0)
    decreases r1 - r0
  {
    if r1 > r0 {
      SumOfZeros(t, r0, r1 - 1, c0, c1);
      RowOfZeros(t, r1 - 1, c0, c1);
    }
  }

  lemma {:induction false} RowOfZeros(t: Summand, r: int, c0: int, c1: int)
    requires forall c :: c0 <= c < c1 ==> t(r, c) == Val(0.0)
    ensures SumRow(t, r, c0, c1) == Val(0.0)
    decreases c1 - c0
  {
    if c1 > c0 {
      RowOfZeros(t, r, c0, c1 - 1);
    }
  }

  /** A sum of numbers is a number no smaller than any of its terms. */
  lemma {:induction false} SumAtLeastTerm(t: Summand, r0: int, r1: int, c0: int, c1: int, r: int, c: int)
    requires Numbers(t)
    requires r0 <= r < r1 && c0 <= c < c1
    ensures SumWindow(t, r0, r1, c0, c1).Val?
    ensures SumWindow(t, r0, r1, c0, c1).v >= t(r, c).v
    decreases r1 - r0
  {
    WindowDefined(t, r0, r1 - 1, c0, c1);
    RowDefined(t, r1 - 1, c0, c1);
    if r == r1 - 1 {
      RowAtLeastTerm(t, r, c0, c1, c);
    } else {
      SumAtLeastTerm(t, r0, r1 - 1, c0, c1, r, c);
    }
  }

  lemma {:induction false} RowAtLeastTerm(t: Summand, r: int, c0: int, c1: int, c: int)
    requires Numbers(t)
    requires c0 <= c < c1
    ensures SumRow(t, r, c0, c1).Val?
    ensures SumRow(t, r, c0, c1).v >= t(r, c).v
    decreases c1 - c0
  {
    RowDefined(t, r, c0, c1 - 1);
    if c < c1 - 1 {
      RowAtLeastTerm(t, r, c0, c1 - 1, c);
    }
  }

  lemma {:induction false} WindowDefined(t: Summand, r0: int, r1: int, c0: int, c1: int)
    requires Numbers(t)
    ensures SumWindow(t, r0, r1, c0, c1).Val?
    ensures SumWindow(t, r0, r1, c0, c1).v >= 0.0
    decreases r1 - r0
  {
    if r1 > r0 {
      WindowDefined(t, r0, r1 - 1, c0, c1);
      RowDefined(t, r1 - 1, c0, c1);
    }
  }

  lemma {:induction false} RowDefined(t: Summand, r: int, c0: int, c1: int)
    requires Numbers(t)
    ensures SumRow(t, r, c0, c1).Val?
    ensures SumRow(t, r, c0, c1).v >= 0.0
    decreases c1 - c0
  {
    if c1 > c0 {
      RowDefined(t, r, c0, c1 - 1);
    }
  }

  /** The high-pass band has no void inside the grid. */
  ghost predicate NoVoids(src: Grids.Grid, hp: Raster)
    requires src.Valid() && Covers(hp, src.cells)
  {
    forall r, c :: 0 <= r < src.Rows() && 0 <= c < src.Cols() ==> hp[r][c].Val?
  }

  /** Without voids in the band, every term of every rule is a number. */
  lemma BandTermsAreNumbers(src: Grids.Grid, hp: Raster, rule: Rule)
    requires src.Valid() && Covers(hp, src.cells) && NoVoids(src, hp)
    ensures Numbers(Summands(src, hp, rule))
  {
    forall r, c ensures Term(src, hp, rule, r, c).Val? {
      if Counted(src.cells, rule, r, c) {
        assert hp[r][c].Val?;
      }
    }
  }

  // ------------------------------------------------------------------------------------------
  // One cell

  /**
   * The deviation at (col, row): the square root of the window's sum of squares divided by
   * the nominal filterSize^2 cells, whatever the rule counted.
   */
  function Deviation(sqrt: real -> real, src: Grids.Grid, hp: Raster, levels: int, rule: Rule, col: int, row: int): (d: Cell)
    requires IsSqrt(sqrt)
    ensures d.Val? ==> d.v >= 0.0
    ensures d.Void? <==> Window(src, hp, levels, rule, col, row).Void?
  {
    RootMean(sqrt, Window(src, hp, levels, rule, col, row), NominalCells(levels))
  }

  /** sqrt(sum / npts), void for a void sum. */
  function RootMean(sqrt: real -> real, sum: Cell, npts: real): (d: Cell)
    requires IsSqrt(sqrt) && npts > 0.0 && (sum.Val? ==> sum.v >= 0.0)
    ensures d.Void? <==> sum.Void?
    ensures d.Val? ==> d.v >= 0.0
    ensures sum == Val(0.0) ==> d == Val(0.0)
    ensures sum.Val? && sum.v > 0.0 ==> d.Val? && d.v > 0.0
  {
    match sum
    case Void => Void
    case Val(s) =>
      if s > 0.0 then
        QuotientPositive(s, npts);
        SqrtPositive(sqrt, s / npts);
        Val(sqrt(s / npts))
      else
        assert s == 0.0 ==> s / npts == 0.0;
        Val(sqrt(s / npts))
  }

  /** filterSize^2: the window's cell count, the divisor even where the window is clipped. */
  function NominalCells(levels: int): (npts: real)
    ensures npts > 0.0
  {
    var n := FilterSize(levels);
    OddSquarePositive(n);
    (n * n) as real
  }

  /** The window sum of the cells within halfFilterSize of (col, row); never negative. */
  function Window(src: Grids.Grid, hp: Raster, levels: int, rule: Rule, col: int, row: int): (s: Cell)
    ensures s.Val? ==> s.v >= 0.0
  {
    var h := HalfFilterSize(levels);
    SummandsNonNegative(src, hp, rule);
    WindowNonNegative(Summands(src, hp, rule), row - h, row + h + 1, col - h, col + h + 1);
    SumWindow(Summands(src, hp, rule), row - h, row + h + 1, col - h, col + h + 1)
  }

  lemma OddSquarePositive(n: int)
    requires n % 2 == 1
    ensures n * n > 0
  {
    if n > 0 {
      assert n * n >= n;
    } else {
      assert n < 0;
      assert n * n == (-n) * (-n);
    }
  }

  /** A flat high-pass band (every value 0) has deviation 0 everywhere, under every rule. */
  lemma FlatBandHasZeroDeviation(sqrt: real -> real, src: Grids.Grid, hp: Raster, levels: int, rule: Rule, col: int, row: int)
    requires IsSqrt(sqrt) && src.Valid() && Covers(hp, src.cells)
    requires forall r, c :: 0 <= r < src.Rows() && 0 <= c < src.Cols() ==> hp[r][c] == Val(0.0)
    ensures Deviation(sqrt, src, hp, levels, rule, col, row) == Val(0.0)
  {
    var h := HalfFilterSize(levels);
    FlatTerms(src, hp, rule);
    SumOfZeros(Summands(src, hp, rule), row - h, row + h + 1, col - h, col + h + 1);
  }

  lemma FlatTerms(src: Grids.Grid, hp: Raster, rule: Rule)
    requires src.Valid() && Covers(hp, src.cells)
    requires forall r, c :: 0 <= r < src.Rows() && 0 <= c < src.Cols() ==> hp[r][c] == Val(0.0)
    ensures forall r, c :: Summands(src, hp, rule)(r, c) == Val(0.0)
  {
    forall r, c ensures Term(src, hp, rule, r, c) == Val(0.0) {
      if Counted(src.cells, rule, r, c) {
        assert hp[r][c] == Val(0.0);
      }
    }
  }

  // ------------------------------------------------------------------------------------------
  // The border window skips row 0 and column 0

  /** A grid without voids whose high-pass band is 1 at the north-west corner and 0 elsewhere. */
  ghost predicate SpikeAtOrigin(src: Grids.Grid, hp: Raster)
    requires src.Valid() && Covers(hp, src.cells)
  {
    hp[0][0] == Val(1.0) &&
    forall r, c :: 0 <= r < src.Rows() && 0 <= c < src.Cols() ==>
      src.Value(c, r).Val? && ((r, c) != (0, 0) ==> hp[r][c] == Val(0.0))
  }

  /**
   * The north-west corner's own value is the only non-zero one in its window, yet the
   * as-written border rule never counts it and reports deviation 0; the rule starting at
   * row 0 and column 0 reports a positive deviation.
   */
  lemma BorderSkipsFirstRowAndColumn(sqrt: real -> real, src: Grids.Grid, hp: Raster, levels: int)
    requires IsSqrt(sqrt) && src.Valid() && Covers(hp, src.cells) && levels >= 1
    requires SpikeAtOrigin(src, hp)
    ensures Deviation(sqrt, src, hp, levels, BorderAsWritten, 0, 0) == Val(0.0)
    ensures Deviation(sqrt, src, hp, levels, Border, 0, 0).Val?
    ensures Deviation(sqrt, src, hp, levels, Border, 0, 0).v > 0.0
  {
    AsWrittenMissesSpike(src, hp, levels);
    SpikeWindow(src, hp, levels);
  }

  lemma AsWrittenMissesSpike(src: Grids.Grid, hp: Raster, levels: int)
    requires src.Valid() && Covers(hp, src.cells) && levels >= 1
    requires SpikeAtOrigin(src, hp)
    ensures Window(src, hp, levels, BorderAsWritten, 0, 0) == Val(0.0)
  {
    var h := HalfFilterSize(levels);
    forall r, c ensures Term(src, hp, BorderAsWritten, r, c) == Val(0.0) {
      if Counted(src.cells, BorderAsWritten, r, c) {
        assert (r, c) != (0, 0);
      }
    }
    SumOfZeros(Summands(src, hp, BorderAsWritten), 0 - h, 0 + h + 1, 0 - h, 0 + h + 1);
  }

  lemma SpikeWindow(src: Grids.Grid, hp: Raster, levels: int)
    requires src.Valid() && Covers(hp, src.cells) && levels >= 1
    requires SpikeAtOrigin(src, hp)
    ensures Window(src, hp, levels, Border, 0, 0).Val?
    ensures Window(src, hp, levels, Border, 0, 0).v >= 1.0
  {
    var h := HalfFilterSize(levels);
    SpikeHasNoVoids(src, hp);
    BandTermsAreNumbers(src, hp, Border);
    assert Term(src, hp, Border, 0, 0) == Val(1.0);
    SumAtLeastTerm(Summands(src, hp, Border), 0 - h, 0 + h + 1, 0 - h, 0 + h + 1, 0, 0);
  }

  lemma SpikeHasNoVoids(src: Grids.Grid, hp: Raster)
    requires src.Valid() && Covers(hp, src.cells) && SpikeAtOrigin(src, hp)
    ensures NoVoids(src, hp)
  {
    forall r, c | 0 <= r < src.Rows() && 0 <= c < src.Cols()
      ensures hp[r][c].Val?
    {
      if (r, c) != (0, 0) {
        assert hp[r][c] == Val(0.0);
      }
    }
  }

  lemma QuotientPositive(a: real, b: real)
    requires a > 0.0 && b > 0.0
    ensures a / b > 0.0
  {
  }

  lemma SqrtPositive(sqrt: real -> real, x: real)
    requires IsSqrt(sqrt) && x > 0.0
    ensures sqrt(x) > 0.0
  {
    assert sqrt(x) >= 0.0 && sqrt(x) * sqrt(x) == x;
  }

  // ------------------------------------------------------------------------------------------
  // One chunk of rows

  /** The rows [max(h, startRow), min(rows - h, endRow)) whose middle columns are interior. */
  function MidRows(rows: int, h: int, startRow: int, endRow: int): (int, int)
  {
    (if h > startRow then h else startRow, if rows - h < endRow then rows - h else endRow)
  }

  predicate InMid(rows: int, h: int, startRow: int, endRow: int, row: int) {
    MidRows(rows, h, startRow, endRow).0 <= row < MidRows(rows, h, startRow, endRow).1
  }

  /** The top band [startRow, h) and the bottom band [rows - h, endRow): every column is a border cell. */
  predicate InBand(rows: int, h: int, startRow: int, endRow: int, row: int) {
    startRow <= row < h || rows - h <= row < endRow
  }

  predicate IsBorderCell(rows: int, cols: int, h: int, startRow: int, endRow: int, row: int, col: int) {
    InBand(rows, h, startRow, endRow, row) || (InMid(rows, h, startRow, endRow, row) && (col < h || col >= cols - h))
  }

  predicate IsInteriorCell(rows: int, cols: int, h: int, startRow: int, endRow: int, row: int, col: int) {
    InMid(rows, h, startRow, endRow, row) && h <= col < cols - h
  }

  /**
   * The loops index outside the grid: a top band reaching below the last row, a bottom
   * band starting above row 0, or middle rows whose column loops leave [0, cols).
   */
  predicate OutOfBounds(rows: int, cols: int, h: int, startRow: int, endRow: int) {
    (startRow < h && h > rows) || (rows - h < endRow && rows - h < 0)
    || (MidRows(rows, h, startRow, endRow).0 < MidRows(rows, h, startRow, endRow).1 && (h > cols || h < 0))
  }

  /** The value operate leaves in cell (row, col) of dst. */
  function ChunkCell(sqrt: real -> real, src: Grids.Grid, hp: Raster, levels: int, border: Rule, dst: Raster,
                     startRow: int, endRow: int, row: int, col: int): Cell
    requires IsSqrt(sqrt) && src.Valid() && Covers(hp, src.cells) && SameShape(dst, src.cells)
    requires 0 <= row < src.Rows() && 0 <= col < src.Cols()
  {
    var (rows, cols, h) := (src.Rows(), src.Cols(), HalfFilterSize(levels));
    if IsBorderCell(rows, cols, h, startRow, endRow, row, col) then Deviation(sqrt, src, hp, levels, border, col, row)
    else if IsInteriorCell(rows, cols, h, startRow, endRow, row, col) then Deviation(sqrt, src, hp, levels, Interior, col, row)
    else dst[row][col]
  }

  /**
   * operate(src, dst, startRow, endRow): a missing source is an IllegalArgumentException and
   * a loop leaving the grid an index error; otherwise the border bands and the border columns
   * of the middle rows get the clipped-window deviation under the border rule, the interior
   * cells of the middle rows the full-window deviation, and every other cell keeps its value.
   * With BorderAsWritten this is the operator as written.
   */
  function Chunk(sqrt: real -> real, src: Option<Grids.Grid>, p: Pyramid, levels: int, border: Rule, dst: Raster,
                 startRow: int, endRow: int): (r: Result<Raster>)
    requires IsSqrt(sqrt)
    requires src.Some? ==> src.value.Valid() && SameShape(dst, src.value.cells) && 0 <= startRow <= endRow <= src.value.Rows()
    ensures src.None? ==> r == Failure(IllegalArgument)
    ensures r.Failure? <==> (src.None? || !Covers(p.sumLevels(HighPassWeights(levels, p)), src.value.cells)
      || OutOfBounds(src.value.Rows(), src.value.Cols(), HalfFilterSize(levels), startRow, endRow))
    ensures r.Success? ==> SameShape(r.value, dst)
    ensures r.Success? ==> forall row, col :: 0 <= row < |dst| && 0 <= col < |dst[row]| ==> (
        var (rows, cols, h) := (src.value.Rows(), src.value.Cols(), HalfFilterSize(levels));
        var hp := p.sumLevels(HighPassWeights(levels, p));
        (IsBorderCell(rows, cols, h, startRow, endRow, row, col) ==> r.value[row][col] == Deviation(sqrt, src.value, hp, levels, border, col, row))
        && (IsInteriorCell(rows, cols, h, startRow, endRow, row, col) ==> r.value[row][col] == Deviation(sqrt, src.value, hp, levels, Interior, col, row))
        && (!IsBorderCell(rows, cols, h, startRow, endRow, row, col) && !IsInteriorCell(rows, cols, h, startRow, endRow, row, col) ==>
          r.value[row][col] == dst[row][col]))
  {
    if src.None? then Failure(IllegalArgument)
    else
      var g := src.value;
      var hp := p.sumLevels(HighPassWeights(levels, p));
      if !Covers(hp, g.cells) then Failure(IndexOutOfBounds)
      else if OutOfBounds(g.Rows(), g.Cols(), HalfFilterSize(levels), startRow, endRow) then Failure(IndexOutOfBounds)
      else
        Success(seq(|dst|, row requires 0 <= row < |dst| =>
          seq(|dst[row]|, col requires 0 <= col < |dst[row]| => ChunkCell(sqrt, g, hp, levels, border, dst, startRow, endRow, row, col))))
  }

  /**
   * Over a whole grid whose band is a spike at the north-west corner, the operator as written
   * leaves deviation 0 in that corner, while the evident border rule reports the spike.
   */
  lemma ChunkMissesSpike(sqrt: real -> real, src: Grids.Grid, p: Pyramid, levels: int, dst: Raster)
    requires IsSqrt(sqrt) && src.Valid() && SameShape(dst, src.cells) && levels >= 1
    requires Covers(p.sumLevels(HighPassWeights(levels, p)), src.cells)
    requires SpikeAtOrigin(src, p.sumLevels(HighPassWeights(levels, p)))
    requires Chunk(sqrt, Some(src), p, levels, BorderAsWritten, dst, 0, src.Rows()).Success?
    ensures Chunk(sqrt, Some(src), p, levels, BorderAsWritten, dst, 0, src.Rows()).value[0][0] == Val(0.0)
    ensures Chunk(sqrt, Some(src), p, levels, Border, dst, 0, src.Rows()).Success?
    ensures Chunk(sqrt, Some(src), p, levels, Border, dst, 0, src.Rows()).value[0][0].Val?
    ensures Chunk(sqrt, Some(src), p, levels, Border, dst, 0, src.Rows()).value[0][0].v > 0.0
  {
    CornerIsBorder(src.Rows(), src.Cols(), levels);
    BorderSkipsFirstRowAndColumn(sqrt, src, p.sumLevels(HighPassWeights(levels, p)), levels);
  }

  /** Border and interior cells never overlap, so no cell is written by both rules. */
  lemma BorderAndInteriorDisjoint(rows: int, cols: int, h: int, startRow: int, endRow: int, row: int, col: int)
    ensures !(IsBorderCell(rows, cols, h, startRow, endRow, row, col) && IsInteriorCell(rows, cols, h, startRow, endRow, row, col))
  {
  }

  /**
   * Every cell of every row of the chunk is written; a cell outside the chunk's rows is
   * written only in the top or bottom band of halfFilterSize rows.
   */
  lemma ChunkRowsCovered(rows: int, cols: int, h: int, startRow: int, endRow: int, row: int, col: int)
    requires 0 <= col < cols
    ensures startRow <= row < endRow ==>
      IsBorderCell(rows, cols, h, startRow, endRow, row, col) || IsInteriorCell(rows, cols, h, startRow, endRow, row, col)
    ensures !(startRow <= row < endRow) && IsBorderCell(rows, cols, h, startRow, endRow, row, col) ==> row < h || row >= rows - h
    ensures !IsInteriorCell(rows, cols, h, startRow, endRow, row, col) || startRow <= row < endRow
  {
  }

  /** In a chunk covering the whole grid, the north-west corner is a border cell for every positive level count. */
  lemma CornerIsBorder(rows: int, cols: int, levels: int)
    requires levels >= 1 && rows >= 1
    ensures IsBorderCell(rows, cols, HalfFilterSize(levels), 0, rows, 0, 0)
  {
  }
}

=== FILE: table.dfy ===
/**
 * The attribute table of imported shapes (geometryimport Table, a Swing
 * DefaultTableModel): rows of cells, column statistics, value look-up and
 * the column type taken from the first row. A cell is a Java object, modelled
 * by the kinds the importers store; Java's `equals` on them is value equality.
 */
module Tables {
  import opened Wrappers
  import opened Numeric

  /** A table cell: null, a Double, a String or an Integer. */
  datatype Cell = Null | Dbl(d: real) | Str(s: string) | Int(i: int)

  /** The rows of the table model; each row is the vector of its cells. */
  type Rows = seq<seq<Cell>>

  /** Double.MAX_VALUE, (2 - 2^-52) * 2^1023. */
  const MAX_DOUBLE: real := 179769313486231570814527423731704356798070567525844996598917476803157260780028538760589558632766878171540458953514382464234321326889464182768467546703537516986049910576551282076245490090389328944075868508455133942304583236903222948165808559332123348274797826204144723168738177180919299881250404026184124858368.0

  /** `getValueAt(i, col)` finds a cell: the column is inside row i. */
  predicate HasCell(rows: Rows, i: int, col: int)
    requires 0 <= i < |rows|
  {
    0 <= col < |rows[i]|
  }

  /** Row i holds a Double in the column; anything else makes the cast or the look-up throw. */
  predicate DoubleAt(rows: Rows, i: int, col: int)
    requires 0 <= i < |rows|
  {
    HasCell(rows, i, col) && rows[i][col].Dbl?
  }

  /** The value `getMinMax` compares for row i: the Double, or its magnitude. */
  function Measure(rows: Rows, i: int, col: int, absolute: bool): real
    requires 0 <= i < |rows| && DoubleAt(rows, i, col)
  {
    if absolute then Abs(rows[i][col].d) else rows[i][col].d
  }

  /** Row i takes part in the statistics: zeros are skipped when `notZero` asks for it. */
  predicate Counted(rows: Rows, i: int, col: int, absolute: bool, notZero: bool)
    requires 0 <= i < |rows| && DoubleAt(rows, i, col)
  {
    !(notZero && Measure(rows, i, col, absolute) == 0.0)
  }

  /**
   * `getMinMax(colID, absolute, notZero)`: the smallest and largest counted
   * value, or null (None) as soon as a cell of the column is not a Double.
   * Before any value is counted the pair is (MAX_VALUE, -MAX_VALUE), and it
   * stays so when no value is counted.
   */
  method GetMinMaxWith(rows: Rows, col: int, absolute: bool, notZero: bool) returns (r: Option<(real, real)>)
    ensures r.None? <==> exists i :: 0 <= i < |rows| && !DoubleAt(rows, i, col)
    ensures r.Some? ==> forall i :: 0 <= i < |rows| && Counted(rows, i, col, absolute, notZero) ==>
      r.value.0 <= Measure(rows, i, col, absolute) <= r.value.1
    ensures r.Some? ==> r.value.0 == MAX_DOUBLE || exists i :: 0 <= i < |rows| && Counted(rows, i, col, absolute, notZero) && r.value.0 == Measure(rows, i, col, absolute)
    ensures r.Some? ==> r.value.1 == -MAX_DOUBLE || exists i :: 0 <= i < |rows| && Counted(rows, i, col, absolute, notZero) && r.value.1 == Measure(rows, i, col, absolute)
    ensures r.Some? && (forall i :: 0 <= i < |rows| ==> !Counted(rows, i, col, absolute, notZero)) ==>
      r.value == (MAX_DOUBLE, -MAX_DOUBLE)
    ensures r.Some? && (exists i :: 0 <= i < |rows| && Counted(rows, i, col, absolute, notZero)) ==>
      r.value.0 <= r.value.1
  {
    var min := MAX_DOUBLE;
    var max := -MAX_DOUBLE;
    var i := 0;
    while i < |rows|
      invariant 0 <= i <= |rows|
      invariant forall j :: 0 <= j < i ==> DoubleAt(rows, j, col)
      invariant forall j :: 0 <= j < i && Counted(rows, j, col, absolute, notZero) ==>
        min <= Measure(rows, j, col, absolute) <= max
      invariant min == MAX_DOUBLE || exists j :: 0 <= j < i && Counted(rows, j, col, absolute, notZero) && min == Measure(rows, j, col, absolute)
      invariant max == -MAX_DOUBLE || exists j :: 0 <= j < i && Counted(rows, j, col, absolute, notZero) && max == Measure(rows, j, col, absolute)
      invariant (forall j :: 0 <= j < i ==> !Counted(rows, j, col, absolute, notZero)) ==> min == MAX_DOUBLE && max == -MAX_DOUBLE
    {
      if !DoubleAt(rows, i, col) {
        return None;
      }
      var d := rows[i][col].d;
      if absolute {
        d := Abs(d);
      }
      assert d == Measure(rows, i, col, absolute);
      if !(d == 0.0 && notZero) {
        assert Counted(rows, i, col, absolute, notZero);
        if d < min {
          min := d;
        }
        if d > max {
          max := d;
        }
      }
      i := i + 1;
    }
    return Some((min, max));
  }

  /** `getMinMax(colID)`: the plain values, neither magnitudes nor zero-skipping. */
  method GetMinMax(rows: Rows, col: int) returns (r: Option<(real, real)>)
    ensures r.None? <==> exists i :: 0 <= i < |rows| && !DoubleAt(rows, i, col)
    ensures r.Some? ==> forall i :: 0 <= i < |rows| && DoubleAt(rows, i, col) ==> r.value.0 <= rows[i][col].d <= r.value.1
    ensures r.Some? && |rows| > 0 ==> r.value.0 <= r.value.1
  {
    r := GetMinMaxWith(rows, col, false, false);
    if r.Some? {
      forall i | 0 <= i < |rows| && DoubleAt(rows, i, col)
        ensures Counted(rows, i, col, false, false) && Measure(rows, i, col, false) == rows[i][col].d
      {
      }
      if |rows| > 0 {
        assert Counted(rows, 0, col, false, false);
      }
    }
  }

  /**
   * `findRowWithValue(value, columnID)`: the first row whose cell equals the
   * value, or -1. `value.equals` on a null value throws once a row is reached,
   * and so does a column outside a reached row.
   */
  method FindRowWithValue(rows: Rows, value: Cell, col: int) returns (r: Result<int>)
    ensures r.Success? ==> -1 <= r.value < |rows|
    ensures r.Success? && r.value >= 0 ==>
      Reached(rows, value, col, r.value) && HasCell(rows, r.value, col) && rows[r.value][col] == value
    ensures r == Success(-1) <==> Reached(rows, value, col, |rows|)
    ensures r == Failure(NullPointer) <==> value == Null && |rows| > 0 && HasCell(rows, 0, col)
    ensures r == Failure(IndexOutOfBounds) <==>
      exists i :: 0 <= i < |rows| && Reached(rows, value, col, i) && !HasCell(rows, i, col)
    ensures r.Failure? ==> r.error == NullPointer || r.error == IndexOutOfBounds
  {
    var i := 0;
    while i < |rows|
      invariant 0 <= i <= |rows|
      invariant Reached(rows, value, col, i)
    {
      if !HasCell(rows, i, col) {
        StopsAt(rows, value, col, i);
        return Failure(IndexOutOfBounds);
      }
      if value == Null {
        StopsAt(rows, value, col, i);
        return Failure(NullPointer);
      }
      if value == rows[i][col] {
        StopsAt(rows, value, col, i);
        return Success(i);
      }
      i := i + 1;
    }
    ReachedRows(rows, value, col, |rows|);
    return Success(-1);
  }

  /**
   * The search gets past row j: the row has the column, the value is not
   * null, and the cell differs from it.
   */
  predicate Passes(rows: Rows, value: Cell, col: int, j: int)
    requires 0 <= j < |rows|
  {
    HasCell(rows, j, col) && value != Null && rows[j][col] != value
  }

  /** The search reaches row i: it gets past every earlier row. */
  predicate Reached(rows: Rows, value: Cell, col: int, i: int)
    requires 0 <= i <= |rows|
  {
    forall j :: 0 <= j < i ==> Passes(rows, value, col, j)
  }

  /** Every row the search got past has the column, and the value is not null once one was passed. */
  lemma ReachedRows(rows: Rows, value: Cell, col: int, k: int)
    requires 0 <= k <= |rows| && Reached(rows, value, col, k)
    ensures forall i :: 0 <= i < k ==> HasCell(rows, i, col)
    ensures k > 0 ==> value != Null
  {
    forall i | 0 <= i < k
      ensures HasCell(rows, i, col)
    {
      assert Passes(rows, value, col, i);
    }
    if k > 0 {
      assert Passes(rows, value, col, 0);
    }
  }

  /** A row the search does not get past is the last one it reaches. */
  lemma StopsAt(rows: Rows, value: Cell, col: int, k: int)
    requires 0 <= k < |rows| && Reached(rows, value, col, k) && !Passes(rows, value, col, k)
    ensures forall i :: 0 <= i <= |rows| && Reached(rows, value, col, i) ==> i <= k
    ensures forall i :: 0 <= i < k ==> HasCell(rows, i, col)
    ensures k > 0 ==> value != Null
  {
    ReachedRows(rows, value, col, k);
  }

  /** The classes `getColumnClass` can return. */
  datatype Class = ObjectClass | DoubleClass | StringClass | IntegerClass

  /** `o.getClass()`, with Object standing for a null cell. */
  function ClassOf(c: Cell): (k: Class)
    ensures k == ObjectClass <==> c == Null
    ensures k == DoubleClass <==> c.Dbl?
    ensures k == StringClass <==> c.Str?
  {
    match c
    case Null => ObjectClass
    case Dbl(_) => DoubleClass
    case Str(_) => StringClass
    case Int(_) => IntegerClass
  }

  /**
   * `getColumnClass(columnIndex)`: the class of the column's cell in row 0,
   * which throws for an empty table or a column outside the first row.
   */
  function ColumnClass(rows: Rows, col: int): (r: Result<Class>)
    ensures r.Success? <==> |rows| > 0 && HasCell(rows, 0, col)
    ensures r.Failure? ==> r.error == IndexOutOfBounds
    ensures r.Success? ==> r.value == ClassOf(rows[0][col])
  {
    if |rows| == 0 || !HasCell(rows, 0, col) then Failure(IndexOutOfBounds)
    else Success(ClassOf(rows[0][col]))
  }

  /** `String.class.isAssignableFrom(cl)`: String is final, so only String itself. */
  predicate IsStringClass(k: Class) {
    k == StringClass
  }

  /** `Double.class.isAssignableFrom(cl)`: Double is final, so only Double itself. */
  predicate IsDoubleClass(k: Class) {
    k == DoubleClass
  }

  /** `isStringColumn`: the first row's cell is a String. */
  function IsStringColumn(rows: Rows, col: int): (r: Result<bool>)
    ensures r.Success? <==> |rows| > 0 && HasCell(rows, 0, col)
    ensures r.Success? ==> (r.value <==> rows[0][col].Str?)
  {
    var k :- ColumnClass(rows, col);
    Success(IsStringClass(k))
  }

  /** `isDoubleColumn`: the first row's cell is a Double. */
  function IsDoubleColumn(rows: Rows, col: int): (r: Result<bool>)
    ensures r.Success? <==> |rows| > 0 && HasCell(rows, 0, col)
    ensures r.Success? ==> (r.value <==> rows[0][col].Dbl?)
  {
    var k :- ColumnClass(rows, col);
    Success(IsDoubleClass(k))
  }
}

=== FILE: wrappers.dfy ===
/** Failure-carrying results: a Java `null` return is `None`, a thrown exception is `Failure`. */
module Wrappers {

  datatype Option<+T> = None | Some(value: T) {
    predicate IsFailure() { None? }

    function PropagateFailure<U>(): Option<U>
      requires None?
    {
      None
    }

    function Extract(): T
      requires Some?
    {
      value
    }

    function GetOr(default: T): T {
      match this
      case None => default
      case Some(v) => v
    }
  }

  /** The Java exception classes the modelled code throws. */
  datatype Exception =
    | IllegalArgument
    | UnsupportedOperation
    | IOError(reason: string)
    | EndOfFile
    | NullPointer
    | IndexOutOfBounds
    | NegativeArraySize
    | ClassCast
    | AssertionFailed

  datatype Result<+T> = Success(value: T) | Failure(error: Exception) {
    predicate IsFailure() { Failure? }

    function PropagateFailure<U>(): Result<U>
      requires Failure?
    {
      Failure(error)
    }

    function Extract(): T
      requires Success?
    {
      value
    }
  }
}
